=== FILE: README.md ===
# quproxy, modelled in Dafny

quproxy is a transparent proxy for QUIC (UDP) traffic. It takes the UDP
datagrams a Linux TPROXY socket intercepts and relays them through a set of
SOCKS5 servers, choosing a server for each connection:

- From the first packet of a QUIC connection it reads the server name. It
  decodes the client Initial packet, removes header protection, opens the
  AEAD, reassembles the CRYPTO frames and reads the SNI of the TLS
  ClientHello.
- The name can then be resolved by the proxy (remote DNS).
- It watches the health of every SOCKS5 server. DNS probes give a delay
  history, a score and an inner-protocol class. A traffic meter notices
  servers that send without ever receiving.
- It keeps the list of servers ordered by score.

This project models that core as pure Dafny functions over immutable data,
and proves what the code promises about it:

- round trips between the encoders a peer uses and the parsers quproxy
  runs;
- the invariants its bookkeeping keeps;
- where the code as written departs from what it evidently intends.

Modules follow the source files:

| module | source |
|---|---|
| `Types` | `src/app/types.rs` |
| `QuicCrypto` | `src/app/quic/crypto.rs` |
| `Quic`, `QuicFrames` | `src/app/socks5/quic/mod.rs` |
| `Tls` | `src/app/socks5/quic/tls.rs` |
| `SocksUdp`, `SocksSession` | `src/app/socks5/session.rs` |
| `SocksBind` | `src/app/socks5/bind.rs` |
| `SocksConnection` | `src/app/socks5/connection.rs` |
| `SocksForward` | `src/app/socks5/forward.rs` |
| `SocksRefer` | `src/app/socks5/refer.rs`, and the same routine in `src/app/socks5/service.rs` |
| `SocksTraffic` | `src/app/socks5/traffic.rs` |
| `CheckHealth` | `src/app/checking/health.rs` |
| `CheckMeter` | `src/app/checking/meter.rs` |
| `CheckPing`, `CheckProbe` | `src/app/checking/ping.rs` |
| `CheckService` | `src/app/checking/service.rs` |
| `AppContext` | `src/app/context.rs` |
| `TProxySender` | `src/app/tproxy/sender.rs` |
| `NetSocket` | `src/app/net/socket.rs` |

Shared vocabulary:

- `Wrappers.Outcome` is `Ok | Err | Panic`. A Rust `unwrap`, index or
  `assert!` that fails is a `Panic`, never a precondition.
- `Wrappers.Mode` is `AsWritten | Corrected`. It selects between the code
  as written and the corrected reading of the defects listed under
  Findings.
- `Bytes`, `Lists` and `Sorting` hold big-endian integers, XOR, sliding
  windows, `position` and a stable `sort_by_key`.

## Model

| member | source | states |
|---|---|---|
| Types.Canonicalize | src/app/types.rs:24-35 | an IPv4 address is unchanged; an IPv6 address that embeds an IPv4 one (mapped or compatible) folds into it with the same port; any other is unchanged |
| Types.CanonicalizeIdempotent | src/app/types.rs:24-35 | canonical addresses are exactly the fixed points, so canonicalising twice is canonicalising once |
| Types.CanonicalizeFoldsEmbeddedIpv4 | src/app/types.rs:27-30 | a mapped or compatible IPv6 socket address and the IPv4 one it stands for canonicalise to the same address |
| Types.ToIpv4 | src/app/types.rs:28 | `to_ipv4` succeeds exactly on addresses whose first 80 bits are zero and whose next 16 bits are 0 or 0xffff, and returns the last four octets |
| Types.ClientAddrFrom | src/app/types.rs:10-14 | a client address is always canonical |
| Types.RemoteAddrFrom | src/app/types.rs:16-20 | a remote address is always canonical |
| QuicCrypto.ParseEncodeLabel | src/app/quic/crypto.rs:11-14 | the HKDF label encoding reads back as the length, label and context it encodes |
| QuicCrypto.LabelsDeclareLengths | src/app/quic/crypto.rs:11-14 | each label constant is the TLS 1.3 encoding of "client in", "quic hp", "quic key" or "quic iv", and declares 32, 16, 16 and 12 bytes |
| QuicCrypto.InitialSecret | src/app/quic/crypto.rs:19-27 | the Initial secret derived from any DCID fills the 32 bytes the client_in label declares (`LabelsDeclareLengths`) |
| QuicCrypto.DeriveKeys | src/app/quic/crypto.rs:29-67 | the header-protection key, the AEAD key and the IV each fill exactly the length their label declares, so `fill(..).unwrap()` never panics |
| QuicCrypto.NonceInPlace | src/app/quic/crypto.rs:37-45 | the in-place loop over the IV is the IV XORed with the packet number left-padded to 12 big-endian bytes |
| QuicCrypto.NonceZero | src/app/quic/crypto.rs:37-45 | packet number 0 uses the IV as its nonce |
| QuicCrypto.NonceInjective | src/app/quic/crypto.rs:37-45 | distinct packet numbers get distinct nonces under one IV |
| QuicCrypto.NonceExample | src/app/quic/crypto.rs:75-109 | the nonce of packet number 2 in the example of appendix A.2 of RFC 9001 |
| Quic.VarInt | src/app/socks5/quic/mod.rs:213-221 | the decoder reads `2^(b0>>6)` bytes and moves past them; as written a read past the buffer panics, corrected it is `NoEnoughData` |
| Quic.VarIntRoundTrip | src/app/socks5/quic/mod.rs:213-221 | decoding an encoded integer gives it back and consumes exactly its encoding |
| Quic.VarIntDecodeEncode | src/app/socks5/quic/mod.rs:213-221 | a decoded integer was encoded in the buffer at the width its first byte names |
| Quic.VarIntExample | src/app/socks5/quic/mod.rs:223-229 | the two integers of the module's var-int test case decode as the test expects |
| Quic.ConnId | src/app/socks5/quic/mod.rs:198-211 | a length over 20 is `NotValidQuicPacket`, a length past the end is `NoEnoughData`, otherwise the ID is the next `len` bytes |
| Quic.ConnIdRoundTrip | src/app/socks5/quic/mod.rs:198-211 | an ID of at most 20 bytes written after its length byte reads back |
| Quic.TokenRoundTrip | src/app/socks5/quic/mod.rs:82-89 | a token written after its var-int length reads back and is skipped |
| Quic.HeaderFieldsRoundTrip | src/app/socks5/quic/mod.rs:80-93 | the connection IDs, token and Length written by a sender, with the Length's worth of bytes after them, parse back |
| Quic.ParseLongHeader | src/app/socks5/quic/mod.rs:64-94 | the checks run in the code's order (size 1200, version 1, Initial type, header fields, Length within what remains), and `pnOffset` is where the reads stop |
| Quic.ParseLongHeaderRoundTrip | src/app/socks5/quic/mod.rs:64-94 | a datagram of at least 1200 bytes with the Initial type, version 1 and encoded fields parses to exactly those fields |
| Quic.RemoveProtection | src/app/socks5/quic/mod.rs:108-118 | the low four bits of byte 0 and `pn_len` packet-number bytes are unmasked, and the number is read big-endian; as written a Length too short for the packet number panics |
| Quic.RemoveProtectionInverts | src/app/socks5/quic/mod.rs:108-118 | what removal recovers agrees with the packet outside the protected bits and, protected again under the same mask, is the packet |
| Quic.RemoveApplyProtection | src/app/socks5/quic/mod.rs:108-118 | removing header protection undoes applying it |
| Quic.UnmaskPacketNumber | src/app/socks5/quic/mod.rs:110-117 | the `u32` accumulation `(n << 8) \| byte` over at most four bytes never drops a bit and equals the big-endian value |
| Quic.Decode | src/app/socks5/quic/mod.rs:64-132 | the payload is the AEAD opening of the packet cut at the end of its Length, under the DCID's keys, the header as AAD and the packet number's nonce, with the 16-byte tag stripped |
| Quic.DecodeProtected | src/app/socks5/quic/mod.rs:64-132 | a client Initial protected as section 5.4 of RFC 9001 describes decodes to what the AEAD makes of its sealed payload |
| Quic.EmptyLengthPanics | src/app/socks5/quic/mod.rs:108-115 | a Length of 0 panics in the unmasking loop as written, whatever the keys; corrected it is `NoEnoughData` |
| Quic.TokenToEndPanics | src/app/socks5/quic/mod.rs:82-90 | a token that runs to the end of the datagram makes the next var-int read panic as written; corrected it is `NoEnoughData` |
| QuicFrames.CryptoMessage | src/app/socks5/quic/mod.rs:134-195 | PADDING and PING are skipped, ACK is `NotInitialPacket`, other types and frames past the payload are `NotValidQuicPacket`; CRYPTO data is placed at its offset |
| QuicFrames.CryptoMessageOfFrames | src/app/socks5/quic/mod.rs:134-195 | for encoded frames the message is the prefix of the placed bytes that ends where the gap-free run from offset 0 ends |
| QuicFrames.FinishIsGapFreePrefix | src/app/socks5/quic/mod.rs:177-194 | the sorted-range loop stops exactly at the end of the gap-free run from 0, and the kept first frame is the same answer reached without copying |
| QuicFrames.AddFrameSpills | src/app/socks5/quic/mod.rs:157-170 | keeping the first frame aside instead of copying it changes nothing: spilling it later gives the state that copying would have |
| QuicFrames.CryptoMessageModes | src/app/socks5/quic/mod.rs:141-176 | where the code as written returns, the corrected code returns the same; where it panics, the corrected code reports an error |
| QuicFrames.CryptoPastEnd | src/app/socks5/quic/mod.rs:153-158 | a CRYPTO frame within the payload's length but past the bytes left panics as written, and is rejected when corrected |
| QuicFrames.CryptoTruncated | src/app/socks5/quic/mod.rs:151 | a CRYPTO frame type with nothing after it panics as written, and is `NoEnoughData` when corrected |
| QuicFrames.TryFrom | src/app/socks5/quic/mod.rs:45-56 | an error of the message is the error; an empty message, or one the TLS reader rejects, names no server |
| QuicFrames.FrameName | src/app/socks5/quic/mod.rs:45-56 | one CRYPTO frame at offset 0, then PADDING: the connection takes the name the TLS reader finds in its data |
| QuicFrames.HelloFrameName | src/app/socks5/quic/tls.rs:110-126 | the module's test ClientHello, carried in a CRYPTO frame, names www.google.com |
| Tls.GetU16 | src/app/socks5/quic/tls.rs:13-23 | two bytes read big-endian; with none left it is a parse stop; with one left `Buf::get_u16` panics as written, and it is a stop when corrected |
| Tls.GetU8 | src/app/socks5/quic/tls.rs:13-23 | one byte is read when one remains, else the parse stops; it never panics |
| Tls.Advance | src/app/socks5/quic/tls.rs:33-40 | exactly `n` bytes are skipped when that many remain, else the parse stops and nothing is consumed |
| Tls.Header | src/app/socks5/quic/tls.rs:49-51 | the type must be ClientHello and the 24-bit length must equal what remains |
| Tls.NameList | src/app/socks5/quic/tls.rs:74-99 | the list is walked while more than three bytes remain; a host_name entry ends the parse, any other entry is skipped |
| Tls.ServerNameExtension | src/app/socks5/quic/tls.rs:70-102 | a server_name extension either yields a host name, or leaves no more bytes than it was given for the walk to go on; corrected, it never panics on an extension within the buffer |
| Tls.Extensions | src/app/socks5/quic/tls.rs:65-106 | the walk over the extension block returns only acceptable host names, and corrected it never panics |
| Tls.ServerName | src/app/socks5/quic/tls.rs:47-108 | the server name of a ClientHello: a stop on any malformed field, and a panic only where the code as written panics |
| Tls.ServerNameReads | src/app/socks5/quic/tls.rs:47-108 | for every well-formed ClientHello, the result is the first host_name entry of the first server_name extension, and none when there is none |
| Tls.ServerNameSource | src/app/socks5/quic/tls.rs:47-108 | for any input, a returned name consists of accepted characters, the message is a ClientHello whose fixed fields read back, and the name is carried by a host_name entry inside its extension block |
| Tls.LooseHelloNamed | src/app/socks5/quic/tls.rs:72-90 | the parser returns a name from a server_name extension whose list is shorter than the extension and followed by junk, a block that no list of extensions encodes |
| Tls.TestClientHelloName | src/app/socks5/quic/tls.rs:110-126 | the test ClientHello names www.google.com |
| Tls.OneByteU16Panics | src/app/socks5/quic/tls.rs:50 | `01 00 00` panics as written in `get_u16`; corrected it is rejected |
| Tls.ShortServerNamePanics | src/app/socks5/quic/tls.rs:72-84 | a server_name extension that declares length 0 makes `len - 2` wrap, and the code as written panics copying a name past the end |
| Tls.ShortListCorrected | src/app/socks5/quic/tls.rs:72-73 | corrected, an extension too short for its own list length is rejected |
| Tls.LongHelloMisread | src/app/socks5/quic/tls.rs:50 | a body of exactly 2^16 bytes reads as length 256 as written, so its server name is lost; corrected it is found |
| SocksSession.WriteTo | src/app/socks5/session.rs:47-64 | IPv4 and IPv6 addresses as ATYP and octets, names as ATYP, a length byte and the bytes; a name over 255 bytes panics as written and is `InvalidInput` when corrected |
| SocksSession.ReadFrom | src/app/socks5/session.rs:67-89 | never panics; a short read is `UnexpectedEof`, an unknown ATYP or non-UTF-8 name is `InvalidData`, and an accepted address is exactly what `write_to` writes |
| SocksSession.ReadFromWriteTo | src/app/socks5/session.rs:47-89 | `read_from` undoes `write_to` for every address it can carry, whatever follows |
| SocksSession.SendToRemote | src/app/socks5/session.rs:162-183 | the datagram is `00 00 00`, the destination and the big-endian port; the name is used exactly when the connection found one and the target is its original remote |
| SocksSession.SendToRemoteByIp | src/app/socks5/session.rs:162-183 | without a name, a session sends exactly what `bind.rs` and `connection.rs` send |
| SocksSession.DecodePacket | src/app/socks5/session.rs:316-336 | under ten bytes, a fragment or a bad address is dropped; the reserved bytes are not read; as written a missing port panics, corrected it is dropped |
| SocksSession.DecodeIgnoresReserved | src/app/socks5/session.rs:316-336 | the two reserved bytes play no part in decoding |
| SocksSession.DecodeSendToRemote | src/app/socks5/session.rs:162-183 | what `send_to_remote` sends, `decode_packet` reads back (destination, port and payload), unless the datagram is under ten bytes |
| SocksSession.IncomingRemote | src/app/socks5/session.rs:286-306 | an IP address becomes a canonical remote with the datagram's port; a name is accepted only if it is the session's name, and stands for the original remote |
| SocksSession.IncomingFromDestination | src/app/socks5/session.rs:286-306 | a reply addressed with the destination used for a target is reported as coming from that target |
| SocksSession.Recv | src/app/socks5/session.rs:185-197 | each datagram is cut to the 2048-byte buffer; undecodable ones are skipped, and the first decodable payload is copied into the caller's buffer |
| SocksSession.Incoming | src/app/socks5/session.rs:262-312 | the stream's next item is the first decodable datagram of at most 2048 bytes, with its whole payload and remote, or `InvalidData` for a foreign name |
| SocksSession.RecvAfterJunk | src/app/socks5/session.rs:185-197 | a reply laid out as the request, ten to 2048 bytes long, is delivered behind any number of undecodable datagrams |
| SocksSession.LongNamePanics | src/app/socks5/session.rs:165-174 | a 256-byte host name, which the TLS reader accepts, makes `send_to_remote` panic as written; corrected it fails with `InvalidInput` |
| SocksSession.Ipv6PortPanics | src/app/socks5/session.rs:316-336 | a 20-byte IPv6 header passes the 10-byte guard and panics at the port as written; corrected it is dropped |
| SocksUdp.FirstDecodedAfterErrors | src/app/socks5/bind.rs:107-119 | the receive loops return the first success after a run of skipped datagrams |
| SocksBind.DecodePacket | src/app/socks5/bind.rs:82-104 | under ten bytes, a fragment or an unknown ATYP is dropped; an IPv6 header under 22 bytes panics as written and is dropped when corrected; the remote is canonical |
| SocksBind.DecodeSendTo | src/app/socks5/bind.rs:63-104 | what `send_to` sends, `decode_packet` reads back: the payload and the target as `(ip, port).into()` gives it |
| SocksBind.SendTo | src/app/socks5/bind.rs:63-80 | the request is `00 00 00`, the ATYP of the target's family, its octets, its big-endian port and the payload |
| SocksBind.DecodeSendToSame | src/app/socks5/bind.rs:63-104 | a canonical target without flow label or scope id comes back unchanged |
| SocksBind.Ipv6GuardPanics | src/app/socks5/bind.rs:83-95 | ten bytes announcing IPv6 pass the guard and panic in `read_u128` as written; corrected they are dropped |
| SocksBind.RecvFrom | src/app/socks5/bind.rs:107-119 | each datagram is cut to the 2048-byte buffer; undecodable ones are skipped; the first decodable payload is copied out with its remote |
| SocksBind.Next | src/app/socks5/bind.rs:125-140 | the stream's next item is the first decodable datagram's remote and whole payload |
| SocksBind.NextAgreesWithRecvFrom | src/app/socks5/bind.rs:107-140 | the stream and `recv_from` with a large enough buffer deliver the same remote and payload |
| SocksBind.RecvFromAfterJunk | src/app/socks5/bind.rs:107-119 | a reply to `send_to` that fits 2048 bytes is delivered with its sender behind any number of short datagrams |
| SocksBind.RecvFromLong | src/app/socks5/bind.rs:107-112 | a longer reply loses its tail: only what fits in 2048 bytes after the header is delivered |
| SocksConnection.Inspect | src/app/socks5/connection.rs:82-107 | short, fragmented and unknown-ATYP datagrams are skipped; a short IPv6 one fails with `UnexpectedEof`; only `(ip, port).into()` of the target matches |
| SocksConnection.SendTo | src/app/socks5/connection.rs:55-72 | the request names the connection's target: `00 00 00`, the ATYP, the octets, the big-endian port, then the payload |
| SocksConnection.InspectSendTo | src/app/socks5/connection.rs:55-107 | a datagram laid out as `send_to` lays it out is delivered exactly when the target has no flow label or scope id |
| SocksConnection.Recv | src/app/socks5/connection.rs:75-108 | each datagram is cut to the 2048-byte buffer; others' datagrams are passed over; the first other either fails the call or is copied out; it never panics |
| SocksConnection.RecvSendTo | src/app/socks5/connection.rs:55-108 | a payload echoed back with the same target, within 2048 bytes, is received intact after any number of datagrams from other targets |
| SocksConnection.RecvLongSendTo | src/app/socks5/connection.rs:75-80 | a longer reply loses its tail beyond 2048 bytes |
| SocksForward.SelectProxy | src/app/socks5/forward.rs:111-120 | the first capable and healthy server in list order is bound; with none, `NotFound` |
| SocksForward.Forward | src/app/socks5/forward.rs:50-108 | a connection is found or made (sniffing only with remote DNS and a large packet); an unhealthy server is dropped; a connection without one selects one or returns the error; a failed send marks the server troubled and still returns `Ok` |
| SocksForward.StaysWhileHealthy | src/app/socks5/forward.rs:50-108 | after a successful send, the next packet of the same connection goes through the same server |
| SocksForward.MovesAfterFailure | src/app/socks5/forward.rs:87-106 | after a failed send, the next packet of the connection does not go through the server that failed |
| SocksRefer.Connect | src/app/socks5/refer.rs:61-79 | referrers without a connection are negotiated; successes are recorded and their servers counted as new; existing entries are untouched |
| SocksRefer.UpdateServers | src/app/socks5/refer.rs:82-86 | the servers neither dead nor new keep their relative order, and the new servers follow |
| SocksRefer.UpdateServersIdempotent | src/app/socks5/refer.rs:82-86 | applying the same update twice changes nothing more |
| SocksRefer.UpdateServersDistinct | src/app/socks5/refer.rs:82-86 | a list without duplicates stays without duplicates |
| SocksRefer.CheckAll | src/app/socks5/refer.rs:41-87 | dead connections are dropped, live ones kept, vacant referrers negotiated, and a server is listed exactly when it is new or was listed and not dead |
| SocksRefer.NegotiatedServerListed | src/app/socks5/refer.rs:61-86 | a referrer that negotiates successfully has its server listed at the end of the round |
| SocksRefer.DeadServerDropped | src/app/socks5/refer.rs:44-86 | a dead connection's server leaves the list unless a referrer named it again |
| SocksRefer.SteadyRound | src/app/socks5/refer.rs:41-87 | a round in which every connection is readable and every referrer connected changes nothing |
| SocksTraffic.OpenSession | src/app/socks5/traffic.rs:12-15 | the total and active counts each go up by one, wrapping at 2^64 (a count at 2^64-1 becomes 0); the byte counters are untouched |
| SocksTraffic.CloseSession | src/app/socks5/traffic.rs:17-19 | one session fewer is active, and with none active the counter wraps to 2^64 - 1; the rest is untouched |
| SocksTraffic.AddTx | src/app/socks5/traffic.rs:21-24 | the sent-byte counter grows by `bytes` modulo 2^64; nothing else changes |
| SocksTraffic.AddRx | src/app/socks5/traffic.rs:26-29 | the received-byte counter grows by `bytes` modulo 2^64; nothing else changes |
| SocksTraffic.CloseUndoesOpen | src/app/socks5/traffic.rs:12-19 | closing a session undoes opening it, except that the total keeps counting it |
| SocksTraffic.AddTxTwice | src/app/socks5/traffic.rs:22-24 | two additions of sent bytes are one addition of their sum, modulo 2^64 |
| SocksTraffic.SessionCounts | src/app/socks5/traffic.rs:12-19 | opening `n` sessions and closing `m <= n` leaves `n - m` active and `n` in total |
| TProxySender.DropGuard | src/app/tproxy/sender.rs:16-22 | a dropped guard gives its key to the bin and is left without one; a guard without a key pushes nothing |
| TProxySender.Drain | src/app/tproxy/sender.rs:64-73 | with the bin's lock free, dead entries named in the bin are removed and the bin emptied; live entries are kept; otherwise nothing changes |
| TProxySender.GetOrCreate | src/app/tproxy/sender.rs:63-96 | a live entry is returned; otherwise a new sender is bound and recorded, or the bind's error returned with the cache as drained |
| TProxySender.LiveEntriesKept | src/app/tproxy/sender.rs:63-96 | a lookup never loses another remote's live sender |
| TProxySender.LookupIsSticky | src/app/tproxy/sender.rs:63-96 | a second lookup of the same remote, while its sender is held, returns it without binding |
| TProxySender.DroppedEntryCollected | src/app/tproxy/sender.rs:16-73 | once a dropped sender's remote is in the bin, the next lookup with the lock free removes its entry |
| NetSocket.WithCapacity | src/app/net/socket.rs:151-157 | a new buffer is valid and has nothing to send |
| NetSocket.Clear | src/app/net/socket.rs:159-163 | a cleared buffer is the same as a new one: valid, with nothing to send |
| NetSocket.HasRemaining | src/app/net/socket.rs:207-209 | true exactly when some queued message has not been sent |
| NetSocket.Push | src/app/net/socket.rs:165-174 | the message joins the queue; what was sent and prepared is untouched |
| NetSocket.Advance | src/app/net/socket.rs:202-205 | the position moves by `n`, and it panics exactly when that passes the queue's end |
| NetSocket.PrepareHdrs | src/app/net/socket.rs:176-200 | one header per message, rewritten from the position on and kept before it, each naming its message's destination; as written its datagram is empty (the iovec's length stays 0), corrected it carries the message; a message longer than `u32` panics |
| NetSocket.SendMmsg | src/app/net/socket.rs:296-313 | the kernel takes at most the headers passed, in order, and the buffer advances by the count, keeping the queue; as written the headers are passed from index 0 and, when none carried bytes before, none carries bytes after and every datagram sent is empty |
| NetSocket.SendCorrected | src/app/net/socket.rs:296-313 | corrected, a call sends the next queued messages, each to its destination with its bytes, as many as the kernel took, and moves past them |
| NetSocket.Flush | src/app/net/socket.rs:296-313 | repeated `send_mmsg` calls keep the queue; on success the position has moved by the number of headers sent; an error is one the kernel returned |
| NetSocket.FlushCorrected | src/app/net/socket.rs:296-313 | corrected, draining sends every queued message exactly once, in order, to its destination and with its bytes, and empties the queue given enough successful calls |
| NetSocket.EmptyDatagrams | src/app/net/socket.rs:165-200 | as written, when no header carried bytes before, every datagram a drain sends is empty, whatever the queued messages hold |
| NetSocket.ResendsFirstMessage | src/app/net/socket.rs:176-200 | as written, a second call after a partial send sends an empty datagram to the first destination again and nothing to the second, yet reports nothing left; corrected, each message goes once, with its bytes, to its own destination |
| NetSocket.AdvancePanicsAfterPartialSend | src/app/net/socket.rs:202-205 | as written, a second call after a partial send that the kernel answers in full panics in `advance`; corrected it sends the rest |
| NetSocket.NewReadBuffer | src/app/net/socket.rs:240-264 | `N` slots of `M` bytes, none filled, valid |
| NetSocket.Iter | src/app/net/socket.rs:266-268 | as many messages as the count, the `i`-th being what `get(i)` returns |
| NetSocket.ClearRead | src/app/net/socket.rs:270-275 | no slot counts as filled, the slots themselves are kept, and validity is kept |
| NetSocket.Get | src/app/net/socket.rs:281-293 | the `idx`-th datagram cut to its length with its addresses; an index at or past the count panics |
| NetSocket.RecvMmsg | src/app/net/socket.rs:315-336 | the count is the number of datagrams received, each in the next slot; a failure leaves it 0 |
| NetSocket.RecvThenIter | src/app/net/socket.rs:266-336 | one receive hands out exactly the datagrams the kernel wrote, in order, cut to the slot size; after a failure, nothing |
| NetSocket.ClearEmpties | src/app/net/socket.rs:266-293 | after `clear` nothing is handed out and every `get` panics |
| AppContext.Dedup | src/app/context.rs:14-28 | an address is kept exactly when it has not occurred before; the result has no duplicates and covers every address |
| AppContext.FirstOccurrencesOrdered | src/app/context.rs:14-28 | the kept addresses appear in the order of their first occurrences |
| AppContext.DedupDistinct | src/app/context.rs:14-28 | a list without duplicates is configured unchanged |
| AppContext.FromCliArgs | src/app/context.rs:14-40 | one server per distinct address of `--socks5-udp`, in the order given, and `socks5_servers` returns them |
| AppContext.Socks5Servers | src/app/context.rs:38-40 | a copy of the configured list: the same servers in the same order |
| CheckHealth.SetTroubleness | src/app/checking/health.rs:22-33 | the flag is swapped in, and a change is reported exactly when the flag changed |
| CheckHealth.HealthyMeans | src/app/checking/health.rs:18-33 | healthy exactly when the flag is as a server starts, and exactly when clearing trouble would log nothing |
| CheckHealth.SetTwice | src/app/checking/health.rs:22-33 | setting the same flag twice is setting it once, and the second call reports nothing |
| CheckMeter.AddSample | src/app/checking/meter.rs:48-54 | the window holds the newest `MAX_SAMPLES` samples, the new one last |
| CheckMeter.CountActivity | src/app/checking/meter.rs:61-73 | the loop counts the periods with sent bytes and with received bytes |
| CheckMeter.Evaluate | src/app/checking/meter.rs:56-84 | nothing below `MAX_SAMPLES`; trouble when every period sent and none received; recovery when any received; only a change is reported |
| CheckMeter.ReportMatchesHealth | src/app/checking/meter.rs:56-84 | a reported change always agrees with the health shown afterwards |
| CheckMeter.NeverTroubled | src/app/checking/meter.rs:75 | as written, four periods cannot reach the count of five, so the meter never enters trouble |
| CheckMeter.CorrectedTroubles | src/app/checking/meter.rs:75 | corrected, a full window of sending without receiving puts the server in trouble |
| CheckMeter.SampleTraffic | src/app/checking/meter.rs:92-102 | a sample is recorded and evaluated; as written the report is never trouble |
| CheckPing.AddMeasurement | src/app/checking/ping.rs:76-81 | the history drops its oldest entry when full, then appends |
| CheckPing.AddAllNewest | src/app/checking/ping.rs:76-81 | after any run of measurements the history holds the newest `min(n, 100)` of everything recorded |
| CheckPing.CountAndSum | src/app/checking/ping.rs:89-96 | the fold counts the successes and sums their milliseconds, and the `u32` sum cannot overflow |
| CheckPing.AverageDelay | src/app/checking/ping.rs:88-102 | none exactly when no ping succeeded, else the integer mean of the successes |
| CheckPing.NoSuccessAllLost | src/app/checking/ping.rs:88-102 | no success means every ping was lost, and the other way round |
| CheckPing.QuantileDelay | src/app/checking/ping.rs:109-131 | panics outside (0, 1), none below three successes, else the fitted estimate |
| CheckPing.PingWaits | src/app/checking/ping.rs:203-209 | the 80% and 95% quantiles, the latter raised to 500 ms when below it, or 200 ms and 2 s with fewer than three successes; neither call panics |
| CheckPing.Score | src/app/checking/ping.rs:133-143 | `i16::MAX` without a success; otherwise the formula over the mean clamped to 10..2000 ms, clamped to `i16` |
| CheckPing.UnknownScoresWorst | src/app/checking/ping.rs:133-143 | a server that never answered scores no better than any other |
| CheckPing.DnsQueryFields | src/app/checking/ping.rs:169-184 | one question and one additional record, a TXT query in class IN, and an OPT record advertising 1200 bytes |
| CheckPing.PingQuery | src/app/checking/ping.rs:223-232 | the query is exactly `DNS_QUERY_SIZE` bytes: the ID, `DNS_QUERY`, the RDATA length, option 65001 and its padding |
| CheckPing.TransactionIds | src/app/checking/ping.rs:195-201 | the IDs are distinct and are exactly the values drawn; drawing stops once there are `count` of them, or when the draws run out |
| CheckPing.ReplyIndex | src/app/checking/ping.rs:252-266 | under 12 bytes the reply is too short; an unknown ID is ignored; else the index of the first query with the reply's ID |
| CheckPing.ReplyMatchesQuery | src/app/checking/ping.rs:251-267 | a reply echoing query `k`'s ID is matched to query `k` |
| CheckPing.FirstReply | src/app/checking/ping.rs:251-268 | in a batch, the first datagram of 12 bytes or more whose ID is known is taken; the rest are skipped |
| CheckPing.RecordPing | src/app/checking/ping.rs:288-290 | the losses, then one measurement with the delay |
| CheckPing.RecordedCounts | src/app/checking/ping.rs:274-290 | a timed-out ping records `count` losses; an answered one records one success last |
| CheckPing.RecordPingWindow | src/app/checking/ping.rs:288-290 | in a valid history, a ping leaves the newest entries with its outcome last |
| CheckProbe.ProbeInnerProto | src/app/checking/ping.rs:295-323 | at most three rounds, stopping once both counters are positive, then the class of the match |
| CheckProbe.ProbeClasses | src/app/checking/ping.rs:318-323 | IPv4 exactly when every round reached only IPv4 first, IPv6 likewise, unspecified exactly when no round succeeded, `Inet` otherwise |
| CheckService.MaxWait | src/app/checking/service.rs:48 | the smaller of 4 s and the check interval |
| CheckService.CheckQueryFields | src/app/checking/service.rs:133-151 | the query asks, with recursion desired, for the A record of the root in class IN and nothing else |
| CheckService.CheckDnsQueryDelay | src/app/checking/service.rs:126-181 | the delay, or the exchange's error; a delivered reply under 12 bytes is `UnexpectedEof`, one with a different ID is `InvalidData` |
| CheckService.ValidateReply | src/app/checking/service.rs:166-179 | `UnexpectedEof` exactly under 12 bytes, `InvalidData` exactly when the ID differs, else success |
| CheckService.EchoPasses | src/app/checking/service.rs:166-180 | a reply of at least 12 bytes echoing the query's ID passes |
| CheckService.CheckServer | src/app/checking/service.rs:59-78 | IPv4 servers query the IPv4 DNS server, IPv6 and dual-stack ones the IPv6 server; an unspecified one races both and, on success, takes the probed class, keeping `Unspecified` on failure |
| CheckService.ProbedClassSticks | src/app/checking/service.rs:59-78 | once an unspecified server's race succeeds and the probe names a family, the next check queries only that family's DNS server |
| CheckService.CheckAll | src/app/checking/service.rs:83-98 | each server's delay or failure is added to its own history, and the checks and successes are counted, in any completion order |
| CheckService.CheckAllKeepsValid | src/app/checking/service.rs:83-98 | every history stays within 100 entries |
| CheckService.ReorderServers | src/app/checking/service.rs:112-120 | the list is a stable permutation ordered by score, and the new best server is its first |
| CheckService.BestScoresLowest | src/app/checking/service.rs:112-120 | the new best server scores no worse than any other |

## Left out

- Tokio, the sockets and the kernel are not modelled. Each async or
  system call becomes an input of the function that uses it: its
  `Outcome`, the datagrams a socket delivers, or what `sendmmsg` and
  `recvmmsg` did. Timeouts and `select!` races become the outcome they
  produce.
- Cryptography (HKDF, AES header protection, AES-GCM) is a parameter
  record (`QuicCrypto.Primitives`). Only the lengths of its outputs are
  constrained, and only the label encodings and the nonce are computed.
- Randomness (transaction IDs, padding bytes) is an input stream.
- The iteration order of a `HashSet` or `HashMap` is an input
  (`added` in `SocksRefer`). `CheckPing.TransactionIds` returns the IDs in
  the order first drawn and its contract states no order, since the
  `HashSet` gives none.
- Floating point is not modelled. `Delay`, `loss_percent`,
  `quantile_delay`'s exponential fit and `score`'s formula are taken as
  functions (`fit`, `weigh`) over the integer milliseconds.
- `CheckPing.Score` and `CheckPing.QuantileDelay` state what holds for any
  such function: the clamping and the `None` and `i16::MAX` cases. The
  numeric value of the formula is not stated.
- Logging is not modelled.
- `src/app/quic/packet.rs` is not part of this model. Its sniffer and
  `InnerProto::capable` are parameters of `SocksForward.Forward`.
- The LRU cache of QUIC connections in `forward.rs` is a finite map without
  eviction.
- `SocksSession.Recv`, `SocksBind.RecvFrom` and `SocksConnection.Recv`
  take the datagrams the socket delivers as a sequence, rather than
  reading them one at a time.
- `SocksServerReferrer::negotiate` and `stream.readable()` are functions
  of the referrer. A negotiation therefore has one outcome per round.
- `socks5_referrers` and `update_socks5_servers` are not part of
  `context.rs` as modelled. `SocksRefer` models the list update they
  perform on the shared server list.
- `src/app/socks5/service.rs` lines 76-79 call `update_socks5_servers()`
  and modify the value it returns. Whether that value is the shared list
  is not visible here; the update is modelled as the shared one of
  `refer.rs`.
- `SocksTraffic`: the `Traffic` subtraction that `meter.rs` uses is not
  part of this model. It is assumed to subtract each counter modulo 2^64.
- `usize` is taken as 64 bits throughout.
- `NetSocket` models the buffers' contents, not the raw addresses held inside
  the headers. `NetSocket.Flush` is a loop over `send_mmsg`: it calls it
  while something remains and stops at the first error. No caller visible
  here performs that loop; `src/app/quic/conn.rs` lines 92-97 instead call
  `batch_send` and then `advance` themselves.
- CheckPing.RecordPingWindow: requires a valid history (at most 100
  entries), which every history built by `add_measurement` is.
- CheckPing.AverageDelay: requires a valid history, so that the `u32` sum
  cannot overflow; on longer histories the wrap is not modelled.
- Tls.ServerNameSource: states that a returned name comes from a host_name
  entry inside the extension block of a ClientHello, not that it is the
  FIRST server_name entry of a well-formed encoding. The parser reads
  leniently (entries after the match and trailing bytes are never
  checked), so the exact converse of `Tls.ServerNameReads` does not hold
  for arbitrary input; `Tls.LooseHelloNamed` gives an input where it fails.
- The `len - 2` of `src/app/socks5/quic/tls.rs` line 73 is computed as a
  release build computes it, wrapping (`Bytes.WrappingSub`). In a debug
  build that subtraction panics for an extension of length 0 or 1. For such
  an extension followed by a valid name list, the model (like a release
  build) can return a name where a debug build panics.
- `src/app/checking/service.rs` lines 86-92 and 115-116 call
  `add_measurement`, `average_delay`, `loss_percent` and `score` on
  `server.status.health`, while the `Health` of
  `src/app/checking/health.rs` lines 8-10 is only a trouble flag. The model
  reads that `health` as the server's ping history
  (`CheckService.Server.history`, a `CheckPing.PingHistory`).
- SocksRefer.Server: two servers are taken to be equal exactly when their
  names and UDP addresses are, and the `HashSet`s of `refer.rs` are taken
  to hash and compare them that way. `SocksServer` in
  `src/app/socks5/server.rs` lines 3-7 derives neither `Hash` nor `Eq`, and
  no such implementation is part of this model.
- The probe (`CheckProbe`) counts a ping that times out as a success. Its
  `Ok(None)` matches `Ok(_)`, as the code does.

## Findings

| source | as written | input that shows it | evidently intended | confidence | as-written member | corrected member |
|---|---|---|---|---|---|---|
| src/app/socks5/quic/tls.rs:15-20 | `get_u16` checks only that one byte remains, then `Buf::get_u16` panics | the message `01 00 00` | a short read stops the parse (`None`) | not executed | Tls.OneByteU16Panics | Tls.ServerNameReads |
| src/app/socks5/quic/tls.rs:73 | `len - 2` wraps for a server_name extension of length 0, so the list length passes and `copy_to_slice` reads past the end | extension `00 00 00 00` followed by `00 10 00 00 0d` | the extension is rejected as truncated | not executed | Tls.ShortServerNamePanics | Tls.ShortListCorrected |
| src/app/socks5/quic/tls.rs:50 | the 24-bit length is `(hi << 8) \| lo16`, so bytes above 2^16 are misread | a ClientHello body of exactly 2^16 bytes, header `01 01 00 00` | `(hi << 16) \| lo16` | not executed | Tls.LongHelloMisread | Tls.ServerNameReads |
| src/app/socks5/quic/mod.rs:108-115 | a Length shorter than the packet number makes `pkt[pn_offset + i]` index past the cut packet | a 1200-byte Initial with empty IDs and token and a Length of 0 | the packet is rejected as too short | not executed | Quic.EmptyLengthPanics | Quic.DecodeProtected |
| src/app/socks5/quic/mod.rs:82-90 | a token that runs to the end of the datagram leaves nothing for the Length, and `decode_var_int` indexes an empty buffer | `c0 00000001 00 00 44a7` followed by 1191 zero bytes | `NoEnoughData` | not executed | Quic.TokenToEndPanics | Quic.ParseLongHeaderRoundTrip |
| src/app/socks5/quic/mod.rs:153-158 | the guard checks `pos + len` against the payload's length, not against the bytes left, so `buf.slice(..len)` panics | payload `06 00 05 01 02` | `NotValidQuicPacket` | not executed | QuicFrames.CryptoPastEnd | QuicFrames.CryptoMessageOfFrames |
| src/app/socks5/quic/mod.rs:151 | `decode_var_int` reads without checking that bytes remain | payload `06` | `NoEnoughData` | not executed | QuicFrames.CryptoTruncated | QuicFrames.CryptoMessageModes |
| src/app/socks5/bind.rs:83-95 | the 10-byte guard fits an IPv4 header only; `read_u128().unwrap()` panics | `00 00 00 04` followed by six zero bytes | a datagram too short for its address is dropped | not executed | SocksBind.Ipv6GuardPanics | SocksBind.DecodeSendTo |
| src/app/socks5/session.rs:316-336 | the 10-byte guard does not cover an IPv6 address and its port; `read_u16().unwrap()` panics | `00 00 00 04` followed by 16 address bytes | the datagram is dropped | not executed | SocksSession.Ipv6PortPanics | SocksSession.DecodeSendToRemote |
| src/app/socks5/session.rs:47-64 | `try_into().unwrap()` on the name length panics for names over 255 bytes, which the TLS reader accepts | a 256-byte server name sent with `send_to_remote` | the send fails with `InvalidInput` | not executed | SocksSession.LongNamePanics | SocksSession.WriteTo |
| src/app/checking/meter.rs:75 | `cnt_tx >= MAX_SAMPLES` counts at most `MAX_SAMPLES - 1` periods, so trouble is never set | five samples whose sent bytes grow and received bytes stay 0 | every period sent, that is `cnt_tx >= MAX_SAMPLES - 1` | not executed | CheckMeter.NeverTroubled | CheckMeter.CorrectedTroubles |
| src/app/net/socket.rs:165-200 | `push` builds each iovec with length 0 and `prepare_hdrs` sets only its base, so every datagram sent is empty | any queued message, e.g. the single byte `01` | the iovec's length is the message's length | not executed | NetSocket.EmptyDatagrams | NetSocket.FlushCorrected |
| src/app/net/socket.rs:296-313 | `send_mmsg` passes all headers from index 0, not from `pos`, so after a partial send the first destination is sent to again and the second never is | two queued messages, the kernel taking one per call, and a caller that sends again after the partial send | headers from `pos` on | not executed | NetSocket.ResendsFirstMessage | NetSocket.FlushCorrected |
| src/app/net/socket.rs:202-205 | after a partial send, a full send of all headers advances past the queue and `advance` panics | two queued messages, the kernel taking one, then two, and a caller that sends again after the partial send | the rest is sent and the queue empties | not executed | NetSocket.AdvancePanicsAfterPartialSend | NetSocket.SendCorrected |

=== FILE: bind.dfy ===
/**
 * `src/app/socks5/bind.rs`: a SOCKS5 UDP association that addresses its
 * remotes by IP only (ATYP 1 or 4), and reports where each reply came from.
 */
module SocksBind {
  import opened Bytes
  import opened Wrappers
  import opened SocksUdp
  import Types

  /** `BindSocks::send_to`: the datagram for `target` (lines 63-77). */
  function SendTo(target: Types.RemoteAddr, payload: seq<byte>): (r: seq<byte>)
    ensures var ip := target.addr.Ip(); var n := |Octets(ip)|;
      |r| == 6 + n + |payload|
      && r[..3] == [0, 0, 0] && r[3] == (if ip.IpV4? then AtypIpv4 else AtypIpv6)
      && r[4..4 + n] == Octets(ip) && r[4 + n..6 + n] == PortBytes(target.addr.port) && r[6 + n..] == payload
  {
    IpRequest(target.addr.Ip(), target.addr.port, payload)
  }

  /** A decoded datagram: its payload and the remote it came from. */
  datatype Packet = Packet(payload: seq<byte>, remote: Types.RemoteAddr)

  /** Why `decode_packet` returned `None`. */
  datatype Dropped = TooShort | Fragment | UnsupportedAddressType

  /** The address octets of the given type: 4 for ATYP 1, 16 for ATYP 4. */
  function AddrLen(atyp: byte): nat
  {
    if atyp == AtypIpv4 then 4 else 16
  }

  /**
   * `BindSocks::decode_packet` (lines 82-104). Every read is `unwrap`ped, and
   * the 10-byte guard covers an IPv4 header only: with ATYP 4 and fewer than
   * 22 bytes, `read_u128` or the port read panics. The corrected reading
   * drops such a datagram as too short. The reported remote is canonical.
   */
  function DecodePacket(pkt: seq<byte>, mode: Mode): (r: Outcome<Packet, Dropped>)
    ensures |pkt| < MinRequestLen ==> r == Err(TooShort)
    ensures |pkt| >= MinRequestLen && pkt[2] != 0 ==> r == Err(Fragment)
    ensures |pkt| >= MinRequestLen && pkt[2] == 0 && pkt[3] != AtypIpv4 && pkt[3] != AtypIpv6
            ==> r == Err(UnsupportedAddressType)
    ensures r.Panic? <==>
      mode.AsWritten? && MinRequestLen <= |pkt| < 22 && pkt[2] == 0 && pkt[3] == AtypIpv6
    ensures r.Ok? ==> Types.IsCanonical(r.value.remote.addr)
    ensures r.Ok? ==>
      var n := 4 + AddrLen(pkt[3]) + 2;
      n <= |pkt| && r.value.payload == pkt[n..]
      && r.value.remote.addr.port == BeUint(pkt[n - 2..n])
  {
    if |pkt| < MinRequestLen then Err(TooShort)
    else if pkt[2] != 0 then Err(Fragment)
    else if pkt[3] != AtypIpv4 && pkt[3] != AtypIpv6 then Err(UnsupportedAddressType)
    else
      var n := 4 + AddrLen(pkt[3]);
      if |pkt| < n + 2 then (if mode.AsWritten? then Panic else Err(TooShort))
      else
        var ip := if pkt[3] == AtypIpv4 then Types.IpV4(pkt[4..8]) else Types.IpV6(pkt[4..20]);
        var port := PortAt(pkt, n);
        Ok(Packet(pkt[n + 2..], Types.RemoteAddrFrom(Types.FromIpPort(ip, port))))
  }

  /**
   * What `send_to` sends, `decode_packet` reads back: the payload, and the
   * target in the form `(ip, port).into()` gives it.
   */
  lemma {:induction false} DecodeSendTo(target: Types.RemoteAddr, payload: seq<byte>, mode: Mode)
    ensures DecodePacket(SendTo(target, payload), mode)
            == Ok(Packet(payload, Types.RemoteAddrFrom(Types.FromIpPort(target.addr.Ip(), target.addr.port))))
  {
    var ip := target.addr.Ip();
    var port := target.addr.port;
    var pkt := SendTo(target, payload);
    var n := 4 + |Octets(ip)|;
    assert pkt == [0, 0, 0] + [if ip.IpV4? then AtypIpv4 else AtypIpv6] + Octets(ip) + (PortBytes(port) + payload);
    assert pkt[4..n] == Octets(ip);
    assert pkt[n..] == PortBytes(port) + payload;
    ReadUintOf(port, 2, payload);
    assert ip.IpV4? ==> ip == Types.IpV4(pkt[4..8]);
    assert ip.IpV6? ==> ip == Types.IpV6(pkt[4..20]);
  }

  /** In particular, an IPv4 target, or any target given in the form `from` gives, comes back unchanged. */
  lemma {:induction false} DecodeSendToSame(target: Types.RemoteAddr, payload: seq<byte>, mode: Mode)
    requires Types.IsCanonical(target.addr)
    requires target.addr.V6? ==> target.addr.flowinfo == 0 && target.addr.scopeId == 0
    ensures DecodePacket(SendTo(target, payload), mode) == Ok(Packet(payload, target))
  {
    DecodeSendTo(target, payload, mode);
  }

  /** Ten bytes announcing an IPv6 address pass the guard and panic in `read_u128`. */
  lemma {:induction false} Ipv6GuardPanics()
    ensures DecodePacket([0, 0, 0, AtypIpv6] + Zeros(6), AsWritten) == Panic
    ensures DecodePacket([0, 0, 0, AtypIpv6] + Zeros(6), Corrected) == Err(TooShort)
  {
  }

  /** Each datagram's decoding, in order, on what the 2048-byte buffer holds of it. */
  function DecodeAll(ds: seq<seq<byte>>, mode: Mode): (os: seq<Outcome<Packet, Dropped>>)
    ensures |os| == |ds|
    ensures forall j :: 0 <= j < |ds| ==> os[j] == DecodePacket(Truncated(ds[j]), mode)
  {
    seq(|ds|, j requires 0 <= j < |ds| => DecodePacket(Truncated(ds[j]), mode))
  }

  /**
   * `BindSocks::recv_from` over the datagrams the socket delivers (lines
   * 107-119): each is read into a 2048-byte buffer, so only its first 2048
   * bytes are decoded; undecodable ones are skipped, the first decodable
   * payload is copied into a buffer of `cap` bytes and returned with its
   * remote.
   */
  function RecvFrom(ds: seq<seq<byte>>, cap: nat, mode: Mode): (r: Outcome<Received<Types.RemoteAddr>, RecvStop>)
    ensures mode.Corrected? ==> !r.Panic?
    ensures r.Err? ==> r.error == Exhausted
    ensures r.Err? <==> forall j :: 0 <= j < |ds| ==> DecodePacket(Truncated(ds[j]), mode).Err?
    ensures r.Ok? ==>
      var k := r.value.index;
      k < |ds| && DecodePacket(Truncated(ds[k]), mode).Ok?
      && var p := DecodePacket(Truncated(ds[k]), mode).value;
      r.value.data == CopyOut(p.payload, cap) && r.value.from == p.remote
      && forall j :: 0 <= j < k ==> DecodePacket(Truncated(ds[j]), mode).Err?
  {
    var first :- FirstDecoded(DecodeAll(ds, mode), 0);
    Ok(Received(first.0, CopyOut(first.1.payload, cap), first.1.remote))
  }

  /**
   * `BindSocks::poll_next` (lines 125-140): the stream's next item is the
   * first decodable datagram's remote and whole payload; the buffer is
   * cleared after each undecodable one, so every datagram is decoded on its
   * own.
   */
  function Next(ds: seq<seq<byte>>, mode: Mode): (r: Outcome<(Types.RemoteAddr, seq<byte>), RecvStop>)
    ensures mode.Corrected? ==> !r.Panic?
    ensures r.Err? <==> forall j :: 0 <= j < |ds| ==> DecodePacket(Truncated(ds[j]), mode).Err?
    ensures r.Err? ==> r.error == Exhausted
    ensures r.Ok? ==> exists k :: (0 <= k < |ds| && DecodePacket(Truncated(ds[k]), mode).Ok?
                                   && (forall j :: 0 <= j < k ==> DecodePacket(Truncated(ds[j]), mode).Err?)
                                   && r.value.0 == DecodePacket(Truncated(ds[k]), mode).value.remote
                                   && r.value.1 == DecodePacket(Truncated(ds[k]), mode).value.payload)
  {
    var first :- FirstDecoded(DecodeAll(ds, mode), 0);
    Ok((first.1.remote, first.1.payload))
  }

  /** The stream and `recv_from` with a buffer large enough agree: same remote, same payload. */
  lemma {:induction false} NextAgreesWithRecvFrom(ds: seq<seq<byte>>, mode: Mode)
    requires RecvFrom(ds, RecvBuffer, mode).Ok?
    ensures Next(ds, mode) == Ok((RecvFrom(ds, RecvBuffer, mode).value.from, RecvFrom(ds, RecvBuffer, mode).value.data))
  {
    var r := RecvFrom(ds, RecvBuffer, mode).value;
    var p := DecodePacket(Truncated(ds[r.index]), mode).value;
    assert |p.payload| <= RecvBuffer;
  }

  /**
   * Behind any number of datagrams too short to decode, a reply to
   * `send_to` that fits the 2048-byte buffer is delivered with its sender.
   */
  lemma {:induction false} RecvFromAfterJunk(junk: seq<seq<byte>>, target: Types.RemoteAddr, payload: seq<byte>, cap: nat, mode: Mode)
    requires forall j :: 0 <= j < |junk| ==> |junk[j]| < MinRequestLen
    requires Types.IsCanonical(target.addr)
    requires target.addr.V6? ==> target.addr.flowinfo == 0 && target.addr.scopeId == 0
    requires |SendTo(target, payload)| <= RecvBuffer
    ensures RecvFrom(junk + [SendTo(target, payload)], cap, mode) == Ok(Received(|junk|, CopyOut(payload, cap), target))
  {
    var ds := junk + [SendTo(target, payload)];
    var os := DecodeAll(ds, mode);
    DecodeSendToSame(target, payload, mode);
    assert os[|junk|] == Ok(Packet(payload, target));
    assert forall j :: 0 <= j < |junk| ==> os[j].Err? by {
      forall j | 0 <= j < |junk| ensures os[j].Err? {
        assert ds[j] == junk[j];
      }
    }
    FirstDecodedAfterErrors(os, 0, |junk|, Packet(payload, target));
  }

  /**
   * A longer reply loses its tail: of the payload, only the bytes that fit
   * into 2048 bytes after the header are delivered.
   */
  lemma {:induction false} RecvFromLong(target: Types.RemoteAddr, payload: seq<byte>, cap: nat, mode: Mode, keep: nat)
    requires Types.IsCanonical(target.addr)
    requires target.addr.V6? ==> target.addr.flowinfo == 0 && target.addr.scopeId == 0
    requires |SendTo(target, payload)| > RecvBuffer
    requires keep == RecvBuffer - (|SendTo(target, payload)| - |payload|)
    ensures keep < |payload|
    ensures RecvFrom([SendTo(target, payload)], cap, mode) == Ok(Received(0, CopyOut(payload[..keep], cap), target))
  {
    var pkt := SendTo(target, payload);
    var short := payload[..keep];
    assert Truncated(pkt) == SendTo(target, short) by {
      assert pkt == SendTo(target, []) + payload;
      assert SendTo(target, short) == SendTo(target, []) + short;
    }
    DecodeSendToSame(target, short, mode);
    var os := DecodeAll([pkt], mode);
    assert os[0] == Ok(Packet(short, target));
    FirstDecodedAfterErrors(os, 0, 0, Packet(short, target));
  }
}

=== FILE: bytes.dfy ===
/**
 * Byte strings as the Rust code sees them: unsigned octets, big-endian
 * integers (`to_be_bytes`, `from_be_bytes`, `read_u16::<BE>`), bitwise XOR,
 * and UTF-8 well-formedness as `String::from_utf8` checks it.
 */
module Bytes {

  type byte = x: int | 0 <= x < 0x100
  type u16 = x: int | 0 <= x < 0x1_0000
  type u32 = x: int | 0 <= x < 0x1_0000_0000
  type u64 = x: int | 0 <= x < 0x1_0000_0000_0000_0000

  /** A value read from the front of a byte string, and the bytes after it. */
  datatype Read<T> = Read(value: T, rest: seq<byte>)

  /** 256^k, the number of values `k` bytes can hold. */
  function Pow256(k: nat): (r: nat)
    ensures r >= 1
  {
    if k == 0 then 1 else 256 * Pow256(k - 1)
  }

  /** The unsigned integer a byte string denotes, most significant byte first. */
  function BeUint(s: seq<byte>): nat
  {
    if |s| == 0 then 0 else BeUint(s[..|s| - 1]) * 256 + s[|s| - 1]
  }

  /** The `len` low-order bytes of `n`, most significant first. */
  function BeBytes(n: nat, len: nat): (r: seq<byte>)
    ensures |r| == len
  {
    if len == 0 then [] else BeBytes(n / 256, len - 1) + [n % 256]
  }

  lemma {:induction false} BeUintBound(s: seq<byte>)
    ensures BeUint(s) < Pow256(|s|)
    decreases |s|
  {
    if |s| > 0 {
      BeUintBound(s[..|s| - 1]);
    }
  }

  /** Encoding then decoding a value that fits recovers it. */
  lemma {:induction false} BeBytesRoundTrip(n: nat, len: nat)
    requires n < Pow256(len)
    ensures BeUint(BeBytes(n, len)) == n
    decreases len
  {
    if len > 0 {
      var r := BeBytes(n, len);
      assert r[..len - 1] == BeBytes(n / 256, len - 1);
      BeBytesRoundTrip(n / 256, len - 1);
    }
  }

  /** Decoding then encoding at the same width recovers the bytes. */
  lemma {:induction false} BeUintRoundTrip(s: seq<byte>)
    ensures BeBytes(BeUint(s), |s|) == s
    decreases |s|
  {
    if |s| > 0 {
      var p := s[..|s| - 1];
      BeUintRoundTrip(p);
      DivMod256(BeUint(p), s[|s| - 1]);
      assert s == p + [s[|s| - 1]];
    }
  }

  /** A value shifted up by one byte, plus a byte, splits back into the two. */
  lemma {:induction false} DivMod256(a: nat, x: byte)
    ensures (a * 256 + x) / 256 == a && (a * 256 + x) % 256 == x
  {
  }

  lemma {:induction false} MulAssoc(a: int, b: int, c: int)
    ensures (a * b) * c == a * (b * c)
  {
  }

  /** A big-endian string split in two: the high part is scaled by the width of the low part. */
  lemma {:induction false} BeUintConcat(a: seq<byte>, b: seq<byte>)
    ensures BeUint(a + b) == BeUint(a) * Pow256(|b|) + BeUint(b)
    decreases |b|
  {
    if |b| > 0 {
      var b', x := b[..|b| - 1], b[|b| - 1];
      assert (a + b)[..|a + b| - 1] == a + b';
      BeUintConcat(a, b');
      var h, p := BeUint(a), Pow256(|b'|);
      calc {
        BeUint(a + b);
        BeUint(a + b') * 256 + x;
        (h * p + BeUint(b')) * 256 + x;
        { MulAssoc(h, p, 256); }
        h * (p * 256) + (BeUint(b') * 256 + x);
      }
    } else {
      assert a + b == a;
    }
  }

  /** Two-byte big-endian values, as `get_u16` and `read_u16::<BE>` read them. */
  lemma {:induction false} BeUint2(s: seq<byte>)
    requires |s| == 2
    ensures BeUint(s) == 256 * (s[0] as int) + (s[1] as int)
  {
    assert s[..1][..0] == [];
    assert BeUint(s[..1]) == s[0];
  }

  /** Four-byte big-endian values, as `u32::from_be_bytes` reads them. */
  lemma {:induction false} BeUint4(s: seq<byte>)
    requires |s| == 4
    ensures BeUint(s) == 0x100_0000 * (s[0] as int) + 0x1_0000 * (s[1] as int) + 0x100 * (s[2] as int) + (s[3] as int)
  {
    BeUint2(s[..2]);
    assert s[..3][..2] == s[..2];
    assert BeUint(s[..3]) == BeUint(s[..2]) * 256 + s[2];
  }

  /** Eight-byte big-endian values. */
  lemma {:induction false} BeUint8(s: seq<byte>)
    requires |s| == 8
    ensures BeUint(s) == 0x100_0000_0000_0000 * (s[0] as int) + 0x1_0000_0000_0000 * (s[1] as int)
                       + 0x100_0000_0000 * (s[2] as int) + 0x1_0000_0000 * (s[3] as int)
                       + 0x100_0000 * (s[4] as int) + 0x1_0000 * (s[5] as int) + 0x100 * (s[6] as int) + (s[7] as int)
  {
    BeUint4(s[..4]);
    assert s[..5][..4] == s[..4];
    assert s[..6][..5] == s[..5];
    assert s[..7][..6] == s[..6];
    assert BeUint(s[..5]) == BeUint(s[..4]) * 256 + s[4];
    assert BeUint(s[..6]) == BeUint(s[..5]) * 256 + s[5];
    assert BeUint(s[..7]) == BeUint(s[..6]) * 256 + s[6];
  }

  /** Bitwise exclusive or of two naturals, bit by bit from the least significant. */
  function XorBits(a: nat, b: nat): nat
    decreases a + b, 1
  {
    if a == 0 then b
    else if b == 0 then a
    else XorStep(a, b)
  }

  /** One bit of `XorBits` and the rest shifted down; split out so that a use of `XorBits` does not unfold into division. */
  function XorStep(a: nat, b: nat): nat
    requires a > 0 && b > 0
    decreases a + b, 0
  {
    2 * XorBits(a / 2, b / 2) + (if a % 2 == b % 2 then 0 else 1)
  }

  lemma {:induction false} XorBitsHalf(a: nat, b: nat)
    ensures XorBits(a, b) / 2 == XorBits(a / 2, b / 2)
    ensures XorBits(a, b) % 2 == (if a % 2 == b % 2 then 0 else 1)
  {
  }

  lemma {:induction false} XorBitsBelow(a: nat, b: nat, bound: nat)
    requires bound == 1 || bound == 2 || bound == 4 || bound == 8 || bound == 16
      || bound == 32 || bound == 64 || bound == 128 || bound == 256
    requires a < bound && b < bound
    ensures XorBits(a, b) < bound
    decreases bound
  {
    if a != 0 && b != 0 {
      XorBitsBelow(a / 2, b / 2, bound / 2);
    }
  }

  lemma {:induction false} XorBitsSelf(b: nat)
    ensures XorBits(b, b) == 0
    decreases b
  {
    if b != 0 {
      XorBitsSelf(b / 2);
    }
  }

  lemma {:induction false} XorBitsCancel(a: nat, b: nat)
    ensures XorBits(XorBits(a, b), b) == a
    decreases a + b
  {
    var c := XorBits(a, b);
    XorBitsHalf(a, b);
    XorBitsHalf(c, b);
    if a == 0 {
      XorBitsSelf(b);
    } else if b != 0 {
      XorBitsCancel(a / 2, b / 2);
    }
  }

  lemma {:induction false} XorBitsComm(a: nat, b: nat)
    ensures XorBits(a, b) == XorBits(b, a)
    decreases a + b
  {
    if a != 0 && b != 0 {
      XorBitsComm(a / 2, b / 2);
    }
  }

  lemma {:induction false} QuarterQuarter(n: nat)
    ensures (((n / 2) / 2) / 2) / 2 == n / 16
  {
  }

  /** XOR with a value below 16 leaves every bit above the low four unchanged. */
  lemma {:induction false} XorBitsLowNibble(a: nat, b: nat)
    requires b < 16
    ensures XorBits(a, b) / 16 == a / 16
  {
    var a1, b1 := a / 2, b / 2;
    var a2, b2 := a1 / 2, b1 / 2;
    var a3, b3 := a2 / 2, b2 / 2;
    XorBitsHalf(a, b);
    XorBitsHalf(a1, b1);
    XorBitsHalf(a2, b2);
    XorBitsHalf(a3, b3);
    assert b3 / 2 == 0;
    QuarterQuarter(a);
    QuarterQuarter(XorBits(a, b));
  }

  /** Bitwise inclusive or of two naturals, as `|` computes it on unsigned integers. */
  function OrBits(a: nat, b: nat): nat
    decreases a + b
  {
    if a == 0 then b
    else if b == 0 then a
    else 2 * OrBits(a / 2, b / 2) + (if a % 2 == 1 || b % 2 == 1 then 1 else 0)
  }

  /** `a - b` on `usize` in a release build: wraps around modulo 2^64 instead of panicking. */
  function WrappingSub(a: u64, b: u64): (r: u64)
    ensures a >= b ==> r == a - b
    ensures a < b ==> r == 0x1_0000_0000_0000_0000 + a - b
  {
    (a - b) % 0x1_0000_0000_0000_0000
  }

  /** `u64::wrapping_add`, which `fetch_add` on an `AtomicU64` performs. */
  function WrappingAdd(a: u64, b: u64): (r: u64)
    ensures a + b < 0x1_0000_0000_0000_0000 ==> r == a + b
    ensures a + b >= 0x1_0000_0000_0000_0000 ==> r == a + b - 0x1_0000_0000_0000_0000
  {
    if a + b < 0x1_0000_0000_0000_0000 then a + b else a + b - 0x1_0000_0000_0000_0000
  }

  /** Subtracting what was added undoes the addition, wrap-around included. */
  lemma {:induction false} WrappingAddSub(a: u64, b: u64)
    ensures WrappingSub(WrappingAdd(a, b), b) == a
  {
  }

  /** `a ^ b` on two `u8` values. */
  function Xor(a: byte, b: byte): (r: byte)
  {
    XorBitsBelow(a, b, 256);
    XorBits(a, b)
  }

  lemma {:induction false} XorCancel(a: byte, b: byte)
    ensures Xor(Xor(a, b), b) == a
  {
    XorBitsCancel(a, b);
  }

  lemma {:induction false} XorZero(a: byte)
    ensures Xor(a, 0) == a
  {
  }

  /** Element-wise XOR of two byte strings of the same length. */
  function XorSeq(a: seq<byte>, b: seq<byte>): (r: seq<byte>)
    requires |a| == |b|
    ensures |r| == |a|
    ensures forall i :: 0 <= i < |a| ==> r[i] == Xor(a[i], b[i])
  {
    seq(|a|, i requires 0 <= i < |a| => Xor(a[i], b[i]))
  }

  /** XOR with a fixed string is injective. */
  lemma {:induction false} XorSeqInjective(a: seq<byte>, x: seq<byte>, y: seq<byte>)
    requires |a| == |x| == |y|
    requires XorSeq(a, x) == XorSeq(a, y)
    ensures x == y
  {
    forall i | 0 <= i < |x|
      ensures x[i] == y[i]
    {
      XorBitsComm(a[i], x[i]);
      XorBitsComm(a[i], y[i]);
      XorCancel(x[i], a[i]);
      XorCancel(y[i], a[i]);
      assert XorSeq(a, x)[i] == XorSeq(a, y)[i];
    }
  }

  /** XOR with the same string twice is the identity. */
  lemma {:induction false} XorSeqCancel(a: seq<byte>, m: seq<byte>)
    requires |a| == |m|
    ensures XorSeq(XorSeq(a, m), m) == a
  {
    forall i | 0 <= i < |a|
      ensures XorSeq(XorSeq(a, m), m)[i] == a[i]
    {
      XorCancel(a[i], m[i]);
    }
  }

  /** A string of `n` zero bytes. */
  function Zeros(n: nat): (r: seq<byte>)
    ensures |r| == n
    ensures forall i :: 0 <= i < n ==> r[i] == 0
  {
    seq(n, _ => 0)
  }

  lemma {:induction false} XorSeqZeros(a: seq<byte>)
    ensures XorSeq(a, Zeros(|a|)) == a
  {
  }

  /** Continuation byte of a multi-byte UTF-8 sequence (10xxxxxx). */
  predicate IsCont(b: byte)
  {
    0x80 <= b <= 0xBF
  }

  /**
   * Well-formed UTF-8 per the UTF8-octets grammar in section 4 of RFC 3629,
   * which is what `String::from_utf8` accepts.
   */
  predicate ValidUtf8(s: seq<byte>)
    decreases |s|
  {
    if |s| == 0 then true
    else if s[0] < 0x80 then ValidUtf8(s[1..])
    else if 0xC2 <= s[0] <= 0xDF then
      |s| >= 2 && IsCont(s[1]) && ValidUtf8(s[2..])
    else if s[0] == 0xE0 then
      |s| >= 3 && 0xA0 <= s[1] <= 0xBF && IsCont(s[2]) && ValidUtf8(s[3..])
    else if 0xE1 <= s[0] <= 0xEC || 0xEE <= s[0] <= 0xEF then
      |s| >= 3 && IsCont(s[1]) && IsCont(s[2]) && ValidUtf8(s[3..])
    else if s[0] == 0xED then
      |s| >= 3 && 0x80 <= s[1] <= 0x9F && IsCont(s[2]) && ValidUtf8(s[3..])
    else if s[0] == 0xF0 then
      |s| >= 4 && 0x90 <= s[1] <= 0xBF && IsCont(s[2]) && IsCont(s[3]) && ValidUtf8(s[4..])
    else if 0xF1 <= s[0] <= 0xF3 then
      |s| >= 4 && IsCont(s[1]) && IsCont(s[2]) && IsCont(s[3]) && ValidUtf8(s[4..])
    else if s[0] == 0xF4 then
      |s| >= 4 && 0x80 <= s[1] <= 0x8F && IsCont(s[2]) && IsCont(s[3]) && ValidUtf8(s[4..])
    else false
  }

  predicate IsAscii(s: seq<byte>)
  {
    forall i :: 0 <= i < |s| ==> s[i] < 0x80
  }

  /** Every ASCII string is valid UTF-8 (one byte per character). */
  lemma {:induction false} AsciiIsUtf8(s: seq<byte>)
    requires IsAscii(s)
    ensures ValidUtf8(s)
    decreases |s|
  {
    if |s| > 0 {
      assert IsAscii(s[1..]);
      AsciiIsUtf8(s[1..]);
    }
  }

  /** The bytes of an ASCII string literal. */
  function Ascii(s: string): (r: seq<byte>)
    requires forall i :: 0 <= i < |s| ==> s[i] as int < 0x80
    ensures |r| == |s|
    ensures IsAscii(r)
  {
    seq(|s|, i requires 0 <= i < |s| => s[i] as int)
  }
}

=== FILE: checking.dfy ===
/**
 * `src/app/checking/service.rs`: the periodic health check. Every server is
 * sent a 17-byte DNS query through its tunnel, the reply's transaction ID
 * is validated, the outcome is recorded in the server's ping history, and
 * the server list is re-sorted by score.
 */
module CheckService {
  import opened Bytes
  import opened Wrappers
  import opened SocksUdp
  import opened CheckProbe
  import opened CheckPing
  import Sorting

  /** Upper bound of the per-query wait, 4 s (line 48). */
  const MaxCheckWait: nat := 4000

  /** `max_wait`: the smaller of 4 s and the check interval, in milliseconds. */
  function MaxWait(intervalMs: nat): (w: nat)
    ensures w <= MaxCheckWait && w <= intervalMs
    ensures w == MaxCheckWait || w == intervalMs
  {
    if intervalMs < MaxCheckWait then intervalMs else MaxCheckWait
  }

  /**
   * The query of lines 133-151: a random transaction ID `b0 b1`, flags
   * `01 20`, one question, and the question: the root name, type A, class IN.
   */
  function CheckQuery(b0: byte, b1: byte): (q: seq<byte>)
    ensures |q| == 17 && q[..2] == [b0, b1]
  {
    [b0, b1, 1, 32, 0, 1, 0, 0, 0, 0, 0, 0, 0, 0, 1, 0, 1]
  }

  /**
   * The query is the one the comments describe (section 4.1 of RFC 1035):
   * recursion desired, one question and no other records, and the question
   * asks for the A record of the root in class IN.
   */
  lemma {:induction false} CheckQueryFields(b0: byte, b1: byte)
    ensures var q := CheckQuery(b0, b1);
      Tid(q) == BeUint(q[..2]) && q[2] == 1 && BeUint(q[4..6]) == 1
      && BeUint(q[6..8]) == 0 && BeUint(q[8..10]) == 0 && BeUint(q[10..12]) == 0
      && q[12] == 0 && BeUint(q[13..15]) == 1 && BeUint(q[15..17]) == 1
  {
    var q := CheckQuery(b0, b1);
    BeUint2(q[..2]);
    BeUint2(q[4..6]);
    BeUint2(q[6..8]);
    BeUint2(q[8..10]);
    BeUint2(q[10..12]);
    BeUint2(q[13..15]);
    BeUint2(q[15..17]);
  }

  /** The size of the receive buffer, and of the shortest acceptable reply (line 157). */
  const ReplyBuffer: nat := 12

  /**
   * Lines 157-179: the reply's payload is copied into a 12-byte buffer;
   * fewer than 12 bytes is `UnexpectedEof`, a different transaction ID is
   * `InvalidData`.
   */
  function ValidateReply(payload: seq<byte>, queryTid: u16): (r: Outcome<(), IoError>)
    ensures r == Err(UnexpectedEof) <==> |payload| < ReplyBuffer
    ensures r == Err(InvalidData) <==> |payload| >= ReplyBuffer && Tid(payload) != queryTid
    ensures r.Ok? <==> |payload| >= ReplyBuffer && Tid(payload) == queryTid
  {
    var buf := CopyOut(payload, ReplyBuffer);
    if |buf| < ReplyBuffer then Err(UnexpectedEof)
    else if queryTid != Tid(buf) then Err(InvalidData)
    else Ok(())
  }

  /**
   * `check_dns_query_delay`: `exchange` is the outcome of the timed exchange
   * (bind, send, receive) with the reply's payload, `elapsed` the time it
   * took. The answer is the delay, or why the check failed.
   */
  function CheckDnsQueryDelay(b0: byte, b1: byte, exchange: Outcome<seq<byte>, IoError>, elapsed: nat)
    : (r: Outcome<nat, IoError>)
    ensures exchange.Err? ==> r == Err(exchange.error)
    ensures exchange.Ok? ==> (r.Ok? <==> ValidateReply(exchange.value, Tid(CheckQuery(b0, b1))).Ok?)
    ensures exchange.Ok? && |exchange.value| < ReplyBuffer ==> r == Err(UnexpectedEof)
    ensures exchange.Ok? && |exchange.value| >= ReplyBuffer ==>
              (Tid(exchange.value) != Tid(CheckQuery(b0, b1)) ==> r == Err(InvalidData))
    ensures r.Ok? ==> r.value == elapsed
    ensures !r.Panic? || exchange.Panic?
  {
    var payload :- exchange;
    var _ :- ValidateReply(payload, Tid(CheckQuery(b0, b1)));
    Ok(elapsed)
  }

  /** A reply of at least 12 bytes that echoes the query's ID passes the check. */
  lemma {:induction false} EchoPasses(b0: byte, b1: byte, reply: seq<byte>, elapsed: nat)
    requires |reply| >= ReplyBuffer && reply[..2] == CheckQuery(b0, b1)[..2]
    ensures CheckDnsQueryDelay(b0, b1, Ok(reply), elapsed) == Ok(elapsed)
  {
    assert reply[0] == b0 && reply[1] == b1;
  }

  /** Which race answered first in an `Unspecified` server's check. */
  datatype Family = V4 | V6

  /**
   * One server's check (lines 59-78): IPv4 servers query the IPv4 DNS
   * server, IPv6 and dual-stack ones the IPv6 server; an unspecified server
   * races both, and a success there runs the probe, whose class replaces
   * the server's. The answer is the check's outcome and the new class.
   */
  function CheckServer(p: InnerProto, r4: Outcome<nat, IoError>, r6: Outcome<nat, IoError>, first: Family,
                       probe: InnerProto): (c: (Outcome<nat, IoError>, InnerProto))
    ensures p.IPv4? ==> c == (r4, p)
    ensures p.IPv6? || p.Inet? ==> c == (r6, p)
    ensures p.Unspecified? ==> c.0 == (if first.V4? then r4 else r6)
    ensures c.1 != p ==> p.Unspecified? && c.0.Ok? && c.1 == probe
    ensures p.Unspecified? ==> c.1 == (if c.0.Ok? then probe else p)
  {
    match p
    case IPv4 => (r4, p)
    case IPv6 => (r6, p)
    case Inet => (r6, p)
    case Unspecified =>
      var r := if first.V4? then r4 else r6;
      (r, if r.Ok? then probe else p)
  }

  /**
   * An unspecified server whose race succeeded takes the probe's class, and
   * once that class is a specific one the next round checks it directly:
   * one DNS server, no race and no probe.
   */
  lemma {:induction false} ProbedClassSticks(r4: Outcome<nat, IoError>, r6: Outcome<nat, IoError>, first: Family,
                                             probe: InnerProto, next4: Outcome<nat, IoError>,
                                             next6: Outcome<nat, IoError>, nextFirst: Family, nextProbe: InnerProto)
    requires (if first.V4? then r4 else r6).Ok? && !probe.Unspecified?
    ensures var c := CheckServer(Unspecified, r4, r6, first, probe);
      var d := CheckServer(c.1, next4, next6, nextFirst, nextProbe);
      c.1 == probe && d == (if probe.IPv4? then next4 else next6, probe)
  {
  }

  /** A server as the checker sees it. */
  datatype Server = Server(id: nat, proto: InnerProto, history: PingHistory)

  /** The server after its measurement was added. */
  function Measured(s: Server, d: Option<Delay>): Server
  {
    s.(history := AddMeasurement(s.history, d))
  }

  /**
   * The fold of lines 83-98: each check's delay (`None` for a failed one)
   * is added to its server's history, and the checks and successes are
   * counted. `results[i]` is server `i`'s outcome; the order in which the
   * checks finish changes neither the counts nor any single history.
   */
  method CheckAll(servers: seq<Server>, results: seq<Option<Delay>>) returns (sum: nat, ok: nat, updated: seq<Server>)
    requires |results| == |servers|
    ensures sum == |servers| && ok == Successes(results) && ok <= sum
    ensures |updated| == |servers|
    ensures forall i :: 0 <= i < |servers| ==> updated[i] == Measured(servers[i], results[i])
  {
    sum, ok := CountChecks(results);
    updated := seq(|servers|, i requires 0 <= i < |servers| => Measured(servers[i], results[i]));
  }

  /** The counting half of the fold: every result is a check, every `Some` a success. */
  method CountChecks(results: seq<Option<Delay>>) returns (sum: nat, ok: nat)
    ensures sum == |results| && ok == Successes(results) && ok <= sum
  {
    sum, ok := 0, 0;
    for i := 0 to |results|
      invariant sum == i && ok == Successes(results[..i])
    {
      SuccessStep(results, i);
      sum, ok := sum + 1, ok + if results[i].Some? then 1 else 0;
    }
    assert results[..|results|] == results;
  }

  lemma {:induction false} SuccessStep(ps: seq<Option<Delay>>, i: nat)
    requires i < |ps|
    ensures Successes(ps[..i + 1]) == Successes(ps[..i]) + (if ps[i].Some? then 1 else 0)
  {
    assert ps[..i + 1][..i] == ps[..i];
  }

  /** Every history stays within `DELAY_MAX_HISTORY` through a check. */
  lemma {:induction false} CheckAllKeepsValid(servers: seq<Server>, results: seq<Option<Delay>>, updated: seq<Server>)
    requires |results| == |servers| == |updated|
    requires forall i :: 0 <= i < |servers| ==> updated[i] == Measured(servers[i], results[i])
    requires forall i :: 0 <= i < |servers| ==> Valid(servers[i].history)
    ensures forall i :: 0 <= i < |updated| ==> Valid(updated[i].history)
  {
  }

  /** A server's score, the sort key. */
  function ServerScore(s: Server, millis: Delay -> u16, weigh: (nat, PingHistory) -> int): int
  {
    Score(s.history, millis, weigh)
  }

  /**
   * `reorder_servers`: `sort_by_key` on the score, a stable sort, then the
   * new first server.
   */
  function ReorderServers(servers: seq<Server>, millis: Delay -> u16, weigh: (nat, PingHistory) -> int)
    : (r: (seq<Server>, Option<Server>))
    ensures var key := s => ServerScore(s, millis, weigh);
      Sorting.SortedBy(r.0, key) && multiset(r.0) == multiset(servers)
      && (forall k :: Sorting.WithKey(r.0, key, k) == Sorting.WithKey(servers, key, k))
    ensures r.1 == if |servers| == 0 then None else Some(r.0[0])
  {
    var key := s => ServerScore(s, millis, weigh);
    var sorted := Sorting.SortBy(servers, key);
    Sorting.SortBySorted(servers, key);
    forall k ensures Sorting.WithKey(sorted, key, k) == Sorting.WithKey(servers, key, k) {
      Sorting.SortByStable(servers, key, k);
    }
    (sorted, if |sorted| == 0 then None else Some(sorted[0]))
  }

  /** The new best server scores no worse than any server in the list. */
  lemma {:induction false} BestScoresLowest(servers: seq<Server>, millis: Delay -> u16, weigh: (nat, PingHistory) -> int, s: Server)
    requires s in servers
    ensures var r := ReorderServers(servers, millis, weigh);
      r.1.Some? && ServerScore(r.1.value, millis, weigh) <= ServerScore(s, millis, weigh)
  {
    var r := ReorderServers(servers, millis, weigh);
    assert s in multiset(r.0);
    var i :| 0 <= i < |r.0| && r.0[i] == s;
    assert ServerScore(r.0[0], millis, weigh) <= ServerScore(r.0[i], millis, weigh);
  }
}

=== FILE: connection.dfy ===
/**
 * `src/app/socks5/connection.rs`: a SOCKS5 UDP association bound to one
 * fixed target. It sends every datagram to that target and accepts only
 * replies from it; unlike `bind.rs`, a read past the end of a datagram is an
 * error returned to the caller, not a panic.
 */
module SocksConnection {
  import opened Bytes
  import opened Wrappers
  import opened SocksUdp
  import Types

  /** `SocksConnection::send_to` (lines 55-71): the request always names the connection's target. */
  function SendTo(target: Types.SocketAddr, payload: seq<byte>): (r: seq<byte>)
    ensures var ip := target.Ip(); var n := |Octets(ip)|;
      |r| == 6 + n + |payload|
      && r[..3] == [0, 0, 0] && r[3] == (if ip.IpV4? then AtypIpv4 else AtypIpv6)
      && r[4..4 + n] == Octets(ip) && r[4 + n..6 + n] == PortBytes(target.port) && r[6 + n..] == payload
  {
    IpRequest(target.Ip(), target.port, payload)
  }

  /** What `recv` does with one datagram that it does not skip. */
  datatype Step = Deliver(payload: seq<byte>) | Abort(error: IoError)

  /** Why `recv` skipped a datagram. */
  datatype Dropped = TooShort | Fragment | UnsupportedAddressType | OtherTarget

  /**
   * One round of the `recv` loop (lines 82-107). A datagram that announces
   * IPv6 but is shorter than 22 bytes ends the loop with `UnexpectedEof`
   * from `?`. The decoded address is `(ip, port).into()`, so a V6 target
   * with a flow label or scope id never matches.
   */
  function Inspect(pkt: seq<byte>, target: Types.SocketAddr): (r: Outcome<Step, Dropped>)
    ensures !r.Panic?
    ensures |pkt| < MinRequestLen ==> r == Err(TooShort)
    ensures |pkt| >= MinRequestLen && pkt[2] != 0 ==> r == Err(Fragment)
    ensures |pkt| >= MinRequestLen && pkt[2] == 0 && pkt[3] != AtypIpv4 && pkt[3] != AtypIpv6
            ==> r == Err(UnsupportedAddressType)
    ensures r.Ok? && r.value.Abort? <==>
      MinRequestLen <= |pkt| < 22 && pkt[2] == 0 && pkt[3] == AtypIpv6
    ensures r.Ok? && r.value.Abort? ==> r.value.error == UnexpectedEof
    ensures r.Ok? && r.value.Deliver? ==>
      target == Types.FromIpPort(target.Ip(), target.port)
      && pkt == [pkt[0], pkt[1]] + SendTo(target, r.value.payload)[2..]
  {
    if |pkt| < MinRequestLen then Err(TooShort)
    else if pkt[2] != 0 then Err(Fragment)
    else if pkt[3] != AtypIpv4 && pkt[3] != AtypIpv6 then Err(UnsupportedAddressType)
    else
      var n := if pkt[3] == AtypIpv4 then 8 else 20;
      if |pkt| < n + 2 then Ok(Abort(UnexpectedEof))
      else
        var ip := if pkt[3] == AtypIpv4 then Types.IpV4(pkt[4..8]) else Types.IpV6(pkt[4..20]);
        var port := PortAt(pkt, n);
        var from := Types.FromIpPort(ip, port);
        if from != target then Err(OtherTarget)
        else
          DeliveredLayout(pkt, n, ip, port);
          Ok(Deliver(pkt[n + 2..]))
  }

  /** A datagram decoded as from `(ip, port)` is laid out as `send_to` lays out its payload. */
  lemma {:induction false} DeliveredLayout(pkt: seq<byte>, n: nat, ip: Types.IpAddr, port: u16)
    requires n + 2 <= |pkt| && 4 <= n && pkt[2] == 0
    requires ip.IpV4? ==> pkt[3] == AtypIpv4 && n == 8 && ip == Types.IpV4(pkt[4..8])
    requires ip.IpV6? ==> pkt[3] == AtypIpv6 && n == 20 && ip == Types.IpV6(pkt[4..20])
    requires PortBytes(port) == pkt[n..n + 2]
    ensures pkt == [pkt[0], pkt[1]] + SendTo(Types.FromIpPort(ip, port), pkt[n + 2..])[2..]
  {
    var t := Types.FromIpPort(ip, port);
    var atyp: byte := if ip.IpV4? then AtypIpv4 else AtypIpv6;
    assert SendTo(t, pkt[n + 2..]) == [0, 0, 0] + [atyp] + Octets(ip) + PortBytes(port) + pkt[n + 2..] by {
      assert t.Ip() == ip && t.port == port;
    }
    assert atyp == pkt[3] && Octets(ip) == pkt[4..n];
    SplitLayout(pkt, n, atyp, Octets(ip), PortBytes(port));
  }

  lemma {:induction false} SplitLayout(pkt: seq<byte>, n: nat, atyp: byte, octets: seq<byte>, port: seq<byte>)
    requires n + 2 <= |pkt| && 4 <= n && pkt[2] == 0
    requires pkt[3] == atyp && pkt[4..n] == octets && pkt[n..n + 2] == port
    ensures pkt == [pkt[0], pkt[1]] + ([0, 0, 0] + [atyp] + octets + port + pkt[n + 2..])[2..]
  {
    assert ([0, 0, 0] + [atyp] + octets + port + pkt[n + 2..])[2..] == [0, atyp] + octets + port + pkt[n + 2..];
    assert pkt == pkt[..4] + pkt[4..n] + pkt[n..n + 2] + pkt[n + 2..];
  }

  /**
   * A datagram laid out as `send_to` lays it out is delivered exactly when
   * the target is one that `(ip, port).into()` can produce, that is, has no
   * flow label or scope id; otherwise it is taken for another target's.
   */
  lemma {:induction false} InspectSendTo(target: Types.SocketAddr, payload: seq<byte>)
    ensures Inspect(SendTo(target, payload), target)
            == if target == Types.FromIpPort(target.Ip(), target.port) then Ok(Deliver(payload)) else Err(OtherTarget)
  {
    var ip := target.Ip();
    var port := target.port;
    var pkt := SendTo(target, payload);
    var n := 4 + |Octets(ip)|;
    assert pkt == [0, 0, 0] + [if ip.IpV4? then AtypIpv4 else AtypIpv6] + Octets(ip) + (PortBytes(port) + payload);
    assert pkt[4..n] == Octets(ip);
    assert pkt[n..] == PortBytes(port) + payload;
    ReadUintOf(port, 2, payload);
    assert ip.IpV4? ==> ip == Types.IpV4(pkt[4..8]);
    assert ip.IpV6? ==> ip == Types.IpV6(pkt[4..20]);
  }

  /** Each datagram's round, in order, on what the 2048-byte buffer holds of it. */
  function InspectAll(ds: seq<seq<byte>>, target: Types.SocketAddr): (os: seq<Outcome<Step, Dropped>>)
    ensures |os| == |ds|
    ensures forall j :: 0 <= j < |ds| ==> os[j] == Inspect(Truncated(ds[j]), target)
  {
    seq(|ds|, j requires 0 <= j < |ds| => Inspect(Truncated(ds[j]), target))
  }

  /**
   * `SocksConnection::recv` over the datagrams the socket delivers (lines
   * 75-108): each is read into a 2048-byte buffer, so only its first 2048
   * bytes are looked at; skipped datagrams are passed over; the first other
   * one either fails the call or is copied into a buffer of `cap` bytes. It
   * never panics.
   */
  function Recv(ds: seq<seq<byte>>, target: Types.SocketAddr, cap: nat): (r: Outcome<Received<()>, RecvStop>)
    ensures !r.Panic?
    ensures r == Err(Exhausted) <==> forall j :: 0 <= j < |ds| ==> Inspect(Truncated(ds[j]), target).Err?
    ensures r.Err? && r.error.Failed? ==> r.error.error == UnexpectedEof
    ensures r.Ok? ==>
      var k := r.value.index;
      k < |ds| && Inspect(Truncated(ds[k]), target).Ok? && Inspect(Truncated(ds[k]), target).value.Deliver?
      && r.value.data == CopyOut(Inspect(Truncated(ds[k]), target).value.payload, cap)
      && forall j :: 0 <= j < k ==> Inspect(Truncated(ds[j]), target).Err?
  {
    var first :- FirstDecoded(InspectAll(ds, target), 0);
    match first.1
    case Deliver(p) => Ok(Received(first.0, CopyOut(p, cap), ()))
    case Abort(e) => Err(Failed(e))
  }

  /**
   * A payload sent with `send_to` and echoed back by the proxy with the same
   * target, and short enough for the 2048-byte buffer, is received intact
   * (as far as `cap` holds), after any number of datagrams from other targets.
   */
  lemma {:induction false} RecvSendTo(others: seq<seq<byte>>, target: Types.SocketAddr, payload: seq<byte>, cap: nat)
    requires forall j :: 0 <= j < |others| ==> Inspect(Truncated(others[j]), target) == Err(OtherTarget)
    requires target == Types.FromIpPort(target.Ip(), target.port)
    requires |SendTo(target, payload)| <= RecvBuffer
    ensures Recv(others + [SendTo(target, payload)], target, cap) == Ok(Received(|others|, CopyOut(payload, cap), ()))
  {
    var ds := others + [SendTo(target, payload)];
    var os := InspectAll(ds, target);
    InspectSendTo(target, payload);
    assert os[|others|] == Ok(Deliver(payload));
    assert forall j :: 0 <= j < |others| ==> os[j].Err? by {
      forall j | 0 <= j < |others| ensures os[j].Err? {
        assert ds[j] == others[j];
      }
    }
    FirstDecodedAfterErrors(os, 0, |others|, Deliver(payload));
  }

  /**
   * A longer reply loses its tail: of the payload, only the bytes that fit
   * into 2048 bytes after the header are delivered.
   */
  lemma {:induction false} RecvLongSendTo(target: Types.SocketAddr, payload: seq<byte>, cap: nat, keep: nat)
    requires target == Types.FromIpPort(target.Ip(), target.port)
    requires |SendTo(target, payload)| > RecvBuffer
    requires keep == RecvBuffer - (|SendTo(target, payload)| - |payload|)
    ensures keep < |payload|
    ensures Recv([SendTo(target, payload)], target, cap) == Ok(Received(0, CopyOut(payload[..keep], cap), ()))
  {
    var pkt := SendTo(target, payload);
    var short := payload[..keep];
    assert Truncated(pkt) == SendTo(target, short) by {
      assert pkt == IpRequest(target.Ip(), target.port, []) + payload;
      assert SendTo(target, short) == IpRequest(target.Ip(), target.port, []) + short;
    }
    InspectSendTo(target, short);
    var os := InspectAll([pkt], target);
    assert os[0] == Ok(Deliver(short));
    FirstDecodedAfterErrors(os, 0, 0, Deliver(short));
  }
}

=== FILE: context.dfy ===
/**
 * `src/app/context.rs`: the configured SOCKS5 servers. Addresses given on
 * the command line more than once are configured once, at their first
 * occurrence.
 */
module AppContext {
  import opened Wrappers
  import opened Lists
  import Types

  /**
   * The addresses of `addrs` at their first occurrences, in input order:
   * the reference the de-duplicating loop is held to.
   */
  function FirstOccurrences<T(==)>(addrs: seq<T>): seq<T>
  {
    if |addrs| == 0 then []
    else
      var r := FirstOccurrences(addrs[..|addrs| - 1]);
      if addrs[|addrs| - 1] in r then r else r + [addrs[|addrs| - 1]]
  }

  /**
   * The `filter_map` of lines 15-28: an address is kept unless the set of
   * addresses seen so far holds it already.
   */
  method Dedup<T(==)>(addrs: seq<T>) returns (servers: seq<T>)
    ensures servers == FirstOccurrences(addrs)
    ensures Distinct(servers)
    ensures forall a :: a in servers <==> a in addrs
  {
    var seen: set<T> := {};
    servers := [];
    for i := 0 to |addrs|
      invariant servers == FirstOccurrences(addrs[..i])
      invariant forall a :: a in seen <==> a in servers
    {
      assert addrs[..i + 1][..i] == addrs[..i];
      if addrs[i] !in seen {
        seen := seen + {addrs[i]};
        servers := servers + [addrs[i]];
      }
    }
    assert addrs[..|addrs|] == addrs;
    FirstOccurrencesDistinct(addrs);
    FirstOccurrencesMembers(addrs);
  }

  lemma {:induction false} FirstOccurrencesDistinct<T>(addrs: seq<T>)
    ensures Distinct(FirstOccurrences(addrs))
  {
    if |addrs| > 0 {
      FirstOccurrencesDistinct(addrs[..|addrs| - 1]);
    }
  }

  lemma {:induction false} FirstOccurrencesMembers<T>(addrs: seq<T>)
    ensures forall a :: a in FirstOccurrences(addrs) <==> a in addrs
  {
    if |addrs| > 0 {
      var init := addrs[..|addrs| - 1];
      FirstOccurrencesMembers(init);
      assert addrs == init + [addrs[|addrs| - 1]];
    }
  }

  /**
   * The kept addresses are in the order of their first occurrences in the
   * input: an address listed before another was first given before it.
   */
  lemma {:induction false} FirstOccurrencesOrdered<T>(addrs: seq<T>, i: nat, j: nat)
    requires i < j < |FirstOccurrences(addrs)|
    ensures var r := FirstOccurrences(addrs);
      Position(addrs, r[i]).Some? && Position(addrs, r[j]).Some?
      && Position(addrs, r[i]).value < Position(addrs, r[j]).value
  {
    var r := FirstOccurrences(addrs);
    assert |addrs| > 0;
    var init := addrs[..|addrs| - 1];
    var x := addrs[|addrs| - 1];
    var r0 := FirstOccurrences(init);
    assert r == if x in r0 then r0 else r0 + [x];
    assert addrs == init + [x];
    assert i < |r0| && r[i] == r0[i];
    FirstOccurrenceIn(init, i);
    PositionPrefix(init, x, r[i]);
    if j < |r0| {
      FirstOccurrencesOrdered(init, i, j);
      FirstOccurrenceIn(init, j);
      PositionPrefix(init, x, r[j]);
    } else {
      FirstOccurrencesMembers(init);
      assert r[j] == x && x !in init;
      PositionLast(init, x);
    }
  }

  lemma FirstOccurrenceIn<T>(addrs: seq<T>, i: nat)
    requires i < |FirstOccurrences(addrs)|
    ensures FirstOccurrences(addrs)[i] in addrs
  {
    FirstOccurrencesMembers(addrs);
    assert FirstOccurrences(addrs)[i] in FirstOccurrences(addrs);
  }

  /** An element of the front of a list has the same first position in the whole list. */
  lemma {:induction false} PositionPrefix<T>(s: seq<T>, x: T, y: T)
    requires y in s
    ensures Position(s + [x], y) == Position(s, y)
  {
    var p := Position(s, y).value;
    var t := s + [x];
    assert t[p] == y && t[..p] == s[..p];
    PositionUnique(t, y, p);
  }

  /** A new element at the end is first found there. */
  lemma {:induction false} PositionLast<T>(s: seq<T>, x: T)
    requires x !in s
    ensures Position(s + [x], x) == Some(|s|)
  {
    var t := s + [x];
    assert t[..|s|] == s;
    PositionUnique(t, x, |s|);
  }

  /** `Position` names the one index at which `x` occurs first. */
  lemma {:induction false} PositionUnique<T>(s: seq<T>, x: T, p: nat)
    requires p < |s| && s[p] == x && x !in s[..p]
    ensures Position(s, x) == Some(p)
  {
  }

  /** An input without duplicates is configured unchanged. */
  lemma {:induction false} DedupDistinct<T>(addrs: seq<T>)
    requires Distinct(addrs)
    ensures FirstOccurrences(addrs) == addrs
  {
    if |addrs| > 0 {
      var init := addrs[..|addrs| - 1];
      DedupDistinct(init);
      assert addrs == init + [addrs[|addrs| - 1]];
    }
  }

  /** `AppContext`: the list of configured SOCKS5 servers, by UDP address. */
  datatype Context = Context(servers: seq<Types.SocketAddr>)

  /**
   * `from_cli_args`: one server per distinct address of `--socks5-udp`, in
   * the order given.
   */
  method FromCliArgs(socks5Udp: seq<Types.SocketAddr>) returns (ctx: Context)
    ensures Socks5Servers(ctx) == FirstOccurrences(socks5Udp)
    ensures Distinct(Socks5Servers(ctx))
    ensures forall a :: a in Socks5Servers(ctx) <==> a in socks5Udp
  {
    var servers := Dedup(socks5Udp);
    ctx := Context(servers);
  }

  /** `socks5_servers`: a copy of the list, which as a value is the list itself. */
  function Socks5Servers(ctx: Context): (r: seq<Types.SocketAddr>)
    ensures |r| == |ctx.servers| && forall i :: 0 <= i < |r| ==> r[i] == ctx.servers[i]
  {
    ctx.servers
  }
}

=== FILE: crypto.dfy ===
/**
 * Key material for QUIC version 1 Initial packets (`src/app/quic/crypto.rs`),
 * following section 5.2 of RFC 9001: a client Initial secret extracted from
 * the Destination Connection ID under a fixed salt, then the header
 * protection key, the packet key and the IV expanded from it with
 * HKDF-Expand-Label (section 7.1 of RFC 8446), and the per-packet nonce of
 * section 5.3 of RFC 9001.
 *
 * HKDF-SHA256, the AES-128 header-protection mask and AES-128-GCM are the
 * `ring` crate's; here they are the fields of a `Primitives` value, about
 * which the model knows only the lengths of their outputs.
 */
module QuicCrypto {
  import opened Bytes
  import opened Wrappers

  // ---------------------------------------------------------------------
  // HkdfLabel (section 7.1 of RFC 8446)
  // ---------------------------------------------------------------------

  /**
   * `struct { uint16 length; opaque label<7..255>; opaque context<0..255>; }`:
   * the `info` argument of HKDF-Expand-Label.
   */
  datatype HkdfLabel = HkdfLabel(length: u16, name: seq<byte>, context: seq<byte>)

  /** The prefix every TLS 1.3 label carries. */
  function Tls13Prefix(): (r: seq<byte>)
    ensures |r| == 6
  {
    Ascii("tls13 ")
  }

  /** A label RFC 8446 allows: "tls13 " followed by the label proper, with a short context. */
  predicate WellFormedLabel(l: HkdfLabel)
  {
    7 <= |l.name| <= 255 && l.name[..6] == Tls13Prefix() && |l.context| <= 255
  }

  function EncodeLabel(l: HkdfLabel): (r: seq<byte>)
    requires |l.name| <= 255 && |l.context| <= 255
    ensures |r| == 4 + |l.name| + |l.context|
  {
    BeBytes(l.length, 2) + [|l.name|] + l.name + [|l.context|] + l.context
  }

  /** Reads an encoded `HkdfLabel` that spans the whole of `s`. */
  function ParseLabel(s: seq<byte>): (r: Option<HkdfLabel>)
    ensures r.Some? ==> |r.value.name| <= 255 && |r.value.context| <= 255
    ensures r.Some? ==> EncodeLabel(r.value) == s
  {
    if |s| < 3 || |s| < 4 + (s[2] as int) then None
    else
      var labelLen := s[2] as int;
      var contextLen := s[3 + labelLen] as int;
      if |s| != 4 + labelLen + contextLen then None
      else
        BeUint2(s[..2]);
        BeUintRoundTrip(s[..2]);
        var l := HkdfLabel(BeUint(s[..2]), s[3..3 + labelLen], s[4 + labelLen..]);
        assert s == s[..2] + [s[2]] + s[3..3 + labelLen] + [s[3 + labelLen]] + s[4 + labelLen..];
        Some(l)
  }

  /** Parsing inverts encoding. */
  lemma {:induction false} ParseEncodeLabel(l: HkdfLabel)
    requires |l.name| <= 255 && |l.context| <= 255
    ensures ParseLabel(EncodeLabel(l)) == Some(l)
  {
    var s := EncodeLabel(l);
    var n := |l.name|;
    assert s[..2] == BeBytes(l.length, 2);
    BeBytesRoundTrip(l.length, 2);
    assert s[2] == n;
    assert s[3..3 + n] == l.name;
    assert s[3 + n] == |l.context|;
    assert s[4 + n..] == l.context;
  }

  /** The output length a label declares, or 0 for a string that is not a label. */
  function DeclaredLength(s: seq<byte>): nat
  {
    match ParseLabel(s)
    case Some(l) => l.length
    case None => 0
  }

  // ---------------------------------------------------------------------
  // Constants
  // ---------------------------------------------------------------------

  /** The QUIC version 1 Initial salt (section 5.2 of RFC 9001). */
  const InitialSalt: seq<byte> := [
    0x38, 0x76, 0x2c, 0xf7, 0xf5, 0x59, 0x34, 0xb3, 0x4d, 0x17,
    0x9a, 0xe6, 0xa4, 0xc8, 0x0c, 0xad, 0xcc, 0xbb, 0x7f, 0x0a]

  /** HkdfLabel(32, "tls13 client in", ""). */
  const LabelClientIn: seq<byte> := [
    0x00, 0x20, 0x0f, 0x74, 0x6c, 0x73, 0x31, 0x33, 0x20, 0x63,
    0x6c, 0x69, 0x65, 0x6e, 0x74, 0x20, 0x69, 0x6e, 0x00]

  /** HkdfLabel(16, "tls13 quic hp", ""). */
  const LabelQuicHp: seq<byte> := [
    0x00, 0x10, 0x0d, 0x74, 0x6c, 0x73, 0x31, 0x33, 0x20, 0x71,
    0x75, 0x69, 0x63, 0x20, 0x68, 0x70, 0x00]

  /** HkdfLabel(16, "tls13 quic key", ""). */
  const LabelQuicKey: seq<byte> := [
    0x00, 0x10, 0x0e, 0x74, 0x6c, 0x73, 0x31, 0x33, 0x20, 0x71,
    0x75, 0x69, 0x63, 0x20, 0x6b, 0x65, 0x79, 0x00]

  /** HkdfLabel(12, "tls13 quic iv", ""). */
  const LabelQuicIv: seq<byte> := [
    0x00, 0x0c, 0x0d, 0x74, 0x6c, 0x73, 0x31, 0x33, 0x20, 0x71,
    0x75, 0x69, 0x63, 0x20, 0x69, 0x76, 0x00]

  /** HKDF-SHA256 output length: the client Initial secret. */
  const SecretLen: nat := 32
  /** AES-128 key length: the header protection key and the packet key. */
  const KeyLen: nat := 16
  /** `NONCE_LEN` of AES-128-GCM: the IV and the nonce. */
  const NonceLen: nat := 12
  /** Bytes of header-protection mask `new_mask` returns. */
  const MaskLen: nat := 5
  /** Bytes of the ciphertext sample the mask is computed from (AES). */
  const SampleLen: nat := 16
  /** AES-128-GCM authentication tag length. */
  const TagLen: nat := 16

  /** Each constant is the encoding of a label with an empty context. */
  lemma {:induction false} LabelClientInEncodes()
    ensures LabelClientIn == EncodeLabel(HkdfLabel(32, Tls13Prefix() + Ascii("client in"), []))
  {
    assert BeBytes(32, 2) == [0, 32];
  }

  lemma {:induction false} LabelQuicHpEncodes()
    ensures LabelQuicHp == EncodeLabel(HkdfLabel(16, Tls13Prefix() + Ascii("quic hp"), []))
  {
    assert BeBytes(16, 2) == [0, 16];
  }

  lemma {:induction false} LabelQuicKeyEncodes()
    ensures LabelQuicKey == EncodeLabel(HkdfLabel(16, Tls13Prefix() + Ascii("quic key"), []))
  {
    assert BeBytes(16, 2) == [0, 16];
  }

  lemma {:induction false} LabelQuicIvEncodes()
    ensures LabelQuicIv == EncodeLabel(HkdfLabel(12, Tls13Prefix() + Ascii("quic iv"), []))
  {
    assert BeBytes(12, 2) == [0, 12];
  }

  /** The labels parse back, are well formed, and declare the lengths the code fills. */
  lemma {:induction false} LabelsDeclareLengths()
    ensures ParseLabel(LabelClientIn).Some? && WellFormedLabel(ParseLabel(LabelClientIn).value)
    ensures ParseLabel(LabelQuicHp).Some? && WellFormedLabel(ParseLabel(LabelQuicHp).value)
    ensures ParseLabel(LabelQuicKey).Some? && WellFormedLabel(ParseLabel(LabelQuicKey).value)
    ensures ParseLabel(LabelQuicIv).Some? && WellFormedLabel(ParseLabel(LabelQuicIv).value)
    ensures DeclaredLength(LabelClientIn) == SecretLen
    ensures DeclaredLength(LabelQuicHp) == KeyLen
    ensures DeclaredLength(LabelQuicKey) == KeyLen
    ensures DeclaredLength(LabelQuicIv) == NonceLen
  {
    LabelClientInEncodes();
    LabelQuicHpEncodes();
    LabelQuicKeyEncodes();
    LabelQuicIvEncodes();
    var p := Tls13Prefix();
    ParseEncodeLabel(HkdfLabel(32, p + Ascii("client in"), []));
    ParseEncodeLabel(HkdfLabel(16, p + Ascii("quic hp"), []));
    ParseEncodeLabel(HkdfLabel(16, p + Ascii("quic key"), []));
    ParseEncodeLabel(HkdfLabel(12, p + Ascii("quic iv"), []));
    assert (p + Ascii("client in"))[..6] == p;
    assert (p + Ascii("quic hp"))[..6] == p;
    assert (p + Ascii("quic key"))[..6] == p;
    assert (p + Ascii("quic iv"))[..6] == p;
  }

  // ---------------------------------------------------------------------
  // The primitives
  // ---------------------------------------------------------------------

  /** HKDF-Expand(prk, info, len): `len` bytes of output keying material. */
  type ExpandFn = f: (seq<byte>, seq<byte>, nat) -> seq<byte>
    | forall prk, info, len :: |f(prk, info, len)| == len
    witness (prk: seq<byte>, info: seq<byte>, len: nat) => Zeros(len)

  /** AES-based header protection: a key and a 16-byte sample give a 5-byte mask. */
  type MaskFn = f: (seq<byte>, seq<byte>) -> seq<byte>
    | forall key, sample :: |f(key, sample)| == MaskLen
    witness (key: seq<byte>, sample: seq<byte>) => Zeros(5)

  /**
   * AES-128-GCM open: key, nonce, associated data and ciphertext-with-tag give
   * the plaintext, which is the tag length shorter, or nothing when the
   * ciphertext does not authenticate.
   */
  type OpenFn = f: (seq<byte>, seq<byte>, seq<byte>, seq<byte>) -> Option<seq<byte>>
    | forall key, nonce, aad, sealed :: f(key, nonce, aad, sealed).Some? ==>
        |f(key, nonce, aad, sealed).value| + TagLen == |sealed|
    witness (key: seq<byte>, nonce: seq<byte>, aad: seq<byte>, sealed: seq<byte>) => None

  /** The `ring` functions the code calls. */
  datatype Primitives = Primitives(
    extract: (seq<byte>, seq<byte>) -> seq<byte>,
    expand: ExpandFn,
    newMask: MaskFn,
    open: OpenFn)

  // ---------------------------------------------------------------------
  // Initial secrets and keys
  // ---------------------------------------------------------------------

  /**
   * `InitialSecret::new`: HKDF-Extract of the DCID under the version 1 salt,
   * then expanded with the client_in label into the length the label declares
   * (`LabelsDeclareLengths`).
   */
  function InitialSecret(p: Primitives, dcid: seq<byte>): (r: seq<byte>)
    ensures |r| == SecretLen
  {
    p.expand(p.extract(InitialSalt, dcid), LabelClientIn, SecretLen)
  }

  /** The three keys the code derives from an Initial secret. */
  datatype Keys = Keys(hp: seq<byte>, key: seq<byte>, iv: seq<byte>)

  /**
   * `From<&InitialSecret> for HeaderProtectionKey` and for `LessSafeKey`, and
   * `compute_iv`: each output fills exactly the length its label declares
   * (`LabelsDeclareLengths`), which is what `fill(..).unwrap()` needs not to panic.
   */
  function DeriveKeys(p: Primitives, secret: seq<byte>): (r: Keys)
    ensures |r.hp| == KeyLen && |r.key| == KeyLen && |r.iv| == NonceLen
  {
    Keys(p.expand(secret, LabelQuicHp, KeyLen),
         p.expand(secret, LabelQuicKey, KeyLen),
         p.expand(secret, LabelQuicIv, NonceLen))
  }

  // ---------------------------------------------------------------------
  // The nonce (section 5.3 of RFC 9001)
  // ---------------------------------------------------------------------

  /**
   * The packet number in network byte order, left-padded with zeros to the
   * IV's length, XORed with the IV.
   */
  function Nonce(iv: seq<byte>, pn: u64): (r: seq<byte>)
    requires |iv| == NonceLen
    ensures |r| == NonceLen
    ensures r[..4] == iv[..4]
    ensures r[4..] == XorSeq(iv[4..], BeBytes(pn, 8))
  {
    XorSeq(iv, Zeros(4) + BeBytes(pn, 8))
  }

  /**
   * `InitialSecret::nonce`: walks the IV and the packet number's eight
   * big-endian bytes from the end together, XORing byte into byte.
   */
  method NonceInPlace(iv: seq<byte>, pn: u64) returns (n: seq<byte>)
    requires |iv| == NonceLen
    ensures n == Nonce(iv, pn)
  {
    var pnBytes := BeBytes(pn, 8);
    n := iv;
    var k := 0;
    while k < 8
      invariant 0 <= k <= 8
      invariant |n| == NonceLen
      invariant forall j :: 0 <= j < 12 - k ==> n[j] == iv[j]
      invariant forall j :: 12 - k <= j < 12 ==> n[j] == Xor(iv[j], pnBytes[j - 4])
    {
      n := n[11 - k := Xor(n[11 - k], pnBytes[7 - k])];
      k := k + 1;
    }
    var padded := Zeros(4) + pnBytes;
    forall j | 0 <= j < 12
      ensures n[j] == Nonce(iv, pn)[j]
    {
      if j < 4 {
        XorZero(iv[j]);
      }
    }
  }

  lemma {:induction false} BeBytesZero(len: nat)
    ensures BeBytes(0, len) == Zeros(len)
  {
    if len > 0 {
      BeBytesZero(len - 1);
    }
  }

  /** Packet number 0 uses the IV itself. */
  lemma {:induction false} NonceZero(iv: seq<byte>)
    requires |iv| == NonceLen
    ensures Nonce(iv, 0) == iv
  {
    BeBytesZero(8);
    assert Zeros(4) + Zeros(8) == Zeros(12);
    XorSeqZeros(iv);
  }

  /** Distinct packet numbers never share a nonce under one IV. */
  lemma {:induction false} NonceInjective(iv: seq<byte>, a: u64, b: u64)
    requires |iv| == NonceLen
    requires Nonce(iv, a) == Nonce(iv, b)
    ensures a == b
  {
    var pa, pb := Zeros(4) + BeBytes(a, 8), Zeros(4) + BeBytes(b, 8);
    XorSeqInjective(iv, pa, pb);
    assert BeBytes(a, 8) == pa[4..] == pb[4..] == BeBytes(b, 8);
    assert Pow256(8) == 0x1_0000_0000_0000_0000;
    BeBytesRoundTrip(a, 8);
    BeBytesRoundTrip(b, 8);
  }

  /** The IV of the example in appendix A.2 of RFC 9001, and the nonce of its packet number 2. */
  lemma {:induction false} NonceExample()
    ensures Nonce([0xfa, 0x04, 0x4b, 0x2f, 0x42, 0xa3, 0xfd, 0x3b, 0x46, 0xfb, 0x25, 0x5c], 2)
         == [0xfa, 0x04, 0x4b, 0x2f, 0x42, 0xa3, 0xfd, 0x3b, 0x46, 0xfb, 0x25, 0x5e]
  {
    var iv: seq<byte> := [0xfa, 0x04, 0x4b, 0x2f, 0x42, 0xa3, 0xfd, 0x3b, 0x46, 0xfb, 0x25, 0x5c];
    BeBytesZero(7);
    assert BeBytes(2, 8) == BeBytes(0, 7) + [2];
    var r := Nonce(iv, 2);
    forall j | 0 <= j < 11
      ensures r[j] == iv[j]
    {
      XorZero(iv[j]);
    }
    assert Xor(0x5c, 2) == 0x5e;
  }
}

=== FILE: forward.dfy ===
/**
 * `src/app/socks5/forward.rs`: the per-packet path from a transparent-proxy
 * client to a SOCKS5 server. Packets are grouped into QUIC connections by
 * (client, remote); a connection keeps its proxy session until that
 * session's server turns unhealthy, and then moves to the first capable,
 * healthy server of the list.
 */
module SocksForward {
  import opened Bytes
  import opened Wrappers
  import opened SocksUdp
  import opened CheckProbe
  import CheckHealth
  import Types

  /** The outcome of an I/O call whose value is not used: done, or an error. */
  datatype Io = IoOk | IoErr(error: IoError)

  /** A configured server as `select_proxy` sees it: its identity and inner protocol class. */
  datatype Server = Server(id: nat, proto: InnerProto)

  /**
   * The trouble flags of the servers, shared between the list and every
   * session bound to a server. A server without an entry has the default
   * flag, and is healthy.
   */
  type Flags = map<nat, CheckHealth.Health>

  function HealthOf(flags: Flags, id: nat): CheckHealth.Health
  {
    if id in flags then flags[id] else CheckHealth.Default
  }

  predicate Healthy(flags: Flags, id: nat)
  {
    CheckHealth.IsHealthy(HealthOf(flags, id))
  }

  /** `SocksTarget`: a remote by name and port (remote DNS), or by address. */
  datatype Target = ByName(name: string, port: u16) | ByAddr(addr: Types.SocketAddr)

  /**
   * `InnerProto::capable` applied to a target's `proto()`; neither is part
   * of this model, so the relation is a parameter.
   */
  type Capable = (InnerProto, Target) -> bool

  /** A server `select_proxy` may take for `target`: capable and healthy. */
  predicate Usable(s: Server, flags: Flags, target: Target, capable: Capable)
  {
    capable(s.proto, target) && Healthy(flags, s.id)
  }

  /** `Iterator::find` over the list: the index of the first usable server. */
  function FirstUsable(servers: seq<Server>, flags: Flags, target: Target, capable: Capable): (r: Option<nat>)
    ensures r.None? <==> forall i :: 0 <= i < |servers| ==> !Usable(servers[i], flags, target, capable)
    ensures r.Some? ==>
      r.value < |servers| && Usable(servers[r.value], flags, target, capable)
      && forall i :: 0 <= i < r.value ==> !Usable(servers[i], flags, target, capable)
  {
    if |servers| == 0 then None
    else if Usable(servers[0], flags, target, capable) then Some(0)
    else
      var r := FirstUsable(servers[1..], flags, target, capable);
      if r.None? then None
      else
        assert forall i :: 1 <= i <= r.value ==> servers[i] == servers[1..][i - 1];
        Some(r.value + 1)
  }

  /**
   * `select_proxy` (lines 111-120): the first capable and healthy server in
   * list order, bound to the target; `NotFound` when there is none. `bind`
   * is the outcome of `SocksServer::bind` for a server and the target.
   */
  function SelectProxy(servers: seq<Server>, flags: Flags, target: Target, capable: Capable,
                       bind: (nat, Target) -> Io): (r: Outcome<nat, IoError>)
    ensures (forall i :: 0 <= i < |servers| ==> !Usable(servers[i], flags, target, capable)) ==> r == Err(NotFound)
    ensures r.Ok? ==> Healthy(flags, r.value)
    ensures r.Ok? ==> exists i :: (0 <= i < |servers| && servers[i].id == r.value
                                   && Usable(servers[i], flags, target, capable)
                                   && forall j :: 0 <= j < i ==> !Usable(servers[j], flags, target, capable))
    ensures forall i :: 0 <= i < |servers| && Usable(servers[i], flags, target, capable)
                        && (forall j :: 0 <= j < i ==> !Usable(servers[j], flags, target, capable)) ==>
      r == match bind(servers[i].id, target) case IoOk => Ok(servers[i].id) case IoErr(e) => Err(e)
    ensures !r.Panic?
  {
    match FirstUsable(servers, flags, target, capable)
    case None => Err(NotFound)
    case Some(i) =>
      var id := servers[i].id;
      match bind(id, target)
      case IoOk => Ok(id)
      case IoErr(e) => Err(e)
  }

  /**
   * `QuicConn`: the remote, the client, the server name found in the first
   * packet, and the server of the proxy session, if one is set.
   */
  datatype Conn = Conn(remote: Types.RemoteAddr, client: Types.ClientAddr, remoteName: Option<string>, proxy: Option<nat>)

  /** The connections of `SocksForwardService`, keyed by (client, remote). */
  type Conns = map<(Types.ClientAddr, Types.RemoteAddr), Conn>

  /** What one packet leaves behind: the new state, the result, and the server it was sent through. */
  datatype Forwarded = Forwarded(conns: Conns, flags: Flags, result: Outcome<(), IoError>, via: Option<nat>)

  /** The options and foreign parts one forwarding step depends on. */
  datatype Env = Env(
    remoteDns: bool,
    minInitialPacket: nat,
    sniff: seq<byte> -> Option<string>,
    capable: Capable,
    bind: (nat, Target) -> Io)

  /**
   * Lines 57-68: the connection for the key, or a new one whose server name
   * is sniffed from the packet only when remote DNS is on and the packet is
   * large enough to be a QUIC Initial.
   */
  function ConnFor(conns: Conns, client: Types.ClientAddr, remote: Types.RemoteAddr, pkt: seq<byte>, env: Env): Conn
  {
    if (client, remote) in conns then conns[(client, remote)]
    else Conn(remote, client, if env.remoteDns && |pkt| >= env.minInitialPacket then env.sniff(pkt) else None, None)
  }

  /** Lines 78-82: by name with the remote's port when a name is known, else by the remote's address. */
  function TargetOf(c: Conn): Target
  {
    if c.remoteName.Some? then ByName(c.remoteName.value, c.remote.addr.port) else ByAddr(c.remote.addr)
  }

  /**
   * `forward_client_to_remote` (lines 50-108). `send` is the outcome of
   * `send_to_remote` on the chosen session. A connection whose server is
   * unhealthy drops its session; a connection without one selects a server
   * and, when none is available, returns the error without sending. A
   * failed send puts the server in trouble and still returns `Ok`.
   */
  function Forward(conns: Conns, flags: Flags, servers: seq<Server>, client: Types.ClientAddr, remote: Types.RemoteAddr,
                   pkt: seq<byte>, env: Env, send: Io): (f: Forwarded)
    ensures (client, remote) in f.conns
    ensures forall k :: k != (client, remote) ==> (k in f.conns <==> k in conns)
    ensures forall k :: k != (client, remote) && k in conns ==> f.conns[k] == conns[k]
    ensures var c := f.conns[(client, remote)];
      var c0 := ConnFor(conns, client, remote, pkt, env);
      c.remote == c0.remote && c.client == c0.client && c.remoteName == c0.remoteName
    ensures f.result.Ok? <==> f.via.Some?
    ensures !f.result.Panic?
    ensures f.via == f.conns[(client, remote)].proxy
    ensures f.via.Some? ==> Healthy(flags, f.via.value)
    ensures var c0 := ConnFor(conns, client, remote, pkt, env);
      c0.proxy.Some? && Healthy(flags, c0.proxy.value) ==> f.via == c0.proxy
    ensures var c0 := ConnFor(conns, client, remote, pkt, env);
      c0.proxy.None? || !Healthy(flags, c0.proxy.value) ==>
        var s := SelectProxy(servers, flags, TargetOf(c0), env.capable, env.bind);
        (f.result.Err? <==> s.Err?) && (s.Err? ==> f.result.error == s.error) && (s.Ok? ==> f.via == Some(s.value))
    ensures f.via.Some? && send.IoErr? ==> f.flags == flags[f.via.value := CheckHealth.Health(true)]
    ensures f.via.None? || send.IoOk? ==> f.flags == flags
  {
    var key := (client, remote);
    var c0 := ConnFor(conns, client, remote, pkt, env);
    var c1 := if c0.proxy.Some? && !Healthy(flags, c0.proxy.value) then c0.(proxy := None) else c0;
    if c1.proxy.None? then
      var s := SelectProxy(servers, flags, TargetOf(c1), env.capable, env.bind);
      if s.Ok? then Sent(conns[key := c1.(proxy := Some(s.value))], flags, s.value, send)
      else Forwarded(conns[key := c1], flags, Err(s.error), None)
    else
      Sent(conns[key := c1], flags, c1.proxy.value, send)
  }

  /** Lines 87-106: the packet goes through `id`; a failed send sets that server's trouble flag. */
  function Sent(conns: Conns, flags: Flags, id: nat, send: Io): (f: Forwarded)
    ensures f.conns == conns && f.result == Ok(()) && f.via == Some(id)
    ensures IsHealthySet(f.flags, flags, id, send.IoOk?)
  {
    if send.IoOk? then Forwarded(conns, flags, Ok(()), Some(id))
    else Forwarded(conns, flags[id := CheckHealth.SetTroubleness(HealthOf(flags, id), true).next], Ok(()), Some(id))
  }

  /** The flags after a send through `id`: unchanged on success, `id` in trouble on failure. */
  predicate IsHealthySet(next: Flags, flags: Flags, id: nat, ok: bool)
  {
    if ok then next == flags else next == flags[id := CheckHealth.Health(true)]
  }

  /**
   * A connection sticks to its server: once a packet went through a server
   * and the send succeeded, the next packet of the same connection goes
   * through the same server.
   */
  lemma {:induction false} StaysWhileHealthy(conns: Conns, flags: Flags, servers: seq<Server>, client: Types.ClientAddr,
                                             remote: Types.RemoteAddr, pkt: seq<byte>, pkt2: seq<byte>, env: Env)
    requires Forward(conns, flags, servers, client, remote, pkt, env, IoOk).via.Some?
    ensures var f := Forward(conns, flags, servers, client, remote, pkt, env, IoOk);
      forall send :: Forward(f.conns, f.flags, servers, client, remote, pkt2, env, send).via == f.via
  {
    var f := Forward(conns, flags, servers, client, remote, pkt, env, IoOk);
    forall send ensures Forward(f.conns, f.flags, servers, client, remote, pkt2, env, send).via == f.via {
      assert ConnFor(f.conns, client, remote, pkt2, env) == f.conns[(client, remote)];
    }
  }

  /**
   * After a failed send the connection moves on: its next packet does not
   * go through the server that failed.
   */
  lemma {:induction false} MovesAfterFailure(conns: Conns, flags: Flags, servers: seq<Server>, client: Types.ClientAddr,
                                             remote: Types.RemoteAddr, pkt: seq<byte>, pkt2: seq<byte>, env: Env,
                                             failure: IoError, send2: Io)
    requires Forward(conns, flags, servers, client, remote, pkt, env, IoErr(failure)).via.Some?
    ensures var f := Forward(conns, flags, servers, client, remote, pkt, env, IoErr(failure));
      Forward(f.conns, f.flags, servers, client, remote, pkt2, env, send2).via != f.via
  {
    var f := Forward(conns, flags, servers, client, remote, pkt, env, IoErr(failure));
    assert !Healthy(f.flags, f.via.value);
  }
}

=== FILE: frames.dfy ===
/**
 * The frames of a decrypted client Initial (`InitialPacket::crypto_message`
 * in src/app/socks5/quic/mod.rs): PADDING and PING are skipped, ACK means
 * the packet is not a client's first, and CRYPTO frames (section 19.6 of
 * RFC 9000) are placed at their offsets. The message is the part of the
 * placed bytes that runs without a gap from offset 0; a lone first frame at
 * offset 0 is returned as it is. `QuicConnection::try_from` then looks for
 * a server name in that message.
 *
 * As written, the check on a CRYPTO frame compares its end with the length
 * of the whole payload rather than with the bytes left, and the var-ints are
 * read without a length check; both then index past the end and panic.
 * `Corrected` rejects such frames instead (see README, Findings).
 */
module QuicFrames {
  import opened Bytes
  import opened Wrappers
  import opened Quic
  import Sorting
  import Tls
  import Types

  /** `pos..pos + len`, the span of one CRYPTO frame in the message. */
  datatype Range = Range(start: nat, end: nat)

  /**
   * The loop's state: `msg` holds a first frame at offset 0 without copying
   * it; once a second frame arrives it is spilled into `buf` (`msg_buf`),
   * where every later frame is written, and `ranges` records the spans.
   */
  datatype Assembly = Assembly(msg: Option<seq<byte>>, buf: seq<byte>, ranges: seq<Range>)

  const Start: Assembly := Assembly(None, [], [])

  const PaddingType: byte := 0x00
  const PingType: byte := 0x01
  const CryptoType: byte := 0x06

  function Max(a: nat, b: nat): nat
  {
    if a < b then b else a
  }

  function StartOf(r: Range): int
  {
    r.start
  }

  // ---------------------------------------------------------------------
  // Placing one frame
  // ---------------------------------------------------------------------

  /** `msg_buf.resize(pos + len, 0)` when it is shorter, then `copy_from_slice` into `pos..pos + len`. */
  function Place(buf: seq<byte>, pos: nat, data: seq<byte>): (r: seq<byte>)
    ensures |r| == Max(|buf|, pos + |data|)
    ensures r[pos..pos + |data|] == data
    ensures forall i :: 0 <= i < |r| && !(pos <= i < pos + |data|) ==> r[i] == if i < |buf| then buf[i] else 0
  {
    var grown := if |buf| < pos + |data| then buf + Zeros(pos + |data| - |buf|) else buf;
    grown[..pos] + data + grown[pos + |data|..]
  }

  /** The state with a kept first frame moved into the buffer, as the code does before writing a second frame. */
  function Spill(a: Assembly): (s: Assembly)
    ensures s.msg.None?
  {
    if a.msg.Some? then Assembly(None, a.buf + a.msg.value, a.ranges + [Range(0, |a.msg.value|)]) else a
  }

  /** One CRYPTO frame of offset `pos` carrying `data`. */
  function AddFrame(a: Assembly, pos: nat, data: seq<byte>): Assembly
  {
    if a.msg.None? && |a.buf| == 0 && pos == 0 then a.(msg := Some(data))
    else
      var s := Spill(a);
      Assembly(None, Place(s.buf, pos, data), s.ranges + [Range(pos, pos + |data|)])
  }

  /** What the loop keeps true: a kept frame only beside an empty buffer, and every span inside the buffer. */
  predicate Inv(a: Assembly)
  {
    (a.msg.Some? ==> |a.buf| == 0)
    && forall r :: r in a.ranges ==> r.start <= r.end <= |a.buf|
  }

  lemma {:induction false} AddFrameInv(a: Assembly, pos: nat, data: seq<byte>)
    requires Inv(a)
    ensures Inv(AddFrame(a, pos, data))
  {
  }

  /**
   * Keeping a first frame aside is only a shortcut: the spilled state after
   * a frame is the spilled state before it with the frame placed.
   */
  lemma {:induction false} AddFrameSpills(a: Assembly, pos: nat, data: seq<byte>)
    requires Inv(a)
    ensures Spill(AddFrame(a, pos, data))
         == Assembly(None, Place(Spill(a).buf, pos, data), Spill(a).ranges + [Range(pos, pos + |data|)])
  {
    if a.msg.None? && |a.buf| == 0 && pos == 0 {
      assert Place([], 0, data) == data;
    }
  }

  // ---------------------------------------------------------------------
  // The frame loop
  // ---------------------------------------------------------------------

  /** What one frame amounts to: nothing, or a CRYPTO frame's offset and data; and where the next frame starts. */
  datatype FrameRead = Skip(next: nat) | CryptoRead(offset: nat, data: seq<byte>, next: nat)

  /** The frame at offset `i` of the payload, as one turn of the `while buf.has_remaining()` loop reads it. */
  function ReadFrame(payload: seq<byte>, i: nat, mode: Mode): (r: Outcome<FrameRead, ParseError>)
    requires i < |payload|
    ensures r.Ok? ==> i < r.value.next <= |payload|
    ensures mode.Corrected? ==> !r.Panic?
  {
    var t := payload[i];
    if t == PaddingType || t == PingType then Ok(Skip(i + 1))
    else if t == 0x02 || t == 0x03 then Err(NotInitialPacket)
    else if t == CryptoType then
      var off :- VarInt(payload, i + 1, mode);
      var len :- VarInt(payload, off.next, mode);
      if off.value + len.value > |payload| then Err(NotValidQuicPacket)
      else if len.next + len.value > |payload| then
        if mode.AsWritten? then Panic else Err(NotValidQuicPacket)
      else Ok(CryptoRead(off.value, payload[len.next..len.next + len.value], len.next + len.value))
    else Err(NotValidQuicPacket)
  }

  /** The state after a frame. */
  function Apply(a: Assembly, r: FrameRead): Assembly
  {
    if r.CryptoRead? then AddFrame(a, r.offset, r.data) else a
  }

  /** The loop from offset `i` of the payload to its end. */
  function Scan(payload: seq<byte>, i: nat, a: Assembly, mode: Mode): (r: Outcome<Assembly, ParseError>)
    requires i <= |payload|
    ensures mode.Corrected? ==> !r.Panic?
    decreases |payload| - i
  {
    if i == |payload| then Ok(a)
    else
      var r :- ReadFrame(payload, i, mode);
      Scan(payload, r.next, Apply(a, r), mode)
  }

  /** The loop over the ranges sorted by start: `len` grows while the next range starts within it. */
  function Reach(rs: seq<Range>, len: nat): (r: nat)
    ensures r >= len
  {
    if |rs| == 0 then len
    else if rs[0].start <= len then Reach(rs[1..], Max(len, rs[0].end))
    else len
  }

  /** After the loop: the kept frame, or the buffer cut where the gap-free run from offset 0 ends. */
  function Finish(a: Assembly): seq<byte>
  {
    if a.msg.Some? then a.msg.value
    else
      var len := Reach(Sorting.SortBy(a.ranges, StartOf), 0);
      if len < |a.buf| then a.buf[..len] else a.buf
  }

  /** `InitialPacket::crypto_message`. */
  function CryptoMessage(payload: seq<byte>, mode: Mode): (r: Outcome<seq<byte>, ParseError>)
    ensures mode.Corrected? ==> !r.Panic?
  {
    var a :- Scan(payload, 0, Start, mode);
    Ok(Finish(a))
  }

  // ---------------------------------------------------------------------
  // The message is the gap-free run from offset 0
  // ---------------------------------------------------------------------

  predicate CoveredAt(rs: seq<Range>, x: nat)
  {
    exists r :: r in rs && r.start <= x < r.end
  }

  /**
   * `len` ends the gap-free run from offset 0: every offset before it lies
   * in some range, and no range that starts by it runs past it.
   */
  predicate GapFreeEnd(rs: seq<Range>, len: nat)
  {
    (forall x: nat :: x < len ==> CoveredAt(rs, x))
    && forall r :: r in rs && r.start <= len ==> r.end <= len
  }

  /** There is only one such end. */
  lemma {:induction false} GapFreeEndUnique(rs: seq<Range>, a: nat, b: nat)
    requires GapFreeEnd(rs, a) && GapFreeEnd(rs, b)
    ensures a == b
  {
    EndNotCovered(rs, a);
    EndNotCovered(rs, b);
  }

  lemma {:induction false} EndNotCovered(rs: seq<Range>, len: nat)
    requires GapFreeEnd(rs, len)
    ensures !CoveredAt(rs, len)
  {
  }

  /** The loop from `len` covers everything it passes and stops where no range reaches across. */
  lemma {:induction false} ReachGapFree(rs: seq<Range>, len: nat)
    requires Sorting.SortedBy(rs, StartOf)
    ensures forall x: nat :: len <= x < Reach(rs, len) ==> CoveredAt(rs, x)
    ensures forall r :: r in rs && r.start <= Reach(rs, len) ==> r.end <= Reach(rs, len)
    decreases |rs|
  {
    if |rs| > 0 {
      var L := Reach(rs, len);
      if rs[0].start <= len {
        var m := Max(len, rs[0].end);
        ReachGapFree(rs[1..], m);
        forall x: nat | len <= x < L
          ensures CoveredAt(rs, x)
        {
          if x < m {
            assert rs[0] in rs;
          } else {
            assert L == Reach(rs[1..], m);
            assert CoveredAt(rs[1..], x);
            var r :| r in rs[1..] && r.start <= x < r.end;
            assert r in rs;
          }
        }
        forall r | r in rs && r.start <= L
          ensures r.end <= L
        {
          if r != rs[0] {
            assert r in rs[1..];
          }
        }
      } else {
        forall r | r in rs
          ensures len < r.start
        {
          var k :| 0 <= k < |rs| && rs[k] == r;
          assert StartOf(rs[0]) <= StartOf(rs[k]);
        }
      }
    }
  }

  /** The loop never passes the furthest end. */
  lemma {:induction false} ReachBound(rs: seq<Range>, len: nat, bound: nat)
    requires len <= bound && forall r :: r in rs ==> r.end <= bound
    ensures Reach(rs, len) <= bound
    decreases |rs|
  {
    if |rs| > 0 && rs[0].start <= len {
      assert rs[0] in rs;
      forall r | r in rs[1..]
        ensures r.end <= bound
      {
        assert r in rs;
      }
      ReachBound(rs[1..], Max(len, rs[0].end), bound);
    }
  }

  lemma {:induction false} GapFreeEndSameRanges(rs: seq<Range>, ts: seq<Range>, len: nat)
    requires multiset(rs) == multiset(ts) && GapFreeEnd(rs, len)
    ensures GapFreeEnd(ts, len)
  {
    forall r
      ensures r in rs <==> r in ts
    {
      assert r in rs <==> r in multiset(rs);
      assert r in ts <==> r in multiset(ts);
    }
    forall x: nat | x < len
      ensures CoveredAt(ts, x)
    {
      assert CoveredAt(rs, x);
      var r :| r in rs && r.start <= x < r.end;
      assert r in ts;
    }
  }

  /**
   * The message is a prefix of the placed bytes, and its length is where
   * the gap-free run from offset 0 ends; a kept first frame is the same
   * answer reached without copying.
   */
  lemma {:induction false} FinishIsGapFreePrefix(a: Assembly)
    requires Inv(a)
    ensures var m, s := Finish(a), Spill(a);
      |m| <= |s.buf| && m == s.buf[..|m|] && GapFreeEnd(s.ranges, |m|)
  {
    if a.msg.Some? {
      FinishKept(a);
    } else {
      FinishBuffered(a);
    }
  }

  lemma {:induction false} FinishKept(a: Assembly)
    requires Inv(a) && a.msg.Some?
    ensures var m, s := Finish(a), Spill(a);
      |m| <= |s.buf| && m == s.buf[..|m|] && GapFreeEnd(s.ranges, |m|)
  {
    var s := Spill(a);
    var m := a.msg.value;
    assert s.buf == m;
    assert Range(0, |m|) in s.ranges;
    forall r | r in s.ranges
      ensures r.end <= |m|
    {
      if r != Range(0, |m|) {
        assert r in a.ranges;
      }
    }
  }

  lemma {:induction false} FinishBuffered(a: Assembly)
    requires Inv(a) && a.msg.None?
    ensures var m := Finish(a);
      |m| <= |a.buf| && m == a.buf[..|m|] && GapFreeEnd(a.ranges, |m|)
  {
    var sorted := Sorting.SortBy(a.ranges, StartOf);
    var L := Reach(sorted, 0);
    SortedReach(a.ranges, sorted, L, |a.buf|);
    assert Finish(a) == a.buf[..L];
  }

  /** How far the sorted ranges reach is a gap-free end of the ranges, within the buffer. */
  lemma {:induction false} SortedReach(rs: seq<Range>, sorted: seq<Range>, L: nat, n: nat)
    requires sorted == Sorting.SortBy(rs, StartOf) && L == Reach(sorted, 0)
    requires forall r :: r in rs ==> r.start <= r.end <= n
    ensures L <= n && GapFreeEnd(rs, L)
  {
    Sorting.SortBySorted(rs, StartOf);
    ReachGapFree(sorted, 0);
    EndsWithin(rs, sorted, n);
    ReachBound(sorted, 0, n);
    GapFreeEndSameRanges(sorted, rs, L);
  }

  /** Reordering the ranges keeps every one of them within the buffer. */
  lemma {:induction false} EndsWithin(rs: seq<Range>, sorted: seq<Range>, n: nat)
    requires multiset(sorted) == multiset(rs)
    requires forall r :: r in rs ==> r.end <= n
    ensures forall r :: r in sorted ==> r.end <= n
  {
    forall r | r in sorted
      ensures r.end <= n
    {
      assert r in multiset(sorted);
    }
  }

  // ---------------------------------------------------------------------
  // Frames, their encoding, and what the loop makes of them
  // ---------------------------------------------------------------------

  /** A frame of a client Initial; a CRYPTO frame's var-ints have the widths given. */
  datatype Frame =
    | Padding
    | Ping
    | Crypto(offset: nat, data: seq<byte>, offsetWidth: nat, lengthWidth: nat)

  /** A CRYPTO frame's offset and length fit the widths chosen for them. */
  predicate Encodable(f: Frame)
  {
    f.Crypto? ==>
      ValidWidth(f.offsetWidth) && f.offset < VarIntBound(f.offsetWidth)
      && ValidWidth(f.lengthWidth) && |f.data| < VarIntBound(f.lengthWidth)
  }

  predicate FrameFits(f: Frame, total: nat)
  {
    Encodable(f) && (f.Crypto? ==> f.offset + |f.data| <= total)
  }

  /** Every frame is encodable, and every CRYPTO frame ends within a payload of `total` bytes. */
  predicate FramesFit(fs: seq<Frame>, total: nat)
  {
    forall k :: 0 <= k < |fs| ==> FrameFits(fs[k], total)
  }

  function EncodeFrame(f: Frame): (r: seq<byte>)
    requires Encodable(f)
    ensures |r| > 0
  {
    match f
    case Padding => [PaddingType]
    case Ping => [PingType]
    case Crypto(off, data, ow, lw) => [CryptoType] + EncodeVarInt(off, ow) + EncodeVarInt(|data|, lw) + data
  }

  function EncodeFrames(fs: seq<Frame>, total: nat): (r: seq<byte>)
    requires FramesFit(fs, total)
  {
    if |fs| == 0 then [] else EncodeFrame(fs[0]) + EncodeFrames(fs[1..], total)
  }

  /** What reading a frame gives, when its encoding starts at `i`. */
  function Expected(f: Frame, i: nat): FrameRead
    requires Encodable(f)
  {
    if f.Crypto? then CryptoRead(f.offset, f.data, i + |EncodeFrame(f)|) else Skip(i + 1)
  }

  /** The loop's state after the frames, in order. */
  function Assemble(fs: seq<Frame>, a: Assembly): Assembly
  {
    if |fs| == 0 then a
    else
      var f := fs[0];
      Assemble(fs[1..], if f.Crypto? then AddFrame(a, f.offset, f.data) else a)
  }

  /** The reference reading: each CRYPTO frame written over the bytes in turn, and its span recorded. */
  function PlaceAll(fs: seq<Frame>, a: Assembly): Assembly
  {
    if |fs| == 0 then a
    else
      var f := fs[0];
      PlaceAll(fs[1..], if f.Crypto? then Assembly(None, Place(a.buf, f.offset, f.data), a.ranges + [Range(f.offset, f.offset + |f.data|)]) else a)
  }

  lemma {:induction false} AssembleSpills(fs: seq<Frame>, a: Assembly)
    requires Inv(a)
    ensures Inv(Assemble(fs, a))
    ensures Spill(Assemble(fs, a)) == PlaceAll(fs, Spill(a))
    decreases |fs|
  {
    if |fs| > 0 {
      var f := fs[0];
      if f.Crypto? {
        AddFrameInv(a, f.offset, f.data);
        AddFrameSpills(a, f.offset, f.data);
        AssembleSpills(fs[1..], AddFrame(a, f.offset, f.data));
      } else {
        AssembleSpills(fs[1..], a);
      }
    }
  }

  /** One CRYPTO frame whose fields have been read. */
  lemma {:induction false} ReadCrypto(payload: seq<byte>, i: nat, mode: Mode, off: nat, j: nat, data: seq<byte>, k: nat)
    requires i < |payload| && payload[i] == CryptoType
    requires VarInt(payload, i + 1, mode) == Ok(Parsed(off, j))
    requires VarInt(payload, j, mode) == Ok(Parsed(|data| as nat, k))
    requires off + |data| <= |payload| && k + |data| <= |payload| && payload[k..k + |data|] == data
    ensures ReadFrame(payload, i, mode) == Ok(CryptoRead(off, data, k + |data|))
  {
  }

  lemma {:induction false} ScanRead(payload: seq<byte>, i: nat, a: Assembly, mode: Mode, r: FrameRead)
    requires i < |payload| && ReadFrame(payload, i, mode) == Ok(r)
    ensures Scan(payload, i, a, mode) == Scan(payload, r.next, Apply(a, r), mode)
  {
  }

  lemma {:induction false} SuffixAfter(payload: seq<byte>, i: nat, e: seq<byte>, rest: seq<byte>)
    requires i <= |payload| && payload[i..] == e + rest && |e| > 0
    ensures i + |e| <= |payload| && payload[i] == e[0] && payload[i + |e|..] == rest
  {
    assert payload[i..][0] == e[0];
    assert payload[i..][|e|..] == rest;
  }

  /** An encoded frame reads back as itself. */
  lemma {:induction false} ReadFrameOf(payload: seq<byte>, i: nat, mode: Mode, f: Frame, rest: seq<byte>)
    requires FrameFits(f, |payload|)
    requires i <= |payload| && payload[i..] == EncodeFrame(f) + rest
    ensures i + |EncodeFrame(f)| <= |payload| && payload[i + |EncodeFrame(f)|..] == rest
    ensures ReadFrame(payload, i, mode) == Ok(Expected(f, i))
  {
    SuffixAfter(payload, i, EncodeFrame(f), rest);
    if f.Crypto? {
      ReadCryptoFrame(payload, i, mode, f, rest);
    }
  }

  lemma {:induction false} ReadCryptoFrame(payload: seq<byte>, i: nat, mode: Mode, f: Frame, rest: seq<byte>)
    requires f.Crypto? && Encodable(f) && f.offset + |f.data| <= |payload|
    requires i <= |payload| && payload[i..] == EncodeFrame(f) + rest
    ensures i < |payload| && ReadFrame(payload, i, mode) == Ok(Expected(f, i))
  {
    var off, data, ow, lw := f.offset, f.data, f.offsetWidth, f.lengthWidth;
    var e := [CryptoType] + EncodeVarInt(off, ow) + EncodeVarInt(|data|, lw) + data;
    assert EncodeFrame(f) == e;
    CryptoFieldsLayout(payload, i, off, ow, data, lw, rest);
    assert |e| == 1 + ow + lw + |data|;
    ReadCryptoFields(payload, i, mode, off, ow, data, lw, Expected(f, i));
  }

  /** Where the fields of an encoded CRYPTO frame lie. */
  lemma {:induction false} CryptoFieldsLayout(payload: seq<byte>, i: nat, off: nat, ow: nat, data: seq<byte>, lw: nat, rest: seq<byte>)
    requires ValidWidth(ow) && off < VarIntBound(ow) && ValidWidth(lw) && |data| < VarIntBound(lw)
    requires i <= |payload|
    requires payload[i..] == [CryptoType] + EncodeVarInt(off, ow) + EncodeVarInt(|data|, lw) + data + rest
    ensures var j := i + 1 + ow; var k := j + lw;
      k + |data| <= |payload| && payload[i] == CryptoType
      && payload[i + 1..j] == EncodeVarInt(off, ow)
      && payload[j..k] == EncodeVarInt(|data|, lw)
      && payload[k..k + |data|] == data
  {
    var v1, v2 := EncodeVarInt(off, ow), EncodeVarInt(|data|, lw);
    var e := [CryptoType] + v1 + v2 + data;
    var j := i + 1 + ow;
    var k := j + lw;
    SuffixAfter(payload, i, e, rest);
    assert payload[i..i + |e|] == e by {
      assert payload[i..][..|e|] == e;
    }
    SplitAt(payload, i, i + |e|, [CryptoType] + v1 + v2, data);
    SplitAt(payload, i, k, [CryptoType] + v1, v2);
    SplitAt(payload, i, j, [CryptoType], v1);
  }

  /** The fields of a CRYPTO frame, laid out as its encoding lays them out, read back. */
  lemma {:induction false} ReadCryptoFields(payload: seq<byte>, i: nat, mode: Mode, off: nat, ow: nat, data: seq<byte>, lw: nat, r: FrameRead)
    requires ValidWidth(ow) && off < VarIntBound(ow) && ValidWidth(lw) && |data| < VarIntBound(lw)
    requires off + |data| <= |payload|
    requires i + 1 + ow + lw + |data| <= |payload| && payload[i] == CryptoType
    requires payload[i + 1..i + 1 + ow] == EncodeVarInt(off, ow)
    requires payload[i + 1 + ow..i + 1 + ow + lw] == EncodeVarInt(|data|, lw)
    requires payload[i + 1 + ow + lw..i + 1 + ow + lw + |data|] == data
    requires r == CryptoRead(off, data, i + 1 + ow + lw + |data|)
    ensures ReadFrame(payload, i, mode) == Ok(r)
  {
    var j := i + 1 + ow;
    var k := j + lw;
    VarIntRoundTrip(off, ow, payload, i + 1, mode);
    VarIntRoundTrip(|data|, lw, payload, j, mode);
    ReadCrypto(payload, i, mode, off, j, data, k);
  }

  /** The loop reads encoded frames back, frame by frame. */
  lemma {:induction false} ScanFrames(fs: seq<Frame>, total: nat, payload: seq<byte>, i: nat, a: Assembly, mode: Mode)
    requires FramesFit(fs, total) && total == |payload|
    requires i <= |payload| && payload[i..] == EncodeFrames(fs, total)
    ensures Scan(payload, i, a, mode) == Ok(Assemble(fs, a))
    decreases |fs|
  {
    if |fs| == 0 {
      ScanAtEnd(payload, i, a, mode);
    } else {
      var f, tail := fs[0], fs[1..];
      FramesFitTail(fs, total);
      var rest := EncodeFrames(tail, total);
      EncodeFramesFirst(fs, total, f, tail, rest);
      ReadFrameOf(payload, i, mode, f, rest);
      var r := Expected(f, i);
      ScanRead(payload, i, a, mode, r);
      ScanFrames(tail, total, payload, r.next, Apply(a, r), mode);
      AssembleFirst(fs, a, Apply(a, r));
    }
  }

  lemma {:induction false} ScanAtEnd(payload: seq<byte>, i: nat, a: Assembly, mode: Mode)
    requires i <= |payload| && payload[i..] == []
    ensures Scan(payload, i, a, mode) == Ok(a)
  {
    assert |payload[i..]| == 0;
  }

  lemma {:induction false} FramesFitTail(fs: seq<Frame>, total: nat)
    requires FramesFit(fs, total) && |fs| > 0
    ensures FrameFits(fs[0], total) && FramesFit(fs[1..], total)
  {
    forall k | 0 <= k < |fs| - 1
      ensures FrameFits(fs[1..][k], total)
    {
      assert fs[1..][k] == fs[k + 1];
    }
  }

  lemma {:induction false} EncodeFramesFirst(fs: seq<Frame>, total: nat, f: Frame, tail: seq<Frame>, rest: seq<byte>)
    requires FramesFit(fs, total) && |fs| > 0 && f == fs[0] && tail == fs[1..]
    requires FramesFit(tail, total) && rest == EncodeFrames(tail, total)
    ensures Encodable(f) && EncodeFrames(fs, total) == EncodeFrame(f) + rest
  {
  }

  lemma {:induction false} AssembleFirst(fs: seq<Frame>, a: Assembly, a': Assembly)
    requires |fs| > 0 && Encodable(fs[0])
    requires a' == if fs[0].Crypto? then AddFrame(a, fs[0].offset, fs[0].data) else a
    ensures Assemble(fs, a) == Assemble(fs[1..], a')
  {
  }

  /**
   * The message carried by encoded frames is the prefix of the bytes they
   * place that ends where their gap-free run from offset 0 ends.
   */
  lemma {:induction false} CryptoMessageOfFrames(fs: seq<Frame>, total: nat, mode: Mode)
    requires FramesFit(fs, total) && total == |EncodeFrames(fs, total)|
    ensures CryptoMessage(EncodeFrames(fs, total), mode).Ok?
    ensures var m, p := CryptoMessage(EncodeFrames(fs, total), mode).value, PlaceAll(fs, Start);
      |m| <= |p.buf| && m == p.buf[..|m|] && GapFreeEnd(p.ranges, |m|)
  {
    var payload := EncodeFrames(fs, total);
    ScanFrames(fs, total, payload, 0, Start, mode);
    AssembleSpills(fs, Start);
    FinishIsGapFreePrefix(Assemble(fs, Start));
  }

  // ---------------------------------------------------------------------
  // A lone CRYPTO frame, and trailing PADDING
  // ---------------------------------------------------------------------

  /** PADDING frames are single zero bytes: the loop passes over them. */
  lemma {:induction false} ScanPadding(payload: seq<byte>, i: nat, a: Assembly, mode: Mode)
    requires i <= |payload| && forall k :: i <= k < |payload| ==> payload[k] == 0
    ensures Scan(payload, i, a, mode) == Ok(a)
    decreases |payload| - i
  {
    if i < |payload| {
      assert ReadFrame(payload, i, mode) == Ok(Skip(i + 1));
      ScanPadding(payload, i + 1, a, mode);
    }
  }

  /** A lone CRYPTO frame at offset 0, padded, carries its data verbatim. */
  lemma {:induction false} OneFrameMessage(f: Frame, n: nat, mode: Mode)
    requires f.Crypto? && f.offset == 0 && Encodable(f)
    ensures CryptoMessage(EncodeFrame(f) + Zeros(n), mode) == Ok(f.data)
  {
    var e := EncodeFrame(f);
    var payload := e + Zeros(n);
    assert e == [CryptoType] + EncodeVarInt(f.offset, f.offsetWidth) + EncodeVarInt(|f.data|, f.lengthWidth) + f.data;
    assert payload[0..] == e + Zeros(n);
    ReadFrameOf(payload, 0, mode, f, Zeros(n));
    var r := Expected(f, 0);
    ScanRead(payload, 0, Start, mode, r);
    assert Apply(Start, r) == Assembly(Some(f.data), [], []);
    PaddingAfter(e, n);
    ScanPadding(payload, |e|, Apply(Start, r), mode);
  }

  lemma {:induction false} PaddingAfter(e: seq<byte>, n: nat)
    ensures forall k :: |e| <= k < |e| + n ==> (e + Zeros(n))[k] == 0
  {
    forall k | |e| <= k < |e| + n
      ensures (e + Zeros(n))[k] == 0
    {
      assert (e + Zeros(n))[k] == Zeros(n)[k - |e|];
    }
  }

  // ---------------------------------------------------------------------
  // The correction only turns panics into errors
  // ---------------------------------------------------------------------

  lemma {:induction false} ReadFrameModes(payload: seq<byte>, i: nat)
    requires i < |payload|
    ensures var w, c := ReadFrame(payload, i, AsWritten), ReadFrame(payload, i, Corrected);
      (w.Panic? ==> c.Err?) && (!w.Panic? ==> w == c)
  {
  }

  lemma {:induction false} ScanModes(payload: seq<byte>, i: nat, a: Assembly)
    requires i <= |payload|
    ensures var w, c := Scan(payload, i, a, AsWritten), Scan(payload, i, a, Corrected);
      (w.Panic? ==> c.Err?) && (!w.Panic? ==> w == c)
    decreases |payload| - i
  {
    if i < |payload| {
      ReadFrameModes(payload, i);
      var w := ReadFrame(payload, i, AsWritten);
      if w.Ok? {
        ScanModes(payload, w.value.next, Apply(a, w.value));
      }
    }
  }

  /** Where the code as written returns, the corrected code returns the same; where it panics, the corrected code reports an error. */
  lemma {:induction false} CryptoMessageModes(payload: seq<byte>)
    ensures var w, c := CryptoMessage(payload, AsWritten), CryptoMessage(payload, Corrected);
      (w.Panic? ==> c.Err?) && (!w.Panic? ==> w == c)
  {
    ScanModes(payload, 0, Start);
  }

  /** A CRYPTO frame whose length stays within the payload but runs past the bytes left. */
  lemma {:induction false} CryptoPastEnd()
    ensures CryptoMessage([6, 0, 5, 1, 2], AsWritten) == Panic
    ensures CryptoMessage([6, 0, 5, 1, 2], Corrected) == Err(NotValidQuicPacket)
  {
    var p: seq<byte> := [6, 0, 5, 1, 2];
    assert VarInt(p, 1, AsWritten) == Ok(Parsed(0, 2)) by { VarIntOneByte(p, 1, AsWritten); }
    assert VarInt(p, 2, AsWritten) == Ok(Parsed(5, 3)) by { VarIntOneByte(p, 2, AsWritten); }
    assert VarInt(p, 1, Corrected) == Ok(Parsed(0, 2)) by { VarIntOneByte(p, 1, Corrected); }
    assert VarInt(p, 2, Corrected) == Ok(Parsed(5, 3)) by { VarIntOneByte(p, 2, Corrected); }
  }

  /** A CRYPTO frame type with nothing after it. */
  lemma {:induction false} CryptoTruncated()
    ensures CryptoMessage([6], AsWritten) == Panic
    ensures CryptoMessage([6], Corrected) == Err(NoEnoughData)
  {
    var p: seq<byte> := [6];
    assert ReadFrame(p, 0, AsWritten) == Panic;
    assert ReadFrame(p, 0, Corrected) == Err(NoEnoughData);
  }

  // ---------------------------------------------------------------------
  // QuicConnection::try_from
  // ---------------------------------------------------------------------

  /** The original destination, and the server name the client asked for if one was found. */
  datatype QuicConnection = QuicConnection(remoteOrig: Types.RemoteAddr, remoteName: Option<seq<byte>>)

  /** `QuicConnection::try_from`: an empty message names nothing, and a message the TLS reader rejects names nothing either. */
  function TryFrom(remote: Types.RemoteAddr, payload: seq<byte>, mode: Mode): (r: Outcome<QuicConnection, ParseError>)
    ensures r.Err? <==> CryptoMessage(payload, mode).Err?
    ensures r.Ok? ==> r.value.remoteOrig == remote
    ensures r.Ok? && r.value.remoteName.Some? ==> Tls.IsHostName(r.value.remoteName.value)
    ensures mode.Corrected? ==> !r.Panic?
  {
    var msg :- CryptoMessage(payload, mode);
    if |msg| == 0 then Ok(QuicConnection(remote, None))
    else
      match Tls.ServerName(msg, mode)
      case Ok(name) => Ok(QuicConnection(remote, Some(name)))
      case Err(_) => Ok(QuicConnection(remote, None))
      case Panic => Panic
  }

  /** A payload of PADDING only carries an empty message, and so no name. */
  lemma {:induction false} PaddingOnlyNoName(remote: Types.RemoteAddr, n: nat, mode: Mode)
    ensures TryFrom(remote, Zeros(n), mode) == Ok(QuicConnection(remote, None))
  {
    ScanPadding(Zeros(n), 0, Start, mode);
  }

  /** A ClientHello that asks for www.google.com, in one CRYPTO frame followed by PADDING, names that server. */
  lemma {:induction false} HelloFrameName(remote: Types.RemoteAddr, n: nat, mode: Mode)
    ensures Encodable(Crypto(0, Tls.TestClientHello(), 1, 2))
    ensures TryFrom(remote, EncodeFrame(Crypto(0, Tls.TestClientHello(), 1, 2)) + Zeros(n), mode)
            == Ok(QuicConnection(remote, Some(Tls.GoogleName)))
  {
    Tls.TestClientHelloFound(mode);
    FrameName(remote, n, mode, Tls.TestClientHello(), Tls.GoogleName);
  }

  /** A message in one CRYPTO frame at offset 0, then PADDING: the connection takes the name the TLS reader finds in it. */
  lemma {:induction false} FrameName(remote: Types.RemoteAddr, n: nat, mode: Mode, msg: seq<byte>, name: seq<byte>)
    requires 0 < |msg| < VarIntBound(2) && Tls.ServerName(msg, mode) == Ok(name)
    ensures Encodable(Crypto(0, msg, 1, 2))
    ensures TryFrom(remote, EncodeFrame(Crypto(0, msg, 1, 2)) + Zeros(n), mode) == Ok(QuicConnection(remote, Some(name)))
  {
    var f := Crypto(0, msg, 1, 2);
    OneFrameMessage(f, n, mode);
  }
}

=== FILE: health.dfy ===
/**
 * `src/app/checking/health.rs`: a server's trouble flag as the DNS checker
 * sets it. The flag is an atomic; here it is a plain field and `swap` is a
 * state transition that also reports the old value.
 */
module CheckHealth {
  import opened Wrappers

  /** `Health`; `Default` gives `in_trouble == false`. */
  datatype Health = Health(inTrouble: bool)

  const Default: Health := Health(false)

  /** `Healthy::is_healthy` (lines 18-20). */
  predicate IsHealthy(h: Health)
  {
    !h.inTrouble
  }

  /** What `set_troubleness` logs: into trouble (`Some(true)`), out of it (`Some(false)`), or nothing. */
  datatype Change = Change(next: Health, logged: Option<bool>)

  /** `Healthy::set_troubleness`: swap in the new flag and report a change of state. */
  function SetTroubleness(h: Health, trouble: bool): (c: Change)
    ensures IsHealthy(c.next) == !trouble
    ensures c.logged.Some? <==> h.inTrouble != trouble
    ensures c.logged.Some? ==> c.logged.value == trouble
  {
    Change(Health(trouble), if h.inTrouble != trouble then Some(trouble) else None)
  }

  /** Setting the same flag twice is setting it once, and the second call reports nothing. */
  lemma {:induction false} SetTwice(h: Health, trouble: bool)
    ensures SetTroubleness(SetTroubleness(h, trouble).next, trouble).next == SetTroubleness(h, trouble).next
    ensures SetTroubleness(SetTroubleness(h, trouble).next, trouble).logged.None?
  {
  }

  /**
   * A server is healthy exactly when its flag is as a server starts, and
   * exactly when clearing its trouble would log nothing.
   */
  lemma {:induction false} HealthyMeans(h: Health)
    ensures IsHealthy(h) <==> h == Default
    ensures IsHealthy(h) <==> SetTroubleness(h, false).logged.None?
  {
  }
}

=== FILE: lists.dfy ===
/**
 * Sequence helpers shared by the model: the newest elements of a bounded
 * history kept in a `VecDeque`, lists without duplicates, and `position`.
 */
module Lists {
  import opened Wrappers

  /** The newest `n` elements of `s`, oldest first. */
  function Newest<T>(s: seq<T>, n: nat): (r: seq<T>)
    requires n <= |s|
    ensures |r| == n
  {
    s[|s| - n..]
  }

  /** Keeping the newest elements, appending, then keeping the newest again loses nothing more. */
  lemma {:induction false} NewestConcat<T>(x: seq<T>, m: nat, y: seq<T>, k: nat)
    requires m <= |x| && k <= m + |y|
    ensures Newest(Newest(x, m) + y, k) == Newest(x + y, k)
  {
    assert Newest(x, m) + y == (x + y)[|x| - m..];
  }

  /** The middle and the end of a three-part concatenation. */
  lemma {:induction false} MiddlePart<T>(a: seq<T>, b: seq<T>, c: seq<T>)
    ensures (a + b + c)[|a|..|a| + |b|] == b && (a + b + c)[|a| + |b|..] == c
  {
  }

  function Min(a: nat, b: nat): nat
  {
    if a < b then a else b
  }

  /** No element occurs twice. */
  predicate Distinct<T(==)>(s: seq<T>)
  {
    forall i, j :: 0 <= i < j < |s| ==> s[i] != s[j]
  }

  /** `Iterator::position`: the index of the first occurrence of `x`. */
  function Position<T(==)>(s: seq<T>, x: T): (r: Option<nat>)
    ensures r.None? <==> x !in s
    ensures r.Some? ==> r.value < |s| && s[r.value] == x && x !in s[..r.value]
  {
    if |s| == 0 then None
    else if s[0] == x then Some(0)
    else
      var p := Position(s[1..], x);
      assert s == [s[0]] + s[1..];
      if p.None? then None
      else
        assert s[..p.value + 1] == [s[0]] + s[1..][..p.value];
        Some(p.value + 1)
  }

  /** In a list without duplicates, the position of an element is its index. */
  lemma {:induction false} PositionDistinct<T>(s: seq<T>, k: nat)
    requires Distinct(s) && k < |s|
    ensures Position(s, s[k]) == Some(k)
  {
  }
}

=== FILE: meter.dfy ===
/**
 * `src/app/checking/meter.rs`: passive health from traffic. Every sampling
 * period a server's cumulative traffic counters are appended to a window
 * of the last `MAX_SAMPLES` samples; a server that sent in every period
 * and received nothing is meant to be put in trouble, and any reply takes
 * it out again.
 */
module CheckMeter {
  import opened Bytes
  import opened Wrappers
  import opened Lists

  const MaxSamples: nat := 5

  /** The cumulative byte counters of a server (`Traffic`). */
  datatype Traffic = Traffic(txBytes: u64, rxBytes: u64)

  /**
   * `Meter`. A sample's timestamp is never read, so a sample is its
   * traffic; `in_trouble` is a plain field.
   */
  datatype Meter = Meter(samples: seq<Traffic>, inTrouble: bool)

  /** `Meter::default()`. */
  const Default: Meter := Meter([], false)

  /** A meter `add_sample` can produce: never more than `MAX_SAMPLES` samples. */
  predicate Valid(m: Meter)
  {
    |m.samples| <= MaxSamples
  }

  /**
   * `Meter::add_sample`: drop from the front until fewer than `MAX_SAMPLES`
   * remain, then append.
   */
  method AddSample(m: Meter, t: Traffic) returns (r: Meter)
    ensures |r.samples| == if |m.samples| + 1 < MaxSamples then |m.samples| + 1 else MaxSamples
    ensures r.samples == Newest(m.samples + [t], |r.samples|)
    ensures Valid(r) && r.inTrouble == m.inTrouble
  {
    var s := m.samples;
    ghost var k := 0;
    while |s| >= MaxSamples
      invariant k <= |m.samples| && s == m.samples[k..]
      invariant k == 0 || |s| == MaxSamples - 1 || |s| >= MaxSamples
    {
      s := s[1..];
      k := k + 1;
    }
    assert s + [t] == (m.samples + [t])[k..];
    r := Meter(s + [t], m.inTrouble);
  }

  /**
   * `Traffic - Traffic`. The `Sub` impl is not part of this model; the
   * subtraction is assumed to wrap around per counter, as `u64::wrapping_sub`
   * does, so a counter that was reset never makes a period negative.
   */
  function Sub(cur: Traffic, last: Traffic): Traffic
  {
    Traffic(WrappingSub(cur.txBytes, last.txBytes), WrappingSub(cur.rxBytes, last.rxBytes))
  }

  /** The traffic of each sampling period: one delta per pair of neighbouring samples. */
  function Deltas(s: seq<Traffic>): (ds: seq<Traffic>)
    ensures |ds| == if |s| == 0 then 0 else |s| - 1
    ensures forall i :: 0 <= i < |ds| ==> ds[i] == Sub(s[i + 1], s[i])
  {
    if |s| <= 1 then [] else seq(|s| - 1, i requires 0 <= i < |s| - 1 => Sub(s[i + 1], s[i]))
  }

  /** The number of periods with some transmit traffic (`cnt_tx`). */
  function CountTx(ds: seq<Traffic>): (n: nat)
    ensures n <= |ds|
  {
    if |ds| == 0 then 0 else CountTx(ds[..|ds| - 1]) + (if ds[|ds| - 1].txBytes > 0 then 1 else 0)
  }

  /** The number of periods with some receive traffic (`cnt_rx`). */
  function CountRx(ds: seq<Traffic>): (n: nat)
    ensures n <= |ds|
  {
    if |ds| == 0 then 0 else CountRx(ds[..|ds| - 1]) + (if ds[|ds| - 1].rxBytes > 0 then 1 else 0)
  }

  /** The loop of lines 61-73: count the active periods walking the window once. */
  method CountActivity(s: seq<Traffic>) returns (cntTx: nat, cntRx: nat)
    requires |s| > 0
    ensures cntTx == CountTx(Deltas(s)) && cntRx == CountRx(Deltas(s))
  {
    var last := s[0];
    cntTx, cntRx := 0, 0;
    var i := 1;
    ghost var ds := Deltas(s);
    while i < |s|
      invariant 1 <= i <= |s| && last == s[i - 1]
      invariant cntTx == CountTx(ds[..i - 1]) && cntRx == CountRx(ds[..i - 1])
    {
      var amt := Sub(s[i], last);
      assert ds[i - 1] == amt;
      CountStep(ds, i);
      if amt.txBytes > 0 {
        cntTx := cntTx + 1;
      }
      if amt.rxBytes > 0 {
        cntRx := cntRx + 1;
      }
      last := s[i];
      i := i + 1;
    }
    assert ds[..i - 1] == ds;
  }

  /** `cnt_tx` reaches the number of periods exactly when every period sent something. */
  lemma {:induction false} CountTxAll(ds: seq<Traffic>)
    ensures CountTx(ds) == |ds| <==> forall i :: 0 <= i < |ds| ==> ds[i].txBytes > 0
  {
    if |ds| > 0 {
      var init := ds[..|ds| - 1];
      CountTxAll(init);
      assert forall i :: 0 <= i < |init| ==> init[i] == ds[i];
    }
  }

  /** `cnt_rx` is zero exactly when no period received anything. */
  lemma {:induction false} CountRxNone(ds: seq<Traffic>)
    ensures CountRx(ds) == 0 <==> forall i :: 0 <= i < |ds| ==> ds[i].rxBytes == 0
  {
    if |ds| > 0 {
      var init := ds[..|ds| - 1];
      CountRxNone(init);
      assert forall i :: 0 <= i < |init| ==> init[i] == ds[i];
    }
  }

  /** Counting one more period. */
  lemma {:induction false} CountStep(ds: seq<Traffic>, i: nat)
    requires 0 < i <= |ds|
    ensures CountTx(ds[..i]) == CountTx(ds[..i - 1]) + (if ds[i - 1].txBytes > 0 then 1 else 0)
    ensures CountRx(ds[..i]) == CountRx(ds[..i - 1]) + (if ds[i - 1].rxBytes > 0 then 1 else 0)
  {
    assert ds[..i][..i - 1] == ds[..i - 1];
  }

  /** The evaluation's answer and the meter after it. */
  datatype Evaluation = Evaluation(report: Option<bool>, next: Meter)

  /**
   * The `cnt_tx` that puts a server in trouble: `MAX_SAMPLES` as written,
   * which five samples (four periods) can never reach; `MAX_SAMPLES - 1`,
   * every period, when corrected.
   */
  function TxThreshold(mode: Mode): nat
  {
    if mode.AsWritten? then MaxSamples else MaxSamples - 1
  }

  /**
   * `Meter::evaluate_trouble_state`: `None` while the window is not full;
   * otherwise trouble when every period sent and none received, recovery
   * when any period received. Only a change of the flag is reported.
   */
  function Evaluate(m: Meter, mode: Mode): (e: Evaluation)
    ensures e.next.samples == m.samples
    ensures |m.samples| < MaxSamples ==> e == Evaluation(None, m)
    ensures e.report == Some(false) <==>
      |m.samples| >= MaxSamples && CountRx(Deltas(m.samples)) > 0 && m.inTrouble
    ensures e.report == Some(true) <==>
      |m.samples| >= MaxSamples && CountTx(Deltas(m.samples)) >= TxThreshold(mode)
      && CountRx(Deltas(m.samples)) == 0 && !m.inTrouble
    ensures e.report.Some? ==> e.next.inTrouble == e.report.value
    ensures e.report.None? ==> e.next.inTrouble == m.inTrouble
  {
    if |m.samples| < MaxSamples then Evaluation(None, m)
    else
      var ds := Deltas(m.samples);
      var cntTx, cntRx := CountTx(ds), CountRx(ds);
      if cntTx >= TxThreshold(mode) && cntRx == 0 then
        Evaluation(if !m.inTrouble then Some(true) else None, m.(inTrouble := true))
      else if cntRx > 0 && m.inTrouble then
        Evaluation(Some(false), m.(inTrouble := false))
      else
        Evaluation(None, m)
  }

  /** `Health::is_healthy` for a server's meter. */
  predicate IsHealthy(m: Meter)
  {
    !m.inTrouble
  }

  /**
   * As written, a meter built by `add_sample` never reports trouble and never
   * enters it: four periods cannot make `cnt_tx` reach five.
   */
  lemma {:induction false} NeverTroubled(m: Meter)
    requires Valid(m)
    ensures Evaluate(m, AsWritten).report != Some(true)
    ensures !m.inTrouble ==> IsHealthy(Evaluate(m, AsWritten).next)
  {
  }

  /** Corrected, a full window of sending without a reply does put the server in trouble. */
  lemma {:induction false} CorrectedTroubles()
    ensures var s := seq(MaxSamples, i requires 0 <= i < MaxSamples => Traffic(i, 0));
      Evaluate(Meter(s, false), Corrected) == Evaluation(Some(true), Meter(s, true))
      && Evaluate(Meter(s, false), AsWritten) == Evaluation(None, Meter(s, false))
  {
    var s := seq(MaxSamples, i requires 0 <= i < MaxSamples => Traffic(i, 0));
    var ds := Deltas(s);
    assert forall i :: 0 <= i < |ds| ==> ds[i].txBytes == 1 && ds[i].rxBytes == 0;
    CountTxAll(ds);
    CountRxNone(ds);
  }

  /** A reported change always agrees with the health the meter shows afterwards. */
  lemma {:induction false} ReportMatchesHealth(m: Meter, mode: Mode)
    ensures var e := Evaluate(m, mode); e.report.Some? ==> IsHealthy(e.next) == !e.report.value
  {
  }

  /**
   * `Sampling::sample_traffic`: record the server's counters, then evaluate.
   * As written the report is never `Some(true)`.
   */
  method SampleTraffic(m: Meter, t: Traffic, mode: Mode) returns (e: Evaluation)
    ensures Valid(e.next)
    ensures |e.next.samples| > 0 && e.next.samples[|e.next.samples| - 1] == t
    ensures mode.AsWritten? ==> e.report != Some(true)
    ensures e.report.Some? ==> IsHealthy(e.next) == !e.report.value
  {
    var added := AddSample(m, t);
    if mode.AsWritten? {
      NeverTroubled(added);
    }
    e := Evaluate(added, mode);
  }
}

=== FILE: ping.dfy ===
/**
 * `src/app/checking/ping.rs`: a server's ping history and the DNS probe that
 * feeds it. A history is the last `DELAY_MAX_HISTORY` outcomes, `None` for a
 * lost ping. Times are whole milliseconds; the floating-point parts (the
 * `Delay` power law, the exponential fit of `quantile_delay`, the `score`
 * formula) are parameters.
 */
module CheckPing {
  import opened Bytes
  import opened Wrappers
  import opened Lists
  import SocksUdp

  const MaxHistory: nat := 100

  /** `Delay`: a `NonZeroU8`, the delay's milliseconds raised to 0.75 and rounded. */
  type Delay = x: int | 1 <= x < 0x100 witness 1

  /** `PingHistory`: oldest first. */
  datatype PingHistory = PingHistory(pings: seq<Option<Delay>>)

  /** `PingHistory::default()`. */
  const Default: PingHistory := PingHistory([])

  /**
   * A history `add_measurement` can produce. `pings` is private to the type
   * and only `add_measurement` grows it, so every history is valid.
   */
  predicate Valid(h: PingHistory)
  {
    |h.pings| <= MaxHistory
  }

  /** `PingHistory::add_measurement`: drop the oldest entry once the window is full, then append. */
  function AddMeasurement(h: PingHistory, d: Option<Delay>): (r: PingHistory)
    ensures |r.pings| == if |h.pings| < MaxHistory then |h.pings| + 1 else |h.pings|
    ensures r.pings == Newest(h.pings + [d], |r.pings|)
    ensures Valid(h) ==> Valid(r)
  {
    if |h.pings| >= MaxHistory then PingHistory(h.pings[1..] + [d]) else PingHistory(h.pings + [d])
  }

  /** A run of measurements, oldest first. */
  function AddAll(h: PingHistory, ds: seq<Option<Delay>>): PingHistory
  {
    if |ds| == 0 then h else AddMeasurement(AddAll(h, ds[..|ds| - 1]), ds[|ds| - 1])
  }

  /**
   * The history is a sliding window: after any run of measurements it holds
   * the newest `min(n, DELAY_MAX_HISTORY)` of everything recorded.
   */
  lemma {:induction false} AddAllNewest(h: PingHistory, ds: seq<Option<Delay>>)
    requires Valid(h)
    ensures AddAll(h, ds).pings == Newest(h.pings + ds, Min(|h.pings| + |ds|, MaxHistory))
    decreases |ds|
  {
    if |ds| == 0 {
      assert h.pings + ds == h.pings;
    } else {
      var init, last := ds[..|ds| - 1], ds[|ds| - 1];
      AddAllNewest(h, init);
      var k := Min(|h.pings| + |init|, MaxHistory);
      NewestConcat(h.pings + init, k, [last], Min(k + 1, MaxHistory));
      assert h.pings + init + [last] == h.pings + ds;
    }
  }

  /** The number of successful pings. */
  function Successes(ps: seq<Option<Delay>>): (n: nat)
    ensures n <= |ps|
  {
    if |ps| == 0 then 0 else Successes(ps[..|ps| - 1]) + (if ps[|ps| - 1].Some? then 1 else 0)
  }

  /** The summed milliseconds of the successful pings, each converted by `millis` (`Delay::as_millis`). */
  function MillisSum(ps: seq<Option<Delay>>, millis: Delay -> u16): nat
  {
    if |ps| == 0 then 0
    else MillisSum(ps[..|ps| - 1], millis) + (if ps[|ps| - 1].Some? then millis(ps[|ps| - 1].value) else 0)
  }

  /** No success means every ping was lost, and the other way round. */
  lemma {:induction false} NoSuccessAllLost(ps: seq<Option<Delay>>)
    ensures Successes(ps) == 0 <==> forall i :: 0 <= i < |ps| ==> ps[i].None?
    decreases |ps|
  {
    if |ps| > 0 {
      var init := ps[..|ps| - 1];
      NoSuccessAllLost(init);
      assert forall i :: 0 <= i < |init| ==> init[i] == ps[i];
    }
  }

  /** Integer division, the mean of `count` values summing to `sum`. */
  function MeanOf(sum: nat, count: nat): nat
    requires count > 0
  {
    sum / count
  }

  /** The integer mean delay in milliseconds, `None` without a successful ping. */
  function Mean(ps: seq<Option<Delay>>, millis: Delay -> u16): Option<nat>
  {
    if Successes(ps) == 0 then None else Some(MeanOf(MillisSum(ps, millis), Successes(ps)))
  }

  /** One more ping counted. */
  lemma {:induction false} FoldStep(ps: seq<Option<Delay>>, i: nat, millis: Delay -> u16)
    requires i < |ps|
    ensures Successes(ps[..i + 1]) == Successes(ps[..i]) + (if ps[i].Some? then 1 else 0)
    ensures MillisSum(ps[..i + 1], millis) == MillisSum(ps[..i], millis) + (if ps[i].Some? then millis(ps[i].value) else 0)
  {
    assert ps[..i + 1][..i] == ps[..i];
  }

  /**
   * The fold of lines 89-96 with its `usize` count and `u32` sum. The sum
   * cannot overflow in a valid history, since 100 pings of at most 65535 ms
   * stay below 2^32.
   */
  method CountAndSum(ps: seq<Option<Delay>>, millis: Delay -> u16) returns (count: nat, sum: u32)
    requires |ps| <= MaxHistory
    ensures count == Successes(ps) && sum == MillisSum(ps, millis)
    ensures sum <= count * 0xFFFF
  {
    count, sum := 0, 0;
    for i := 0 to |ps|
      invariant count == Successes(ps[..i]) && sum == MillisSum(ps[..i], millis)
      invariant count <= i && sum <= count * 0xFFFF
    {
      FoldStep(ps, i, millis);
      if ps[i].Some? {
        count, sum := count + 1, sum + millis(ps[i].value);
      }
    }
    assert ps[..|ps|] == ps;
  }

  /** `PingHistory::average_delay`: `None` without a successful ping, else the integer mean. */
  method AverageDelay(h: PingHistory, millis: Delay -> u16) returns (r: Option<nat>)
    requires Valid(h)
    ensures r.None? <==> Successes(h.pings) == 0
    ensures r.Some? ==> r.value == MeanOf(MillisSum(h.pings, millis), Successes(h.pings))
    ensures r.Some? ==> r.value <= 0xFFFF
  {
    var count, sum := CountAndSum(h.pings, millis);
    if count == 0 {
      r := None;
    } else {
      MeanBound(sum, count);
      r := Some(MeanOf(sum, count));
    }
  }

  /** The mean of values of at most 65535 ms is at most 65535 ms. */
  lemma {:induction false} MeanBound(sum: nat, count: nat)
    requires 0 < count && sum <= count * 0xFFFF
    ensures MeanOf(sum, count) <= 0xFFFF
  {
    var q := MeanOf(sum, count);
    assert count * q + sum % count == sum;
    MulCancel(count, q, 0xFFFF);
  }

  /** A positive factor can be cancelled from both sides of `<=`. */
  lemma {:induction false} MulCancel(c: nat, a: nat, b: nat)
    requires c > 0 && c * a <= c * b
    ensures a <= b
  {
  }

  /** Why `quantile_delay` gave `None`. */
  datatype NoEstimate = TooFewPings

  /** The milliseconds of the successful pings, in order (`flatten` then `as_millis`). */
  function SuccessMillis(ps: seq<Option<Delay>>, millis: Delay -> u16): (r: seq<nat>)
    ensures |r| == Successes(ps)
  {
    if |ps| == 0 then []
    else SuccessMillis(ps[..|ps| - 1], millis) + (if ps[|ps| - 1].Some? then [millis(ps[|ps| - 1].value) as nat] else [])
  }

  /**
   * `PingHistory::quantile_delay`: `assert!` that the quantile lies strictly
   * between 0 and 1, then `None` below three successful pings. The estimate
   * itself, a fitted exponential distribution in `f32`, is `fit`.
   */
  function QuantileDelay(h: PingHistory, q: real, millis: Delay -> u16, fit: (seq<nat>, real) -> nat)
    : (r: Outcome<nat, NoEstimate>)
    ensures r.Panic? <==> !(0.0 < q < 1.0)
    ensures r.Err? <==> 0.0 < q < 1.0 && Successes(h.pings) < 3
    ensures r.Ok? ==> r.value == fit(SuccessMillis(h.pings, millis), q) && Successes(h.pings) >= 3
  {
    if !(0.0 < q < 1.0) then Panic
    else
      var pings := SuccessMillis(h.pings, millis);
      if |pings| < 3 then Err(TooFewPings) else Ok(fit(pings, q))
  }

  /** The two waits of a ping (lines 203-209), in milliseconds. */
  datatype Waits = Waits(send: nat, last: nat)

  /**
   * The interval between queries and the extra wait after the last one: the
   * 80% and 95% quantiles (the latter at least 500 ms), or 200 ms and 2 s
   * without enough data. Both quantiles are in range, so neither call panics.
   */
  function PingWaits(h: PingHistory, millis: Delay -> u16, fit: (seq<nat>, real) -> nat): (w: Waits)
    ensures w.last >= 500
    ensures Successes(h.pings) < 3 ==> w == Waits(200, 2000)
    ensures Successes(h.pings) >= 3 ==> w.send == fit(SuccessMillis(h.pings, millis), 0.8)
    ensures Successes(h.pings) >= 3 ==>
              var b := fit(SuccessMillis(h.pings, millis), 0.95);
              w.last >= b && (w.last == b || w.last == 500)
  {
    var a, b := QuantileDelay(h, 0.8, millis, fit), QuantileDelay(h, 0.95, millis, fit);
    if a.Ok? && b.Ok? then Waits(a.value, if b.value < 500 then 500 else b.value)
    else Waits(200, 2000)
  }

  const I16Min: int := -0x8000
  const I16Max: int := 0x7FFF

  function Clamp(x: int, lo: int, hi: int): int
    requires lo <= hi
  {
    if x < lo then lo else if x > hi then hi else x
  }

  /**
   * `PingHistory::score`, lower is better: `i16::MAX` while no ping has
   * succeeded; otherwise the floating-point formula of lines 135-137 (`weigh`,
   * given the mean clamped to 10..2000 ms and the history for its loss rate),
   * clamped to the `i16` range.
   */
  function Score(h: PingHistory, millis: Delay -> u16, weigh: (nat, PingHistory) -> int): (s: int)
    ensures I16Min <= s <= I16Max
    ensures Successes(h.pings) == 0 ==> s == I16Max
    ensures Successes(h.pings) > 0 ==>
      s == Clamp(weigh(Clamp(MillisSum(h.pings, millis) / Successes(h.pings), 10, 2000), h), I16Min, I16Max)
  {
    match Mean(h.pings, millis)
    case None => I16Max
    case Some(delay) => Clamp(weigh(Clamp(delay, 10, 2000), h), I16Min, I16Max)
  }

  /** A server that has never answered scores no better than any other. */
  lemma {:induction false} UnknownScoresWorst(h: PingHistory, other: PingHistory, millis: Delay -> u16, weigh: (nat, PingHistory) -> int)
    requires forall i :: 0 <= i < |h.pings| ==> h.pings[i].None?
    ensures Score(h, millis, weigh) >= Score(other, millis, weigh)
  {
    NoSuccessAllLost(h.pings);
  }

  /** `DNS_QUERY`: the query after its transaction ID and before its OPT RDATA length. */
  const DnsQuery: seq<byte> := [
    0x01, 0x20,                                      // flags: RD, AD
    0x00, 0x01, 0x00, 0x00, 0x00, 0x00, 0x00, 0x01,  // QD, AN, NS, AR counts
    0x06, 0x67, 0x6f, 0x6f, 0x67, 0x6c, 0x65,        // "google"
    0x03, 0x63, 0x6f, 0x6d, 0x00,                    // "com", root
    0x00, 0x10, 0x00, 0x01,                          // TXT, IN
    0x00, 0x00, 0x29, 0x04, 0xb0, 0x00, 0x00, 0x00, 0x00  // OPT: root, type 41, 1200-byte payload, TTL 0
  ]

  const DnsQuerySize: nat := 500

  /** The OPT option code `65001`, in the local/experimental range of RFC 6891. */
  const LocalOption: nat := 65001

  /**
   * The question and the OPT record carry the values the comments of lines
   * 169-182 announce: one question and one additional record, a TXT query in
   * class IN, and an OPT pseudo-record (section 6.1.2 of RFC 6891) advertising
   * a 1200-byte UDP payload.
   */
  lemma {:induction false} DnsQueryFields()
    ensures |DnsQuery| == 35
    ensures BeUint(DnsQuery[2..4]) == 1 && BeUint(DnsQuery[8..10]) == 1
    ensures BeUint(DnsQuery[22..24]) == 16 && BeUint(DnsQuery[24..26]) == 1
    ensures DnsQuery[26] == 0 && BeUint(DnsQuery[27..29]) == 41 && BeUint(DnsQuery[29..31]) == 1200
  {
    assert DnsQuery[2] == 0 && DnsQuery[3] == 1 && DnsQuery[8] == 0 && DnsQuery[9] == 1;
    BeUint2(DnsQuery[2..4]);
    BeUint2(DnsQuery[8..10]);
    BeUint2(DnsQuery[22..24]);
    BeUint2(DnsQuery[24..26]);
    BeUint2(DnsQuery[27..29]);
    BeUint2(DnsQuery[29..31]);
  }

  /**
   * The probe query of lines 223-232: the transaction ID, `DNS_QUERY`, the OPT
   * RDATA length, option 65001 with its length, then padding that fills the
   * query to `DNS_QUERY_SIZE`. `put_bytes` repeats one random byte, `fill`.
   */
  function PingQuery(tid: u16, fill: byte): (q: seq<byte>)
    ensures |q| == DnsQuerySize
    ensures q[..2] == BeBytes(tid, 2) && q[2..37] == DnsQuery
    ensures BeUint(q[37..39]) == |q[39..]|
    ensures BeUint(q[39..41]) == LocalOption
    ensures BeUint(q[41..43]) == |q[43..]|
    ensures forall i :: 43 <= i < |q| ==> q[i] == fill
  {
    var head := BeBytes(tid, 2) + DnsQuery;
    assert head[..2] == BeBytes(tid, 2) && head[2..] == DnsQuery;
    Padded(head, fill)
  }

  /** A query head of 37 bytes followed by the OPT option that pads it to `DNS_QUERY_SIZE`. */
  function Padded(head: seq<byte>, fill: byte): (q: seq<byte>)
    requires |head| == 37
    ensures |q| == DnsQuerySize && q[..37] == head
    ensures BeUint(q[37..39]) == |q[39..]|
    ensures BeUint(q[39..41]) == LocalOption
    ensures BeUint(q[41..43]) == |q[43..]|
    ensures forall i :: 43 <= i < |q| ==> q[i] == fill
  {
    var rdataLen := DnsQuerySize - |head| - 2;
    var fields := BeBytes(rdataLen, 2) + BeBytes(LocalOption, 2) + BeBytes(rdataLen - 4, 2);
    var pad := seq(rdataLen - 4, _ => fill);
    MiddlePart(head, fields, pad);
    FieldsOf(rdataLen, LocalOption, rdataLen - 4, fields);
    var q := head + fields + pad;
    assert q[37..39] == fields[..2] && q[39..41] == fields[2..4] && q[41..43] == fields[4..];
    q
  }

  /** Three two-byte big-endian fields read back. */
  lemma {:induction false} FieldsOf(a: u16, b: u16, c: u16, fields: seq<byte>)
    requires fields == BeBytes(a, 2) + BeBytes(b, 2) + BeBytes(c, 2)
    ensures BeUint(fields[..2]) == a && BeUint(fields[2..4]) == b && BeUint(fields[4..]) == c
  {
    BeBytesRoundTrip(a, 2);
    BeBytesRoundTrip(b, 2);
    BeBytesRoundTrip(c, 2);
    assert fields[..2] == BeBytes(a, 2) && fields[2..4] == BeBytes(b, 2) && fields[4..] == BeBytes(c, 2);
  }

  /**
   * Lines 195-201: random IDs are drawn into a set until it holds `count`
   * of them. `draws` is the random stream; `used` is how many draws were
   * taken. The set's iteration order is not modelled: the IDs come out in
   * the order they were first drawn.
   */
  method TransactionIds(count: nat, draws: seq<u16>) returns (tids: seq<u16>, used: nat)
    ensures used <= |draws| && |tids| <= count
    ensures Distinct(tids)
    ensures forall t :: t in tids <==> t in draws[..used]
    ensures |tids| == count || used == |draws|
  {
    tids, used := [], 0;
    while |tids| < count && used < |draws|
      invariant used <= |draws| && |tids| <= count
      invariant Distinct(tids)
      invariant forall t :: t in tids <==> t in draws[..used]
    {
      var t := draws[used];
      assert draws[..used + 1] == draws[..used] + [t];
      if t !in tids {
        tids := tids + [t];
      }
      used := used + 1;
    }
  }

  /** Why a received datagram did not answer a query (lines 252-266). */
  datatype Ignored = ReplyTooShort | UnknownTid

  /** The big-endian transaction ID of a DNS message, `(pkt[0] as u16) << 8 | pkt[1] as u16`. */
  function Tid(pkt: seq<byte>): u16
    requires |pkt| >= 2
  {
    (pkt[0] as int) * 256 + pkt[1] as int
  }

  /** Which query a reply answers: the position of its transaction ID among `tids`. */
  function ReplyIndex(pkt: seq<byte>, tids: seq<u16>): (r: Outcome<nat, Ignored>)
    ensures !r.Panic?
    ensures r == Err(ReplyTooShort) <==> |pkt| < 12
    ensures r == Err(UnknownTid) <==> |pkt| >= 12 && Tid(pkt) !in tids
    ensures r.Ok? ==> r.value < |tids| && tids[r.value] == Tid(pkt) && Tid(pkt) !in tids[..r.value]
  {
    if |pkt| < 12 then Err(ReplyTooShort)
    else
      match Position(tids, Tid(pkt))
      case None => Err(UnknownTid)
      case Some(n) => Ok(n)
  }

  /** A reply that echoes the transaction ID of query `k` is matched to query `k`. */
  lemma {:induction false} ReplyMatchesQuery(tids: seq<u16>, k: nat, fill: byte, reply: seq<byte>)
    requires Distinct(tids) && k < |tids|
    requires |reply| >= 12 && reply[..2] == PingQuery(tids[k], fill)[..2]
    ensures ReplyIndex(reply, tids) == Ok(k)
  {
    BeUint2(reply[..2]);
    BeBytesRoundTrip(tids[k], 2);
    PositionDistinct(tids, k);
  }

  /**
   * One batch of datagrams (lines 251-268): the first that answers a query,
   * with its index in the batch and the query's index. The others are skipped.
   */
  function FirstReply(pkts: seq<seq<byte>>, tids: seq<u16>): (r: Outcome<(nat, nat), SocksUdp.RecvStop>)
    ensures r.Err? <==> forall j :: 0 <= j < |pkts| ==> ReplyIndex(pkts[j], tids).Err?
    ensures r.Ok? ==>
      r.value.0 < |pkts| && ReplyIndex(pkts[r.value.0], tids) == Ok(r.value.1)
      && forall j :: 0 <= j < r.value.0 ==> ReplyIndex(pkts[j], tids).Err?
    ensures !r.Panic?
  {
    var os := seq(|pkts|, j requires 0 <= j < |pkts| => ReplyIndex(pkts[j], tids));
    assert forall j :: 0 <= j < |pkts| ==> os[j] == ReplyIndex(pkts[j], tids);
    SocksUdp.FirstDecoded(os, 0)
  }

  /** How a ping ended: the reply to query `index` after `delay`, or the timeout. */
  datatype PingResult = Reply(index: nat, delay: Delay) | Timeout

  /** `n` lost pings. */
  function Lost(n: nat): (r: seq<Option<Delay>>)
    ensures |r| == n && forall i :: 0 <= i < n ==> r[i].None?
  {
    seq(n, _ => None)
  }

  /**
   * What a ping of `count` queries records (lines 274-290): the queries
   * before the answered one as lost, then the answered one's delay; on a
   * timeout, `count` losses.
   */
  function Recorded(res: PingResult, count: nat): (ds: seq<Option<Delay>>)
    requires count >= 1
  {
    match res
    case Reply(n, d) => Lost(n) + [Some(d)]
    case Timeout => Lost(count - 1) + [None]
  }

  /** Line 289: `loss` calls of `add_measurement(None)`. */
  method RecordLosses(h: PingHistory, loss: nat) returns (r: PingHistory)
    ensures r == AddAll(h, Lost(loss))
  {
    r := h;
    for i := 0 to loss
      invariant r == AddAll(h, Lost(i))
    {
      LostSnoc(i);
      AddAllSnoc(h, Lost(i), None);
      r := AddMeasurement(r, None);
    }
  }

  /** Lines 288-290: the losses, then one measurement with the delay. */
  method RecordPing(h: PingHistory, res: PingResult, count: nat) returns (r: PingHistory)
    requires count >= 1
    ensures r == AddAll(h, Recorded(res, count))
    ensures |r.pings| > 0 && r.pings[|r.pings| - 1] == (if res.Reply? then Some(res.delay) else None)
  {
    var loss := if res.Reply? then res.index else count - 1;
    var last: Option<Delay> := if res.Reply? then Some(res.delay) else None;
    var lost := RecordLosses(h, loss);
    RecordedParts(res, count, loss, last);
    AddAllSnoc(h, Lost(loss), last);
    r := AddMeasurement(lost, last);
    AddMeasurementLast(lost, last, r);
  }

  lemma {:induction false} RecordedParts(res: PingResult, count: nat, loss: nat, last: Option<Delay>)
    requires count >= 1
    requires loss == (if res.Reply? then res.index else count - 1)
    requires last == (if res.Reply? then Some(res.delay) else None)
    ensures Recorded(res, count) == Lost(loss) + [last]
  {
  }

  /** The newest measurement is at the back. */
  lemma {:induction false} AddMeasurementLast(h: PingHistory, d: Option<Delay>, r: PingHistory)
    requires r == AddMeasurement(h, d)
    ensures |r.pings| > 0 && r.pings[|r.pings| - 1] == d
  {
  }

  lemma {:induction false} LostSnoc(n: nat)
    ensures Lost(n + 1) == Lost(n) + [None]
  {
  }

  lemma {:induction false} AddAllSnoc(h: PingHistory, ds: seq<Option<Delay>>, d: Option<Delay>)
    ensures AddAll(h, ds + [d]) == AddMeasurement(AddAll(h, ds), d)
  {
    assert (ds + [d])[..|ds|] == ds;
  }

  /** A ping that times out records exactly `count` losses; one that is answered records one success. */
  lemma {:induction false} RecordedCounts(res: PingResult, count: nat)
    requires count >= 1
    ensures res.Timeout? ==> |Recorded(res, count)| == count && Successes(Recorded(res, count)) == 0
    ensures res.Reply? ==> |Recorded(res, count)| == res.index + 1 && Successes(Recorded(res, count)) == 1
  {
    var ds := Recorded(res, count);
    var init := ds[..|ds| - 1];
    assert init == Lost(|ds| - 1);
    NoSuccessAllLost(init);
  }

  /** In a valid history, a ping leaves the newest entries with its outcome last. */
  lemma {:induction false} RecordPingWindow(h: PingHistory, res: PingResult, count: nat)
    requires Valid(h) && count >= 1
    ensures var ds := Recorded(res, count);
      AddAll(h, ds).pings == Newest(h.pings + ds, Min(|h.pings| + |ds|, MaxHistory))
  {
    AddAllNewest(h, Recorded(res, count));
  }
}

=== FILE: probe.dfy ===
/**
 * `probe_inner_proto`, in both of its versions (`src/app/checking/ping.rs`
 * and `src/app/checking/service.rs`): up to three rounds, each racing a
 * query to an IPv4 and to an IPv6 DNS server through the tunnel, stopping
 * once both have answered; the counts classify the server's inner protocol.
 */
module CheckProbe {

  /** `InnerProto`: which IP versions a server reaches through its tunnel. */
  datatype InnerProto = IPv4 | IPv6 | Inet | Unspecified

  /** `N`, the number of rounds. */
  const Rounds: nat := 3

  /**
   * A round's `select!`: the first query to succeed, or neither. A failed
   * query disables its branch and the other is awaited; `else` runs when both
   * fail. A query that times out returns `Ok(None)` (`src/app/checking/ping.rs`,
   * lines 282-291 and 306-307), which counts as a success here.
   */
  datatype Round = V4Ok | V6Ok | NoneOk

  /** The rounds among the first `n` whose outcome is `r`. */
  function Count(outcome: nat -> Round, n: nat, r: Round): (c: nat)
    ensures c <= n
  {
    if n == 0 then 0 else Count(outcome, n - 1, r) + (if outcome(n - 1) == r then 1 else 0)
  }

  lemma {:induction false} CountAll(outcome: nat -> Round, n: nat, r: Round)
    ensures Count(outcome, n, r) == n <==> forall i :: 0 <= i < n ==> outcome(i) == r
  {
    if n > 0 {
      CountAll(outcome, n - 1, r);
    }
  }

  lemma {:induction false} CountNone(outcome: nat -> Round, n: nat, r: Round)
    ensures Count(outcome, n, r) == 0 <==> forall i :: 0 <= i < n ==> outcome(i) != r
  {
    if n > 0 {
      CountNone(outcome, n - 1, r);
    }
  }

  /** The final `match` on the two counters. */
  function Classify(v4: nat, v6: nat): InnerProto
  {
    if v4 == Rounds && v6 == 0 then IPv4
    else if v4 == 0 && v6 == Rounds then IPv6
    else if v4 == 0 && v6 == 0 then Unspecified
    else Inet
  }

  /**
   * The probe loop, with `outcome(i)` the result of round `i`. It returns
   * the class and the three counters `v4_ok_cnt`, `v6_ok_cnt`, `test_cnt`.
   */
  method ProbeInnerProto(outcome: nat -> Round) returns (p: InnerProto, v4: nat, v6: nat, tests: nat)
    ensures v4 + v6 <= tests <= Rounds
    ensures v4 == Count(outcome, tests, V4Ok) && v6 == Count(outcome, tests, V6Ok)
    ensures tests < Rounds ==> v4 > 0 && v6 > 0
    ensures p == Classify(v4, v6)
  {
    v4, v6, tests := 0, 0, 0;
    while tests < Rounds && !(v4 > 0 && v6 > 0)
      invariant v4 + v6 <= tests <= Rounds
      invariant v4 == Count(outcome, tests, V4Ok) && v6 == Count(outcome, tests, V6Ok)
    {
      match outcome(tests) {
        case V4Ok => v4 := v4 + 1;
        case V6Ok => v6 := v6 + 1;
        case NoneOk =>
      }
      tests := tests + 1;
    }
    p := Classify(v4, v6);
  }

  /**
   * The classification in terms of the rounds: IPv4 exactly when every round
   * reached only the IPv4 server first, IPv6 likewise, unspecified exactly
   * when no round succeeded, and `Inet` otherwise.
   */
  lemma {:induction false} ProbeClasses(outcome: nat -> Round, p: InnerProto, v4: nat, v6: nat, tests: nat)
    requires v4 + v6 <= tests <= Rounds
    requires v4 == Count(outcome, tests, V4Ok) && v6 == Count(outcome, tests, V6Ok)
    requires tests < Rounds ==> v4 > 0 && v6 > 0
    requires p == Classify(v4, v6)
    ensures p == IPv4 <==> forall i :: 0 <= i < Rounds ==> outcome(i) == V4Ok
    ensures p == IPv6 <==> forall i :: 0 <= i < Rounds ==> outcome(i) == V6Ok
    ensures p == Unspecified <==> forall i :: 0 <= i < Rounds ==> outcome(i) == NoneOk
  {
    CountAll(outcome, Rounds, V4Ok);
    CountAll(outcome, Rounds, V6Ok);
    CountNone(outcome, tests, V4Ok);
    CountNone(outcome, tests, V6Ok);
    CountNone(outcome, Rounds, V4Ok);
    CountNone(outcome, Rounds, V6Ok);
  }
}

=== FILE: quic.dfy ===
/**
 * Decoding of a client's QUIC version 1 Initial packet
 * (`src/app/socks5/quic/mod.rs`): variable-length integers (section 16 of
 * RFC 9000), the long header and its connection IDs (section 17.2 of
 * RFC 9000), removal of header protection (section 5.4.1 of RFC 9001), and
 * the AEAD open of the payload, with the cryptography supplied as
 * `QuicCrypto.Primitives`.
 *
 * The code reads its cursor with `buf[i]` and `Buf::advance`, which panic
 * past the end. Where such a read can be reached from a datagram, `Mode`
 * selects between the code as written (`Panic`) and the corrected code
 * (`Err(NoEnoughData)`); see README, Findings.
 */
module Quic {
  import opened Bytes
  import opened Wrappers
  import opened QuicCrypto

  datatype ParseError = NotValidQuicPacket | NotInitialPacket | NoEnoughData

  /** `MIN_DATAGRAM_SIZE_BYTES`: the smallest datagram carrying a client Initial. */
  const MinDatagramSize: nat := 1200
  /** Section 17.2 of RFC 9000: a connection ID is at most 20 bytes. */
  const MaxConnIdLen: nat := 20

  /** A read past the end of the cursor. */
  function Short<T>(mode: Mode): (r: Outcome<T, ParseError>)
    ensures r.Panic? <==> mode.AsWritten?
    ensures r.Err? ==> r.error == NoEnoughData
  {
    if mode.AsWritten? then Panic else Err(NoEnoughData)
  }

  // ---------------------------------------------------------------------
  // Variable-length integers (section 16 of RFC 9000)
  // ---------------------------------------------------------------------

  /** `2u8.pow(b0 >> 6)`: the encoded length, from the two high bits. */
  function VarIntLen(b0: byte): (n: nat)
    ensures n == 1 || n == 2 || n == 4 || n == 8
  {
    var e := b0 / 64;
    if e == 0 then 1 else if e == 1 then 2 else if e == 2 then 4 else 8
  }

  /** 2^(8 * len - 2): the values a `len`-byte encoding can hold. */
  function VarIntBound(len: nat): (r: nat)
    requires len == 1 || len == 2 || len == 4 || len == 8
  {
    if len == 1 then 64 else if len == 2 then 0x4000 else if len == 4 then 0x4000_0000
    else 0x4000_0000_0000_0000
  }

  /** The two-bit length code of a `len`-byte encoding. */
  function LenCode(len: nat): nat
    requires len == 1 || len == 2 || len == 4 || len == 8
  {
    if len == 1 then 0 else if len == 2 then 1 else if len == 4 then 2 else 3
  }

  /** The bound is a quarter of the width's range. */
  lemma {:induction false} VarIntWidth(len: nat)
    requires len == 1 || len == 2 || len == 4 || len == 8
    ensures VarIntBound(len) == 64 * Pow256(len - 1) && Pow256(len) == 256 * Pow256(len - 1)
  {
    if len == 8 {
      assert Pow256(7) == 0x100_0000_0000_0000;
    } else if len == 4 {
      assert Pow256(3) == 0x100_0000;
    } else if len == 2 {
      assert Pow256(1) == 0x100;
    } else {
      assert Pow256(0) == 1;
    }
  }

  /** What a read produced, and the position in the buffer just after it. */
  datatype Parsed<T> = Parsed(value: T, next: nat)

  predicate ValidWidth(w: nat)
  {
    w == 1 || w == 2 || w == 4 || w == 8
  }

  /** `buf[a..c]` split where `A` ends, when it is `A + B`. */
  lemma {:induction false} SplitAt(buf: seq<byte>, a: nat, c: nat, A: seq<byte>, B: seq<byte>)
    requires a + |A| + |B| == c <= |buf| && buf[a..c] == A + B
    ensures buf[a..a + |A|] == A && buf[a + |A|..c] == B
  {
    assert buf[a..a + |A|] == buf[a..c][..|A|];
    assert buf[a + |A|..c] == buf[a..c][|A|..];
  }

  /** Adjacent slices join. */
  lemma {:induction false} JoinAt(buf: seq<byte>, a: nat, b: nat, c: nat)
    requires a <= b <= c <= |buf|
    ensures buf[a..c] == buf[a..b] + buf[b..c]
  {
  }

  /**
   * `decode_var_int` at position `pos`: the low six bits of the first byte,
   * then the following bytes, big-endian. As written, a read past the end
   * of the buffer panics.
   */
  function VarInt(buf: seq<byte>, pos: nat, mode: Mode): (res: Outcome<Parsed<nat>, ParseError>)
    requires pos <= |buf|
    ensures res.Ok? <==> pos < |buf| && pos + VarIntLen(buf[pos]) <= |buf|
    ensures !res.Ok? ==> res == Short(mode)
    ensures res.Ok? ==> res.value.next == pos + VarIntLen(buf[pos])
                        && res.value.value < VarIntBound(VarIntLen(buf[pos]))
  {
    if pos == |buf| || pos + VarIntLen(buf[pos]) > |buf| then Short(mode)
    else
      var len := VarIntLen(buf[pos]);
      var d := VarIntDigits(buf, pos, len);
      BeUintHeadBound(d);
      VarIntWidth(len);
      Ok(Parsed(BeUint(d), pos + len))
  }

  /** The big-endian digits of a `len`-byte encoding: the first byte without its length code, then the others. */
  function VarIntDigits(buf: seq<byte>, pos: nat, len: nat): (d: seq<byte>)
    requires ValidWidth(len) && pos + len <= |buf|
    ensures |d| == len && d[0] < 64
  {
    [buf[pos] % 64] + buf[pos + 1..pos + len]
  }

  /** A big-endian string whose first byte is below 64 denotes less than 64 times the rest's range. */
  lemma {:induction false} BeUintHeadBound(s: seq<byte>)
    requires |s| >= 1 && s[0] < 64
    ensures BeUint(s) < 64 * Pow256(|s| - 1)
    decreases |s|
  {
    if |s| > 1 {
      BeUintHeadBound(s[..|s| - 1]);
    } else {
      assert s[..0] == [];
    }
  }

  /** A value below 64 times the range of `len - 1` bytes has a first byte below 64. */
  lemma {:induction false} BeBytesHeadBound(v: nat, len: nat)
    requires len >= 1 && v < 64 * Pow256(len - 1)
    ensures BeBytes(v, len)[0] < 64
    decreases len
  {
    if len > 1 {
      BeBytesHeadBound(v / 256, len - 1);
    }
  }

  /**
   * The `len`-byte encoding of `v`: its big-endian bytes with the length
   * code in the top two bits of the first.
   */
  function EncodeVarInt(v: nat, len: nat): (r: seq<byte>)
    requires ValidWidth(len)
    requires v < VarIntBound(len)
    ensures |r| == len
  {
    var d := BeBytes(v, len);
    VarIntWidth(len);
    BeBytesHeadBound(v, len);
    [LenCode(len) * 64 + d[0]] + d[1..]
  }

  /** A byte is its top two bits over its low six. */
  lemma {:induction false} CodeByte(b: byte, c: nat, lo: nat)
    requires c < 4 && lo < 64
    ensures b == c * 64 + lo <==> b / 64 == c && b % 64 == lo
  {
  }

  /** Decoding an encoded integer gives it back and moves past exactly its encoding. */
  lemma {:induction false} VarIntRoundTrip(v: nat, len: nat, buf: seq<byte>, pos: nat, mode: Mode)
    requires ValidWidth(len) && v < VarIntBound(len)
    requires pos + len <= |buf| && buf[pos..pos + len] == EncodeVarInt(v, len)
    ensures VarInt(buf, pos, mode) == Ok(Parsed(v, pos + len))
  {
    var d := BeBytes(v, len);
    VarIntWidth(len);
    BeBytesHeadBound(v, len);
    assert buf[pos] == buf[pos..pos + len][0];
    CodeByte(buf[pos], LenCode(len), d[0]);
    assert VarIntLen(buf[pos]) == len;
    assert buf[pos + 1..pos + len] == buf[pos..pos + len][1..];
    assert VarIntDigits(buf, pos, len) == d;
    BeBytesRoundTrip(v, len);
  }

  /** An integer decoded from the buffer was encoded there at the width its first byte names. */
  lemma {:induction false} VarIntDecodeEncode(buf: seq<byte>, pos: nat, mode: Mode)
    requires pos <= |buf| && VarInt(buf, pos, mode).Ok?
    ensures var d := VarInt(buf, pos, mode).value;
      buf[pos..d.next] == EncodeVarInt(d.value, VarIntLen(buf[pos]))
  {
    var len := VarIntLen(buf[pos]);
    BeUintRoundTrip(VarIntDigits(buf, pos, len));
    CodeByte(buf[pos], LenCode(len), buf[pos] % 64);
    assert buf[pos..pos + len] == [buf[pos]] + buf[pos + 1..pos + len];
  }

  /** The two consecutive integers of the `test_decode_var_int` case. */
  lemma {:induction false} VarIntExample(mode: Mode)
    ensures VarInt([0x00, 0x40, 0x47], 0, mode) == Ok(Parsed(0, 1))
    ensures VarInt([0x00, 0x40, 0x47], 1, mode) == Ok(Parsed(71, 3))
  {
    assert VarIntDigits([0x00, 0x40, 0x47], 1, 2) == [0x00, 0x47];
    BeUint2([0x00, 0x47]);
  }

  /** A byte below 64 is a one-byte var-int standing for itself. */
  lemma {:induction false} VarIntOneByte(buf: seq<byte>, pos: nat, mode: Mode)
    requires pos < |buf| && buf[pos] < 64
    ensures VarInt(buf, pos, mode) == Ok(Parsed(buf[pos] as nat, pos + 1))
  {
    var d := VarIntDigits(buf, pos, 1);
    assert d == [buf[pos]];
    assert BeUint(d) == BeUint(d[..0]) * 256 + d[0];
  }

  // ---------------------------------------------------------------------
  // Connection IDs and the long header (section 17.2 of RFC 9000)
  // ---------------------------------------------------------------------

  function EncodeConnId(id: seq<byte>): (r: seq<byte>)
    requires |id| <= MaxConnIdLen
    ensures |r| == 1 + |id|
  {
    [|id|] + id
  }

  /** `decode_conn_id`: a length byte of at most 20, then that many bytes. */
  function ConnId(buf: seq<byte>, pos: nat, mode: Mode): (res: Outcome<Parsed<seq<byte>>, ParseError>)
    requires pos <= |buf|
    ensures pos == |buf| ==> res == Short(mode)
    ensures pos < |buf| && buf[pos] > MaxConnIdLen ==> res == Err(NotValidQuicPacket)
    ensures pos < |buf| && buf[pos] <= MaxConnIdLen && pos + 1 + buf[pos] > |buf| ==> res == Err(NoEnoughData)
    ensures res.Ok? ==> |res.value.value| <= MaxConnIdLen && res.value.next == pos + 1 + |res.value.value| <= |buf|
  {
    if pos == |buf| then Short(mode)
    else
      var len := buf[pos] as int;
      if len > MaxConnIdLen then Err(NotValidQuicPacket)
      else if pos + 1 + len > |buf| then Err(NoEnoughData)
      else Ok(Parsed(buf[pos + 1..pos + 1 + len], pos + 1 + len))
  }

  /** A connection ID read from the buffer was written there after its length byte. */
  lemma {:induction false} ConnIdLayout(buf: seq<byte>, pos: nat, mode: Mode)
    requires pos <= |buf| && ConnId(buf, pos, mode).Ok?
    ensures var c := ConnId(buf, pos, mode).value;
      buf[pos..c.next] == EncodeConnId(c.value)
  {
    assert buf[pos..pos + 1 + buf[pos]] == [buf[pos]] + buf[pos + 1..pos + 1 + buf[pos]];
  }

  lemma {:induction false} ConnIdRoundTrip(id: seq<byte>, buf: seq<byte>, pos: nat, mode: Mode)
    requires |id| <= MaxConnIdLen
    requires pos + 1 + |id| <= |buf| && buf[pos..pos + 1 + |id|] == EncodeConnId(id)
    ensures ConnId(buf, pos, mode) == Ok(Parsed(id, pos + 1 + |id|))
  {
    SplitAt(buf, pos, pos + 1 + |id|, [|id|], id);
    assert buf[pos] == buf[pos..pos + 1][0];
  }

  /** The Token Length field and the token it announces. */
  function Token(buf: seq<byte>, pos: nat, mode: Mode): (res: Outcome<Parsed<seq<byte>>, ParseError>)
    requires pos <= |buf|
    ensures res.Ok? ==>
      pos < |buf| && |res.value.value| < VarIntBound(VarIntLen(buf[pos]))
      && res.value.next == pos + VarIntLen(buf[pos]) + |res.value.value| <= |buf|
    ensures res.Err? ==> res.error == NoEnoughData
    ensures mode.Corrected? ==> !res.Panic?
  {
    var len :- VarInt(buf, pos, mode);
    if len.value > |buf| - len.next then Err(NoEnoughData)
    else Ok(Parsed(buf[len.next..len.next + len.value], len.next + len.value))
  }

  /** A token read from the buffer was written there after its length, at the width the first byte names. */
  lemma {:induction false} TokenLayout(buf: seq<byte>, pos: nat, mode: Mode)
    requires pos <= |buf| && Token(buf, pos, mode).Ok?
    ensures var t := Token(buf, pos, mode).value;
      buf[pos..t.next] == EncodeVarInt(|t.value|, VarIntLen(buf[pos])) + t.value
  {
    VarIntDecodeEncode(buf, pos, mode);
    var len := VarInt(buf, pos, mode).value;
    JoinAt(buf, pos, len.next, len.next + len.value);
  }

  lemma {:induction false} TokenRoundTrip(token: seq<byte>, w: nat, buf: seq<byte>, pos: nat, mode: Mode)
    requires ValidWidth(w) && |token| < VarIntBound(w)
    requires pos + w + |token| <= |buf| && buf[pos..pos + w + |token|] == EncodeVarInt(|token|, w) + token
    ensures Token(buf, pos, mode) == Ok(Parsed(token, pos + w + |token|))
  {
    SplitAt(buf, pos, pos + w + |token|, EncodeVarInt(|token|, w), token);
    VarIntRoundTrip(|token|, w, buf, pos, mode);
  }

  /**
   * The fields of a long header after the version; `tokenLenWidth` and
   * `lengthWidth` record how many bytes the sender spent on the two
   * variable-length integers.
   */
  datatype Fields = Fields(dcid: seq<byte>, scid: seq<byte>, token: seq<byte>, payloadLen: nat,
                           tokenLenWidth: nat, lengthWidth: nat)

  predicate FieldsFit(f: Fields)
  {
    |f.dcid| <= MaxConnIdLen && |f.scid| <= MaxConnIdLen
    && ValidWidth(f.tokenLenWidth) && ValidWidth(f.lengthWidth)
    && |f.token| < VarIntBound(f.tokenLenWidth) && f.payloadLen < VarIntBound(f.lengthWidth)
  }

  /** The token, its length and the Length field, as a sender lays them out. */
  function EncodeTokenAndLength(f: Fields): (r: seq<byte>)
    requires FieldsFit(f)
    ensures |r| == f.tokenLenWidth + |f.token| + f.lengthWidth
  {
    EncodeVarInt(|f.token|, f.tokenLenWidth) + f.token + EncodeVarInt(f.payloadLen, f.lengthWidth)
  }

  /** The fields as a sender lays them out. */
  function EncodeFields(f: Fields): (r: seq<byte>)
    requires FieldsFit(f)
    ensures |r| == 2 + |f.dcid| + |f.scid| + |EncodeTokenAndLength(f)|
  {
    EncodeConnId(f.dcid) + EncodeConnId(f.scid) + EncodeTokenAndLength(f)
  }

  /**
   * The token, then the Length field, completing the fields after the two
   * connection IDs; the packet must hold the Length's worth of bytes after it.
   */
  function TokenAndLength(buf: seq<byte>, pos: nat, dcid: seq<byte>, scid: seq<byte>, mode: Mode)
    : (res: Outcome<Parsed<Fields>, ParseError>)
    requires pos <= |buf|
    ensures res.Ok? ==>
      var f := res.value.value;
      pos < |buf| && f.dcid == dcid && f.scid == scid && f.tokenLenWidth == VarIntLen(buf[pos])
      && ValidWidth(f.lengthWidth) && |f.token| < VarIntBound(f.tokenLenWidth) && f.payloadLen < VarIntBound(f.lengthWidth)
      && res.value.next == pos + f.tokenLenWidth + |f.token| + f.lengthWidth && res.value.next + f.payloadLen <= |buf|
    ensures mode.Corrected? ==> !res.Panic?
  {
    var t :- Token(buf, pos, mode);
    var l :- VarInt(buf, t.next, mode);
    if |buf| - l.next < l.value then Err(NoEnoughData)
    else Ok(Parsed(Fields(dcid, scid, t.value, l.value, VarIntLen(buf[pos]), VarIntLen(buf[t.next])), l.next))
  }

  /** The connection IDs, the token and the Length field. */
  function HeaderFields(buf: seq<byte>, pos: nat, mode: Mode): (res: Outcome<Parsed<Fields>, ParseError>)
    requires pos <= |buf|
    ensures res.Ok? ==>
      FieldsFit(res.value.value) && pos < res.value.next && res.value.next + res.value.value.payloadLen <= |buf|
    ensures mode.Corrected? ==> !res.Panic?
  {
    var d :- ConnId(buf, pos, mode);
    var s :- ConnId(buf, d.next, mode);
    TokenAndLength(buf, s.next, d.value, s.value, mode)
  }

  lemma {:induction false} TokenAndLengthLayout(buf: seq<byte>, pos: nat, dcid: seq<byte>, scid: seq<byte>, mode: Mode)
    requires pos <= |buf| && |dcid| <= MaxConnIdLen && |scid| <= MaxConnIdLen
    requires TokenAndLength(buf, pos, dcid, scid, mode).Ok?
    ensures var tl := TokenAndLength(buf, pos, dcid, scid, mode).value;
      FieldsFit(tl.value) && buf[pos..tl.next] == EncodeTokenAndLength(tl.value)
  {
    var t := Token(buf, pos, mode).value;
    var l := VarInt(buf, t.next, mode).value;
    TokenLayout(buf, pos, mode);
    VarIntDecodeEncode(buf, t.next, mode);
    JoinAt(buf, pos, t.next, l.next);
  }

  /** The fields read from the buffer were encoded there. */
  lemma {:induction false} HeaderFieldsLayout(buf: seq<byte>, pos: nat, mode: Mode)
    requires pos <= |buf| && HeaderFields(buf, pos, mode).Ok?
    ensures var h := HeaderFields(buf, pos, mode).value;
      buf[pos..h.next] == EncodeFields(h.value)
  {
    var d := ConnId(buf, pos, mode).value;
    var s := ConnId(buf, d.next, mode).value;
    var tl := TokenAndLength(buf, s.next, d.value, s.value, mode).value;
    ConnIdLayout(buf, pos, mode);
    ConnIdLayout(buf, d.next, mode);
    TokenAndLengthLayout(buf, s.next, d.value, s.value, mode);
    JoinAt(buf, pos, d.next, s.next);
    JoinAt(buf, pos, s.next, tl.next);
  }

  lemma {:induction false} TokenAndLengthRoundTrip(f: Fields, buf: seq<byte>, pos: nat, mode: Mode)
    requires FieldsFit(f)
    requires var n := |EncodeTokenAndLength(f)|;
      pos + n + f.payloadLen <= |buf| && buf[pos..pos + n] == EncodeTokenAndLength(f)
    ensures TokenAndLength(buf, pos, f.dcid, f.scid, mode) == Ok(Parsed(f, pos + |EncodeTokenAndLength(f)|))
  {
    hide TokenAndLength, Token, VarInt, EncodeVarInt, BeBytes;
    var c := EncodeVarInt(|f.token|, f.tokenLenWidth);
    var e := EncodeVarInt(f.payloadLen, f.lengthWidth);
    var mid := pos + |c| + |f.token|;
    SplitAt(buf, pos, mid + |e|, c + f.token, e);
    TokenAndLengthReads(f, buf, pos, mid, mid + |e|, mode);
  }

  /** The token and the Length field, each in place, read back. */
  lemma {:induction false} TokenAndLengthReads(f: Fields, buf: seq<byte>, pos: nat, mid: nat, end: nat, mode: Mode)
    requires FieldsFit(f) && end + f.payloadLen <= |buf|
    requires mid == pos + f.tokenLenWidth + |f.token| && end == mid + f.lengthWidth
    requires buf[pos..mid] == EncodeVarInt(|f.token|, f.tokenLenWidth) + f.token
    requires buf[mid..end] == EncodeVarInt(f.payloadLen, f.lengthWidth)
    ensures TokenAndLength(buf, pos, f.dcid, f.scid, mode) == Ok(Parsed(f, end))
  {
    hide TokenAndLength, Token, VarInt, EncodeVarInt;
    TokenRoundTrip(f.token, f.tokenLenWidth, buf, pos, mode);
    VarIntRoundTrip(f.payloadLen, f.lengthWidth, buf, mid, mode);
    TokenAndLengthFromParts(f, buf, pos, mid, end, mode);
  }

  /** The token and the Length field, read one after the other, make the fields. */
  lemma {:induction false} TokenAndLengthFromParts(f: Fields, buf: seq<byte>, pos: nat, mid: nat, end: nat, mode: Mode)
    requires pos <= |buf| && mid <= |buf|
    requires Token(buf, pos, mode) == Ok(Parsed(f.token, mid))
    requires VarInt(buf, mid, mode) == Ok(Parsed(f.payloadLen, end))
    requires end + f.payloadLen <= |buf|
    requires f.tokenLenWidth == VarIntLen(buf[pos]) && f.lengthWidth == VarIntLen(buf[mid])
    ensures TokenAndLength(buf, pos, f.dcid, f.scid, mode) == Ok(Parsed(f, end))
  {
  }

  /** Fields encoded in the buffer, with the Length's worth of bytes after them, parse back. */
  lemma {:induction false} HeaderFieldsRoundTrip(f: Fields, buf: seq<byte>, pos: nat, mode: Mode)
    requires FieldsFit(f)
    requires var n := |EncodeFields(f)|;
      pos + n + f.payloadLen <= |buf| && buf[pos..pos + n] == EncodeFields(f)
    ensures HeaderFields(buf, pos, mode) == Ok(Parsed(f, pos + |EncodeFields(f)|))
  {
    // The parts' lemmas say all that is needed; unfolding the parser here only slows the proof.
    hide HeaderFields, ConnId, TokenAndLength, Token, VarInt, EncodeFields, EncodeTokenAndLength, EncodeVarInt;
    var p1 := pos + 1 + |f.dcid|;
    var p2 := p1 + 1 + |f.scid|;
    FieldsLaidOut(f, buf, pos, p1, p2);
    ConnIdRoundTrip(f.dcid, buf, pos, mode);
    ConnIdRoundTrip(f.scid, buf, p1, mode);
    TokenAndLengthRoundTrip(f, buf, p2, mode);
    HeaderFieldsFromParts(f, buf, pos, p1, p2, pos + |EncodeFields(f)|, mode);
  }

  /** Where each part of encoded fields lies. */
  lemma {:induction false} FieldsLaidOut(f: Fields, buf: seq<byte>, pos: nat, p1: nat, p2: nat)
    requires FieldsFit(f)
    requires var n := |EncodeFields(f)|;
      pos + n + f.payloadLen <= |buf| && buf[pos..pos + n] == EncodeFields(f)
    requires p1 == pos + 1 + |f.dcid| && p2 == p1 + 1 + |f.scid|
    ensures buf[pos..p1] == EncodeConnId(f.dcid) && buf[p1..p2] == EncodeConnId(f.scid)
    ensures var c := EncodeTokenAndLength(f);
      p2 + |c| == pos + |EncodeFields(f)| && p2 + |c| + f.payloadLen <= |buf| && buf[p2..p2 + |c|] == c
  {
    var a, b, c := EncodeConnId(f.dcid), EncodeConnId(f.scid), EncodeTokenAndLength(f);
    FieldSlices(buf, pos, p1, p2, p2 + |c|, a, b, c);
  }

  /** Three adjacent encodings, laid down together, each lie in their own slice. */
  lemma {:induction false} FieldSlices(buf: seq<byte>, pos: nat, p1: nat, p2: nat, p3: nat, a: seq<byte>, b: seq<byte>, c: seq<byte>)
    requires p1 == pos + |a| && p2 == p1 + |b| && p3 == p2 + |c| <= |buf| && buf[pos..p3] == a + b + c
    ensures buf[pos..p1] == a && buf[p1..p2] == b && buf[p2..p3] == c
  {
    SplitAt(buf, pos, p3, a + b, c);
    SplitAt(buf, pos, p2, a, b);
  }

  /** The fields are the two connection IDs and what follows them. */
  lemma {:induction false} HeaderFieldsFromParts(f: Fields, buf: seq<byte>, pos: nat, p1: nat, p2: nat, p3: nat, mode: Mode)
    requires pos <= |buf|
    requires ConnId(buf, pos, mode) == Ok(Parsed(f.dcid, p1))
    requires p1 <= |buf| && ConnId(buf, p1, mode) == Ok(Parsed(f.scid, p2))
    requires p2 <= |buf| && TokenAndLength(buf, p2, f.dcid, f.scid, mode) == Ok(Parsed(f, p3))
    ensures HeaderFields(buf, pos, mode) == Ok(Parsed(f, p3))
  {
  }

  /** A long header: its first byte, still protected, the fields, and where the packet number starts. */
  datatype LongHeader = LongHeader(first: byte, fields: Fields, pnOffset: nat)

  /** QUIC version 1 as the four version bytes carry it. */
  const Version1: seq<byte> := [0, 0, 0, 1]

  /** `u32::from_be_bytes(buf[1..5])`. */
  function Version(pkt: seq<byte>): nat
    requires |pkt| >= 5
  {
    0x100_0000 * (pkt[1] as int) + 0x1_0000 * (pkt[2] as int) + 0x100 * (pkt[3] as int) + (pkt[4] as int)
  }

  /** The version is the big-endian number in bytes 1 to 4, and it is 1 exactly when they are `Version1`. */
  lemma {:induction false} Version1Bytes(pkt: seq<byte>)
    requires |pkt| >= 5
    ensures Version(pkt) == BeUint(pkt[1..5])
    ensures Version(pkt) == 1 <==> pkt[1..5] == Version1
  {
    BeUint4(pkt[1..5]);
  }

  /**
   * The unprotected part of `InitialPacket::decode`, checked in this order:
   * the datagram size, the version, the Initial packet type; then the fields
   * up to the Length, which must fit in what remains. `pnOffset` is the
   * position the reads have reached.
   */
  function ParseLongHeader(pkt: seq<byte>, mode: Mode): (r: Outcome<LongHeader, ParseError>)
    ensures |pkt| < MinDatagramSize ==> r == Err(NoEnoughData)
    ensures |pkt| >= MinDatagramSize && Version(pkt) != 1 ==> r == Err(NotValidQuicPacket)
    ensures |pkt| >= MinDatagramSize && Version(pkt) == 1 && pkt[0] / 16 != 0xc ==>
              r == Err(NotInitialPacket)
    ensures r.Ok? ==>
              |pkt| >= MinDatagramSize && Version(pkt) == 1 && r.value.first == pkt[0] && pkt[0] / 16 == 0xc
              && FieldsFit(r.value.fields)
              && 5 < r.value.pnOffset && r.value.pnOffset + r.value.fields.payloadLen <= |pkt|
    ensures mode.Corrected? ==> !r.Panic?
  {
    if |pkt| < MinDatagramSize then Err(NoEnoughData)
    else if Version(pkt) != 1 then Err(NotValidQuicPacket)
    else if pkt[0] / 16 != 0xc then Err(NotInitialPacket)
    else
      var f :- HeaderFields(pkt, 5, mode);
      Ok(LongHeader(pkt[0], f.value, f.next))
  }

  /** After the first byte come version 1 and the encoded fields, up to the packet number. */
  lemma {:induction false} ParseLongHeaderLayout(pkt: seq<byte>, mode: Mode)
    requires ParseLongHeader(pkt, mode).Ok?
    ensures var h := ParseLongHeader(pkt, mode).value;
      pkt[1..5] == Version1 && pkt[5..h.pnOffset] == EncodeFields(h.fields)
  {
    HeaderFieldsLayout(pkt, 5, mode);
    Version1Bytes(pkt);
  }

  /**
   * A datagram of at least 1200 bytes whose first byte has the Initial type,
   * followed by version 1, encoded fields and the Length's worth of bytes,
   * parses to those fields.
   */
  lemma {:induction false} ParseLongHeaderRoundTrip(pkt: seq<byte>, f: Fields, mode: Mode)
    requires FieldsFit(f) && |pkt| >= MinDatagramSize && pkt[0] / 16 == 0xc && pkt[1..5] == Version1
    requires 5 + |EncodeFields(f)| + f.payloadLen <= |pkt| && pkt[5..5 + |EncodeFields(f)|] == EncodeFields(f)
    ensures ParseLongHeader(pkt, mode) == Ok(LongHeader(pkt[0], f, 5 + |EncodeFields(f)|))
  {
    HeaderFieldsRoundTrip(f, pkt, 5, mode);
    Version1Bytes(pkt);
  }

  /**
   * A 1200-byte datagram whose token runs to its end: as written, reading the
   * Length field indexes past the end; corrected, the packet is too short.
   */
  lemma {:induction false} TokenToEndPanics()
    ensures var pkt := [0xc0, 0, 0, 0, 1, 0, 0, 0x44, 0xa7] + Zeros(1191);
      ParseLongHeader(pkt, AsWritten) == Panic && ParseLongHeader(pkt, Corrected) == Err(NoEnoughData)
  {
    hide VarInt, VarIntDigits;
    var pkt := [0xc0, 0, 0, 0, 1, 0, 0, 0x44, 0xa7] + Zeros(1191);
    Version1Bytes(pkt);
    assert pkt[1..5] == Version1;
    assert pkt[5] == 0 && pkt[6] == 0;
    TokenToEndLength(pkt, AsWritten);
    TokenToEndLength(pkt, Corrected);
  }

  /** The token length of that datagram: the two-byte integer 0x04a7, or 1191. */
  lemma {:induction false} TokenToEndLength(pkt: seq<byte>, mode: Mode)
    requires pkt == [0xc0, 0, 0, 0, 1, 0, 0, 0x44, 0xa7] + Zeros(1191)
    ensures VarInt(pkt, 7, mode) == Ok(Parsed(1191, 9))
  {
    assert pkt[7] == 0x44 && pkt[8] == 0xa7;
    assert VarIntDigits(pkt, 7, 2) == [0x04, 0xa7];
    BeUint2([0x04, 0xa7]);
  }

  // ---------------------------------------------------------------------
  // Header protection (section 5.4.1 of RFC 9001)
  // ---------------------------------------------------------------------

  /** `pkt[0] ^= mask[0] & 0x0f`: a long header masks only the four low bits of its first byte. */
  function UnmaskFirst(b: byte, m: byte): (r: byte)
    ensures r / 16 == b / 16
  {
    XorBitsLowNibble(b, m % 16);
    Xor(b, m % 16)
  }

  /** Masking is its own inverse. */
  lemma {:induction false} UnmaskFirstTwice(b: byte, m: byte)
    ensures UnmaskFirst(UnmaskFirst(b, m), m) == b
  {
    XorBitsCancel(b, m % 16);
  }

  /** `(pkt[0] & 0x03) + 1`: the packet number length, from the unmasked first byte. */
  function PnLen(first: byte): (n: nat)
    ensures 1 <= n <= 4
  {
    first % 4 + 1
  }

  lemma {:induction false} PnBound(s: seq<byte>)
    requires 1 <= |s| <= 4
    ensures BeUint(s) < 0x1_0000_0000
  {
    BeUintBound(s);
    assert Pow256(4) == 0x1_0000_0000;
    assert Pow256(|s|) <= Pow256(4);
  }

  /**
   * The sender's side: the unprotected header (its packet number last) with
   * the first byte's low bits and the packet number bytes masked.
   */
  function ApplyProtection(header: seq<byte>, pnOffset: nat, mask: seq<byte>): (r: seq<byte>)
    requires 1 <= pnOffset < |header| && |header| == pnOffset + PnLen(header[0]) && |mask| == MaskLen
    ensures |r| == |header|
  {
    var n := PnLen(header[0]);
    [UnmaskFirst(header[0], mask[0])] + header[1..pnOffset] + XorSeq(header[pnOffset..], mask[1..1 + n])
  }

  /** The header with its packet number in clear, the packet number, and the sealed payload. */
  datatype Unprotected = Unprotected(header: seq<byte>, pn: nat, sealed: seq<byte>)

  /**
   * Header-protection removal over the packet cut at the end of its Length:
   * the first byte's low bits give the packet number length, the packet
   * number bytes are unmasked and read big-endian. As written, a Length too
   * short for the packet number makes `pkt[pn_offset + i]` index past the end.
   */
  function RemoveProtection(pkt: seq<byte>, pnOffset: nat, mask: seq<byte>, mode: Mode)
    : (r: Outcome<Unprotected, ParseError>)
    requires 1 <= pnOffset <= |pkt| && |mask| == MaskLen
    ensures r.Ok? <==> pnOffset + PnLen(UnmaskFirst(pkt[0], mask[0])) <= |pkt|
    ensures !r.Ok? ==> r == Short(mode)
    ensures r.Ok? ==>
              pnOffset < |r.value.header| <= |pkt| && |r.value.header| == pnOffset + PnLen(r.value.header[0])
              && r.value.sealed == pkt[|r.value.header|..] && r.value.pn < 0x1_0000_0000
  {
    var first := UnmaskFirst(pkt[0], mask[0]);
    var n := PnLen(first);
    if pnOffset + n > |pkt| then Short(mode)
    else
      var pnBytes := XorSeq(pkt[pnOffset..pnOffset + n], mask[1..1 + n]);
      PnBound(pnBytes);
      Ok(Unprotected([first] + pkt[1..pnOffset] + pnBytes, BeUint(pnBytes), pkt[pnOffset + n..]))
  }

  /**
   * What `RemoveProtection` recovers: a header that agrees with the packet
   * outside the protected bits, whose packet number is read from its last
   * bytes, and which protected again under the same mask is the packet's.
   */
  lemma {:induction false} RemoveProtectionInverts(pkt: seq<byte>, pnOffset: nat, mask: seq<byte>, mode: Mode)
    requires 1 <= pnOffset <= |pkt| && |mask| == MaskLen
    requires RemoveProtection(pkt, pnOffset, mask, mode).Ok?
    ensures var u := RemoveProtection(pkt, pnOffset, mask, mode).value;
      u.header[0] / 16 == pkt[0] / 16 && u.header[1..pnOffset] == pkt[1..pnOffset]
      && u.pn == BeUint(u.header[pnOffset..])
      && ApplyProtection(u.header, pnOffset, mask) == pkt[..|u.header|]
  {
    var first := UnmaskFirst(pkt[0], mask[0]);
    var n := PnLen(first);
    var clear := pkt[pnOffset..pnOffset + n];
    var pnBytes := XorSeq(clear, mask[1..1 + n]);
    var header := [first] + pkt[1..pnOffset] + pnBytes;
    assert RemoveProtection(pkt, pnOffset, mask, mode).value == Unprotected(header, BeUint(pnBytes), pkt[pnOffset + n..]);
    UnmaskedHeader(pkt, pnOffset, mask, first, n, clear, pnBytes, header);
  }

  /** The header `RemoveProtection` rebuilds, protected again, is the packet's. */
  lemma {:induction false} UnmaskedHeader(pkt: seq<byte>, pnOffset: nat, mask: seq<byte>, first: byte, n: nat,
                       clear: seq<byte>, pnBytes: seq<byte>, header: seq<byte>)
    requires 1 <= pnOffset <= |pkt| && |mask| == MaskLen
    requires first == UnmaskFirst(pkt[0], mask[0]) && n == PnLen(first) && pnOffset + n <= |pkt|
    requires clear == pkt[pnOffset..pnOffset + n] && pnBytes == XorSeq(clear, mask[1..1 + n])
    requires header == [first] + pkt[1..pnOffset] + pnBytes
    ensures header[pnOffset..] == pnBytes && header[1..pnOffset] == pkt[1..pnOffset]
    ensures ApplyProtection(header, pnOffset, mask) == pkt[..pnOffset + n]
  {
    var mid := pkt[1..pnOffset];
    ThreeParts(first, mid, pnBytes);
    Reprotect(pkt, pnOffset, mask, first, n, clear, pnBytes, header, mid);
  }

  lemma {:induction false} Reprotect(pkt: seq<byte>, pnOffset: nat, mask: seq<byte>, first: byte, n: nat,
                  clear: seq<byte>, pnBytes: seq<byte>, header: seq<byte>, mid: seq<byte>)
    requires 1 <= pnOffset <= |pkt| && |mask| == MaskLen
    requires first == UnmaskFirst(pkt[0], mask[0]) && n == PnLen(first) && pnOffset + n <= |pkt|
    requires clear == pkt[pnOffset..pnOffset + n] && pnBytes == XorSeq(clear, mask[1..1 + n])
    requires mid == pkt[1..pnOffset] && header == [first] + mid + pnBytes
    ensures ApplyProtection(header, pnOffset, mask) == pkt[..pnOffset + n]
  {
    var m := mask[1..1 + n];
    ApplyProtectionParts(header, pnOffset, mask, first, mid, pnBytes);
    UnmaskFirstTwice(pkt[0], mask[0]);
    XorSeqCancel(clear, m);
    PrefixParts(pkt, pnOffset, pnOffset + n);
  }

  /** A byte string made of a first byte and two parts splits back into them. */
  lemma {:induction false} ThreeParts(first: byte, mid: seq<byte>, last: seq<byte>)
    ensures var s := [first] + mid + last;
      s[0] == first && s[1..1 + |mid|] == mid && s[1 + |mid|..] == last
  {
  }

  /** A prefix of a packet is its first byte, the bytes up to `k`, and the bytes from `k` on. */
  lemma {:induction false} PrefixParts(pkt: seq<byte>, k: nat, end: nat)
    requires 1 <= k <= end <= |pkt|
    ensures pkt[..end] == [pkt[0]] + pkt[1..k] + pkt[k..end]
  {
  }

  /** Protection applied to a header given as its first byte, the bytes up to the packet number, and that number. */
  lemma {:induction false} ApplyProtectionParts(header: seq<byte>, pnOffset: nat, mask: seq<byte>,
                             first: byte, mid: seq<byte>, pn: seq<byte>)
    requires header == [first] + mid + pn && |mid| + 1 == pnOffset && |pn| == PnLen(first)
    requires |mask| == MaskLen
    ensures ApplyProtection(header, pnOffset, mask) == [UnmaskFirst(first, mask[0])] + mid + XorSeq(pn, mask[1..1 + |pn|])
  {
    assert header[0] == first && header[1..pnOffset] == mid && header[pnOffset..] == pn;
  }

  /** Removing protection undoes applying it. */
  lemma {:induction false} RemoveApplyProtection(
    header: seq<byte>, pnOffset: nat, mask: seq<byte>, sealed: seq<byte>, mode: Mode)
    requires 1 <= pnOffset < |header| && |header| == pnOffset + PnLen(header[0]) && |mask| == MaskLen
    ensures RemoveProtection(ApplyProtection(header, pnOffset, mask) + sealed, pnOffset, mask, mode)
         == Ok(Unprotected(header, BeUint(header[pnOffset..]), sealed))
  {
    var n := PnLen(header[0]);
    var pkt := ApplyProtection(header, pnOffset, mask) + sealed;
    var masked := XorSeq(header[pnOffset..], mask[1..1 + n]);
    assert pkt[0] == UnmaskFirst(header[0], mask[0]);
    UnmaskFirstTwice(header[0], mask[0]);
    assert pkt[1..pnOffset] == header[1..pnOffset];
    assert pkt[pnOffset..pnOffset + n] == masked;
    assert pkt[pnOffset + n..] == sealed;
    XorSeqCancel(header[pnOffset..], mask[1..1 + n]);
    assert header == [header[0]] + header[1..pnOffset] + header[pnOffset..];
  }

  /**
   * The loop of `decode` that unmasks the packet number in place and
   * accumulates it in a `u32` with `(n << 8) | byte`; at most four bytes
   * are read, so the number stays below 256^4 and the shift never drops a bit.
   */
  method UnmaskPacketNumber(pkt: seq<byte>, pnOffset: nat, n: nat, mask: seq<byte>)
    returns (out: seq<byte>, pn: nat)
    requires 1 <= n <= 4 && pnOffset + n <= |pkt| && |mask| == MaskLen
    ensures out == pkt[..pnOffset] + XorSeq(pkt[pnOffset..pnOffset + n], mask[1..1 + n])
                   + pkt[pnOffset + n..]
    ensures pn == BeUint(out[pnOffset..pnOffset + n]) && pn < Pow256(n)
  {
    hide XorSeq, Xor;
    var clear: seq<byte> := [];
    pn := 0;
    var i := 0;
    while i < n
      invariant 0 <= i <= n
      invariant clear == XorSeq(pkt[pnOffset..pnOffset + i], mask[1..1 + i])
      invariant pn == BeUint(clear)
    {
      var b := Xor(pkt[pnOffset + i], mask[1 + i]);
      UnmaskNext(pkt, pnOffset, i, mask, clear, b);
      clear, pn, i := clear + [b], pn * 256 + b, i + 1;
    }
    out := pkt[..pnOffset] + clear + pkt[pnOffset + n..];
    assert out[pnOffset..pnOffset + n] == clear;
    BeUintBound(clear);
  }

  /** One step of the loop: the next byte unmasked extends the clear prefix and shifts the number by a byte. */
  lemma {:induction false} UnmaskNext(pkt: seq<byte>, pnOffset: nat, i: nat, mask: seq<byte>, clear: seq<byte>, b: byte)
    requires pnOffset + i < |pkt| && 2 + i <= |mask|
    requires clear == XorSeq(pkt[pnOffset..pnOffset + i], mask[1..1 + i])
    requires b == Xor(pkt[pnOffset + i], mask[1 + i])
    ensures clear + [b] == XorSeq(pkt[pnOffset..pnOffset + (i + 1)], mask[1..1 + (i + 1)])
    ensures BeUint(clear + [b]) == BeUint(clear) * 256 + b
  {
    BeUintSnoc(clear, b);
  }

  /** Appending a byte to a big-endian number shifts it by one byte. */
  lemma {:induction false} BeUintSnoc(s: seq<byte>, b: byte)
    ensures BeUint(s + [b]) == BeUint(s) * 256 + b
  {
    assert (s + [b])[..|s|] == s;
  }

  // ---------------------------------------------------------------------
  // InitialPacket::decode
  // ---------------------------------------------------------------------

  /** The keys of the client Initial secret for `dcid`. */
  function InitialKeys(p: Primitives, dcid: seq<byte>): (k: Keys)
    ensures |k.hp| == KeyLen && |k.key| == KeyLen && |k.iv| == NonceLen
  {
    DeriveKeys(p, InitialSecret(p, dcid))
  }

  /** The header-protection sample: 16 bytes starting four bytes after the packet number offset. */
  function Sample(pkt: seq<byte>, pnOffset: nat): seq<byte>
    requires pnOffset + 4 + SampleLen <= |pkt|
  {
    pkt[pnOffset + 4..pnOffset + 4 + SampleLen]
  }

  /**
   * `InitialPacket::decode`: the plaintext payload of a client Initial
   * packet, its 16-byte tag stripped. After the checks of `ParseLongHeader`,
   * the packet must hold the sample past the packet number offset; the
   * packet is then cut at the end of its Length, unprotected, and opened
   * with the header, packet number included, as associated data.
   */
  function Decode(pkt: seq<byte>, p: Primitives, mode: Mode): (r: Outcome<seq<byte>, ParseError>)
    ensures |pkt| < MinDatagramSize ==> r == Err(NoEnoughData)
    ensures |pkt| >= MinDatagramSize && Version(pkt) != 1 ==> r == Err(NotValidQuicPacket)
    ensures |pkt| >= MinDatagramSize && Version(pkt) == 1 && pkt[0] / 16 != 0xc ==>
              r == Err(NotInitialPacket)
    ensures ParseLongHeader(pkt, mode).Ok? &&
            |pkt| < ParseLongHeader(pkt, mode).value.pnOffset + 4 + SampleLen ==>
              r == Err(NoEnoughData)
    ensures r.Ok? ==>
              ParseLongHeader(pkt, mode).Ok? &&
              |r.value| + TagLen < ParseLongHeader(pkt, mode).value.fields.payloadLen
    ensures mode.Corrected? ==> !r.Panic?
  {
    var h :- ParseLongHeader(pkt, mode);
    DecodeBody(pkt, InitialKeys(p, h.fields.dcid), h.pnOffset, h.fields.payloadLen, p, mode)
  }

  /**
   * What `InitialPacket::decode` does after the long header: the sample
   * check, header protection removal over the packet cut at the end of its
   * Length, and the AEAD.
   */
  function DecodeBody(pkt: seq<byte>, keys: Keys, pnOffset: nat, payloadLen: nat, p: Primitives, mode: Mode)
    : (r: Outcome<seq<byte>, ParseError>)
    requires 1 <= pnOffset && pnOffset + payloadLen <= |pkt| && |keys.iv| == NonceLen
    ensures |pkt| < pnOffset + 4 + SampleLen ==> r == Err(NoEnoughData)
    ensures r.Ok? ==> |r.value| + TagLen < payloadLen
    ensures mode.Corrected? ==> !r.Panic?
  {
    if |pkt| < pnOffset + 4 + SampleLen then Err(NoEnoughData)
    else
      var mask := p.newMask(keys.hp, Sample(pkt, pnOffset));
      var u :- RemoveProtection(pkt[..pnOffset + payloadLen], pnOffset, mask, mode);
      Open(p, keys, u)
  }

  /** `open_in_place` and the truncation of the tag; a failure to authenticate is `NotValidQuicPacket`. */
  function Open(p: Primitives, keys: Keys, u: Unprotected): (r: Outcome<seq<byte>, ParseError>)
    requires |keys.iv| == NonceLen && u.pn < 0x1_0000_0000
    ensures r.Ok? <==> p.open(keys.key, Nonce(keys.iv, u.pn), u.header, u.sealed).Some?
    ensures r.Ok? ==> |r.value| + TagLen == |u.sealed|
    ensures r.Err? ==> r.error == NotValidQuicPacket
    ensures !r.Panic?
  {
    match p.open(keys.key, Nonce(keys.iv, u.pn), u.header, u.sealed)
    case None => Err(NotValidQuicPacket)
    case Some(plain) => Ok(plain)
  }

  /** A header whose packet number, the last `|header| - pnOffset` bytes, is in clear. */
  function InClear(header: seq<byte>, pnOffset: nat, sealed: seq<byte>): (u: Unprotected)
    requires pnOffset < |header| <= pnOffset + 4
    ensures u.pn < 0x1_0000_0000
  {
    PnBound(header[pnOffset..]);
    Unprotected(header, BeUint(header[pnOffset..]), sealed)
  }

  /**
   * The sender's side of a client Initial (section 5.4 of RFC 9001): the
   * header, packet number in clear, followed by the sealed payload and any
   * bytes after the packet, with header protection applied under the mask of
   * the sample.
   */
  function Protect(p: Primitives, f: Fields, header: seq<byte>, body: seq<byte>): (r: seq<byte>)
    requires FieldsFit(f)
    requires 5 + |EncodeFields(f)| < |header| == 5 + |EncodeFields(f)| + PnLen(header[0])
    requires |header| + |body| >= 5 + |EncodeFields(f)| + 4 + SampleLen
    ensures |r| == |header| + |body|
  {
    var pnOffset := 5 + |EncodeFields(f)|;
    var keys := InitialKeys(p, f.dcid);
    var mask := p.newMask(keys.hp, Sample(header + body, pnOffset));
    ApplyProtection(header, pnOffset, mask) + body
  }

  /** The sample lies past the packet number, so protecting the header does not move it. */
  lemma {:induction false} SampleAfterPrefix(a: seq<byte>, b: seq<byte>, c: seq<byte>, pnOffset: nat)
    requires |a| == |b| <= pnOffset + 4 && pnOffset + 4 + SampleLen <= |a| + |c|
    ensures Sample(a + c, pnOffset) == Sample(b + c, pnOffset)
  {
    SliceAfterPrefix(a, b, c, pnOffset + 4, pnOffset + 4 + SampleLen);
  }

  /** Two strings of one length followed by the same bytes agree beyond that length. */
  lemma {:induction false} SliceAfterPrefix(a: seq<byte>, b: seq<byte>, c: seq<byte>, lo: nat, hi: nat)
    requires |a| == |b| <= lo <= hi <= |a| + |c|
    ensures (a + c)[lo..hi] == (b + c)[lo..hi]
  {
    assert (a + c)[lo..hi] == c[lo - |a|..hi - |a|];
    assert (b + c)[lo..hi] == c[lo - |a|..hi - |a|];
  }

  /** A protected packet's header parses: header protection leaves the high bits of byte 0 alone. */
  lemma {:induction false} ProtectedHeaderParses(f: Fields, header: seq<byte>, mask: seq<byte>, body: seq<byte>,
                                                 pnOffset: nat, pkt: seq<byte>, mode: Mode)
    requires FieldsFit(f) && |mask| == MaskLen && pnOffset == 5 + |EncodeFields(f)|
    requires pnOffset < |header| == pnOffset + PnLen(header[0])
    requires header[0] / 16 == 0xc && header[1..pnOffset] == Version1 + EncodeFields(f)
    requires f.payloadLen <= |header| + |body| - pnOffset
    requires |header| + |body| >= MinDatagramSize
    requires pkt == ApplyProtection(header, pnOffset, mask) + body
    ensures ParseLongHeader(pkt, mode) == Ok(LongHeader(pkt[0], f, pnOffset))
  {
    var prot := ApplyProtection(header, pnOffset, mask);
    var e := EncodeFields(f);
    assert pkt[0] / 16 == 0xc && pkt[1..pnOffset] == Version1 + e by {
      ProtectionKeepsHeader(header, pnOffset, mask);
      PrefixOfAppend(prot, body, pnOffset);
    }
    SplitAt(pkt, 1, pnOffset, Version1, e);
    ParseLongHeaderRoundTrip(pkt, f, mode);
  }

  /** Header protection leaves the type bits of the first byte and the bytes before the packet number alone. */
  lemma {:induction false} ProtectionKeepsHeader(header: seq<byte>, pnOffset: nat, mask: seq<byte>)
    requires 1 <= pnOffset < |header| && |header| == pnOffset + PnLen(header[0]) && |mask| == MaskLen
    ensures var prot := ApplyProtection(header, pnOffset, mask);
      prot[0] / 16 == header[0] / 16 && prot[1..pnOffset] == header[1..pnOffset]
  {
  }

  lemma {:induction false} PrefixOfAppend(a: seq<byte>, b: seq<byte>, k: nat)
    requires 1 <= k <= |a|
    ensures (a + b)[0] == a[0] && (a + b)[1..k] == a[1..k]
  {
  }

  /**
   * A protected client Initial decodes to what the AEAD makes of its sealed
   * payload, under the keys of its DCID and the nonce of its packet number.
   */
  lemma {:induction false} DecodeProtected(p: Primitives, f: Fields, header: seq<byte>,
                                           sealed: seq<byte>, trailing: seq<byte>, mode: Mode)
    requires FieldsFit(f)
    requires 5 + |EncodeFields(f)| < |header| == 5 + |EncodeFields(f)| + PnLen(header[0])
    requires header[0] / 16 == 0xc && header[1..5 + |EncodeFields(f)|] == Version1 + EncodeFields(f)
    requires f.payloadLen == PnLen(header[0]) + |sealed|
    requires |header| + |sealed| + |trailing| >= MinDatagramSize
    requires |header| + |sealed| + |trailing| >= 5 + |EncodeFields(f)| + 4 + SampleLen
    ensures Decode(Protect(p, f, header, sealed + trailing), p, mode)
         == Open(p, InitialKeys(p, f.dcid), InClear(header, 5 + |EncodeFields(f)|, sealed))
  {
    var pnOffset := 5 + |EncodeFields(f)|;
    var body := sealed + trailing;
    var keys := InitialKeys(p, f.dcid);
    var mask := p.newMask(keys.hp, Sample(header + body, pnOffset));
    var pkt := ApplyProtection(header, pnOffset, mask) + body;
    assert Protect(p, f, header, body) == pkt;
    ProtectedPacketDecodes(p, f, header, sealed, trailing, pnOffset, keys, mask, pkt, mode);
  }

  /** `DecodeProtected`, with the offset, keys, mask and packet named. */
  lemma {:induction false} ProtectedPacketDecodes(p: Primitives, f: Fields, header: seq<byte>, sealed: seq<byte>,
                                                  trailing: seq<byte>, pnOffset: nat, keys: Keys, mask: seq<byte>,
                                                  pkt: seq<byte>, mode: Mode)
    requires FieldsFit(f) && pnOffset == 5 + |EncodeFields(f)| && keys == InitialKeys(p, f.dcid)
    requires pnOffset < |header| == pnOffset + PnLen(header[0])
    requires header[0] / 16 == 0xc && header[1..pnOffset] == Version1 + EncodeFields(f)
    requires f.payloadLen == PnLen(header[0]) + |sealed|
    requires |header| + |sealed| + |trailing| >= MinDatagramSize
    requires |header| + |sealed| + |trailing| >= pnOffset + 4 + SampleLen
    requires mask == p.newMask(keys.hp, Sample(header + (sealed + trailing), pnOffset))
    requires pkt == ApplyProtection(header, pnOffset, mask) + (sealed + trailing)
    ensures Decode(pkt, p, mode) == Open(p, keys, InClear(header, pnOffset, sealed))
  {
    var body := sealed + trailing;
    assert ParseLongHeader(pkt, mode) == Ok(LongHeader(pkt[0], f, pnOffset)) by {
      ProtectedHeaderParses(f, header, mask, body, pnOffset, pkt, mode);
    }
    assert Decode(pkt, p, mode) == DecodeBody(pkt, keys, pnOffset, f.payloadLen, p, mode) by {
      DecodeAfterHeader(pkt, p, LongHeader(pkt[0], f, pnOffset), mode);
    }
    ProtectedBodyDecodes(p, keys, header, pnOffset, f.payloadLen, sealed, trailing, mask, pkt, mode);
  }

  lemma {:induction false} DecodeAfterHeader(pkt: seq<byte>, p: Primitives, h: LongHeader, mode: Mode)
    requires ParseLongHeader(pkt, mode) == Ok(h)
    ensures 1 <= h.pnOffset && h.pnOffset + h.fields.payloadLen <= |pkt|
    ensures Decode(pkt, p, mode) == DecodeBody(pkt, InitialKeys(p, h.fields.dcid), h.pnOffset, h.fields.payloadLen, p, mode)
  {
  }

  /** The part of `DecodeProtected` after the header. */
  lemma {:induction false} ProtectedBodyDecodes(p: Primitives, keys: Keys, header: seq<byte>, pnOffset: nat,
                                                payloadLen: nat, sealed: seq<byte>, trailing: seq<byte>,
                                                mask: seq<byte>, pkt: seq<byte>, mode: Mode)
    requires |keys.iv| == NonceLen
    requires 1 <= pnOffset < |header| == pnOffset + PnLen(header[0])
    requires payloadLen == |header| - pnOffset + |sealed|
    requires |header| + |sealed| + |trailing| >= pnOffset + 4 + SampleLen
    requires mask == p.newMask(keys.hp, Sample(header + (sealed + trailing), pnOffset))
    requires pkt == ApplyProtection(header, pnOffset, mask) + (sealed + trailing)
    ensures DecodeBody(pkt, keys, pnOffset, payloadLen, p, mode) == Open(p, keys, InClear(header, pnOffset, sealed))
  {
    ProtectedBodyRemoves(keys, header, pnOffset, payloadLen, sealed, trailing, mask, pkt, mode);
    DecodeBodyOpens(pkt, keys, pnOffset, payloadLen, p, mode, mask, InClear(header, pnOffset, sealed));
  }

  /** Protection comes off what protection put on, and the sample is where it was. */
  lemma {:induction false} ProtectedBodyRemoves(keys: Keys, header: seq<byte>, pnOffset: nat,
                             payloadLen: nat, sealed: seq<byte>, trailing: seq<byte>,
                             mask: seq<byte>, pkt: seq<byte>, mode: Mode)
    requires 1 <= pnOffset < |header| == pnOffset + PnLen(header[0]) && |mask| == MaskLen
    requires payloadLen == |header| - pnOffset + |sealed|
    requires |header| + |sealed| + |trailing| >= pnOffset + 4 + SampleLen
    requires pkt == ApplyProtection(header, pnOffset, mask) + (sealed + trailing)
    ensures pnOffset + payloadLen <= |pkt| && Sample(pkt, pnOffset) == Sample(header + (sealed + trailing), pnOffset)
    ensures RemoveProtection(pkt[..pnOffset + payloadLen], pnOffset, mask, mode) == Ok(InClear(header, pnOffset, sealed))
  {
    var prot := ApplyProtection(header, pnOffset, mask);
    SampleAfterPrefix(prot, header, sealed + trailing, pnOffset);
    assert pkt[..pnOffset + payloadLen] == prot + sealed;
    RemoveApplyProtection(header, pnOffset, mask, sealed, mode);
  }

  /** Once the sample is there and protection comes off, decoding is opening. */
  lemma {:induction false} DecodeBodyOpens(pkt: seq<byte>, keys: Keys, pnOffset: nat, payloadLen: nat, p: Primitives, mode: Mode,
                        mask: seq<byte>, u: Unprotected)
    requires 1 <= pnOffset && pnOffset + payloadLen <= |pkt| && |keys.iv| == NonceLen
    requires |pkt| >= pnOffset + 4 + SampleLen && mask == p.newMask(keys.hp, Sample(pkt, pnOffset))
    requires RemoveProtection(pkt[..pnOffset + payloadLen], pnOffset, mask, mode) == Ok(u)
    ensures u.pn < 0x1_0000_0000
    ensures DecodeBody(pkt, keys, pnOffset, payloadLen, p, mode) == Open(p, keys, u)
  {
  }

  /**
   * A Length field of 0 leaves no room for the packet number: as written the
   * unmasking loop indexes past the cut packet and panics, whatever the keys;
   * corrected, the packet is too short.
   */
  lemma {:induction false} EmptyLengthPanics(p: Primitives, pkt: seq<byte>)
    requires ParseLongHeader(pkt, AsWritten).Ok?
    requires ParseLongHeader(pkt, AsWritten).value.fields.payloadLen == 0
    requires |pkt| >= ParseLongHeader(pkt, AsWritten).value.pnOffset + 4 + SampleLen
    ensures Decode(pkt, p, AsWritten) == Panic
    ensures Decode(pkt, p, Corrected) == Err(NoEnoughData)
  {
    var h := ParseLongHeader(pkt, AsWritten).value;
    assert ParseLongHeader(pkt, Corrected) == ParseLongHeader(pkt, AsWritten) by {
      HeaderModeIrrelevant(pkt);
    }
  }

  /** Once the header parses, the mode makes no difference to it. */
  lemma {:induction false} HeaderModeIrrelevant(pkt: seq<byte>)
    requires ParseLongHeader(pkt, AsWritten).Ok?
    ensures ParseLongHeader(pkt, Corrected) == ParseLongHeader(pkt, AsWritten)
  {
    hide *;
    var h := ParseLongHeader(pkt, AsWritten).value;
    assert pkt[1..5] == Version1 && pkt[5..h.pnOffset] == EncodeFields(h.fields) by {
      ParseLongHeaderLayout(pkt, AsWritten);
    }
    assert h.pnOffset == 5 + |EncodeFields(h.fields)| by {
      assert |pkt[5..h.pnOffset]| == h.pnOffset - 5;
    }
    assert ParseLongHeader(pkt, Corrected) == Ok(LongHeader(pkt[0], h.fields, h.pnOffset)) by {
      ParseLongHeaderRoundTrip(pkt, h.fields, Corrected);
    }
    assert h == LongHeader(pkt[0], h.fields, h.pnOffset);
  }

  /** A datagram of 1200 bytes with empty connection IDs and token and a Length of 0. */
  lemma {:induction false} EmptyLengthExample(p: Primitives)
    ensures var pkt := [0xc0, 0, 0, 0, 1, 0, 0, 0, 0] + Zeros(1191);
      Decode(pkt, p, AsWritten) == Panic && Decode(pkt, p, Corrected) == Err(NoEnoughData)
  {
    var pkt := [0xc0, 0, 0, 0, 1, 0, 0, 0, 0] + Zeros(1191);
    var f := Fields([], [], [], 0, 1, 1);
    assert EncodeVarInt(0, 1) == [0] by {
      assert BeBytes(0, 1) == [0];
    }
    assert EncodeFields(f) == [0, 0, 0, 0];
    assert pkt[1..5] == Version1 && pkt[5..9] == [0, 0, 0, 0];
    ParseLongHeaderRoundTrip(pkt, f, AsWritten);
    EmptyLengthPanics(p, pkt);
  }
}

=== FILE: refer.dfy ===
/**
 * `src/app/socks5/refer.rs` (and the same routine in
 * `src/app/socks5/service.rs`): the SOCKS5 servers learnt from referrers.
 * A referrer is a TCP control connection that, once negotiated, names a
 * UDP server; the server stays listed while the connection is readable.
 * One round drops the dead connections, negotiates every configured
 * referrer that has none, and updates the server list.
 */
module SocksRefer {
  import opened Wrappers
  import opened Lists
  import Types

  /** A referrer, by its configured name. */
  type Referrer = string

  /**
   * `SocksServer`: a UDP endpoint and its name. Two servers are equal when
   * their names and addresses are; the `HashSet`s of `refer.rs` are taken
   * to compare servers that way.
   */
  datatype Server = Server(name: string, udpAddr: Types.SocketAddr)

  /**
   * The service's state: the server each connected referrer named, and the
   * shared list of SOCKS5 servers.
   */
  datatype Refer = Refer(referred: map<Referrer, Server>, servers: seq<Server>)

  /** The referrers whose connection is no longer readable (lines 44-57). */
  function DeadReferrers(referred: map<Referrer, Server>, alive: Referrer -> bool): set<Referrer>
  {
    set r | r in referred && !alive(r)
  }

  /** The servers those referrers named. */
  function DeadServers(referred: map<Referrer, Server>, alive: Referrer -> bool): set<Server>
  {
    set r | r in referred && !alive(r) :: referred[r]
  }

  /** `retain` of lines 58-59: the connections that are still readable. */
  function Live(referred: map<Referrer, Server>, alive: Referrer -> bool): map<Referrer, Server>
  {
    map r | r in referred && alive(r) :: referred[r]
  }

  /** The referrers of `referrers` that `Connect` negotiates with successfully. */
  function Joining(referred: map<Referrer, Server>, referrers: seq<Referrer>, negotiate: Referrer -> Option<Server>): set<Referrer>
  {
    set r | r in referrers && r !in referred && negotiate(r).Some?
  }

  /** The servers those referrers name. */
  function Named(referred: map<Referrer, Server>, referrers: seq<Referrer>, negotiate: Referrer -> Option<Server>): set<Server>
  {
    set r | r in referrers && r !in referred && negotiate(r).Some? :: negotiate(r).value
  }

  /**
   * Lines 61-79: the configured referrers in order; one without an entry
   * is negotiated with, and on success its server is recorded and counted
   * as new. A failed negotiation only logs. `negotiate` is the outcome of
   * `SocksServerReferrer::negotiate`. The answer is the map after the loop
   * and the set of new servers.
   */
  function Connect(referred: map<Referrer, Server>, referrers: seq<Referrer>, negotiate: Referrer -> Option<Server>)
    : (c: (map<Referrer, Server>, set<Server>))
    ensures c.0.Keys == referred.Keys + Joining(referred, referrers, negotiate)
    ensures forall r :: r in referred ==> c.0[r] == referred[r]
    ensures forall r :: r in c.0 && r !in referred ==> negotiate(r) == Some(c.0[r])
    ensures c.1 == Named(referred, referrers, negotiate)
    decreases |referrers|
  {
    if |referrers| == 0 then (referred, {})
    else
      var r := referrers[0];
      var next := if r !in referred && negotiate(r).Some? then referred[r := negotiate(r).value] else referred;
      var rest := Connect(next, referrers[1..], negotiate);
      ConnectStep(referred, referrers, negotiate, next);
      (rest.0, (if r !in referred && negotiate(r).Some? then {negotiate(r).value} else {}) + rest.1)
  }

  /** How the joining referrers and their servers split at the first referrer. */
  lemma {:induction false} ConnectStep(referred: map<Referrer, Server>, referrers: seq<Referrer>, negotiate: Referrer -> Option<Server>,
                                                   next: map<Referrer, Server>)
    requires |referrers| > 0
    requires var r := referrers[0];
      next == if r !in referred && negotiate(r).Some? then referred[r := negotiate(r).value] else referred
    ensures var r := referrers[0];
      referred.Keys + Joining(referred, referrers, negotiate)
        == next.Keys + Joining(next, referrers[1..], negotiate)
    ensures var r := referrers[0];
      Named(referred, referrers, negotiate)
        == (if r !in referred && negotiate(r).Some? then {negotiate(r).value} else {})
           + Named(next, referrers[1..], negotiate)
  {
    var r := referrers[0];
    assert forall x :: x in referrers <==> x == r || x in referrers[1..] by {
      assert referrers == [r] + referrers[1..];
    }
  }

  /**
   * The servers that survive the `retain` of lines 82-84, in list order:
   * those neither dead nor new.
   */
  function Retain(servers: seq<Server>, dead: set<Server>, joined: set<Server>): (r: seq<Server>)
    ensures forall s :: s in r <==> s in servers && s !in dead && s !in joined
    ensures SubsequenceOf(r, servers)
  {
    if |servers| == 0 then []
    else
      var rest := Retain(servers[1..], dead, joined);
      if servers[0] !in dead && servers[0] !in joined then [servers[0]] + rest
      else
        SubsequenceSkip(rest, servers);
        rest
  }

  /** `a` is `b` with some elements deleted, the rest in their order. */
  predicate SubsequenceOf<T(==)>(a: seq<T>, b: seq<T>)
    decreases |b|
  {
    |a| == 0 || (|b| > 0 && if a[0] == b[0] then SubsequenceOf(a[1..], b[1..]) else SubsequenceOf(a, b[1..]))
  }

  lemma {:induction false} SubsequenceSkip<T>(a: seq<T>, b: seq<T>)
    requires |b| > 0 && SubsequenceOf(a, b[1..])
    ensures SubsequenceOf(a, b)
    decreases |b|, 0
  {
    if |a| > 0 && a[0] == b[0] {
      SubsequenceDrop(a, b[1..]);
    }
  }

  lemma {:induction false} SubsequenceDrop<T>(a: seq<T>, b: seq<T>)
    requires |a| > 0 && SubsequenceOf(a, b)
    ensures SubsequenceOf(a[1..], b)
    decreases |b|, 1
  {
    if a[0] != b[0] {
      SubsequenceDrop(a, b[1..]);
      SubsequenceSkip(a[1..], b);
    } else if |a| > 1 {
      SubsequenceSkip(a[1..], b);
    }
  }

  /**
   * Lines 82-86: the servers neither dead nor new keep their places, and
   * the new servers follow in `added`, the order the set of new servers is
   * drained in.
   */
  function UpdateServers(servers: seq<Server>, dead: set<Server>, added: seq<Server>): (r: seq<Server>)
    ensures forall s :: s in r <==> s in added || (s in servers && s !in dead)
    ensures |added| <= |r| && r[|r| - |added|..] == added
    ensures SubsequenceOf(r[..|r| - |added|], servers)
    ensures forall i :: 0 <= i < |r| - |added| ==> r[i] !in dead && r[i] !in added
  {
    var kept := Retain(servers, dead, set s | s in added);
    assert (kept + added)[..|kept|] == kept;
    assert forall i :: 0 <= i < |kept| ==> (kept + added)[i] == kept[i] && kept[i] in kept;
    kept + added
  }

  /** An update applied twice with the same dead and new servers changes nothing more. */
  lemma {:induction false} UpdateServersIdempotent(servers: seq<Server>, dead: set<Server>, added: seq<Server>)
    ensures UpdateServers(UpdateServers(servers, dead, added), dead, added) == UpdateServers(servers, dead, added)
  {
    var once := UpdateServers(servers, dead, added);
    var joined := set s | s in added;
    var kept := Retain(servers, dead, joined);
    assert once == kept + added;
    RetainOfUpdated(kept, added, dead, joined);
  }

  lemma {:induction false} RetainOfUpdated(kept: seq<Server>, added: seq<Server>, dead: set<Server>, joined: set<Server>)
    requires forall s :: s in kept ==> s !in dead && s !in joined
    requires forall s :: s in added ==> s in joined
    ensures Retain(kept + added, dead, joined) == kept
    decreases |kept| + |added|
  {
    if |kept| > 0 {
      assert (kept + added)[1..] == kept[1..] + added;
      RetainOfUpdated(kept[1..], added, dead, joined);
      assert kept == [kept[0]] + kept[1..];
    } else if |added| > 0 {
      assert (kept + added)[1..] == kept + added[1..];
      RetainOfUpdated(kept, added[1..], dead, joined);
    }
  }

  /** A list without duplicates stays so when the new servers come without duplicates. */
  lemma {:induction false} UpdateServersDistinct(servers: seq<Server>, dead: set<Server>, added: seq<Server>)
    requires Distinct(servers) && Distinct(added)
    ensures Distinct(UpdateServers(servers, dead, added))
  {
    var joined := set s | s in added;
    var kept := Retain(servers, dead, joined);
    RetainDistinct(servers, dead, joined);
    var r := kept + added;
    forall i, j | 0 <= i < j < |r| ensures r[i] != r[j] {
      if j >= |kept| && i < |kept| {
        assert r[j] == added[j - |kept|] && r[i] in kept;
      }
    }
  }

  lemma {:induction false} RetainDistinct(servers: seq<Server>, dead: set<Server>, joined: set<Server>)
    requires Distinct(servers)
    ensures Distinct(Retain(servers, dead, joined))
  {
    if |servers| > 0 {
      RetainDistinct(servers[1..], dead, joined);
      var rest := Retain(servers[1..], dead, joined);
      assert servers[0] !in servers[1..];
      assert servers[0] !in rest;
    }
  }

  /**
   * `check_all`: the connections that are no longer readable are dropped,
   * the referrers without a connection are negotiated with, and the server
   * list is updated. `alive` is whether `stream.readable()` succeeded;
   * `added` is the order in which the set of new servers is drained.
   */
  function CheckAll(st: Refer, alive: Referrer -> bool, referrers: seq<Referrer>, negotiate: Referrer -> Option<Server>,
                                  added: seq<Server>): (next: Refer)
    requires forall s :: s in added <==> s in Connect(Live(st.referred, alive), referrers, negotiate).1
    ensures forall r :: r in st.referred && alive(r) ==> r in next.referred && next.referred[r] == st.referred[r]
    ensures forall r :: r in next.referred <==>
      (r in st.referred && alive(r)) || (r in referrers && r !in Live(st.referred, alive) && negotiate(r).Some?)
    ensures forall r :: r in next.referred && !(r in st.referred && alive(r)) ==> negotiate(r) == Some(next.referred[r])
    ensures forall s :: s in next.servers <==>
      s in added || (s in st.servers && s !in DeadServers(st.referred, alive))
  {
    var live := Live(st.referred, alive);
    var c := Connect(live, referrers, negotiate);
    ConnectLive(st.referred, alive, referrers, negotiate);
    Refer(c.0, UpdateServers(st.servers, DeadServers(st.referred, alive), added))
  }

  /** After the `retain`, the loop keeps every live connection and adds only negotiated ones. */
  lemma {:induction false} ConnectLive(referred: map<Referrer, Server>, alive: Referrer -> bool, referrers: seq<Referrer>,
                                       negotiate: Referrer -> Option<Server>)
    ensures var live := Live(referred, alive);
      var m := Connect(live, referrers, negotiate).0;
      && (forall r :: r in referred && alive(r) ==> r in m && m[r] == referred[r])
      && (forall r :: r in m <==> (r in referred && alive(r)) || (r in referrers && r !in live && negotiate(r).Some?))
      && (forall r :: r in m && !(r in referred && alive(r)) ==> negotiate(r) == Some(m[r]))
  {
    var live := Live(referred, alive);
    assert forall r :: r in live <==> r in referred && alive(r);
  }

  /**
   * A referrer whose connection died, or that had none, and that now
   * negotiates successfully has its server listed at the end of the round.
   */
  lemma {:induction false} NegotiatedServerListed(st: Refer, alive: Referrer -> bool, referrers: seq<Referrer>,
                                                        negotiate: Referrer -> Option<Server>, added: seq<Server>, r: Referrer)
    requires forall s :: s in added <==> s in Connect(Live(st.referred, alive), referrers, negotiate).1
    requires r in referrers && !(r in st.referred && alive(r)) && negotiate(r).Some?
    ensures var next := CheckAll(st, alive, referrers, negotiate, added);
      r in next.referred && next.referred[r] == negotiate(r).value && negotiate(r).value in next.servers
  {
    var live := Live(st.referred, alive);
    assert r !in live;
    assert negotiate(r).value in Named(live, referrers, negotiate);
  }

  /**
   * The server of a dead connection leaves the list, unless a referrer
   * named it again in the same round.
   */
  lemma {:induction false} DeadServerDropped(st: Refer, alive: Referrer -> bool, referrers: seq<Referrer>,
                                                   negotiate: Referrer -> Option<Server>, added: seq<Server>, r: Referrer)
    requires forall s :: s in added <==> s in Connect(Live(st.referred, alive), referrers, negotiate).1
    requires r in st.referred && !alive(r) && st.referred[r] !in added
    ensures st.referred[r] !in CheckAll(st, alive, referrers, negotiate, added).servers
  {
    assert st.referred[r] in DeadServers(st.referred, alive);
  }

  /**
   * A round in which every connection is readable and every configured
   * referrer is connected changes nothing.
   */
  lemma {:induction false} SteadyRound(st: Refer, alive: Referrer -> bool, referrers: seq<Referrer>,
                                             negotiate: Referrer -> Option<Server>)
    requires forall r :: r in st.referred ==> alive(r)
    requires forall r :: r in referrers ==> r in st.referred
    ensures Connect(Live(st.referred, alive), referrers, negotiate).1 == {}
    ensures CheckAll(st, alive, referrers, negotiate, []) == st
  {
    var live := Live(st.referred, alive);
    assert live == st.referred;
    assert Named(live, referrers, negotiate) == {} by {
      assert Joining(live, referrers, negotiate) == {};
    }
    var c := Connect(live, referrers, negotiate);
    assert c.0 == st.referred by {
      assert Joining(live, referrers, negotiate) == {};
    }
    assert DeadServers(st.referred, alive) == {};
    assert UpdateServers(st.servers, {}, []) == st.servers by {
      RetainAll(st.servers, {}, set s: Server | s in []);
    }
  }

  lemma {:induction false} RetainAll(servers: seq<Server>, dead: set<Server>, joined: set<Server>)
    requires forall s :: s in servers ==> s !in dead && s !in joined
    ensures Retain(servers, dead, joined) == servers
  {
    if |servers| > 0 {
      RetainAll(servers[1..], dead, joined);
      assert servers == [servers[0]] + servers[1..];
    }
  }
}

=== FILE: sender.dfy ===
/**
 * `src/app/tproxy/sender.rs`: the cache of non-local UDP sockets through
 * which replies are sent to clients as if from the remote. The cache holds
 * weak references; a sender that is dropped puts its remote into a shared
 * bin, and the next lookup removes the stale entries named there.
 */
module TProxySender {
  import opened Wrappers
  import opened SocksUdp
  import Types

  /**
   * `WeakGuard`, without its value: the key it still has to give back. A
   * guard is made with its key and gives it up when dropped.
   */
  datatype Guard = Guard(key: Option<Types.RemoteAddr>)

  /** `WeakGuard::new` (lines 30-38). */
  function NewGuard(key: Types.RemoteAddr): Guard
  {
    Guard(Some(key))
  }

  /**
   * `Drop for WeakGuard` (lines 16-22): the key is taken out of the guard
   * and pushed into the bin; a guard without a key pushes nothing.
   */
  function DropGuard(g: Guard, bin: seq<Types.RemoteAddr>): (r: (Guard, seq<Types.RemoteAddr>))
    ensures r.0.key.None?
    ensures g.key.Some? ==> r.1 == bin + [g.key.value]
    ensures g.key.None? ==> r.1 == bin
  {
    match g.key
    case Some(k) => (Guard(None), bin + [k])
    case None => (g, bin)
  }

  /** A sender, known by an identity; `Weak::upgrade` succeeds while it is held. */
  type SenderId = nat

  /**
   * `TProxySenderCache`: a weak reference per remote, and the bin of
   * remotes whose sender was dropped.
   */
  datatype Cache = Cache(senders: map<Types.RemoteAddr, SenderId>, bin: seq<Types.RemoteAddr>)

  /** `TProxySenderCache::new` (lines 56-61). */
  function NewCache(): Cache
  {
    Cache(map[], [])
  }

  /**
   * Lines 66-72: every remote of the bin whose entry no longer upgrades is
   * removed, in bin order. `live` is the set of senders still held.
   */
  function DrainKeys(senders: map<Types.RemoteAddr, SenderId>, keys: seq<Types.RemoteAddr>, live: set<SenderId>)
    : (r: map<Types.RemoteAddr, SenderId>)
    ensures forall k :: k in r <==> k in senders && !(k in keys && senders[k] !in live)
    ensures forall k :: k in r ==> r[k] == senders[k]
    decreases |keys|
  {
    if |keys| == 0 then senders
    else
      var k := keys[0];
      var next := if k in senders && senders[k] !in live then senders - {k} else senders;
      assert forall x :: x in keys <==> x == k || x in keys[1..] by {
        assert keys == [k] + keys[1..];
      }
      DrainKeys(next, keys[1..], live)
  }

  /**
   * Lines 64-73: the bin is drained only when its lock is free (`try_lock`);
   * a dropped sender holding it leaves the cache as it is.
   */
  function Drain(c: Cache, live: set<SenderId>, lockFree: bool): (r: Cache)
    ensures !lockFree ==> r == c
    ensures lockFree ==> r.bin == []
    ensures forall k :: k in c.senders && (k !in c.bin || c.senders[k] in live) ==> k in r.senders && r.senders[k] == c.senders[k]
    ensures forall k :: k in r.senders ==> k in c.senders && r.senders[k] == c.senders[k]
    ensures lockFree ==> forall k :: k in c.bin && k in c.senders && c.senders[k] !in live ==> k !in r.senders
  {
    if lockFree then Cache(DrainKeys(c.senders, c.bin, live), []) else c
  }

  /**
   * `get_or_create` (lines 63-96). After the drain, a remote whose entry
   * still upgrades gets that sender back; otherwise a socket is bound
   * (`create`, the outcome of `bind_nonlocal` with the new sender) and the
   * entry is set to it. A failed bind returns its error and leaves the
   * entry as the drain left it.
   */
  function GetOrCreate(c: Cache, remote: Types.RemoteAddr, live: set<SenderId>, lockFree: bool,
                       create: Outcome<SenderId, IoError>): (r: (Cache, Outcome<SenderId, IoError>))
    ensures var d := Drain(c, live, lockFree);
      remote in d.senders && d.senders[remote] in live ==> r == (d, Ok(d.senders[remote]))
    ensures var d := Drain(c, live, lockFree);
      !(remote in d.senders && d.senders[remote] in live) && create.Ok? ==>
        r == (d.(senders := d.senders[remote := create.value]), Ok(create.value))
    ensures var d := Drain(c, live, lockFree);
      !(remote in d.senders && d.senders[remote] in live) && !create.Ok? ==> r == (d, create)
  {
    var d := Drain(c, live, lockFree);
    if remote in d.senders && d.senders[remote] in live then (d, Ok(d.senders[remote]))
    else
      match create
      case Ok(id) => (d.(senders := d.senders[remote := id]), Ok(id))
      case Err(e) => (d, Err(e))
      case Panic => (d, Panic)
  }

  /** A live sender is reused: the lookup returns it and changes no entry. */
  lemma {:induction false} LiveSenderReused(c: Cache, remote: Types.RemoteAddr, live: set<SenderId>, lockFree: bool,
                                            create: Outcome<SenderId, IoError>)
    requires remote in c.senders && c.senders[remote] in live
    ensures var r := GetOrCreate(c, remote, live, lockFree, create);
      r.1 == Ok(c.senders[remote]) && r.0.senders.Keys <= c.senders.Keys
      && forall k :: k in r.0.senders ==> r.0.senders[k] == c.senders[k]
  {
    var d := Drain(c, live, lockFree);
    assert remote in d.senders && d.senders[remote] == c.senders[remote];
  }

  /**
   * A lookup never loses a live sender: every remote whose sender is held
   * keeps its entry, whatever the bind does.
   */
  lemma {:induction false} LiveEntriesKept(c: Cache, remote: Types.RemoteAddr, live: set<SenderId>, lockFree: bool,
                                           create: Outcome<SenderId, IoError>, k: Types.RemoteAddr)
    requires k in c.senders && c.senders[k] in live && k != remote
    ensures var r := GetOrCreate(c, remote, live, lockFree, create);
      k in r.0.senders && r.0.senders[k] == c.senders[k]
  {
  }

  /**
   * A successful lookup leaves the cache pointing at the sender it
   * returned, so a second lookup of the same remote, while that sender is
   * held, returns it without binding.
   */
  lemma {:induction false} LookupIsSticky(c: Cache, remote: Types.RemoteAddr, live: set<SenderId>, lockFree: bool,
                                          create: Outcome<SenderId, IoError>, lockFree2: bool,
                                          create2: Outcome<SenderId, IoError>)
    requires GetOrCreate(c, remote, live, lockFree, create).1.Ok?
    requires GetOrCreate(c, remote, live, lockFree, create).1.value in live
    ensures var r := GetOrCreate(c, remote, live, lockFree, create);
      GetOrCreate(r.0, remote, live, lockFree2, create2).1 == r.1
  {
    var r := GetOrCreate(c, remote, live, lockFree, create);
    assert remote in r.0.senders && r.0.senders[remote] == r.1.value;
    LiveSenderReused(r.0, remote, live, lockFree2, create2);
  }

  /**
   * A dropped sender's entry goes away: once its guard gave the remote to
   * the bin, a lookup of another remote with the bin's lock free removes
   * the entry.
   */
  lemma {:induction false} DroppedEntryCollected(c: Cache, g: Guard, live: set<SenderId>, remote: Types.RemoteAddr,
                                                 create: Outcome<SenderId, IoError>)
    requires g.key.Some? && g.key.value != remote
    requires g.key.value in c.senders && c.senders[g.key.value] !in live
    ensures var c2 := c.(bin := DropGuard(g, c.bin).1);
      g.key.value !in GetOrCreate(c2, remote, live, true, create).0.senders
  {
    var c2 := c.(bin := DropGuard(g, c.bin).1);
    assert g.key.value in c2.bin;
  }
}

=== FILE: session.dfy ===
/**
 * `src/app/socks5/session.rs`: the SOCKS5 UDP session, the only wrapper
 * that can address the remote by name. When the client's first QUIC packet
 * named a server (`QuicConnection::remote_name`), datagrams for that remote
 * go out with ATYP 3 and the name, so the proxy resolves it; replies that
 * come back under the name are mapped to the original remote address.
 */
module SocksSession {
  import opened Bytes
  import opened Wrappers
  import opened SocksUdp
  import Types
  import QuicFrames

  /** `SocksDstAddr<T>`. */
  datatype DstAddr = DstIpv4(ip4: Types.Ipv4) | DstIpv6(ip6: Types.Ipv6) | DstName(name: seq<byte>)

  /** `impl From<IpAddr> for SocksDstAddr<T>`. */
  function FromIp(ip: Types.IpAddr): (a: DstAddr)
    ensures !a.DstName?
    ensures a.DstIpv4? <==> ip.IpV4?
  {
    match ip
    case IpV4(v4) => DstIpv4(v4)
    case IpV6(v6) => DstIpv6(v6)
  }

  /**
   * `SocksDstAddr::write_to`. A name longer than 255 bytes does not fit the
   * one-byte length: `try_into().unwrap()` panics as written; the corrected
   * reading reports `InvalidInput` instead.
   */
  function WriteTo(a: DstAddr, mode: Mode): (r: Outcome<seq<byte>, IoError>)
    ensures r.Panic? <==> mode.AsWritten? && a.DstName? && |a.name| > 255
    ensures r.Err? <==> mode.Corrected? && a.DstName? && |a.name| > 255
    ensures r.Err? ==> r.error == InvalidInput
    ensures r.Ok? ==> |r.value| > 0 && r.value[0] == (match a case DstIpv4(_) => AtypIpv4 case DstIpv6(_) => AtypIpv6 case DstName(_) => AtypName)
  {
    match a
    case DstIpv4(ip) => Ok([AtypIpv4] + ip)
    case DstIpv6(ip) => Ok([AtypIpv6] + ip)
    case DstName(n) =>
      if |n| > 255 then (if mode.AsWritten? then Panic else Err(InvalidInput))
      else Ok([AtypName, |n|] + n)
  }

  /** The bytes `WriteTo` produces for an address that fits, whatever the mode. */
  function Encoded(a: DstAddr): (r: seq<byte>)
    requires !a.DstName? || |a.name| <= 255
    ensures WriteTo(a, AsWritten) == Ok(r) && WriteTo(a, Corrected) == Ok(r)
  {
    WriteTo(a, Corrected).value
  }

  /**
   * `SocksDstAddr::read_from`: never panics; a short read is `UnexpectedEof`,
   * an unknown address type or a name that is not UTF-8 is `InvalidData`,
   * and whatever it accepts is exactly what `write_to` would have written.
   */
  function ReadFrom(r: seq<byte>): (res: Outcome<Read<DstAddr>, IoError>)
    ensures !res.Panic?
    ensures |r| == 0 ==> res == Err(UnexpectedEof)
    ensures |r| > 0 && r[0] != AtypIpv4 && r[0] != AtypIpv6 && r[0] != AtypName ==> res == Err(InvalidData)
    ensures res.Err? && res.error == InvalidData <==>
      |r| > 0 && (
        (r[0] != AtypIpv4 && r[0] != AtypIpv6 && r[0] != AtypName)
        || (r[0] == AtypName && |r| >= 2 && 2 + r[1] <= |r| && !ValidUtf8(r[2..2 + r[1]])))
    ensures res.Ok? && res.value.value.DstName? ==> ValidUtf8(res.value.value.name) && |res.value.value.name| <= 255
    ensures res.Ok? ==> Encoded(res.value.value) + res.value.rest == r
  {
    if |r| == 0 then Err(UnexpectedEof)
    else
      assert r == [r[0]] + r[1..];
      if r[0] == AtypIpv4 then ReadIp(r[1..], 4)
      else if r[0] == AtypIpv6 then ReadIp(r[1..], 16)
      else if r[0] == AtypName then
        assert |r| >= 2 ==> r[1] == r[1..][0];
        assert |r| >= 2 && 2 + r[1] <= |r| ==> r[2..2 + r[1]] == r[1..][1..1 + r[1..][0]];
        ReadName(r[1..])
      else Err(InvalidData)
  }

  /** The IP branches of `read_from`, after the address type: `n` octets, 4 or 16. */
  function ReadIp(t: seq<byte>, n: nat): (res: Outcome<Read<DstAddr>, IoError>)
    requires n == 4 || n == 16
    ensures !res.Panic?
    ensures res.Err? <==> |t| < n
    ensures res.Err? ==> res.error == UnexpectedEof
    ensures res.Ok? ==> !res.value.value.DstName?
    ensures res.Ok? ==> Encoded(res.value.value) + res.value.rest == [if n == 4 then AtypIpv4 else AtypIpv6] + t
  {
    var a :- ReadExact(t, n);
    var addr := if n == 4 then DstIpv4(a.value) else DstIpv6(a.value);
    assert [if n == 4 then AtypIpv4 else AtypIpv6] + t == Encoded(addr) + a.rest;
    Ok(Read(addr, a.rest))
  }

  /** The name branch of `read_from`, after the address type: a length byte and that many UTF-8 bytes. */
  function ReadName(t: seq<byte>): (res: Outcome<Read<DstAddr>, IoError>)
    ensures !res.Panic?
    ensures res.Err? ==> res.error == UnexpectedEof || res.error == InvalidData
    ensures res.Err? && res.error == InvalidData <==> |t| >= 1 && 1 + t[0] <= |t| && !ValidUtf8(t[1..1 + t[0]])
    ensures res.Ok? ==> res.value.value.DstName? && ValidUtf8(res.value.value.name) && |res.value.value.name| <= 255
    ensures res.Ok? ==> Encoded(res.value.value) + res.value.rest == [AtypName] + t
  {
    if |t| == 0 then Err(UnexpectedEof)
    else
      var b :- ReadExact(t[1..], t[0]);
      assert b.value == t[1..1 + t[0]];
      if !ValidUtf8(b.value) then Err(InvalidData)
      else
        assert [AtypName] + t == [AtypName, t[0]] + b.value + b.rest by {
          assert t == [t[0]] + t[1..];
        }
        Ok(Read(DstName(b.value), b.rest))
  }

  /** `read_from` undoes `write_to` for every address it can carry, whatever follows. */
  lemma {:induction false} ReadFromWriteTo(a: DstAddr, rest: seq<byte>)
    requires a.DstName? ==> |a.name| <= 255 && ValidUtf8(a.name)
    ensures ReadFrom(Encoded(a) + rest) == Ok(Read(a, rest))
  {
    var r := Encoded(a) + rest;
    match a
    case DstIpv4(ip) =>
      assert r[1..][..4] == ip && r[1..][4..] == rest;
    case DstIpv6(ip) =>
      assert r[1..][..16] == ip && r[1..][16..] == rest;
    case DstName(n) =>
      assert r[1..][1..] == n + rest;
      assert (n + rest)[..|n|] == n && (n + rest)[|n|..] == rest;
  }

  /** `SocksDstAddr::Name` carried by the session's QUIC info, when it names `target`. */
  predicate UsesName(quic: Option<QuicFrames.QuicConnection>, target: Types.RemoteAddr)
  {
    quic.Some? && quic.value.remoteName.Some? && quic.value.remoteOrig == target
  }

  /** Lines 165-174: the address `send_to_remote` writes for `target`. */
  function Destination(quic: Option<QuicFrames.QuicConnection>, target: Types.RemoteAddr): (a: DstAddr)
    ensures a.DstName? <==> UsesName(quic, target)
    ensures a.DstName? ==> a.name == quic.value.remoteName.value
    ensures !a.DstName? ==> a == FromIp(target.addr.Ip())
  {
    if UsesName(quic, target) then DstName(quic.value.remoteName.value)
    else FromIp(target.addr.Ip())
  }

  /**
   * `Session::send_to_remote`: the datagram it hands to the socket. The
   * header is `00 00 00`, the destination, the port big-endian.
   */
  function SendToRemote(quic: Option<QuicFrames.QuicConnection>, target: Types.RemoteAddr, payload: seq<byte>, mode: Mode)
    : (r: Outcome<seq<byte>, IoError>)
    ensures mode.Corrected? ==> !r.Panic?
    ensures r.Ok? <==> var d := Destination(quic, target); !d.DstName? || |d.name| <= 255
    ensures r.Ok? ==> r.value == [0, 0, 0] + Encoded(Destination(quic, target)) + PortBytes(target.addr.port) + payload
  {
    var a :- WriteTo(Destination(quic, target), mode);
    Ok([0, 0, 0] + a + PortBytes(target.addr.port) + payload)
  }

  /** Without a name, the session sends exactly what `bind.rs` and `connection.rs` send. */
  lemma {:induction false} SendToRemoteByIp(quic: Option<QuicFrames.QuicConnection>, target: Types.RemoteAddr, payload: seq<byte>, mode: Mode)
    requires !UsesName(quic, target)
    ensures SendToRemote(quic, target, payload, mode) == Ok(IpRequest(target.addr.Ip(), target.addr.port, payload))
  {
    var ip := target.addr.Ip();
    var h := [if ip.IpV4? then AtypIpv4 else AtypIpv6];
    assert Encoded(FromIp(ip)) == h + Octets(ip);
    assert [0, 0, 0] + (h + Octets(ip)) == [0, 0, 0] + h + Octets(ip);
  }

  /**
   * A host name of 256 bytes, which the TLS reader accepts (its names are
   * bounded only by the 16-bit length field), makes `send_to_remote` panic
   * as written; corrected, the send fails with `InvalidInput`.
   */
  lemma {:induction false} LongNamePanics(remote: Types.RemoteAddr, name: seq<byte>, payload: seq<byte>)
    requires |name| == 256
    ensures SendToRemote(Some(QuicFrames.QuicConnection(remote, Some(name))), remote, payload, AsWritten) == Panic
    ensures SendToRemote(Some(QuicFrames.QuicConnection(remote, Some(name))), remote, payload, Corrected) == Err(InvalidInput)
  {
  }

  /** A decoded datagram: the payload, the address and the port it came with. */
  datatype Packet = Packet(payload: seq<byte>, addr: DstAddr, port: u16)

  /** Why a decoder returned `None`. */
  datatype Dropped = TooShort | Fragment | BadAddress(error: IoError)

  /**
   * `decode_packet` (lines 316-336). The two reserved bytes are not looked
   * at. After the address, `read_u16().unwrap()` panics when fewer than two
   * bytes remain, which the 10-byte guard does not exclude for an IPv6
   * address (20 or 21 bytes) or a short name; the corrected reading drops
   * such a datagram as too short.
   */
  function DecodePacket(pkt: seq<byte>, mode: Mode): (r: Outcome<Packet, Dropped>)
    ensures |pkt| < MinRequestLen ==> r == Err(TooShort)
    ensures |pkt| >= MinRequestLen && pkt[2] != 0 ==> r == Err(Fragment)
    ensures mode.Corrected? ==> !r.Panic?
    ensures r.Ok? && r.value.addr.DstName? ==> ValidUtf8(r.value.addr.name) && |r.value.addr.name| <= 255
    ensures r.Ok? ==>
      pkt == [pkt[0], pkt[1], 0] + Encoded(r.value.addr) + PortBytes(r.value.port) + r.value.payload
  {
    if |pkt| < MinRequestLen then Err(TooShort)
    else if pkt[2] != 0 then Err(Fragment)
    else
      var a := ReadFrom(pkt[3..]);
      if a.Err? then Err(BadAddress(a.error))
      else if |a.value.rest| < 2 then (if mode.AsWritten? then Panic else Err(TooShort))
      else
        var port := PortAt(a.value.rest, 0);
        DecodedLayout(pkt, Encoded(a.value.value), a.value.rest, PortBytes(port));
        Ok(Packet(a.value.rest[2..], a.value.value, port))
  }

  /** A datagram whose address and port were read is the header, the address, the port and the rest. */
  lemma {:induction false} DecodedLayout(pkt: seq<byte>, addr: seq<byte>, rest: seq<byte>, port: seq<byte>)
    requires 3 <= |pkt| && pkt[2] == 0
    requires pkt[3..] == addr + rest && |rest| >= 2 && port == rest[0..2]
    ensures pkt == [pkt[0], pkt[1], 0] + addr + port + rest[2..]
  {
    var t := rest[2..];
    assert rest == port + t;
    assert pkt[..3] == [pkt[0], pkt[1], 0];
    assert pkt == pkt[..3] + pkt[3..];
    assert pkt[..3] + (addr + (port + t)) == pkt[..3] + addr + port + t;
  }

  /** The reserved bytes play no part in decoding. */
  lemma {:induction false} DecodeIgnoresReserved(pkt: seq<byte>, x: byte, y: byte, mode: Mode)
    requires |pkt| >= 2
    ensures DecodePacket([x, y] + pkt[2..], mode) == DecodePacket(pkt, mode)
  {
    var q := [x, y] + pkt[2..];
    assert q[2..] == pkt[2..];
    if |pkt| >= 3 {
      assert q[3..] == pkt[3..];
    }
  }

  /**
   * What `send_to_remote` sends, `decode_packet` reads back: the same
   * destination, port and payload, unless the whole datagram is shorter than
   * ten bytes (a name of one or two bytes with a short payload).
   */
  lemma {:induction false} DecodeSendToRemote(quic: Option<QuicFrames.QuicConnection>, target: Types.RemoteAddr, payload: seq<byte>, mode: Mode)
    requires SendToRemote(quic, target, payload, mode).Ok?
    requires UsesName(quic, target) ==> ValidUtf8(quic.value.remoteName.value)
    ensures var req := SendToRemote(quic, target, payload, mode).value;
      DecodePacket(req, mode)
      == if |req| < MinRequestLen then Err(TooShort)
         else Ok(Packet(payload, Destination(quic, target), target.addr.port))
  {
    var d := Destination(quic, target);
    var port := target.addr.port;
    var req := SendToRemote(quic, target, payload, mode).value;
    if |req| >= MinRequestLen {
      var rest := PortBytes(port) + payload;
      assert req == [0, 0, 0] + (Encoded(d) + rest);
      assert req[3..] == Encoded(d) + rest;
      ReadFromWriteTo(d, rest);
      ReadUintOf(port, 2, payload);
    }
  }

  /** An IPv6 header of 20 bytes passes the length guard and panics at the port. */
  lemma {:induction false} Ipv6PortPanics(ip: Types.Ipv6)
    ensures DecodePacket([0, 0, 0, AtypIpv6] + ip, AsWritten) == Panic
    ensures DecodePacket([0, 0, 0, AtypIpv6] + ip, Corrected) == Err(TooShort)
  {
    var pkt := [0, 0, 0, AtypIpv6] + ip;
    assert pkt[3..] == [AtypIpv6] + ip;
    assert ([AtypIpv6] + ip)[1..] == ip;
  }

  /** Line 226 and lines 232-240: the name a session's incoming stream answers to. */
  function NameToAddr(quic: Option<QuicFrames.QuicConnection>): (m: Option<(seq<byte>, Types.RemoteAddr)>)
    ensures m.Some? <==> quic.Some? && quic.value.remoteName.Some?
    ensures m.Some? ==> m.value == (quic.value.remoteName.value, quic.value.remoteOrig)
  {
    match quic
    case Some(QuicConnection(orig, Some(name))) => Some((name, orig))
    case _ => None
  }

  /**
   * Lines 286-306: the remote an incoming datagram is reported from. An IP
   * address becomes a canonical `RemoteAddr` with the datagram's port; a
   * name is accepted only if it is the session's name, and then stands for
   * the original remote (the port that came with it is not used).
   */
  function IncomingRemote(nameToAddr: Option<(seq<byte>, Types.RemoteAddr)>, a: DstAddr, port: u16)
    : (r: Outcome<Types.RemoteAddr, IoError>)
    ensures !r.Panic?
    ensures r.Err? ==> r.error == InvalidData
    ensures r.Err? <==> a.DstName? && (nameToAddr.None? || nameToAddr.value.0 != a.name)
    ensures r.Ok? && a.DstName? ==> r.value == nameToAddr.value.1
    ensures r.Ok? && !a.DstName? ==> Types.IsCanonical(r.value.addr) && r.value.addr.port == port
  {
    match a
    case DstIpv4(ip) => Ok(Types.RemoteAddrFrom(Types.FromIpPort(Types.IpV4(ip), port)))
    case DstIpv6(ip) => Ok(Types.RemoteAddrFrom(Types.FromIpPort(Types.IpV6(ip), port)))
    case DstName(n) =>
      match nameToAddr
      case Some((mapName, mapAddr)) => if mapName == n then Ok(mapAddr) else Err(InvalidData)
      case None => Err(InvalidData)
  }

  /**
   * A reply addressed with the destination the session used for `target`
   * is reported as coming from `target`: by name, through the session's
   * map; by IP, when `target` is an IPv4 address in canonical form.
   */
  lemma {:induction false} IncomingFromDestination(quic: Option<QuicFrames.QuicConnection>, target: Types.RemoteAddr)
    requires UsesName(quic, target) || target.addr.V4?
    ensures IncomingRemote(NameToAddr(quic), Destination(quic, target), target.addr.port) == Ok(target)
  {
  }

  /** Each datagram's decoding, in order, on what the 2048-byte buffer holds of it. */
  function DecodeAll(ds: seq<seq<byte>>, mode: Mode): (os: seq<Outcome<Packet, Dropped>>)
    ensures |os| == |ds|
    ensures forall j :: 0 <= j < |ds| ==> os[j] == DecodePacket(Truncated(ds[j]), mode)
  {
    seq(|ds|, j requires 0 <= j < |ds| => DecodePacket(Truncated(ds[j]), mode))
  }

  /**
   * `Session::recv` over the datagrams the socket delivers (lines 185-197):
   * each is read into a 2048-byte buffer, so only its first 2048 bytes are
   * decoded; undecodable ones are skipped, and the first decodable payload
   * is copied into a buffer of `cap` bytes.
   */
  function Recv(ds: seq<seq<byte>>, cap: nat, mode: Mode): (r: Outcome<Received<()>, RecvStop>)
    ensures mode.Corrected? ==> !r.Panic?
    ensures r.Err? ==> r.error == Exhausted
    ensures r.Err? <==> forall j :: 0 <= j < |ds| ==> DecodePacket(Truncated(ds[j]), mode).Err?
    ensures r.Ok? ==>
      var k := r.value.index;
      k < |ds| && DecodePacket(Truncated(ds[k]), mode).Ok?
      && r.value.data == CopyOut(DecodePacket(Truncated(ds[k]), mode).value.payload, cap)
      && forall j :: 0 <= j < k ==> DecodePacket(Truncated(ds[j]), mode).Err?
  {
    var first :- FirstDecoded(DecodeAll(ds, mode), 0);
    Ok(Received(first.0, CopyOut(first.1.payload, cap), ()))
  }

  /**
   * `SessionIncoming::poll_next` over the datagrams the socket delivers
   * (lines 274-312): each is read into a cleared 2048-byte buffer, so only
   * its first 2048 bytes are decoded; undecodable ones are skipped; the
   * first decodable one ends the loop,
   * with its whole payload and remote, or with `InvalidData` when it came
   * under a name the session does not answer to.
   */
  function Incoming(nameToAddr: Option<(seq<byte>, Types.RemoteAddr)>, ds: seq<seq<byte>>, mode: Mode)
    : (r: Outcome<Received<Types.RemoteAddr>, RecvStop>)
    ensures mode.Corrected? ==> !r.Panic?
    ensures r == Err(Exhausted) <==> forall j :: 0 <= j < |ds| ==> DecodePacket(Truncated(ds[j]), mode).Err?
    ensures r.Err? && r.error.Failed? ==> r.error.error == InvalidData
    ensures r.Ok? ==>
      var k := r.value.index;
      k < |ds| && DecodePacket(Truncated(ds[k]), mode).Ok?
      && var p := DecodePacket(Truncated(ds[k]), mode).value;
      r.value.data == p.payload && IncomingRemote(nameToAddr, p.addr, p.port) == Ok(r.value.from)
      && forall j :: 0 <= j < k ==> DecodePacket(Truncated(ds[j]), mode).Err?
  {
    var first :- FirstDecoded(DecodeAll(ds, mode), 0);
    var p := first.1;
    match IncomingRemote(nameToAddr, p.addr, p.port)
    case Ok(remote) => Ok(Received(first.0, p.payload, remote))
    case Err(e) => Err(Failed(e))
    case Panic => Panic
  }

  /**
   * A reply laid out as `send_to_remote` lays out the request, ten to 2048
   * bytes long, is delivered behind any number of datagrams too short to
   * decode: `recv` copies out its payload, and the incoming stream reports
   * it from the target whenever the session addressed the target by name
   * or by a canonical IPv4 address.
   */
  lemma {:induction false} RecvAfterJunk(junk: seq<seq<byte>>, quic: Option<QuicFrames.QuicConnection>, target: Types.RemoteAddr,
                                         payload: seq<byte>, cap: nat, mode: Mode)
    requires forall j :: 0 <= j < |junk| ==> |junk[j]| < MinRequestLen
    requires SendToRemote(quic, target, payload, mode).Ok?
    requires UsesName(quic, target) ==> ValidUtf8(quic.value.remoteName.value)
    requires MinRequestLen <= |SendToRemote(quic, target, payload, mode).value| <= RecvBuffer
    ensures var ds := junk + [SendToRemote(quic, target, payload, mode).value];
      Recv(ds, cap, mode) == Ok(Received(|junk|, CopyOut(payload, cap), ()))
    ensures var ds := junk + [SendToRemote(quic, target, payload, mode).value];
      UsesName(quic, target) || target.addr.V4? ==> Incoming(NameToAddr(quic), ds, mode) == Ok(Received(|junk|, payload, target))
  {
    var req := SendToRemote(quic, target, payload, mode).value;
    var ds := junk + [req];
    var os := DecodeAll(ds, mode);
    var p := Packet(payload, Destination(quic, target), target.addr.port);
    DecodeSendToRemote(quic, target, payload, mode);
    assert os[|junk|] == Ok(p);
    assert forall j :: 0 <= j < |junk| ==> os[j].Err? by {
      forall j | 0 <= j < |junk| ensures os[j].Err? {
        assert ds[j] == junk[j];
      }
    }
    FirstDecodedAfterErrors(os, 0, |junk|, p);
    if UsesName(quic, target) || target.addr.V4? {
      IncomingFromDestination(quic, target);
    }
  }
}

=== FILE: socket.dfy ===
/**
 * `src/app/net/socket.rs`: the message arrays behind batched UDP I/O. A
 * write buffer queues datagrams and hands their headers to `sendmmsg`,
 * advancing past the ones the kernel took; a read buffer holds the
 * datagrams one `recvmmsg` returned, each cut to the slot size.
 */
module NetSocket {
  import opened Bytes
  import opened Wrappers
  import opened SocksUdp
  import Types

  /** The largest value of a C `unsigned int`, plus one: `msg_len` and `vlen` are 32 bits. */
  const U32Limit: nat := 0x1_0000_0000

  /** `WriteMsg`: a queued datagram and its destination, if the socket is not connected. */
  datatype WriteMsg = WriteMsg(dest: Option<Types.SocketAddr>, buf: seq<byte>)

  /**
   * An `mmsghdr` as `prepare_hdrs` leaves it: `msg_len` as it was filled in
   * (the kernel does not read it on input, and writes back the bytes sent),
   * the destination, and the bytes the iovec describes, which are what the
   * datagram carries. A zeroed header names no destination and no bytes.
   */
  datatype Header = Header(len: u32, dest: Option<Types.SocketAddr>, payload: seq<byte>)

  const ZeroHeader: Header := Header(0, None, [])

  /**
   * `MsgArrayWriteBuffer` (lines 143-148): the index of the first message not
   * yet sent, the queued messages, and the headers last prepared.
   */
  datatype WriteBuffer = WriteBuffer(pos: nat, msgs: seq<WriteMsg>, hdrs: seq<Header>)

  /** What every operation keeps: `advance` asserts that `pos` stays within the messages. */
  predicate Valid(b: WriteBuffer)
  {
    b.pos <= |b.msgs|
  }

  /** `with_capacity` (lines 151-157): empty, at position 0. */
  function WithCapacity(): (b: WriteBuffer)
    ensures Valid(b) && !HasRemaining(b)
  {
    WriteBuffer(0, [], [])
  }

  /** `clear` (lines 159-163): nothing queued, nothing sent. */
  function Clear(b: WriteBuffer): (r: WriteBuffer)
    ensures Valid(r) && !HasRemaining(r) && r == WithCapacity()
  {
    WriteBuffer(0, [], [])
  }

  /** `push` (lines 165-174): the message joins the queue; what was sent and prepared is untouched. */
  function Push(b: WriteBuffer, buf: seq<byte>, dest: Option<Types.SocketAddr>): (r: WriteBuffer)
    ensures |r.msgs| == |b.msgs| + 1 && r.msgs[..|b.msgs|] == b.msgs && r.msgs[|b.msgs|] == WriteMsg(dest, buf)
    ensures r.pos == b.pos && r.hdrs == b.hdrs
    ensures Valid(b) ==> Valid(r) && HasRemaining(r)
  {
    WriteBuffer(b.pos, b.msgs + [WriteMsg(dest, buf)], b.hdrs)
  }

  /** `has_remaining` (lines 207-209): some queued message has not been sent yet. */
  function HasRemaining(b: WriteBuffer): (r: bool)
    ensures Valid(b) ==> (r <==> b.msgs[b.pos..] != [])
  {
    b.pos < |b.msgs|
  }

  /**
   * `advance` (lines 202-205): moves past `n` sent messages, and panics
   * when that goes beyond the queue.
   */
  function Advance(b: WriteBuffer, n: nat): (r: Outcome<WriteBuffer, IoError>)
    ensures r.Panic? <==> b.pos + n > |b.msgs|
    ensures r.Ok? ==> Valid(r.value) && r.value == b.(pos := b.pos + n)
    ensures !r.Err?
  {
    if b.pos + n > |b.msgs| then Panic else Ok(b.(pos := b.pos + n))
  }

  /** Every message not yet sent has a length that fits `msg_len`. */
  predicate Fits(b: WriteBuffer)
  {
    forall i :: b.pos <= i < |b.msgs| ==> |b.msgs[i].buf| < U32Limit
  }

  /**
   * The header `prepare_hdrs` writes for a message. `push` creates the iovec
   * with `iov_len` 0 (line 170) and `prepare_hdrs` sets only `iov_base`
   * (line 183), so as written the datagram carries no bytes; corrected,
   * `iov_len` is the message's length.
   */
  function HeaderOf(m: WriteMsg, mode: Mode): Header
    requires |m.buf| < U32Limit
  {
    Header(|m.buf|, m.dest, if mode.AsWritten? then [] else m.buf)
  }

  /** The headers of a run of messages, in order. */
  function Headers(ms: seq<WriteMsg>, mode: Mode): (r: seq<Header>)
    requires forall i :: 0 <= i < |ms| ==> |ms[i].buf| < U32Limit
    ensures |r| == |ms|
  {
    seq(|ms|, i requires 0 <= i < |ms| => HeaderOf(ms[i], mode))
  }

  /** Headers whose datagrams carry no bytes. */
  predicate Unfilled(hs: seq<Header>)
  {
    forall i :: 0 <= i < |hs| ==> hs[i].payload == []
  }

  /**
   * `prepare_hdrs` (lines 176-200): the headers are resized to the number of
   * messages, zeroed where new, and rewritten from `pos` on; a message
   * whose length does not fit `msg_len` panics in `try_into().unwrap()`.
   * The headers before `pos` keep what they held.
   */
  function PrepareHdrs(b: WriteBuffer, mode: Mode): (r: Outcome<WriteBuffer, IoError>)
    ensures r.Panic? <==> !Fits(b)
    ensures !r.Err?
    ensures r.Ok? ==> r.value.pos == b.pos && r.value.msgs == b.msgs && |r.value.hdrs| == |b.msgs|
    ensures r.Ok? ==> forall i :: b.pos <= i < |b.msgs| ==> r.value.hdrs[i] == HeaderOf(b.msgs[i], mode)
    ensures r.Ok? ==> forall i :: 0 <= i < b.pos && i < |b.hdrs| && i < |b.msgs| ==> r.value.hdrs[i] == b.hdrs[i]
  {
    if !Fits(b) then Panic
    else
      Ok(b.(hdrs := seq(|b.msgs|, i requires 0 <= i < |b.msgs| =>
        if i >= b.pos then HeaderOf(b.msgs[i], mode) else if i < |b.hdrs| then b.hdrs[i] else ZeroHeader)))
  }

  /** The headers handed to the kernel start here: at 0 as written, at `pos` corrected. */
  function SendFrom(b: WriteBuffer, mode: Mode): nat
  {
    if mode.AsWritten? then 0 else b.pos
  }

  /** One `sendmmsg` call: the buffer after it, the headers that went out, and its result. */
  datatype Sent = Sent(buf: WriteBuffer, wire: seq<Header>, result: Outcome<nat, IoError>)

  /**
   * `send_mmsg` (lines 296-313). The headers are prepared and passed with
   * `vlen` their number, which must fit an `unsigned int`. `kernel` is what
   * `sendmmsg` does: take at most the given number of the headers passed,
   * in order, or fail. The buffer then advances by the count.
   *
   * As written, the headers are passed from index 0 whatever `pos` is, and
   * their datagrams are empty; the corrected reading passes those from
   * `pos` on, each carrying its message.
   */
  function SendMmsg(b: WriteBuffer, mode: Mode, kernel: Outcome<nat, IoError>): (r: Sent)
    requires Valid(b)
    ensures !Fits(b) ==> r.result.Panic?
    ensures kernel.Err? && Fits(b) && |b.msgs| - SendFrom(b, mode) < U32Limit ==> r.result == kernel && r.wire == []
    ensures r.buf.msgs == b.msgs
    ensures r.result.Ok? ==> r.buf.pos == b.pos + r.result.value && |r.wire| == r.result.value
    ensures r.result.Ok? ==> Valid(r.buf)
    ensures mode.AsWritten? && Unfilled(b.hdrs) ==> Unfilled(r.buf.hdrs) && Unfilled(r.wire)
  {
    var p := PrepareHdrs(b, mode);
    if !p.Ok? then Sent(b, [], Panic)
    else
      var h := p.value;
      var from := SendFrom(b, mode);
      var vlen := |h.msgs| - from;
      if vlen >= U32Limit then Sent(h, [], Panic)
      else if kernel.Err? then Sent(h, [], Err(kernel.error))
      else if kernel.Panic? then Sent(h, [], Panic)
      else
        var n := if kernel.value < vlen then kernel.value else vlen;
        var wire := h.hdrs[from..from + n];
        var a := Advance(h, n);
        if a.Ok? then Sent(a.value, wire, Ok(n)) else Sent(h.(pos := h.pos + n), wire, Panic)
  }

  /**
   * Corrected, one call sends the next messages of the queue, exactly as
   * many as the kernel took, and moves past them.
   */
  lemma {:induction false} SendCorrected(b: WriteBuffer, k: nat)
    requires Valid(b) && Fits(b) && |b.msgs| - b.pos < U32Limit
    ensures var n := if k < |b.msgs| - b.pos then k else |b.msgs| - b.pos;
      var r := SendMmsg(b, Corrected, Ok(k));
      r.result == Ok(n) && r.buf.pos == b.pos + n && r.buf.msgs == b.msgs
      && r.wire == Headers(b.msgs[b.pos..b.pos + n], Corrected)
  {
    var h := PrepareHdrs(b, Corrected).value;
    var n := if k < |b.msgs| - b.pos then k else |b.msgs| - b.pos;
    var ms := b.msgs[b.pos..b.pos + n];
    assert h.hdrs[b.pos..b.pos + n] == Headers(ms, Corrected) by {
      forall i | 0 <= i < n ensures h.hdrs[b.pos..b.pos + n][i] == Headers(ms, Corrected)[i] {
        assert h.hdrs[b.pos + i] == HeaderOf(b.msgs[b.pos + i], Corrected);
      }
    }
  }

  /**
   * The loop that drains a buffer: `sendmmsg` is called while messages
   * remain, `kernels` giving each call's behaviour, until one fails or the
   * kernel's answers run out. The answer is the buffer, every header that
   * went out, and the last result.
   */
  function Flush(b: WriteBuffer, mode: Mode, kernels: seq<Outcome<nat, IoError>>): (r: Sent)
    requires Valid(b)
    ensures r.buf.msgs == b.msgs
    ensures r.result.Ok? ==> Valid(r.buf) && r.buf.pos == b.pos + |r.wire|
    ensures r.result.Err? ==> exists i :: 0 <= i < |kernels| && kernels[i] == Err(r.result.error)
    decreases |kernels|
  {
    if !HasRemaining(b) || |kernels| == 0 then Sent(b, [], Ok(0))
    else
      var s := SendMmsg(b, mode, kernels[0]);
      if !s.result.Ok? then s
      else
        var rest := Flush(s.buf, mode, kernels[1..]);
        Sent(rest.buf, s.wire + rest.wire, rest.result)
  }

  /** A kernel that always takes at least one message. */
  predicate Progressing(kernels: seq<Outcome<nat, IoError>>)
  {
    forall i :: 0 <= i < |kernels| ==> kernels[i].Ok? && kernels[i].value >= 1
  }

  /**
   * Corrected, draining sends every queued message exactly once and in
   * order, and with as many successful calls as messages the queue
   * empties.
   */
  lemma {:induction false} FlushCorrected(b: WriteBuffer, kernels: seq<Outcome<nat, IoError>>)
    requires Valid(b) && Fits(b) && |b.msgs| < U32Limit
    requires Progressing(kernels)
    ensures var r := Flush(b, Corrected, kernels);
      r.result.Ok? && r.buf.msgs == b.msgs && b.pos <= r.buf.pos <= |b.msgs|
      && r.wire == Headers(b.msgs[b.pos..r.buf.pos], Corrected)
    ensures |kernels| >= |b.msgs| - b.pos ==> !HasRemaining(Flush(b, Corrected, kernels).buf)
    decreases |kernels|
  {
    if !HasRemaining(b) || |kernels| == 0 {
      assert b.msgs[b.pos..b.pos] == [];
    } else {
      hide Flush, SendMmsg, Advance, PrepareHdrs;
      var s := SendMmsg(b, Corrected, kernels[0]);
      SendCorrected(b, kernels[0].value);
      assert Fits(s.buf);
      ProgressingTail(kernels);
      FlushCorrected(s.buf, kernels[1..]);
      var rest := Flush(s.buf, Corrected, kernels[1..]);
      FlushStep(b, Corrected, kernels);
      HeadersSplit(b.msgs, b.pos, s.buf.pos, rest.buf.pos, Corrected);
    }
  }

  /** A call that succeeds with messages left is followed by the rest of the loop. */
  lemma {:induction false} FlushStep(b: WriteBuffer, mode: Mode, kernels: seq<Outcome<nat, IoError>>)
    requires Valid(b) && HasRemaining(b) && |kernels| > 0
    requires SendMmsg(b, mode, kernels[0]).result.Ok?
    ensures var s := SendMmsg(b, mode, kernels[0]);
      var rest := Flush(s.buf, mode, kernels[1..]);
      Flush(b, mode, kernels) == Sent(rest.buf, s.wire + rest.wire, rest.result)
  {
    hide SendMmsg;
  }

  lemma {:induction false} ProgressingTail(kernels: seq<Outcome<nat, IoError>>)
    requires |kernels| > 0 && Progressing(kernels)
    ensures Progressing(kernels[1..])
  {
    assert forall i :: 0 <= i < |kernels[1..]| ==> kernels[1..][i] == kernels[i + 1];
  }

  lemma {:induction false} HeadersSplit(ms: seq<WriteMsg>, i: nat, j: nat, k: nat, mode: Mode)
    requires i <= j <= k <= |ms|
    requires forall x :: i <= x < |ms| ==> |ms[x].buf| < U32Limit
    ensures Headers(ms[i..j], mode) + Headers(ms[j..k], mode) == Headers(ms[i..k], mode)
  {
    assert forall x :: 0 <= x < k - i ==> (if x < j - i then ms[i..j][x] else ms[j..k][x - (j - i)]) == ms[i..k][x];
  }

  /**
   * As written, every datagram a drain sends is empty, whatever the queue
   * holds: the iovecs describe no bytes. This holds from every buffer that
   * `with_capacity`, `clear` and `push` build, since their headers carry
   * nothing.
   */
  lemma {:induction false} EmptyDatagrams(b: WriteBuffer, kernels: seq<Outcome<nat, IoError>>)
    requires Valid(b) && Unfilled(b.hdrs)
    ensures Unfilled(Flush(b, AsWritten, kernels).wire)
    decreases |kernels|
  {
    hide SendMmsg, PrepareHdrs, Advance;
    if HasRemaining(b) && |kernels| > 0 {
      var s := SendMmsg(b, AsWritten, kernels[0]);
      if s.result.Ok? {
        EmptyDatagrams(s.buf, kernels[1..]);
        FlushStep(b, AsWritten, kernels);
        var rest := Flush(s.buf, AsWritten, kernels[1..]);
        assert forall i :: 0 <= i < |s.wire + rest.wire| ==>
          (s.wire + rest.wire)[i] == if i < |s.wire| then s.wire[i] else rest.wire[i - |s.wire|];
      }
    }
  }

  /** Two queued messages for two destinations, nothing sent or prepared yet. */
  function TwoMessages(a: seq<byte>, c: seq<byte>, d1: Option<Types.SocketAddr>, d2: Option<Types.SocketAddr>): (b: WriteBuffer)
    ensures b == WriteBuffer(0, [WriteMsg(d1, a), WriteMsg(d2, c)], [])
  {
    Push(Push(WithCapacity(), a, d1), c, d2)
  }

  /** The headers `prepare_hdrs` gives those two messages. */
  function TwoHeaders(a: seq<byte>, c: seq<byte>, d1: Option<Types.SocketAddr>, d2: Option<Types.SocketAddr>, mode: Mode): seq<Header>
    requires |a| < U32Limit && |c| < U32Limit
  {
    [HeaderOf(WriteMsg(d1, a), mode), HeaderOf(WriteMsg(d2, c), mode)]
  }

  /** The first call, in either reading, passes the first message's header. */
  lemma {:induction false} FirstCallOfTwo(a: seq<byte>, c: seq<byte>, d1: Option<Types.SocketAddr>, d2: Option<Types.SocketAddr>, mode: Mode)
    requires |a| < U32Limit && |c| < U32Limit
    ensures var ms := [WriteMsg(d1, a), WriteMsg(d2, c)];
      var hs := TwoHeaders(a, c, d1, d2, mode);
      SendMmsg(WriteBuffer(0, ms, []), mode, Ok(1)) == Sent(WriteBuffer(1, ms, hs), [hs[0]], Ok(1))
  {
    var ms := [WriteMsg(d1, a), WriteMsg(d2, c)];
    var hs := TwoHeaders(a, c, d1, d2, mode);
    assert PrepareHdrs(WriteBuffer(0, ms, []), mode) == Ok(WriteBuffer(0, ms, hs)) by {
      var p := PrepareHdrs(WriteBuffer(0, ms, []), mode).value;
      assert p.hdrs[0] == hs[0] && p.hdrs[1] == hs[1];
      assert p.hdrs == hs;
    }
  }

  /**
   * The second call, after the first message went out: as written it
   * passes the first header again, corrected the second.
   */
  lemma {:induction false} SecondCallOfTwo(a: seq<byte>, c: seq<byte>, d1: Option<Types.SocketAddr>, d2: Option<Types.SocketAddr>, mode: Mode)
    requires |a| < U32Limit && |c| < U32Limit
    ensures var ms := [WriteMsg(d1, a), WriteMsg(d2, c)];
      var hs := TwoHeaders(a, c, d1, d2, mode);
      SendMmsg(WriteBuffer(1, ms, hs), mode, Ok(1))
        == Sent(WriteBuffer(2, ms, hs), [if mode.AsWritten? then hs[0] else hs[1]], Ok(1))
  {
    PreparedAgain(a, c, d1, d2, mode);
  }

  /** Headers already prepared for both messages are prepared again unchanged. */
  lemma {:induction false} PreparedAgain(a: seq<byte>, c: seq<byte>, d1: Option<Types.SocketAddr>, d2: Option<Types.SocketAddr>, mode: Mode)
    requires |a| < U32Limit && |c| < U32Limit
    ensures var ms := [WriteMsg(d1, a), WriteMsg(d2, c)];
      var hs := TwoHeaders(a, c, d1, d2, mode);
      PrepareHdrs(WriteBuffer(1, ms, hs), mode) == Ok(WriteBuffer(1, ms, hs))
  {
    var ms := [WriteMsg(d1, a), WriteMsg(d2, c)];
    var hs := TwoHeaders(a, c, d1, d2, mode);
    var p := PrepareHdrs(WriteBuffer(1, ms, hs), mode).value;
    assert p.hdrs[0] == hs[0] && p.hdrs[1] == hs[1];
    assert p.hdrs == hs;
  }

  /** Draining with two calls is the first call's headers, then the second's. */
  lemma {:induction false} FlushTwoCalls(b: WriteBuffer, mode: Mode, k1: Outcome<nat, IoError>, k2: Outcome<nat, IoError>)
    requires Valid(b) && HasRemaining(b)
    requires SendMmsg(b, mode, k1).result.Ok?
    ensures var s1 := SendMmsg(b, mode, k1);
      var r := Flush(s1.buf, mode, [k2]);
      Flush(b, mode, [k1, k2]) == Sent(r.buf, s1.wire + r.wire, r.result)
  {
    assert [k1, k2][1..] == [k2];
  }

  /** The drain of the two messages when the kernel takes one per call. */
  lemma {:induction false} DrainTwoByOne(a: seq<byte>, c: seq<byte>, d1: Option<Types.SocketAddr>, d2: Option<Types.SocketAddr>, mode: Mode)
    requires |a| < U32Limit && |c| < U32Limit
    ensures var hs := TwoHeaders(a, c, d1, d2, mode);
      var r := Flush(TwoMessages(a, c, d1, d2), mode, [Ok(1), Ok(1)]);
      r.result == Ok(0) && r.wire == [hs[0], if mode.AsWritten? then hs[0] else hs[1]] && !HasRemaining(r.buf)
  {
    var ms := [WriteMsg(d1, a), WriteMsg(d2, c)];
    var hs := TwoHeaders(a, c, d1, d2, mode);
    var b := TwoMessages(a, c, d1, d2);
    FirstCallOfTwo(a, c, d1, d2, mode);
    assert Flush(WriteBuffer(1, ms, hs), mode, [Ok(1)])
        == Sent(WriteBuffer(2, ms, hs), [if mode.AsWritten? then hs[0] else hs[1]], Ok(0)) by {
      SecondCallOfTwo(a, c, d1, d2, mode);
      assert Flush(WriteBuffer(2, ms, hs), mode, []) == Sent(WriteBuffer(2, ms, hs), [], Ok(0));
    }
    FlushTwoCalls(b, mode, Ok(1), Ok(1));
  }

  /**
   * As written, a second call after a partial send passes the headers from
   * index 0 again: two empty datagrams go to the first destination, none to
   * the second, and the buffer reports nothing left to send. Corrected, each
   * message goes once to its own destination.
   */
  lemma {:induction false} ResendsFirstMessage(a: seq<byte>, c: seq<byte>, d1: Option<Types.SocketAddr>, d2: Option<Types.SocketAddr>)
    requires |a| < U32Limit && |c| < U32Limit
    ensures var r := Flush(TwoMessages(a, c, d1, d2), AsWritten, [Ok(1), Ok(1)]);
      r.result == Ok(0) && r.wire == [Header(|a|, d1, []), Header(|a|, d1, [])] && !HasRemaining(r.buf)
    ensures var r := Flush(TwoMessages(a, c, d1, d2), Corrected, [Ok(1), Ok(1)]);
      r.result == Ok(0) && r.wire == [Header(|a|, d1, a), Header(|c|, d2, c)] && !HasRemaining(r.buf)
  {
    DrainTwoByOne(a, c, d1, d2, AsWritten);
    DrainTwoByOne(a, c, d1, d2, Corrected);
  }

  /**
   * As written, a second call after a partial send that the kernel answers
   * in full advances past the queue and panics in `advance`; corrected, it
   * sends the rest.
   */
  lemma {:induction false} AdvancePanicsAfterPartialSend(a: seq<byte>, c: seq<byte>, d1: Option<Types.SocketAddr>, d2: Option<Types.SocketAddr>)
    requires |a| < U32Limit && |c| < U32Limit
    ensures Flush(TwoMessages(a, c, d1, d2), AsWritten, [Ok(1), Ok(2)]).result.Panic?
    ensures Flush(TwoMessages(a, c, d1, d2), Corrected, [Ok(1), Ok(2)]).result.Ok?
  {
    var ms := [WriteMsg(d1, a), WriteMsg(d2, c)];
    var hw := TwoHeaders(a, c, d1, d2, AsWritten);
    var hc := TwoHeaders(a, c, d1, d2, Corrected);
    var b := TwoMessages(a, c, d1, d2);
    FirstCallOfTwo(a, c, d1, d2, AsWritten);
    FirstCallOfTwo(a, c, d1, d2, Corrected);
    assert Flush(WriteBuffer(1, ms, hw), AsWritten, [Ok(2)]).result.Panic? by {
      PreparedAgain(a, c, d1, d2, AsWritten);
    }
    assert Flush(WriteBuffer(1, ms, hc), Corrected, [Ok(2)]).result.Ok? by {
      SendCorrected(WriteBuffer(1, ms, hc), 2);
    }
    FlushTwoCalls(b, AsWritten, Ok(1), Ok(2));
    FlushTwoCalls(b, Corrected, Ok(1), Ok(2));
  }

  /**
   * One slot of `MsgArrayReadBuffer` (lines 217-225): the source address,
   * the destination found in the control messages, the slot's bytes and
   * `msg_len`, how many of them the last datagram filled.
   */
  datatype Slot = Slot(src: Option<Types.SocketAddr>, dst: Option<Types.SocketAddr>, data: seq<byte>, len: nat)

  /** `MsgArrayReadBuffer<N, M>`: `msg_cnt` filled slots of the `N`, each `M` bytes. */
  datatype ReadBuffer = ReadBuffer(count: nat, slots: seq<Slot>, size: nat)

  /** What the kernel keeps: the filled slots are slots, and no length exceeds a slot. */
  predicate ReadValid(b: ReadBuffer)
  {
    b.count <= |b.slots|
    && forall i :: 0 <= i < |b.slots| ==> |b.slots[i].data| == b.size && b.slots[i].len <= b.size
  }

  /** `Message`: one received datagram as the buffer hands it out. */
  datatype Message = Message(src: Option<Types.SocketAddr>, dst: Option<Types.SocketAddr>, buf: seq<byte>)

  /** `MsgArrayReadBuffer::new` (lines 240-264): `n` zeroed slots of `m` bytes, none filled. */
  function NewReadBuffer(n: nat, m: nat): (b: ReadBuffer)
    ensures ReadValid(b) && Len(b) == 0 && |b.slots| == n
  {
    ReadBuffer(0, seq(n, _ => Slot(None, None, Zeros(m), 0)), m)
  }

  /** `len` (lines 277-279). */
  function Len(b: ReadBuffer): nat
  {
    b.count
  }

  /**
   * `get` (lines 281-293): the `idx`-th datagram, cut to its `msg_len`; an
   * index at or past the count panics.
   */
  function Get(b: ReadBuffer, idx: nat): (r: Outcome<Message, IoError>)
    ensures r.Panic? <==> idx >= b.count || idx >= |b.slots| || b.slots[idx].len > |b.slots[idx].data|
    ensures !r.Err?
    ensures ReadValid(b) ==> (r.Ok? <==> idx < Len(b))
    ensures r.Ok? ==> r.value == Message(b.slots[idx].src, b.slots[idx].dst, b.slots[idx].data[..b.slots[idx].len])
  {
    if idx >= b.count || idx >= |b.slots| then Panic
    else
      var s := b.slots[idx];
      if s.len > |s.data| then Panic else Ok(Message(s.src, s.dst, s.data[..s.len]))
  }

  /** `iter` (lines 266-268): `get` of every index below the count, in order. */
  function Iter(b: ReadBuffer): (r: Outcome<seq<Message>, IoError>)
    requires ReadValid(b)
    ensures r.Ok? && |r.value| == Len(b)
    ensures forall i :: 0 <= i < Len(b) ==> Get(b, i) == Ok(r.value[i])
  {
    Ok(seq(b.count, i requires 0 <= i < b.count => Get(b, i).value))
  }

  /** `clear` (lines 270-275): no slot counts as filled. */
  function ClearRead(b: ReadBuffer): (r: ReadBuffer)
    ensures ReadValid(b) ==> ReadValid(r)
    ensures Len(r) == 0 && r.slots == b.slots
  {
    b.(count := 0)
  }

  /** A datagram as the kernel delivers it: source, original destination, bytes. */
  datatype Datagram = Datagram(src: Option<Types.SocketAddr>, dst: Option<Types.SocketAddr>, payload: seq<byte>)

  /** A slot after the kernel wrote a datagram into it: as much as fits, the rest of the old bytes after. */
  function Fill(s: Slot, d: Datagram, size: nat): (r: Slot)
    requires |s.data| == size
    ensures |r.data| == size && r.len <= size
    ensures r.data[..r.len] == CopyOut(d.payload, size)
  {
    var bytes := CopyOut(d.payload, size);
    Slot(d.src, d.dst, bytes + s.data[|bytes|..], |bytes|)
  }

  /**
   * `recv_mmsg` (lines 315-336): the count is reset, then set to the
   * number of datagrams `recvmmsg` wrote, each into the next slot; a
   * failed call leaves the count at 0. `kernel` is that call's outcome,
   * never more datagrams than slots.
   */
  function RecvMmsg(b: ReadBuffer, kernel: Outcome<seq<Datagram>, IoError>): (r: (ReadBuffer, Outcome<(), IoError>))
    requires ReadValid(b)
    requires kernel.Ok? ==> |kernel.value| <= |b.slots|
    ensures ReadValid(r.0) && r.0.size == b.size && |r.0.slots| == |b.slots|
    ensures kernel.Ok? <==> r.1.Ok?
    ensures !kernel.Ok? ==> Len(r.0) == 0
  {
    match kernel
    case Ok(ds) =>
      var slots := seq(|b.slots|, i requires 0 <= i < |b.slots| =>
        if i < |ds| then Fill(b.slots[i], ds[i], b.size) else b.slots[i]);
      (ReadBuffer(|ds|, slots, b.size), Ok(()))
    case Err(e) => (b.(count := 0), Err(e))
    case Panic => (b.(count := 0), Panic)
  }

  /**
   * What one receive hands out: the datagrams the kernel wrote, in order,
   * each with its addresses and cut to the slot size; after a failure,
   * nothing.
   */
  lemma {:induction false} RecvThenIter(b: ReadBuffer, kernel: Outcome<seq<Datagram>, IoError>)
    requires ReadValid(b)
    requires kernel.Ok? ==> |kernel.value| <= |b.slots|
    ensures var r := RecvMmsg(b, kernel).0;
      kernel.Ok? ==> Iter(r) == Ok(seq(|kernel.value|, i requires 0 <= i < |kernel.value| =>
        Message(kernel.value[i].src, kernel.value[i].dst, CopyOut(kernel.value[i].payload, b.size))))
    ensures !kernel.Ok? ==> Iter(RecvMmsg(b, kernel).0) == Ok([])
  {
    var r := RecvMmsg(b, kernel).0;
    if kernel.Ok? {
      var ds := kernel.value;
      var got := Iter(r).value;
      forall i | 0 <= i < |ds|
        ensures got[i] == Message(ds[i].src, ds[i].dst, CopyOut(ds[i].payload, b.size))
      {
        assert Get(r, i) == Ok(got[i]);
        assert r.slots[i] == Fill(b.slots[i], ds[i], b.size);
      }
      assert got == seq(|ds|, i requires 0 <= i < |ds| => Message(ds[i].src, ds[i].dst, CopyOut(ds[i].payload, b.size)));
    }
  }

  /** After `clear` the buffer hands out nothing, and every `get` panics. */
  lemma {:induction false} ClearEmpties(b: ReadBuffer, idx: nat)
    requires ReadValid(b)
    ensures Iter(ClearRead(b)) == Ok([]) && Get(ClearRead(b), idx).Panic?
  {
  }
}

=== FILE: socks_udp.dfy ===
/**
 * The SOCKS5 UDP request header of section 7 of RFC 1928 as the three
 * socket wrappers (`session.rs`, `bind.rs`, `connection.rs`) lay it out:
 * two reserved bytes, the fragment number, the address type and address,
 * the port (big-endian), then the payload. Also the `std::io::Read`
 * behaviour of a `&[u8]` cursor that their decoders rely on.
 */
module SocksUdp {
  import opened Bytes
  import opened Wrappers
  import Types

  const AtypIpv4: byte := 0x01
  const AtypName: byte := 0x03
  const AtypIpv6: byte := 0x04

  /** The shortest datagram any of the decoders looks into. */
  const MinRequestLen: nat := 10

  /**
   * The `std::io::ErrorKind`s the SOCKS and checking code produce or pass
   * on; `TimedOut` is what `tokio::time::timeout` turns into.
   */
  datatype IoError = UnexpectedEof | InvalidData | InvalidInput | TimedOut | NotFound

  /** `read_exact` on a `&[u8]`: the first `n` bytes, or `UnexpectedEof` when fewer remain. */
  function ReadExact(r: seq<byte>, n: nat): (res: Outcome<Read<seq<byte>>, IoError>)
    ensures res.Ok? <==> n <= |r|
    ensures res.Ok? ==> res.value.value + res.value.rest == r && |res.value.value| == n
    ensures res.Err? ==> res.error == UnexpectedEof
  {
    if |r| < n then Err(UnexpectedEof) else Ok(Read(r[..n], r[n..]))
  }

  /** `read_u8`, `read_u16::<BE>`, `read_u32::<BE>`, `read_u128::<BE>`: an `n`-byte big-endian integer. */
  function ReadUint(r: seq<byte>, n: nat): (res: Outcome<Read<nat>, IoError>)
    ensures res.Ok? <==> n <= |r|
    ensures res.Ok? ==> res.value.value < Pow256(n) && res.value.rest == r[n..]
    ensures res.Ok? ==> BeBytes(res.value.value, n) == r[..n]
    ensures res.Err? ==> res.error == UnexpectedEof
  {
    var b :- ReadExact(r, n);
    BeUintBound(b.value);
    BeUintRoundTrip(b.value);
    Ok(Read(BeUint(b.value), b.rest))
  }

  /** A value and the bytes after it read back from their encoding. */
  lemma {:induction false} ReadUintOf(v: nat, n: nat, rest: seq<byte>)
    requires v < Pow256(n)
    ensures ReadUint(BeBytes(v, n) + rest, n) == Ok(Read(v, rest))
  {
    var r := BeBytes(v, n) + rest;
    assert r[..n] == BeBytes(v, n) && r[n..] == rest;
    BeBytesRoundTrip(v, n);
  }

  /** The octets of an IP address, as `octets()` returns them. */
  function Octets(ip: Types.IpAddr): (r: seq<byte>)
    ensures |r| == if ip.IpV4? then 4 else 16
  {
    match ip
    case IpV4(a) => a
    case IpV6(a) => a
  }

  /** `to_be_bytes` of a port. */
  function PortBytes(port: u16): (r: seq<byte>)
    ensures |r| == 2
  {
    BeBytes(port, 2)
  }

  /** The port at offset `n`, as `read_u16::<BE>` reads it there. */
  function PortAt(pkt: seq<byte>, n: nat): (p: u16)
    requires n + 2 <= |pkt|
    ensures ReadUint(pkt[n..], 2) == Ok(Read(p as nat, pkt[n + 2..]))
    ensures p == BeUint(pkt[n..n + 2]) && PortBytes(p) == pkt[n..n + 2]
  {
    var t := pkt[n..];
    assert t[..2] == pkt[n..n + 2] && t[2..] == pkt[n + 2..];
    BeUintBound(pkt[n..n + 2]);
    BeUintRoundTrip(pkt[n..n + 2]);
    BeUint(pkt[n..n + 2])
  }

  /**
   * The request `bind.rs` and `connection.rs` send for a numeric target:
   * `00 00 00`, ATYP 1 or 4, the octets, the port, the payload.
   */
  function IpRequest(ip: Types.IpAddr, port: u16, payload: seq<byte>): (r: seq<byte>)
    ensures |r| == (if ip.IpV4? then 10 else 22) + |payload|
    ensures r[..3] == [0, 0, 0] && r[3] == (if ip.IpV4? then AtypIpv4 else AtypIpv6)
    ensures r[|r| - |payload|..] == payload
  {
    [0, 0, 0] + [if ip.IpV4? then AtypIpv4 else AtypIpv6] + Octets(ip) + PortBytes(port) + payload
  }

  /** `Write for &mut [u8]`: as many bytes as fit into a buffer of `cap` bytes. */
  function CopyOut(pkt: seq<byte>, cap: nat): (r: seq<byte>)
    ensures |r| == if |pkt| < cap then |pkt| else cap
    ensures r == pkt[..|r|]
  {
    if |pkt| < cap then pkt else pkt[..cap]
  }

  /**
   * The receive buffer of every SOCKS5 wrapper, 2048 bytes: a longer
   * datagram is cut to its first 2048 bytes before it is decoded.
   */
  const RecvBuffer: nat := 2048

  /** The bytes of datagram `d` that a 2048-byte receive buffer holds. */
  function Truncated(d: seq<byte>): (r: seq<byte>)
    ensures r == CopyOut(d, RecvBuffer)
    ensures |d| <= RecvBuffer ==> r == d
  {
    CopyOut(d, RecvBuffer)
  }

  /** Where a receive loop stops when it returns: the datagram it used and what it delivered. */
  datatype Received<T> = Received(index: nat, data: seq<byte>, from: T)

  /**
   * Why a receive loop has not returned: every datagram so far was skipped
   * (the Rust loop waits for the next one), or a read failed with an error.
   */
  datatype RecvStop = Exhausted | Failed(error: IoError)

  /**
   * The skip loop the receive paths share: the first of the decode outcomes
   * `os[i..]` that is not an error, as its index and value. A panic ends the
   * loop as the Rust `unwrap` would.
   */
  function FirstDecoded<T, E>(os: seq<Outcome<T, E>>, i: nat): (r: Outcome<(nat, T), RecvStop>)
    requires i <= |os|
    ensures r.Err? ==> r.error == Exhausted
    ensures r.Err? <==> forall j :: i <= j < |os| ==> os[j].Err?
    ensures r.Ok? ==>
      i <= r.value.0 < |os| && os[r.value.0] == Ok(r.value.1)
      && forall j :: i <= j < r.value.0 ==> os[j].Err?
    ensures r.Panic? ==> exists j :: i <= j < |os| && os[j].Panic?
    decreases |os| - i
  {
    if i == |os| then Err(Exhausted)
    else
      match os[i]
      case Err(_) => FirstDecoded(os, i + 1)
      case Panic => Panic
      case Ok(v) => Ok((i, v))
  }

  /** The loop returns the first success after a run of errors. */
  lemma {:induction false} FirstDecodedAfterErrors<T, E>(os: seq<Outcome<T, E>>, i: nat, k: nat, v: T)
    requires i <= k < |os| && os[k] == Ok(v)
    requires forall j :: i <= j < k ==> os[j].Err?
    ensures FirstDecoded(os, i) == Ok((k, v))
    decreases k - i
  {
    if i < k {
      FirstDecodedAfterErrors(os, i + 1, k, v);
    }
  }
}

=== FILE: sorting.dfy ===
/**
 * Stable sorting by an integer key, the behaviour of Rust's `sort_by_key`
 * (used on CRYPTO frame ranges and on the upstream server list). A stable
 * sort's output is determined by the input: it is the one ordering by key
 * that keeps elements of equal key in their input order, so insertion sort
 * serves as the definition.
 */
module Sorting {

  predicate SortedBy<T>(s: seq<T>, key: T -> int)
  {
    forall i, j :: 0 <= i < j < |s| ==> key(s[i]) <= key(s[j])
  }

  /** The elements of `s` whose key is `k`, in order. */
  function WithKey<T>(s: seq<T>, key: T -> int, k: int): (r: seq<T>)
    ensures |r| <= |s|
  {
    if |s| == 0 then []
    else WithKey(s[..|s| - 1], key, k) + (if key(s[|s| - 1]) == k then [s[|s| - 1]] else [])
  }

  /** Places `x` after every element of `s` whose key is not larger. */
  function Insert<T>(x: T, s: seq<T>, key: T -> int): (r: seq<T>)
    ensures |r| == |s| + 1
    ensures multiset(r) == multiset(s) + multiset{x}
  {
    if |s| == 0 || key(x) < key(s[0]) then [x] + s
    else
      var t := Insert(x, s[1..], key);
      assert s == [s[0]] + s[1..];
      [s[0]] + t
  }

  /** `sort_by_key`: insertion sort, each element placed after its equals. */
  function SortBy<T>(s: seq<T>, key: T -> int): (r: seq<T>)
    ensures |r| == |s|
    ensures multiset(r) == multiset(s)
  {
    if |s| == 0 then []
    else
      assert s == s[..|s| - 1] + [s[|s| - 1]];
      Insert(s[|s| - 1], SortBy(s[..|s| - 1], key), key)
  }

  lemma {:induction false} InsertSorted<T>(x: T, s: seq<T>, key: T -> int)
    requires SortedBy(s, key)
    ensures SortedBy(Insert(x, s, key), key)
    decreases |s|
  {
    if |s| > 0 && key(x) >= key(s[0]) {
      InsertSorted(x, s[1..], key);
      var t := Insert(x, s[1..], key);
      forall y | y in t
        ensures key(s[0]) <= key(y)
      {
        assert y in multiset(t);
        if y != x {
          assert y in multiset(s[1..]);
        }
      }
    }
  }

  /** The output is ordered by key. */
  lemma {:induction false} SortBySorted<T>(s: seq<T>, key: T -> int)
    ensures SortedBy(SortBy(s, key), key)
    decreases |s|
  {
    if |s| > 0 {
      SortBySorted(s[..|s| - 1], key);
      InsertSorted(s[|s| - 1], SortBy(s[..|s| - 1], key), key);
    }
  }

  lemma {:induction false} WithKeyConcat<T>(a: seq<T>, b: seq<T>, key: T -> int, k: int)
    ensures WithKey(a + b, key, k) == WithKey(a, key, k) + WithKey(b, key, k)
    decreases |b|
  {
    if |b| == 0 {
      assert a + b == a;
    } else {
      assert (a + b)[..|a + b| - 1] == a + b[..|b| - 1];
      WithKeyConcat(a, b[..|b| - 1], key, k);
    }
  }

  lemma {:induction false} WithKeyOne<T>(x: T, key: T -> int, k: int)
    ensures WithKey([x], key, k) == if key(x) == k then [x] else []
  {
    assert [x][..0] == [];
  }

  /** Inserting into a sorted list appends `x` to the elements of its key. */
  lemma {:induction false} InsertWithKey<T>(x: T, s: seq<T>, key: T -> int, k: int)
    requires SortedBy(s, key)
    ensures WithKey(Insert(x, s, key), key, k)
         == WithKey(s, key, k) + (if key(x) == k then [x] else [])
    decreases |s|
  {
    if |s| == 0 {
      WithKeyOne(x, key, k);
    } else if key(x) < key(s[0]) {
      InsertFirst(x, s, key, k);
    } else {
      var h, rest := s[0], s[1..];
      SortedTail(s, key);
      InsertWithKey(x, rest, key, k);
      assert Insert(x, s, key) == [h] + Insert(x, rest, key);
      assert s == [h] + rest;
      ConsWithKey(h, rest, Insert(x, rest, key), key, k, if key(x) == k then [x] else []);
    }
  }

  lemma {:induction false} SortedTail<T>(s: seq<T>, key: T -> int)
    requires SortedBy(s, key) && |s| > 0
    ensures SortedBy(s[1..], key)
  {
    forall i, j | 0 <= i < j < |s| - 1
      ensures key(s[1..][i]) <= key(s[1..][j])
    {
      assert s[1..][i] == s[i + 1] && s[1..][j] == s[j + 1];
    }
  }

  /** Putting the same element in front of two lists keeps their per-key relation. */
  lemma {:induction false} ConsWithKey<T>(h: T, a: seq<T>, b: seq<T>, key: T -> int, k: int, tail: seq<T>)
    requires WithKey(b, key, k) == WithKey(a, key, k) + tail
    ensures WithKey([h] + b, key, k) == WithKey([h] + a, key, k) + tail
  {
    WithKeyConcat([h], b, key, k);
    WithKeyConcat([h], a, key, k);
  }

  lemma {:induction false} InsertFirst<T>(x: T, s: seq<T>, key: T -> int, k: int)
    requires SortedBy(s, key) && |s| > 0 && key(x) < key(s[0])
    ensures WithKey([x] + s, key, k) == WithKey(s, key, k) + (if key(x) == k then [x] else [])
  {
    WithKeyOne(x, key, k);
    WithKeyConcat([x], s, key, k);
    if key(x) == k {
      assert forall i :: 0 <= i < |s| ==> key(s[0]) <= key(s[i]);
      WithKeyNone(s, key, k);
    }
  }

  lemma {:induction false} WithKeyNone<T>(s: seq<T>, key: T -> int, k: int)
    requires forall i :: 0 <= i < |s| ==> key(s[i]) != k
    ensures WithKey(s, key, k) == []
    decreases |s|
  {
    if |s| > 0 {
      WithKeyNone(s[..|s| - 1], key, k);
    }
  }

  /** Stability: elements of equal key keep their input order. */
  lemma {:induction false} SortByStable<T>(s: seq<T>, key: T -> int, k: int)
    ensures WithKey(SortBy(s, key), key, k) == WithKey(s, key, k)
    decreases |s|
  {
    if |s| > 0 {
      var init := s[..|s| - 1];
      SortBySorted(init, key);
      SortByStable(init, key, k);
      InsertWithKey(s[|s| - 1], SortBy(init, key), key, k);
    }
  }
}

=== FILE: tls.dfy ===
/**
 * Extraction of the server name from a TLS ClientHello carried in a QUIC
 * Initial packet (`src/app/socks5/quic/tls.rs`): the handshake header and
 * fixed fields of section 4.1.2 of RFC 8446, then the extension list, then
 * the server_name extension of section 3 of RFC 6066.
 *
 * The parser reads one cursor over the whole message; a `Read` is the value
 * a getter produced together with the bytes still unread. Returning `None`
 * is `Err(Stop)`; a panic inside the `bytes` crate is `Panic`.
 *
 * `Mode` selects between the code as written and the corrected code (see
 * README, Findings): as written, `get_u16` only checks that one byte remains
 * and `Buf::get_u16` then panics, the handshake length is assembled as
 * `(hi << 8) | lo16`, and `len - 2` wraps around for an extension shorter
 * than two bytes (a release build). Corrected, `get_u16` needs two bytes,
 * the length is `hi * 2^16 + lo16`, and a short extension is rejected.
 */
module Tls {
  import opened Bytes
  import opened Wrappers

  /** The parser gives up (`None`). */
  datatype Stop = Stop

  // ---------------------------------------------------------------------
  // The reader
  // ---------------------------------------------------------------------

  /** `Reader::get_u8`. */
  function GetU8(r: seq<byte>): (res: Outcome<Read<byte>, Stop>)
    ensures res.Ok? <==> |r| >= 1
    ensures res.Ok? ==> [res.value.value] + res.value.rest == r
    ensures !res.Panic?
  {
    if |r| == 0 then Err(Stop) else Ok(Read(r[0], r[1..]))
  }

  /** `Reader::get_u16`: a big-endian `u16`. */
  function GetU16(r: seq<byte>, mode: Mode): (res: Outcome<Read<nat>, Stop>)
    ensures res.Ok? <==> |r| >= 2
    ensures res.Panic? <==> mode.AsWritten? && |r| == 1
    ensures res.Ok? ==> res.value.value < 0x1_0000
    ensures res.Ok? ==> BeBytes(res.value.value, 2) + res.value.rest == r
  {
    if |r| == 0 then Err(Stop)
    else if |r| == 1 then (if mode.AsWritten? then Panic else Err(Stop))
    else
      BeUintBound(r[..2]);
      BeUintRoundTrip(r[..2]);
      assert r == r[..2] + r[2..];
      Ok(Read(BeUint(r[..2]), r[2..]))
  }

  /** `Reader::advance`, keeping the skipped bytes so that contracts can name them. */
  function Advance(r: seq<byte>, n: nat): (res: Outcome<Read<seq<byte>>, Stop>)
    ensures res.Ok? <==> |r| >= n
    ensures res.Ok? ==> |res.value.value| == n && res.value.value + res.value.rest == r
    ensures !res.Panic?
  {
    if |r| < n then Err(Stop) else Ok(Read(r[..n], r[n..]))
  }

  /** `buf.advance(n);` with its `Option` dropped: a short buffer is left where it was. */
  function AdvanceOrStay(r: seq<byte>, n: nat): (rest: seq<byte>)
    ensures |r| >= n ==> rest == r[n..]
    ensures |r| < n ==> rest == r
  {
    if |r| < n then r else r[n..]
  }

  // ---------------------------------------------------------------------
  // Accepted names
  // ---------------------------------------------------------------------

  /** `c.is_ascii_alphanumeric() | "-._".contains(c)`. */
  predicate HostChar(b: byte)
  {
    ('0' as int <= b <= '9' as int) || ('A' as int <= b <= 'Z' as int)
    || ('a' as int <= b <= 'z' as int) || b == '-' as int || b == '.' as int || b == '_' as int
  }

  /**
   * A name the parser returns: non-empty, valid UTF-8, and every character
   * allowed. All allowed characters are ASCII, so checking the decoded
   * characters and checking the bytes agree on valid UTF-8.
   */
  predicate IsHostName(name: seq<byte>)
  {
    |name| > 0 && ValidUtf8(name) && forall i :: 0 <= i < |name| ==> HostChar(name[i])
  }

  // ---------------------------------------------------------------------
  // Handshake header and fixed fields
  // ---------------------------------------------------------------------

  /**
   * The ClientHello fields before the extensions, the extension block still
   * encoded. `version` and `random` are kept as bytes; the parser skips them.
   */
  datatype Hello = Hello(
    version: seq<byte>,
    random: seq<byte>,
    sessionId: seq<byte>,
    cipherSuites: seq<byte>,
    extensions: seq<byte>)

  predicate WellFormedHello(h: Hello)
  {
    |h.version| == 2 && |h.random| == 32 && |h.sessionId| < 0x100
    && |h.cipherSuites| < 0x1_0000 && |h.extensions| < 0x1_0000
  }

  /** Legacy version, random and the length-prefixed session id. */
  function EncodeSessionFields(version: seq<byte>, random: seq<byte>, sid: seq<byte>): seq<byte>
    requires |sid| < 0x100
  {
    version + random + [|sid|] + sid
  }

  /** Length-prefixed cipher suites, the null compression method, and the extension block. */
  function EncodeSuitesAndExtensions(cs: seq<byte>, ext: seq<byte>): seq<byte>
    requires |cs| < 0x1_0000 && |ext| < 0x1_0000
  {
    BeBytes(|cs|, 2) + cs + [1, 0] + BeBytes(|ext|, 2) + ext
  }

  /** The ClientHello body after the 4-byte handshake header. */
  function EncodeHelloBody(h: Hello): seq<byte>
    requires WellFormedHello(h)
  {
    EncodeSessionFields(h.version, h.random, h.sessionId)
    + EncodeSuitesAndExtensions(h.cipherSuites, h.extensions)
  }

  /** The 24-bit handshake length read from its high byte and low 16 bits. */
  function HandshakeLength(hi: byte, lo: nat, mode: Mode): nat
  {
    if mode.AsWritten? then OrBits(hi * 256, lo) else hi * 0x1_0000 + lo
  }

  /** Lines 49-51: the message type and the handshake length against the bytes left. */
  function Header(buf: seq<byte>, mode: Mode): (r: Outcome<seq<byte>, Stop>)
    ensures r.Ok? <==>
              |buf| >= 4 && buf[0] == 1
              && HandshakeLength(buf[1], BeUint(buf[2..4]), mode) == |buf| - 4
    ensures r.Ok? ==> r.value == buf[4..]
    ensures mode.Corrected? ==> !r.Panic?
  {
    var t :- GetU8(buf);
    if t.value != 1 then Err(Stop) else
    var hi :- GetU8(t.rest);
    var lo :- GetU16(hi.rest, mode);
    assert buf == [1, hi.value] + hi.rest;
    assert buf[2..4] == hi.rest[..2];
    BeBytesRoundTrip(lo.value, 2);
    if HandshakeLength(hi.value, lo.value, mode) != |lo.rest| then Err(Stop) else
    Ok(lo.rest)
  }

  /** Lines 52-55: legacy version, random, and the session id. */
  function SessionFields(body: seq<byte>): (r: Outcome<Read<(seq<byte>, seq<byte>, seq<byte>)>, Stop>)
    ensures r.Ok? ==> |r.value.value.0| == 2 && |r.value.value.1| == 32 && |r.value.value.2| < 0x100
    ensures r.Ok? ==>
              body == EncodeSessionFields(r.value.value.0, r.value.value.1, r.value.value.2)
                      + r.value.rest
    ensures !r.Panic?
  {
    var version :- Advance(body, 2);
    var random :- Advance(version.rest, 32);
    var sidLen :- GetU8(random.rest);
    var sid :- Advance(sidLen.rest, sidLen.value);
    Ok(Read((version.value, random.value, sid.value), sid.rest))
  }

  /** Lines 56-57: the length-prefixed cipher suites. */
  function CipherSuites(r: seq<byte>, mode: Mode): (res: Outcome<Read<seq<byte>>, Stop>)
    ensures res.Ok? ==> |res.value.value| < 0x1_0000
    ensures res.Ok? ==> r == BeBytes(|res.value.value|, 2) + res.value.value + res.value.rest
    ensures mode.Corrected? ==> !res.Panic?
  {
    var csLen :- GetU16(r, mode);
    Advance(csLen.rest, csLen.value)
  }

  /** Lines 58-63: the null compression method and an extension block that fills the rest. */
  function ExtensionBlock(r: seq<byte>, mode: Mode): (res: Outcome<seq<byte>, Stop>)
    ensures res.Ok? ==> |res.value| < 0x1_0000
    ensures res.Ok? ==> r == [1, 0] + BeBytes(|res.value|, 2) + res.value
    ensures mode.Corrected? ==> !res.Panic?
  {
    var compression :- GetU16(r, mode);
    if compression.value != 0x0100 then Err(Stop) else
    var extLen :- GetU16(compression.rest, mode);
    if |extLen.rest| != extLen.value then Err(Stop) else
    assert BeBytes(0x0100, 2) == [1, 0];
    Ok(extLen.rest)
  }

  /** Lines 56-63. */
  function SuitesAndExtensions(r: seq<byte>, mode: Mode): (res: Outcome<(seq<byte>, seq<byte>), Stop>)
    ensures res.Ok? ==> |res.value.0| < 0x1_0000 && |res.value.1| < 0x1_0000
    ensures res.Ok? ==> r == EncodeSuitesAndExtensions(res.value.0, res.value.1)
    ensures mode.Corrected? ==> !res.Panic?
  {
    var cs :- CipherSuites(r, mode);
    var ext :- ExtensionBlock(cs.rest, mode);
    SuitesJoin(r, cs.value, cs.rest, ext);
    Ok((cs.value, ext))
  }

  lemma {:induction false} SuitesJoin(r: seq<byte>, cs: seq<byte>, rest: seq<byte>, ext: seq<byte>)
    requires |cs| < 0x1_0000 && |ext| < 0x1_0000
    requires r == BeBytes(|cs|, 2) + cs + rest && rest == [1, 0] + BeBytes(|ext|, 2) + ext
    ensures r == EncodeSuitesAndExtensions(cs, ext)
  {
  }

  /** Lines 48-63: everything before the extension walk. */
  function Preamble(buf: seq<byte>, mode: Mode): (r: Outcome<Hello, Stop>)
    ensures r.Ok? ==>
              |buf| >= 4 && buf[0] == 1
              && HandshakeLength(buf[1], BeUint(buf[2..4]), mode) == |buf| - 4
    ensures r.Ok? ==> WellFormedHello(r.value) && buf[4..] == EncodeHelloBody(r.value)
    ensures mode.Corrected? ==> !r.Panic?
  {
    var body :- Header(buf, mode);
    var fixed :- SessionFields(body);
    var tail :- SuitesAndExtensions(fixed.rest, mode);
    var (version, random, sid) := fixed.value;
    Ok(Hello(version, random, sid, tail.0, tail.1))
  }

  // ---------------------------------------------------------------------
  // The extension walk and the server-name list
  // ---------------------------------------------------------------------

  /** How a server_name extension ends: a name was returned, or the walk goes on at `rest`. */
  datatype Step = Found(name: seq<byte>) | Next(rest: seq<byte>)

  /**
   * Lines 74-98: the list is walked while more than three of its `extLen`
   * bytes remain. A host_name entry (type 0) ends the parse either way; any
   * other entry is skipped. What is left of the list is then skipped (line 99).
   */
  function NameList(r: seq<byte>, extLen: nat, mode: Mode): (res: Outcome<Step, Stop>)
    ensures res.Ok? && res.value.Found? ==> IsHostName(res.value.name)
    ensures res.Ok? && res.value.Next? ==> |res.value.rest| <= |r|
    ensures extLen <= |r| ==> !res.Panic?
    decreases extLen
  {
    if extLen <= 3 then Ok(Next(AdvanceOrStay(r, extLen)))
    else
      match EntryTurn(r, extLen, mode)
      case Done(res) => res
      case More(rest, left) => NameList(rest, left, mode)
  }

  /** How one turn of the list loop ends: with the parse's result, or with the rest of the list to walk. */
  datatype Turn = Done(res: Outcome<Step, Stop>) | More(rest: seq<byte>, left: nat)

  /** One turn of the list loop: the entry's type and length, then its name or a skip. */
  function EntryTurn(r: seq<byte>, extLen: nat, mode: Mode): (t: Turn)
    requires extLen > 3
    ensures t.Done? && t.res.Ok? ==> t.res.value.Found? && IsHostName(t.res.value.name)
    ensures t.More? ==> t.left < extLen && |t.rest| <= |r|
    ensures extLen <= |r| ==> (t.Done? ==> !t.res.Panic?) && (t.More? ==> t.left <= |t.rest|)
  {
    match GetU8(r)
    case Err(e) => Done(Err(e))
    case Panic => Done(Panic)
    case Ok(nameType) =>
      match GetU16(nameType.rest, mode)
      case Err(e) => Done(Err(e))
      case Panic => Done(Panic)
      case Ok(nameLen) =>
        var left := extLen - 3;
        if nameLen.value > left then Done(Err(Stop))
        else if nameType.value == 0 then
          if nameLen.value == 0 then Done(Err(Stop))
          // `copy_to_slice` panics when fewer than `name_len` bytes remain.
          else if |nameLen.rest| < nameLen.value then Done(Panic)
          else
            var name := nameLen.rest[..nameLen.value];
            // `String::from_utf8` and the character check.
            if !IsHostName(name) then Done(Err(Stop)) else Done(Ok(Found(name)))
        else
          More(AdvanceOrStay(nameLen.rest, nameLen.value), left - nameLen.value)
  }

  /**
   * Lines 72-73: the list length must fit in the extension's declared length
   * `len` less the two bytes of the list length itself.
   */
  function ServerNameExtension(r: seq<byte>, len: nat, mode: Mode): (res: Outcome<Step, Stop>)
    requires len < 0x1_0000
    ensures res.Ok? && res.value.Found? ==> IsHostName(res.value.name)
    ensures res.Ok? && res.value.Next? ==> |res.value.rest| <= |r|
    ensures mode.Corrected? && len <= |r| ==> !res.Panic?
  {
    var listLen :- GetU16(r, mode);
    if mode.Corrected? && len < 2 then Err(Stop)
    else if listLen.value > WrappingSub(len, 2) then Err(Stop)
    else NameList(listLen.rest, listLen.value, mode)
  }

  /** Lines 65-106: walk the extensions until a server name is found or the block is used up. */
  function Extensions(r: seq<byte>, mode: Mode): (res: Outcome<seq<byte>, Stop>)
    ensures res.Ok? ==> IsHostName(res.value)
    ensures mode.Corrected? ==> !res.Panic?
    decreases |r|
  {
    if |r| == 0 then Err(Stop)
    else
      var tag :- GetU16(r, mode);
      var len :- GetU16(tag.rest, mode);
      if |len.rest| < len.value then Err(Stop)
      else if tag.value == 0 then
        var step :- ServerNameExtension(len.rest, len.value, mode);
        match step
        case Found(name) => Ok(name)
        case Next(rest) => Extensions(rest, mode)
      else
        Extensions(len.rest[len.value..], mode)
  }

  /** `get_server_name_from_client_hello`. */
  function ServerName(buf: seq<byte>, mode: Mode): (r: Outcome<seq<byte>, Stop>)
    ensures r.Ok? ==> IsHostName(r.value)
    ensures r.Ok? ==>
              |buf| >= 4 && buf[0] == 1
              && HandshakeLength(buf[1], BeUint(buf[2..4]), mode) == |buf| - 4
    ensures mode.Corrected? ==> !r.Panic?
  {
    var hello :- Preamble(buf, mode);
    Extensions(hello.extensions, mode)
  }

  // ---------------------------------------------------------------------
  // Encodings, and the reading the parser gives them
  // ---------------------------------------------------------------------

  /** A ServerName entry of section 3 of RFC 6066: a name type and a length-prefixed name. */
  datatype NameEntry = NameEntry(nameType: byte, name: seq<byte>)

  predicate WellFormedEntries(es: seq<NameEntry>)
  {
    forall i :: 0 <= i < |es| ==> |es[i].name| < 0x1_0000
  }

  function EncodeEntry(e: NameEntry): (r: seq<byte>)
    requires |e.name| < 0x1_0000
    ensures |r| == 3 + |e.name|
  {
    [e.nameType] + BeBytes(|e.name|, 2) + e.name
  }

  /** The entries of a ServerNameList, without the list's own length prefix. */
  function EncodeEntries(es: seq<NameEntry>): (r: seq<byte>)
    requires WellFormedEntries(es)
    ensures |r| >= 3 * |es|
  {
    if |es| == 0 then [] else EncodeEntry(es[0]) + EncodeEntries(es[1..])
  }

  /** What a server-name list, or a whole extension block, says about the server name. */
  datatype Answer = Name(name: seq<byte>) | Rejected | NoName

  /**
   * The parser's reading of a list of entries: entries are taken in order
   * while more than three bytes of the list remain, so a lone trailing entry
   * with an empty name is never looked at; the first host_name entry decides,
   * and it is rejected unless it is an acceptable name.
   */
  function ListAnswer(es: seq<NameEntry>): Answer
  {
    if |es| == 0 || (|es| == 1 && |es[0].name| == 0) then NoName
    else if es[0].nameType == 0 then
      (if IsHostName(es[0].name) then Name(es[0].name) else Rejected)
    else ListAnswer(es[1..])
  }

  /** The list loop ends the way `ListAnswer` says; on `NoName` it resumes right after the list. */
  function StepFor(a: Answer, rest: seq<byte>): Outcome<Step, Stop>
  {
    match a
    case Name(n) => Ok(Found(n))
    case Rejected => Err(Stop)
    case NoName => Ok(Next(rest))
  }

  /** One turn of the list loop over a well-formed entry. */
  lemma {:induction false} NameListTurn(t: byte, name: seq<byte>, after: seq<byte>, buf: seq<byte>, extLen: nat, mode: Mode)
    requires |name| < 0x1_0000 && 3 < extLen && |name| <= extLen - 3
    requires buf == EncodeEntry(NameEntry(t, name)) + after
    ensures NameList(buf, extLen, mode)
            == if t != 0 then NameList(after, extLen - 3 - |name|, mode)
               else if IsHostName(name) then Ok(Found(name))
               else Err(Stop)
  {
    var r1, r2 := BeBytes(|name|, 2) + name + after, name + after;
    EntryFields(t, name, after, buf, r1, r2, mode);
    if t != 0 {
      NameListSkip(buf, extLen, mode, t, r1, r2, |name|, after);
    } else {
      NameListHost(buf, extLen, mode, r1, r2, name);
    }
  }

  /** Where the fields of an encoded entry lie. */
  lemma {:induction false} EntryFields(t: byte, name: seq<byte>, after: seq<byte>, buf: seq<byte>, r1: seq<byte>, r2: seq<byte>, mode: Mode)
    requires |name| < 0x1_0000
    requires buf == EncodeEntry(NameEntry(t, name)) + after
    requires r1 == BeBytes(|name|, 2) + name + after && r2 == name + after
    ensures GetU8(buf) == Ok(Read(t, r1))
    ensures GetU16(r1, mode) == Ok(Read(|name| as nat, r2))
    ensures |name| <= |r2| && r2[..|name|] == name && r2[|name|..] == after
  {
    EntryLayout(t, BeBytes(|name|, 2), name, after, buf, r1, r2);
    GetU8Reads(t, r1);
    GetU16Reads(|name|, r2, mode);
  }

  lemma {:induction false} EntryLayout(t: byte, len: seq<byte>, name: seq<byte>, after: seq<byte>, buf: seq<byte>, r1: seq<byte>, r2: seq<byte>)
    requires buf == [t] + len + name + after && r1 == len + name + after && r2 == name + after
    ensures buf == [t] + r1 && r1 == len + r2
    ensures r2[..|name|] == name && r2[|name|..] == after
  {
  }

  lemma {:induction false} GetU8Reads(t: byte, rest: seq<byte>)
    ensures GetU8([t] + rest) == Ok(Read(t, rest))
  {
  }

  /** The list loop over an entry whose type and length have been read. */
  lemma {:induction false} NameListSkip(buf: seq<byte>, extLen: nat, mode: Mode, t: byte, r1: seq<byte>, r2: seq<byte>, n: nat, after: seq<byte>)
    requires 3 < extLen && n <= extLen - 3 && n <= |r2| && t != 0 && r2[n..] == after
    requires GetU8(buf) == Ok(Read(t, r1)) && GetU16(r1, mode) == Ok(Read(n, r2))
    ensures NameList(buf, extLen, mode) == NameList(after, extLen - 3 - n, mode)
  {
    assert EntryTurn(buf, extLen, mode) == More(after, extLen - 3 - n);
  }

  lemma {:induction false} NameListHost(buf: seq<byte>, extLen: nat, mode: Mode, r1: seq<byte>, r2: seq<byte>, name: seq<byte>)
    requires 3 < extLen && |name| <= extLen - 3 && |name| <= |r2| && r2[..|name|] == name
    requires GetU8(buf) == Ok(Read(0, r1)) && GetU16(r1, mode) == Ok(Read(|name| as nat, r2))
    ensures NameList(buf, extLen, mode) == if IsHostName(name) then Ok(Found(name)) else Err(Stop)
  {
    assert EntryTurn(buf, extLen, mode) == Done(if |name| > 0 && IsHostName(name) then Ok(Found(name)) else Err(Stop));
  }

  lemma {:induction false} NameListReads(es: seq<NameEntry>, rest: seq<byte>, mode: Mode)
    requires WellFormedEntries(es)
    ensures NameList(EncodeEntries(es) + rest, |EncodeEntries(es)|, mode) == StepFor(ListAnswer(es), rest)
    decreases |es|
  {
    if |es| == 0 || (|es| == 1 && |es[0].name| == 0) {
      NameListShort(es, rest, mode);
    } else {
      assert WellFormedEntries(es[1..]) by {
        EntriesFirst(es, es[0], EncodeEntries(es[1..]), rest, EncodeEntries(es[1..]) + rest);
      }
      if es[0].nameType != 0 {
        NameListReads(es[1..], rest, mode);
      }
      NameListCons(es, rest, mode);
    }
  }

  /** The loop over a list of entries, given how it goes on over all but the first. */
  lemma {:induction false} NameListCons(es: seq<NameEntry>, rest: seq<byte>, mode: Mode)
    requires WellFormedEntries(es) && |es| > 0 && !(|es| == 1 && |es[0].name| == 0)
    requires WellFormedEntries(es[1..])
    requires es[0].nameType != 0 ==>
      NameList(EncodeEntries(es[1..]) + rest, |EncodeEntries(es[1..])|, mode) == StepFor(ListAnswer(es[1..]), rest)
    ensures NameList(EncodeEntries(es) + rest, |EncodeEntries(es)|, mode) == StepFor(ListAnswer(es), rest)
  {
    var e := es[0];
    var tail := EncodeEntries(es[1..]);
    var after := tail + rest;
    var len := |EncodeEntries(es)|;
    EntriesFirst(es, e, tail, rest, after);
    var turn := if e.nameType != 0 then NameList(after, |tail|, mode)
                else if IsHostName(e.name) then Ok(Found(e.name)) else Err(Stop);
    ConsTurn(EncodeEntries(es) + rest, len, e, after, |tail|, mode, turn);
    ConsAnswer(es, e, rest, turn, if e.nameType != 0 then NameList(after, |tail|, mode) else turn);
  }

  lemma {:induction false} ConsTurn(buf: seq<byte>, len: nat, e: NameEntry, after: seq<byte>, tailLen: nat, mode: Mode, turn: Outcome<Step, Stop>)
    requires |e.name| < 0x1_0000 && buf == EncodeEntry(e) + after && len == 3 + |e.name| + tailLen && len > 3
    requires turn == if e.nameType != 0 then NameList(after, tailLen, mode)
                     else if IsHostName(e.name) then Ok(Found(e.name)) else Err(Stop)
    ensures NameList(buf, len, mode) == turn
  {
    hide NameList, EncodeEntry, BeBytes;
    assert e == NameEntry(e.nameType, e.name);
    NameListTurn(e.nameType, e.name, after, buf, len, mode);
  }

  /** How the first entry's turn and the rest of the list decide the answer. */
  lemma {:induction false} ConsAnswer(es: seq<NameEntry>, e: NameEntry, rest: seq<byte>, turn: Outcome<Step, Stop>, later: Outcome<Step, Stop>)
    requires |es| > 0 && !(|es| == 1 && |es[0].name| == 0) && e == es[0]
    requires e.nameType != 0 ==> turn == later && later == StepFor(ListAnswer(es[1..]), rest)
    requires e.nameType == 0 ==> turn == if IsHostName(e.name) then Ok(Found(e.name)) else Err(Stop)
    ensures turn == StepFor(ListAnswer(es), rest)
  {
  }

  /** No entries, or one with an empty name: the loop does not start. */
  lemma {:induction false} NameListShort(es: seq<NameEntry>, rest: seq<byte>, mode: Mode)
    requires WellFormedEntries(es) && (|es| == 0 || (|es| == 1 && |es[0].name| == 0))
    ensures NameList(EncodeEntries(es) + rest, |EncodeEntries(es)|, mode) == Ok(Next(rest))
    ensures ListAnswer(es) == NoName
  {
    var buf := EncodeEntries(es) + rest;
    if |es| == 1 {
      assert EncodeEntries(es) == EncodeEntry(es[0]) + EncodeEntries([]);
      assert buf[3..] == rest;
    } else {
      assert buf == rest;
    }
  }

  /** The first entry's encoding, then the others'. */
  lemma {:induction false} EntriesFirst(es: seq<NameEntry>, e: NameEntry, tail: seq<byte>, rest: seq<byte>, after: seq<byte>)
    requires WellFormedEntries(es) && |es| > 0 && e == es[0]
    requires WellFormedEntries(es[1..]) ==> tail == EncodeEntries(es[1..])
    requires after == tail + rest
    ensures WellFormedEntries(es[1..]) && |e.name| < 0x1_0000
    ensures EncodeEntries(es) + rest == EncodeEntry(e) + after
    ensures |EncodeEntries(es)| == 3 + |e.name| + |tail| && |tail| >= 3 * (|es| - 1)
  {
    assert forall i :: 0 <= i < |es| - 1 ==> es[1..][i] == es[i + 1];
  }

  /** An extension as the parser tells them apart: server_name (type 0) or any other. */
  datatype Extension = ServerNameList(entries: seq<NameEntry>) | Other(tag: u16, data: seq<byte>)

  predicate WellFormedExtension(x: Extension)
  {
    match x
    case ServerNameList(es) => WellFormedEntries(es) && |EncodeEntries(es)| + 2 < 0x1_0000
    case Other(tag, data) => tag != 0 && |data| < 0x1_0000
  }

  /** Type, length, and data; a server_name extension's data is its length-prefixed list. */
  function EncodeExtension(x: Extension): (r: seq<byte>)
    requires WellFormedExtension(x)
    ensures x.Other? ==> |r| == 4 + |x.data|
    ensures x.ServerNameList? ==> |r| == 6 + |EncodeEntries(x.entries)|
  {
    match x
    case ServerNameList(es) =>
      var list := EncodeEntries(es);
      [0, 0] + BeBytes(|list| + 2, 2) + BeBytes(|list|, 2) + list
    case Other(tag, data) =>
      BeBytes(tag, 2) + BeBytes(|data|, 2) + data
  }

  predicate WellFormedExtensions(xs: seq<Extension>)
  {
    forall i :: 0 <= i < |xs| ==> WellFormedExtension(xs[i])
  }

  function EncodeExtensions(xs: seq<Extension>): seq<byte>
    requires WellFormedExtensions(xs)
  {
    if |xs| == 0 then [] else EncodeExtension(xs[0]) + EncodeExtensions(xs[1..])
  }

  /**
   * The parser's reading of an extension list: other extensions are passed
   * over; the first server_name extension whose list settles the question
   * (a host name, or a rejected one) decides.
   */
  function FirstServerName(xs: seq<Extension>): Answer
  {
    if |xs| == 0 then NoName
    else match xs[0]
      case Other(_, _) => FirstServerName(xs[1..])
      case ServerNameList(es) =>
        if ListAnswer(es).NoName? then FirstServerName(xs[1..]) else ListAnswer(es)
  }

  /** The walk ends the way the answer says; on `NoName` it goes on with `rest`. */
  function ResultFor(a: Answer, rest: seq<byte>, mode: Mode): Outcome<seq<byte>, Stop>
  {
    match a
    case Name(n) => Ok(n)
    case Rejected => Err(Stop)
    case NoName => Extensions(rest, mode)
  }

  /** Lines 101-104: an extension of any other type is passed over by its declared length. */
  lemma {:induction false} SkipOtherExtension(tag: u16, data: seq<byte>, rest: seq<byte>, mode: Mode)
    requires tag != 0 && |data| < 0x1_0000
    ensures Extensions(BeBytes(tag, 2) + BeBytes(|data|, 2) + data + rest, mode) == Extensions(rest, mode)
  {
    hide *;
    var buf := BeBytes(tag, 2) + BeBytes(|data|, 2) + data + rest;
    var r1 := BeBytes(|data|, 2) + data + rest;
    var r2 := data + rest;
    HeadersLayout(BeBytes(tag, 2), BeBytes(|data|, 2), data, rest, buf, r1, r2);
    GetU16Reads(tag, r1, mode);
    GetU16Reads(|data|, r2, mode);
    SkipOtherStep(buf, r1, r2, tag, |data|, rest, mode);
  }

  /** Two two-byte headers, a body and what follows, peeled one at a time. */
  lemma {:induction false} HeadersLayout(b1: seq<byte>, b2: seq<byte>, d: seq<byte>, rest: seq<byte>, buf: seq<byte>, r1: seq<byte>, r2: seq<byte>)
    requires buf == b1 + b2 + d + rest && r1 == b2 + d + rest && r2 == d + rest
    ensures buf == b1 + r1 && r1 == b2 + r2 && |d| <= |r2| && r2[|d|..] == rest
  {
    assert r2[|d|..] == rest;
  }

  /** One turn of the extension walk over an extension of another type. */
  lemma {:induction false} SkipOtherStep(buf: seq<byte>, r1: seq<byte>, r2: seq<byte>, tag: nat, n: nat, rest: seq<byte>, mode: Mode)
    requires tag != 0 && n <= |r2| && r2[n..] == rest
    requires GetU16(buf, mode) == Ok(Read(tag, r1)) && GetU16(r1, mode) == Ok(Read(n, r2))
    ensures Extensions(buf, mode) == Extensions(rest, mode)
  {
  }

  /** How the walk continues once a server_name extension has been read. */
  function AfterServerName(step: Outcome<Step, Stop>, mode: Mode): Outcome<seq<byte>, Stop>
  {
    match step
    case Ok(Found(n)) => Ok(n)
    case Ok(Next(rest)) => Extensions(rest, mode)
    case Err(e) => Err(e)
    case Panic => Panic
  }

  /** Lines 66-73 for a server_name extension of `|data|` declared bytes. */
  lemma {:induction false} ServerNameExtensionTurn(data: seq<byte>, rest: seq<byte>, mode: Mode)
    requires |data| < 0x1_0000
    ensures Extensions(BeBytes(0, 2) + BeBytes(|data|, 2) + data + rest, mode)
            == AfterServerName(ServerNameExtension(data + rest, |data|, mode), mode)
  {
    var buf := BeBytes(0, 2) + BeBytes(|data|, 2) + data + rest;
    var r1 := BeBytes(|data|, 2) + data + rest;
    var r2 := data + rest;
    BeBytesRoundTrip(0, 2);
    BeBytesRoundTrip(|data|, 2);
    assert buf[..2] == BeBytes(0, 2) && buf[2..] == r1;
    assert GetU16(buf, mode).Ok? && GetU16(buf, mode).value == Read(0 as nat, r1);
    assert r1[..2] == BeBytes(|data|, 2) && r1[2..] == r2;
    assert GetU16(r1, mode).Ok? && GetU16(r1, mode).value == Read(|data| as nat, r2);
  }

  /** Lines 72-99 over a well-formed list: the list length is the extension length less two. */
  lemma {:induction false} ServerNameListReads(es: seq<NameEntry>, rest: seq<byte>, mode: Mode)
    requires WellFormedExtension(ServerNameList(es))
    ensures var list := EncodeEntries(es);
            ServerNameExtension(BeBytes(|list|, 2) + list + rest, |list| + 2, mode)
            == StepFor(ListAnswer(es), rest)
  {
    hide ServerNameExtension, NameList, EncodeEntries, BeBytes, GetU16;
    var list := EncodeEntries(es);
    GetU16Reads(|list|, list + rest, mode);
    assert BeBytes(|list|, 2) + list + rest == BeBytes(|list|, 2) + (list + rest);
    ServerNameExtensionList(BeBytes(|list|, 2) + list + rest, |list| + 2, mode, |list|, list + rest);
    NameListReads(es, rest, mode);
  }

  /** The extension's list length has been read, and it fits the extension. */
  lemma {:induction false} ServerNameExtensionList(r: seq<byte>, len: nat, mode: Mode, n: nat, after: seq<byte>)
    requires len < 0x1_0000 && GetU16(r, mode) == Ok(Read(n, after)) && n + 2 == len
    ensures ServerNameExtension(r, len, mode) == NameList(after, n, mode)
  {
    assert WrappingSub(len, 2) == n;
  }

  /** A well-formed server_name extension is read the way `ListAnswer` says. */
  lemma {:induction false} ServerNameExtensionReads(es: seq<NameEntry>, rest: seq<byte>, mode: Mode)
    requires WellFormedExtension(ServerNameList(es))
    ensures Extensions(EncodeExtension(ServerNameList(es)) + rest, mode) == ResultFor(ListAnswer(es), rest, mode)
  {
    hide Extensions, ServerNameExtension, EncodeExtension, EncodeEntries, BeBytes;
    var list := EncodeEntries(es);
    var data := BeBytes(|list|, 2) + list;
    ServerNameLayout(es, list, data, rest);
    ServerNameExtensionTurn(data, rest, mode);
    ServerNameListReads(es, rest, mode);
    var step := StepFor(ListAnswer(es), rest);
    assert AfterServerName(step, mode) == ResultFor(ListAnswer(es), rest, mode);
  }

  /** A server_name extension is its type, its length, and its length-prefixed list. */
  lemma {:induction false} ServerNameLayout(es: seq<NameEntry>, list: seq<byte>, data: seq<byte>, rest: seq<byte>)
    requires WellFormedExtension(ServerNameList(es))
    requires list == EncodeEntries(es) && data == BeBytes(|list|, 2) + list
    ensures |data| == |list| + 2 < 0x1_0000
    ensures EncodeExtension(ServerNameList(es)) + rest == BeBytes(0, 2) + BeBytes(|data|, 2) + data + rest
    ensures data + rest == BeBytes(|list|, 2) + list + rest
  {
    var b0, b1, b2 := BeBytes(0, 2), BeBytes(|list| + 2, 2), BeBytes(|list|, 2);
    assert b0 == [0, 0];
    assert EncodeExtension(ServerNameList(es)) == b0 + b1 + b2 + list;
    assert b0 + b1 + b2 + list == b0 + b1 + data;
  }

  /** A well-formed extension list is read the way `FirstServerName` says. */
  lemma {:induction false} ExtensionsReads(xs: seq<Extension>, rest: seq<byte>, mode: Mode)
    requires WellFormedExtensions(xs)
    ensures Extensions(EncodeExtensions(xs) + rest, mode) == ResultFor(FirstServerName(xs), rest, mode)
    decreases |xs|
  {
    if |xs| == 0 {
      assert EncodeExtensions(xs) + rest == rest;
    } else {
      var after := EncodeExtensions(xs[1..]) + rest;
      assert EncodeExtensions(xs) + rest == EncodeExtension(xs[0]) + after;
      ExtensionsReads(xs[1..], rest, mode);
      match xs[0]
      case Other(tag, data) =>
        SkipOtherExtension(tag, data, after, mode);
      case ServerNameList(es) =>
        ServerNameExtensionReads(es, after, mode);
    }
  }

  /** The handshake header for a body of `n` bytes: type 1 (ClientHello) and a 24-bit length. */
  function HelloHeader(n: nat): (r: seq<byte>)
    requires n < 0x100_0000
    ensures |r| == 4 && r[0] == 1
  {
    [1] + BeBytes(n, 3)
  }

  lemma {:induction false} HeaderReads(body: seq<byte>, mode: Mode)
    requires |body| < 0x100_0000
    requires mode.Corrected? || |body| < 0x1_0000
    ensures Header(HelloHeader(|body|) + body, mode) == Ok(body)
  {
    hide Header;
    HeaderBytes(body, HelloHeader(|body|) + body, mode);
  }

  /** The bytes of an encoded handshake header declare the body's length. */
  lemma {:induction false} HeaderBytes(body: seq<byte>, buf: seq<byte>, mode: Mode)
    requires |body| < 0x100_0000
    requires mode.Corrected? || |body| < 0x1_0000
    requires buf == HelloHeader(|body|) + body
    ensures |buf| >= 4 && buf[0] == 1 && buf[4..] == body
    ensures HandshakeLength(buf[1], BeUint(buf[2..4]), mode) == |buf| - 4
  {
    var n := |body|;
    var hb := BeBytes(n, 3);
    HeaderDigits(n);
    assert buf[1] == hb[0] && buf[2..4] == hb[1..];
    assert buf[4..] == body;
    if mode.AsWritten? {
      assert hb[0] == 0;
      assert OrBits(0, BeUint(hb[1..])) == BeUint(hb[1..]);
    }
  }

  /** The three length bytes are a high byte over a 16-bit low part. */
  lemma {:induction false} HeaderDigits(n: nat)
    requires n < 0x100_0000
    ensures var hb := BeBytes(n, 3);
      (hb[0] as int) * 0x1_0000 + BeUint(hb[1..]) == n && BeUint(hb[1..]) < 0x1_0000
  {
    var hb := BeBytes(n, 3);
    BeBytesRoundTrip(n, 3);
    assert hb == [hb[0]] + hb[1..];
    BeUintConcat([hb[0]], hb[1..]);
    assert [hb[0]][..0] == [];
    assert BeUint([hb[0]]) == hb[0];
    BeUintBound(hb[1..]);
  }

  lemma {:induction false} SessionFieldsReads(version: seq<byte>, random: seq<byte>, sid: seq<byte>, rest: seq<byte>)
    requires |version| == 2 && |random| == 32 && |sid| < 0x100
    ensures SessionFields(EncodeSessionFields(version, random, sid) + rest)
            == Ok(Read((version, random, sid), rest))
  {
    var buf := EncodeSessionFields(version, random, sid) + rest;
    var r1 := random + [|sid|] + sid + rest;
    var r2 := [|sid|] + sid + rest;
    var r3 := sid + rest;
    assert buf[..2] == version && buf[2..] == r1;
    assert r1[..32] == random && r1[32..] == r2;
    assert r2[0] == |sid| && r2[1..] == r3;
    assert r3[..|sid|] == sid && r3[|sid|..] == rest;
  }

  /** `GetU16` reads back a value written with `BeBytes`. */
  lemma {:induction false} GetU16Reads(n: nat, rest: seq<byte>, mode: Mode)
    requires n < 0x1_0000
    ensures GetU16(BeBytes(n, 2) + rest, mode) == Ok(Read(n, rest))
  {
    var b := BeBytes(n, 2);
    var buf := b + rest;
    assert buf[..2] == b && buf[2..] == rest;
    BeBytesRoundTrip(n, 2);
    assert BeUint(buf[..2]) == n;
  }

  lemma {:induction false} CipherSuitesReads(cs: seq<byte>, rest: seq<byte>, mode: Mode)
    requires |cs| < 0x1_0000
    ensures CipherSuites(BeBytes(|cs|, 2) + cs + rest, mode) == Ok(Read(cs, rest))
  {
    var buf := BeBytes(|cs|, 2) + cs + rest;
    assert buf == BeBytes(|cs|, 2) + (cs + rest);
    GetU16Reads(|cs|, cs + rest, mode);
    assert GetU16(buf, mode) == Ok(Read(|cs| as nat, cs + rest));
    assert (cs + rest)[..|cs|] == cs && (cs + rest)[|cs|..] == rest;
    assert Advance(cs + rest, |cs|) == Ok(Read(cs, rest));
  }

  lemma {:induction false} ExtensionBlockReads(ext: seq<byte>, mode: Mode)
    requires |ext| < 0x1_0000
    ensures ExtensionBlock([1, 0] + BeBytes(|ext|, 2) + ext, mode) == Ok(ext)
  {
    var r := BeBytes(|ext|, 2) + ext;
    var buf := [1, 0] + BeBytes(|ext|, 2) + ext;
    assert buf[..2] == [1, 0] && buf[2..] == r;
    assert BeUint([1, 0]) == 0x0100 by {
      BeUint2([1, 0]);
    }
    var compression := GetU16(buf, mode);
    assert compression == Ok(Read(0x0100 as nat, r));
    GetU16Reads(|ext|, ext, mode);
    var extLen := GetU16(r, mode);
    assert extLen.value.rest == ext && extLen.value.value == |ext|;
    assert ExtensionBlock(buf, mode) == Ok(ext);
  }

  lemma {:induction false} SuitesAndExtensionsReads(cs: seq<byte>, ext: seq<byte>, mode: Mode)
    requires |cs| < 0x1_0000 && |ext| < 0x1_0000
    ensures SuitesAndExtensions(EncodeSuitesAndExtensions(cs, ext), mode) == Ok((cs, ext))
  {
    var r := [1, 0] + BeBytes(|ext|, 2) + ext;
    assert EncodeSuitesAndExtensions(cs, ext) == BeBytes(|cs|, 2) + cs + r;
    CipherSuitesReads(cs, r, mode);
    ExtensionBlockReads(ext, mode);
  }

  /** A well-formed ClientHello with its header is read back field for field. */
  lemma {:induction false} PreambleReads(h: Hello, mode: Mode)
    requires WellFormedHello(h)
    requires |EncodeHelloBody(h)| < 0x100_0000
    requires mode.Corrected? || |EncodeHelloBody(h)| < 0x1_0000
    ensures Preamble(HelloHeader(|EncodeHelloBody(h)|) + EncodeHelloBody(h), mode) == Ok(h)
  {
    var body := EncodeHelloBody(h);
    HeaderReads(body, mode);
    var tail := EncodeSuitesAndExtensions(h.cipherSuites, h.extensions);
    SessionFieldsReads(h.version, h.random, h.sessionId, tail);
    SuitesAndExtensionsReads(h.cipherSuites, h.extensions, mode);
  }

  /**
   * The parser against its reference: for a well-formed ClientHello whose
   * extensions are `xs`, the result is the name `FirstServerName` picks, and
   * `None` when it picks none.
   */
  lemma {:induction false} ServerNameReads(h: Hello, xs: seq<Extension>, mode: Mode)
    requires WellFormedHello(h) && WellFormedExtensions(xs) && h.extensions == EncodeExtensions(xs)
    requires |EncodeHelloBody(h)| < 0x100_0000
    requires mode.Corrected? || |EncodeHelloBody(h)| < 0x1_0000
    ensures var r := ServerName(HelloHeader(|EncodeHelloBody(h)|) + EncodeHelloBody(h), mode);
            (FirstServerName(xs).Name? ==> r == Ok(FirstServerName(xs).name))
            && (!FirstServerName(xs).Name? ==> r == Err(Stop))
  {
    PreambleReads(h, mode);
    ExtensionsReads(xs, [], mode);
    assert EncodeExtensions(xs) + [] == EncodeExtensions(xs);
  }

  // ---------------------------------------------------------------------
  // Where a returned name comes from
  // ---------------------------------------------------------------------

  /** `s` is what remains of `r` after some bytes were consumed from its front. */
  predicate IsSuffix(s: seq<byte>, r: seq<byte>)
  {
    |s| <= |r| && s == r[|r| - |s|..]
  }

  lemma {:induction false} SuffixTrans(s: seq<byte>, m: seq<byte>, r: seq<byte>)
    requires IsSuffix(s, m) && IsSuffix(m, r)
    ensures IsSuffix(s, r)
  {
    assert r[|r| - |m|..][|m| - |s|..] == r[|r| - |s|..];
  }

  /** At offset `i` of `r` lies a host_name entry (type 0) carrying `name`. */
  predicate HostEntryAt(r: seq<byte>, i: nat, name: seq<byte>)
  {
    i + 3 + |name| <= |r| && r[i] == 0 && BeUint(r[i + 1..i + 3]) == |name| && r[i + 3..i + 3 + |name|] == name
  }

  /** Somewhere in `r` lies a host_name entry carrying `name`. */
  ghost predicate HostEntryIn(r: seq<byte>, name: seq<byte>)
  {
    exists i :: 0 <= i < |r| && HostEntryAt(r, i, name)
  }

  /** An entry found in what remains is found in the whole. */
  lemma {:induction false} HostEntryInSuffix(s: seq<byte>, r: seq<byte>, name: seq<byte>)
    requires IsSuffix(s, r) && HostEntryIn(s, name)
    ensures HostEntryIn(r, name)
  {
    var i :| 0 <= i < |s| && HostEntryAt(s, i, name);
    var k := |r| - |s|;
    assert r[k + i + 1..k + i + 3] == s[i + 1..i + 3];
    assert r[k + i + 3..k + i + 3 + |name|] == s[i + 3..i + 3 + |name|];
    assert HostEntryAt(r, k + i, name);
  }

  /** The bytes `GetU16` leaves are a suffix of its input. */
  lemma {:induction false} GetU16Suffix(r: seq<byte>, mode: Mode)
    requires GetU16(r, mode).Ok?
    ensures IsSuffix(GetU16(r, mode).value.rest, r)
  {
  }

  lemma {:induction false} AdvanceOrStaySuffix(r: seq<byte>, n: nat)
    ensures IsSuffix(AdvanceOrStay(r, n), r)
  {
  }

  /** An entry's type and length read from the front of `r`, and where its name starts. */
  lemma {:induction false} EntryHead(r: seq<byte>, t: byte, r1: seq<byte>, n: nat, r2: seq<byte>)
    requires [t] + r1 == r && BeBytes(n, 2) + r2 == r1 && n < 0x1_0000
    ensures IsSuffix(r2, r) && |r| >= 3 && r[0] == t && BeUint(r[1..3]) == n && r2 == r[3..]
  {
    BeBytesRoundTrip(n, 2);
    assert r == [t] + (BeBytes(n, 2) + r2);
    assert r[1..3] == BeBytes(n, 2);
  }

  /** One turn of the list loop: a name it returns is a host_name entry at the front; what it leaves is a suffix. */
  lemma {:induction false} EntryTurnSource(r: seq<byte>, extLen: nat, mode: Mode)
    requires extLen > 3
    ensures var t := EntryTurn(r, extLen, mode);
      (t.Done? && t.res.Ok? ==> HostEntryAt(r, 0, t.res.value.name))
      && (t.More? ==> IsSuffix(t.rest, r))
  {
    var t := EntryTurn(r, extLen, mode);
    if (t.Done? && t.res.Ok?) || t.More? {
      var nameType := GetU8(r).value;
      var nameLen := GetU16(nameType.rest, mode).value;
      var n := nameLen.value;
      EntryHead(r, nameType.value, nameType.rest, n, nameLen.rest);
      if t.More? {
        assert t.rest == AdvanceOrStay(nameLen.rest, n);
        AdvanceOrStaySuffix(nameLen.rest, n);
        SuffixTrans(t.rest, nameLen.rest, r);
      } else {
        assert t.res.value.name == nameLen.rest[..n] && n <= |nameLen.rest|;
        assert r[3..3 + n] == nameLen.rest[..n];
      }
    }
  }

  /** The list loop returns a name only from a host_name entry it walked over, and resumes only at a suffix. */
  lemma {:induction false} NameListSource(r: seq<byte>, extLen: nat, mode: Mode)
    ensures var res := NameList(r, extLen, mode);
      (res.Ok? && res.value.Found? ==> HostEntryIn(r, res.value.name))
      && (res.Ok? && res.value.Next? ==> IsSuffix(res.value.rest, r))
    decreases extLen
  {
    if extLen <= 3 {
      AdvanceOrStaySuffix(r, extLen);
    } else {
      EntryTurnSource(r, extLen, mode);
      match EntryTurn(r, extLen, mode)
      case Done(res) =>
        if res.Ok? {
          assert HostEntryAt(r, 0, res.value.name);
        }
      case More(rest, left) =>
        NameListSource(rest, left, mode);
        var res := NameList(rest, left, mode);
        if res.Ok? && res.value.Found? {
          HostEntryInSuffix(rest, r, res.value.name);
        } else if res.Ok? {
          SuffixTrans(res.value.rest, rest, r);
        }
    }
  }

  /** The same for a server_name extension: the list starts after its 2-byte length. */
  lemma {:induction false} ServerNameExtensionSource(r: seq<byte>, len: nat, mode: Mode)
    requires len < 0x1_0000
    ensures var res := ServerNameExtension(r, len, mode);
      (res.Ok? && res.value.Found? ==> HostEntryIn(r, res.value.name))
      && (res.Ok? && res.value.Next? ==> IsSuffix(res.value.rest, r))
  {
    var res := ServerNameExtension(r, len, mode);
    if res.Ok? {
      var listLen := GetU16(r, mode).value;
      GetU16Suffix(r, mode);
      NameListSource(listLen.rest, listLen.value, mode);
      if res.value.Found? {
        HostEntryInSuffix(listLen.rest, r, res.value.name);
      } else {
        SuffixTrans(res.value.rest, listLen.rest, r);
      }
    }
  }

  /** The extension walk returns a name only from a host_name entry in the block. */
  lemma {:induction false} ExtensionsSource(r: seq<byte>, mode: Mode)
    requires Extensions(r, mode).Ok?
    ensures HostEntryIn(r, Extensions(r, mode).value)
    decreases |r|
  {
    var n := Extensions(r, mode).value;
    var tag := GetU16(r, mode).value;
    var len := GetU16(tag.rest, mode).value;
    GetU16Suffix(r, mode);
    GetU16Suffix(tag.rest, mode);
    SuffixTrans(len.rest, tag.rest, r);
    if tag.value == 0 {
      ServerNameExtensionSource(len.rest, len.value, mode);
      match ServerNameExtension(len.rest, len.value, mode).value
      case Found(name) =>
        HostEntryInSuffix(len.rest, r, name);
      case Next(rest) =>
        SuffixTrans(rest, len.rest, r);
        ExtensionsSource(rest, mode);
        HostEntryInSuffix(rest, r, n);
    } else {
      var rest := len.rest[len.value..];
      assert IsSuffix(rest, len.rest);
      SuffixTrans(rest, len.rest, r);
      ExtensionsSource(rest, mode);
      HostEntryInSuffix(rest, r, n);
    }
  }

  /**
   * The converse of `ServerNameReads`: a name the parser returns is an
   * acceptable host name, the message is a ClientHello whose fixed fields
   * read back as `h`, and the name is carried by a host_name entry inside
   * `h`'s extension block.
   */
  lemma {:induction false} ServerNameSource(buf: seq<byte>, mode: Mode)
    requires ServerName(buf, mode).Ok?
    ensures var n := ServerName(buf, mode).value;
      IsHostName(n) && Preamble(buf, mode).Ok?
      && var h := Preamble(buf, mode).value;
      WellFormedHello(h) && |buf| >= 4 && buf[0] == 1 && buf[4..] == EncodeHelloBody(h)
      && HostEntryIn(h.extensions, n)
  {
    var h := Preamble(buf, mode).value;
    ExtensionsSource(h.extensions, mode);
  }

  /**
   * Why `ServerNameSource` cannot say more: the parser reads leniently. In
   * this block a server_name extension declares 9 bytes but its list only 6,
   * and three bytes of junk follow the one entry. The parser returns the
   * entry's name, yet no list of extensions encodes the block.
   */
  const LooseServerName: seq<byte> := [0x00, 0x00, 0x00, 0x09, 0x00, 0x06, 0x00, 0x00, 0x01, 0x61, 0xff, 0xff, 0xff]

  lemma {:induction false} LooseHelloNamed(h: Hello, mode: Mode)
    requires WellFormedHello(h) && h.extensions == LooseServerName
    requires |EncodeHelloBody(h)| < 0x1_0000
    ensures ServerName(HelloHeader(|EncodeHelloBody(h)|) + EncodeHelloBody(h), mode) == Ok([0x61])
    ensures forall xs :: WellFormedExtensions(xs) ==> EncodeExtensions(xs) != h.extensions
  {
    PreambleReads(h, mode);
    LooseServerNameWalk(mode);
    forall xs | WellFormedExtensions(xs) ensures EncodeExtensions(xs) != h.extensions {
      LooseServerNameNotEncoded(xs);
    }
  }

  lemma {:induction false} LooseServerNameWalk(mode: Mode)
    ensures Extensions(LooseServerName, mode) == Ok([0x61])
  {
    hide Extensions, ServerNameExtension, NameList, GetU16;
    var data: seq<byte> := [0x00, 0x06, 0x00, 0x00, 0x01, 0x61, 0xff, 0xff, 0xff];
    var none: seq<byte> := [];
    assert BeBytes(0, 2) == [0, 0] by { BeBytesRoundTrip(0, 2); BeUint2(BeBytes(0, 2)); }
    assert BeBytes(9, 2) == [0, 9] by { BeBytesRoundTrip(9, 2); BeUint2(BeBytes(9, 2)); }
    assert LooseServerName == BeBytes(0, 2) + BeBytes(|data|, 2) + data + none;
    ServerNameExtensionTurn(data, none, mode);
    assert data + none == data;
    LooseList(data, mode);
  }

  /** The list length 6 fits the declared 9 bytes less two, and the walk finds the entry. */
  lemma {:induction false} LooseList(data: seq<byte>, mode: Mode)
    requires data == [0x00, 0x06, 0x00, 0x00, 0x01, 0x61, 0xff, 0xff, 0xff]
    ensures ServerNameExtension(data, 9, mode) == Ok(Found([0x61]))
  {
    var r: seq<byte> := [0x00, 0x00, 0x01, 0x61, 0xff, 0xff, 0xff];
    assert data[..2] == [0x00, 0x06] && data[2..] == r;
    BeUint2([0x00, 0x06]);
    assert GetU16(data, mode) == Ok(Read(6 as nat, r));
    LooseEntry(r, mode);
  }

  /** A host_name entry `a`, with three bytes of the list left over. */
  lemma {:induction false} LooseEntry(r: seq<byte>, mode: Mode)
    requires r == [0x00, 0x00, 0x01, 0x61, 0xff, 0xff, 0xff]
    ensures NameList(r, 6, mode) == Ok(Found([0x61]))
  {
    var r1: seq<byte> := [0x00, 0x01, 0x61, 0xff, 0xff, 0xff];
    var r2: seq<byte> := [0x61, 0xff, 0xff, 0xff];
    assert r[1..] == r1;
    assert GetU8(r) == Ok(Read(0, r1));
    assert r1[..2] == [0x00, 0x01] && r1[2..] == r2;
    BeUint2([0x00, 0x01]);
    assert GetU16(r1, mode) == Ok(Read(1 as nat, r2));
    assert r2[..1] == [0x61];
    assert IsHostName([0x61]) by { HostCharsAreUtf8([0x61]); }
  }

  /**
   * No extension list encodes `LooseServerName`: its first extension has
   * type 0, so it would be a server_name extension, whose declared length is
   * always its list length plus two.
   */
  lemma {:induction false} LooseServerNameNotEncoded(xs: seq<Extension>)
    requires WellFormedExtensions(xs)
    ensures EncodeExtensions(xs) != LooseServerName
  {
    if |xs| > 0 {
      var e := EncodeExtension(xs[0]);
      var all := EncodeExtensions(xs);
      assert WellFormedExtension(xs[0]);
      assert all == e + EncodeExtensions(xs[1..]);
      match xs[0]
      case Other(tag, data) =>
        OtherHeadDiffers(tag, data);
        assert all[..2] == e[..2];
      case ServerNameList(es) =>
        ListHeadDiffers(es);
        assert all[2..4] == e[2..4] && all[4..6] == e[4..6];
    }
  }

  /** An extension of another type does not begin with type 0. */
  lemma {:induction false} OtherHeadDiffers(tag: u16, data: seq<byte>)
    requires WellFormedExtension(Other(tag, data))
    ensures var e := EncodeExtension(Other(tag, data));
      |e| >= 4 && e[..2] != LooseServerName[..2]
  {
    var e := EncodeExtension(Other(tag, data));
    assert e[..2] == BeBytes(tag, 2);
    BeBytesRoundTrip(tag, 2);
    BeUint2(LooseServerName[..2]);
  }

  /** A server_name extension declares two bytes more than its list, where `LooseServerName` declares three. */
  lemma {:induction false} ListHeadDiffers(es: seq<NameEntry>)
    requires WellFormedExtension(ServerNameList(es))
    ensures var e := EncodeExtension(ServerNameList(es));
      |e| >= 6 && (e[2..4] != LooseServerName[2..4] || e[4..6] != LooseServerName[4..6])
  {
    var e := EncodeExtension(ServerNameList(es));
    var list := EncodeEntries(es);
    assert e[2..4] == BeBytes(|list| + 2, 2) && e[4..6] == BeBytes(|list|, 2);
    BeBytesRoundTrip(|list| + 2, 2);
    BeBytesRoundTrip(|list|, 2);
    BeUint2(LooseServerName[2..4]);
    BeUint2(LooseServerName[4..6]);
  }

  // ---------------------------------------------------------------------
  // The test ClientHello of lines 110-126, field by field
  // ---------------------------------------------------------------------

  const GoogleName: seq<byte> := [0x77, 0x77, 0x77, 0x2e, 0x67, 0x6f, 0x6f, 0x67, 0x6c, 0x65, 0x2e, 0x63, 0x6f, 0x6d]
  const QuicTransportParameters: seq<byte> := [
        0xfb, 0x5c, 0x27, 0xd8, 0xca, 0x3e, 0x44, 0x88, 0x04, 0xa0, 0x94, 0x32,
        0x37, 0x0f, 0x00, 0x03, 0x02, 0x45, 0xc0, 0x80, 0xff, 0x73, 0xdb, 0x0c,
        0x00, 0x00, 0x00, 0x01, 0x8a, 0xaa, 0x3a, 0x0a, 0x00, 0x00, 0x00, 0x01,
        0x71, 0x27, 0x04, 0x80, 0x02, 0xae, 0x50, 0x08, 0x02, 0x40, 0x64, 0x09,
        0x02, 0x40, 0x67, 0x04, 0x04, 0x80, 0xf0, 0x00, 0x00, 0x06, 0x04, 0x80,
        0x60, 0x00, 0x00, 0x01, 0x04, 0x80, 0x00, 0x75, 0x30, 0x20, 0x04, 0x80,
        0x01, 0x00, 0x00, 0x07, 0x04, 0x80, 0x60, 0x00, 0x00, 0x80, 0x00, 0x47,
        0x52, 0x04, 0x00, 0x00, 0x00, 0x01, 0x05, 0x04, 0x80, 0x60, 0x00, 0x00]
  const Alpn: seq<byte> := [0x00, 0x03, 0x02, 0x68, 0x33]
  const SupportedGroups: seq<byte> := [0x00, 0x06, 0x00, 0x1d, 0x00, 0x17, 0x00, 0x18]
  const PskKeyExchangeModes: seq<byte> := [0x01, 0x01]
  const KeyShare: seq<byte> := [
        0x00, 0x24, 0x00, 0x1d, 0x00, 0x20, 0x3e, 0x65, 0xbd, 0x93, 0xcf, 0x09,
        0x57, 0x2d, 0xf1, 0x62, 0xe5, 0xe1, 0xf1, 0xe6, 0x7c, 0x2a, 0xa7, 0xa2,
        0xc2, 0x5f, 0xaa, 0x35, 0xd2, 0x89, 0xa4, 0x22, 0xaa, 0x24, 0x62, 0xe2,
        0x4a, 0x47]
  const SignatureAlgorithms: seq<byte> := [
        0x00, 0x12, 0x04, 0x03, 0x08, 0x04, 0x04, 0x01, 0x05, 0x03, 0x08, 0x05,
        0x05, 0x01, 0x08, 0x06, 0x06, 0x01, 0x02, 0x01]
  const CompressCertificate: seq<byte> := [0x02, 0x00, 0x02]
  const SupportedVersions: seq<byte> := [0x02, 0x03, 0x04]
  const ApplicationSettings: seq<byte> := [0x00, 0x03, 0x02, 0x68, 0x33]
  const TestRandom: seq<byte> := [ 0x2d, 0x9a, 0x20, 0xd6, 0x02, 0xea, 0xdf, 0x55, 0x81, 0xc4, 0x31, 0x19,
        0x41, 0x52, 0x08, 0x65, 0x31, 0x76, 0xe8, 0x6f, 0xb0, 0xc5, 0x35, 0xc8,
        0xa0, 0xc3, 0xaa, 0x87, 0x42, 0xdc, 0x65, 0xc3]

  /** Its ten extensions; the third is server_name with the single host_name "www.google.com". */
  function TestExtensions(): seq<Extension>
  {
    [ Other(0x39, QuicTransportParameters),
      Other(0x10, Alpn),
      ServerNameList([NameEntry(0, GoogleName)]),
      Other(0x0a, SupportedGroups),
      Other(0x2d, PskKeyExchangeModes),
      Other(0x33, KeyShare),
      Other(0x0d, SignatureAlgorithms),
      Other(0x1b, CompressCertificate),
      Other(0x2b, SupportedVersions),
      Other(0x4469, ApplicationSettings) ]
  }

  function TestHello(): Hello
    requires WellFormedExtensions(TestExtensions())
  {
    Hello([0x03, 0x03], TestRandom, [], [0x13, 0x01, 0x13, 0x02, 0x13, 0x03], EncodeExtensions(TestExtensions()))
  }

  lemma {:induction false} TestExtensionsWellFormed()
    ensures WellFormedExtensions(TestExtensions())
  {
    var xs := TestExtensions();
    assert |GoogleName| == 14;
    assert EncodeEntries([NameEntry(0, GoogleName)]) == EncodeEntry(NameEntry(0, GoogleName)) + EncodeEntries([]);
    assert WellFormedExtension(xs[0]);
    assert WellFormedExtension(xs[1]);
    assert WellFormedExtension(xs[2]);
    assert WellFormedExtension(xs[3]);
    assert WellFormedExtension(xs[4]);
    assert WellFormedExtension(xs[5]);
    assert WellFormedExtension(xs[6]);
    assert WellFormedExtension(xs[7]);
    assert WellFormedExtension(xs[8]);
    assert WellFormedExtension(xs[9]);
  }

  lemma {:induction false} TestExtensionsLength()
    ensures WellFormedExtensions(TestExtensions())
    ensures |EncodeExtensions(TestExtensions())| == 239
  {
    TestExtensionsWellFormed();
    var xs := TestExtensions();
    TestTailLength(xs);
    TestHeadLength(xs);
    assert xs[0..] == xs;
  }

  lemma {:induction false} TestHeadLength(xs: seq<Extension>)
    requires xs == TestExtensions() && WellFormedExtensions(xs)
    requires |EncodeExtensions(xs[5..])| == 89
    ensures |EncodeExtensions(xs[0..])| == 239
  {
    hide EncodeExtensions, EncodeExtension;
    TestMiddleLength(xs);
    TestNameLength(xs);
    TestHeadSizes(xs);
    ConsLength(xs, 1, 130);
    ConsLength(xs, 0, 139);
  }

  lemma {:induction false} TestMiddleLength(xs: seq<Extension>)
    requires xs == TestExtensions() && WellFormedExtensions(xs)
    requires |EncodeExtensions(xs[5..])| == 89
    ensures |EncodeExtensions(xs[3..])| == 107
  {
    hide EncodeExtensions, EncodeExtension;
    TestHeadSizes(xs);
    ConsLength(xs, 4, 89);
    ConsLength(xs, 3, 95);
  }

  lemma {:induction false} TestHeadSizes(xs: seq<Extension>)
    requires xs == TestExtensions() && WellFormedExtensions(xs)
    ensures |EncodeExtension(xs[0])| == 100 && |EncodeExtension(xs[1])| == 9
    ensures |EncodeExtension(xs[3])| == 12 && |EncodeExtension(xs[4])| == 6
  {
  }

  lemma {:induction false} TestNameLength(xs: seq<Extension>)
    requires xs == TestExtensions() && WellFormedExtensions(xs)
    requires |EncodeExtensions(xs[3..])| == 107
    ensures |EncodeExtensions(xs[2..])| == 130
  {
    GoogleEntryLength();
    ConsLength(xs, 2, 107);
  }

  lemma {:induction false} GoogleEntryLength()
    ensures |EncodeEntries([NameEntry(0, GoogleName)])| == 17
  {
    assert EncodeEntries([NameEntry(0, GoogleName)]) == EncodeEntry(NameEntry(0, GoogleName)) + EncodeEntries([]);
  }

  lemma {:induction false} TestTailLength(xs: seq<Extension>)
    requires xs == TestExtensions() && WellFormedExtensions(xs)
    ensures |EncodeExtensions(xs[5..])| == 89
  {
    assert |EncodeExtensions(xs[10..])| == 0;
    ConsLength(xs, 9, 0);
    ConsLength(xs, 8, 9);
    ConsLength(xs, 7, 16);
    ConsLength(xs, 6, 23);
    ConsLength(xs, 5, 47);
  }

  /** The encoding from the `k`-th extension on: that extension's, then the others'. */
  lemma {:induction false} ConsLength(xs: seq<Extension>, k: nat, n: nat)
    requires WellFormedExtensions(xs) && k < |xs| && |EncodeExtensions(xs[k + 1..])| == n
    ensures |EncodeExtensions(xs[k..])| == |EncodeExtension(xs[k])| + n
  {
    assert xs[k..][1..] == xs[k + 1..];
  }

  /** Every accepted character is ASCII, so a string of them is valid UTF-8. */
  lemma {:induction false} HostCharsAreUtf8(s: seq<byte>)
    requires forall i :: 0 <= i < |s| ==> HostChar(s[i])
    ensures ValidUtf8(s)
  {
    assert IsAscii(s);
    AsciiIsUtf8(s);
  }

  lemma {:induction false} GoogleNameAccepted()
    ensures IsHostName(GoogleName)
  {
    assert forall b | b in GoogleName :: HostChar(b);
    HostCharsAreUtf8(GoogleName);
  }

  lemma {:induction false} TestExtensionsShape()
    ensures TestExtensions()
            == [Other(0x39, QuicTransportParameters), Other(0x10, Alpn),
                ServerNameList([NameEntry(0, GoogleName)])] + TestExtensions()[3..]
  {
  }

  lemma {:induction false} TestExtensionsName()
    ensures FirstServerName(TestExtensions()) == Name(GoogleName)
  {
    GoogleNameAccepted();
    TestExtensionsShape();
    FirstServerNameAfterOthers(Other(0x39, QuicTransportParameters), Other(0x10, Alpn),
      [NameEntry(0, GoogleName)], TestExtensions()[3..]);
  }

  lemma {:induction false} FirstServerNameAfterOthers(x0: Extension, x1: Extension, es: seq<NameEntry>, tail: seq<Extension>)
    requires x0.Other? && x1.Other?
    requires |es| == 1 && es[0].nameType == 0 && IsHostName(es[0].name)
    ensures FirstServerName([x0, x1, ServerNameList(es)] + tail) == Name(es[0].name)
  {
    var xs := [x0, x1, ServerNameList(es)] + tail;
    assert ListAnswer(es) == Name(es[0].name);
    assert xs[2..][0] == ServerNameList(es);
    assert FirstServerName(xs[2..]) == Name(es[0].name);
    assert xs[1..][0] == x1 && xs[1..][1..] == xs[2..];
    assert FirstServerName(xs[1..]) == FirstServerName(xs[2..]);
    assert xs[0] == x0;
  }

  /** The test message yields "www.google.com", as written and corrected alike. */
  /** The test ClientHello with its handshake header. */
  function TestClientHello(): (m: seq<byte>)
    ensures |m| == 4 + 0x11e
  {
    TestClientHelloName(Corrected);
    HelloHeader(0x11e) + EncodeHelloBody(TestHello())
  }

  lemma {:induction false} TestClientHelloFound(mode: Mode)
    ensures ServerName(TestClientHello(), mode) == Ok(GoogleName)
  {
    TestClientHelloName(mode);
  }

  lemma {:induction false} TestClientHelloName(mode: Mode)
    ensures WellFormedExtensions(TestExtensions())
    ensures WellFormedHello(TestHello()) && |EncodeHelloBody(TestHello())| == 0x11e
    ensures ServerName(HelloHeader(0x11e) + EncodeHelloBody(TestHello()), mode) == Ok(GoogleName)
  {
    TestExtensionsLength();
    TestExtensionsName();
    ServerNameReads(TestHello(), TestExtensions(), mode);
  }

  // ---------------------------------------------------------------------
  // Where the code as written and the corrected code part ways
  // ---------------------------------------------------------------------

  /**
   * Line 50: a message that ends one byte into the 16-bit half of the
   * handshake length reaches `Buf::get_u16` with one byte left, which panics;
   * corrected, it is rejected.
   */
  lemma {:induction false} OneByteU16Panics()
    ensures ServerName([1, 0, 0], AsWritten) == Panic
    ensures ServerName([1, 0, 0], Corrected) == Err(Stop)
  {
    var buf: seq<byte> := [1, 0, 0];
    assert GetU8(buf) == Ok(Read(1, [0, 0]));
    assert GetU8([0, 0]) == Ok(Read(0, [0]));
    assert Header(buf, AsWritten) == Panic;
    assert Header(buf, Corrected) == Err(Stop);
  }

  /**
   * The extension block of `OneByteU16Panics`'s sibling finding: a server_name
   * extension that declares length 0 and is followed by the bytes
   * 00 10 00 00 0d. As written, `len - 2` wraps, the list length 16 passes the
   * check, and `copy_to_slice` is asked for 13 bytes with none left.
   */
  const ShortServerName: seq<byte> := [0x00, 0x00, 0x00, 0x00, 0x00, 0x10, 0x00, 0x00, 0x0d]

  lemma {:induction false} ShortServerNameWalk()
    ensures Extensions(ShortServerName, AsWritten) == Panic
    ensures Extensions(ShortServerName, Corrected) == Err(Stop)
  {
    hide Extensions, ServerNameExtension, NameList, GetU16;
    var list: seq<byte> := [0x00, 0x10, 0x00, 0x00, 0x0d];
    var none: seq<byte> := [];
    BeBytesRoundTrip(0, 2);
    assert BeBytes(0, 2) == [0, 0] by { BeUint2(BeBytes(0, 2)); }
    assert ShortServerName == BeBytes(0, 2) + BeBytes(|none|, 2) + none + list;
    ServerNameExtensionTurn(none, list, AsWritten);
    ServerNameExtensionTurn(none, list, Corrected);
    assert none + list == list;
    ShortListAsWritten(list);
    ShortListCorrected(list);
  }

  /** As written, `len - 2` wraps for the zero-length extension and the list of 16 is walked. */
  lemma {:induction false} ShortListAsWritten(list: seq<byte>)
    requires list == [0x00, 0x10, 0x00, 0x00, 0x0d]
    ensures ServerNameExtension(list, 0, AsWritten) == Panic
  {
    var r3: seq<byte> := [0x00, 0x00, 0x0d];
    assert list[..2] == [0x00, 0x10] && list[2..] == r3;
    BeUint2([0x00, 0x10]);
    assert GetU16(list, AsWritten) == Ok(Read(16 as nat, r3));
    ShortEntryPanics(r3);
  }

  /** A host_name entry of 13 bytes with none left. */
  lemma {:induction false} ShortEntryPanics(r3: seq<byte>)
    requires r3 == [0x00, 0x00, 0x0d]
    ensures NameList(r3, 16, AsWritten) == Panic
  {
    var r4: seq<byte> := [0x00, 0x0d];
    assert r3[1..] == r4;
    assert GetU8(r3) == Ok(Read(0, r4));
    assert r4[..2] == [0x00, 0x0d] && r4[2..] == [];
    BeUint2([0x00, 0x0d]);
    assert GetU16(r4, AsWritten) == Ok(Read(13 as nat, []));
  }

  /** Corrected, an extension too short for its own list length is rejected. */
  lemma {:induction false} ShortListCorrected(list: seq<byte>)
    requires list == [0x00, 0x10, 0x00, 0x00, 0x0d]
    ensures ServerNameExtension(list, 0, Corrected) == Err(Stop)
  {
    assert GetU16(list, Corrected).Ok?;
  }

  /**
   * Line 73: any well-formed ClientHello whose extension block is
   * `ShortServerName` makes the code as written panic.
   */
  lemma {:induction false} ShortServerNamePanics(h: Hello)
    requires WellFormedHello(h) && h.extensions == ShortServerName
    requires |EncodeHelloBody(h)| < 0x1_0000
    ensures ServerName(HelloHeader(|EncodeHelloBody(h)|) + EncodeHelloBody(h), AsWritten) == Panic
    ensures ServerName(HelloHeader(|EncodeHelloBody(h)|) + EncodeHelloBody(h), Corrected) == Err(Stop)
  {
    PreambleReads(h, AsWritten);
    PreambleReads(h, Corrected);
    ShortServerNameWalk();
  }

  /**
   * Line 50: the 24-bit handshake length is assembled as `(hi << 8) | lo16`.
   * A body of exactly 2^16 bytes (header 01 01 00 00) reads as length 256 and
   * is refused, so its server name is lost; corrected, it is found.
   */
  lemma {:induction false} LongHelloMisread(h: Hello, xs: seq<Extension>)
    requires WellFormedHello(h) && WellFormedExtensions(xs) && h.extensions == EncodeExtensions(xs)
    requires |EncodeHelloBody(h)| == 0x1_0000
    requires FirstServerName(xs).Name?
    ensures HelloHeader(0x1_0000) == [1, 1, 0, 0]
    ensures ServerName(HelloHeader(0x1_0000) + EncodeHelloBody(h), AsWritten) == Err(Stop)
    ensures ServerName(HelloHeader(0x1_0000) + EncodeHelloBody(h), Corrected) == Ok(FirstServerName(xs).name)
  {
    LongHeaderMisread(EncodeHelloBody(h));
    ServerNameReads(h, xs, Corrected);
  }

  lemma {:induction false} LongHeaderMisread(body: seq<byte>)
    requires |body| == 0x1_0000
    ensures HelloHeader(0x1_0000) == [1, 1, 0, 0]
    ensures Header(HelloHeader(0x1_0000) + body, AsWritten) == Err(Stop)
  {
    var buf := HelloHeader(0x1_0000) + body;
    assert BeBytes(0x1_0000, 3) == [1, 0, 0];
    assert buf[0] == 1 && buf[1] == 1 && buf[2..4] == [0, 0];
    BeUint2([0, 0]);
    assert HandshakeLength(1, 0, AsWritten) == 256;
  }
}

=== FILE: traffic.dfy ===
/**
 * `src/app/socks5/traffic.rs`: a server's usage counters. The atomics are
 * plain fields here; `fetch_add` and `fetch_sub` wrap around at 2^64, and
 * `usize` is taken to be 64 bits wide.
 */
module SocksTraffic {
  import opened Bytes

  /** `Usage`: bytes sent and received, sessions open now and ever opened. */
  datatype Usage = Usage(txBytes: u64, rxBytes: u64, sessionActive: u64, sessionTotal: u64)

  /** `Usage::default()`. */
  const Default: Usage := Usage(0, 0, 0, 0)

  /** `open_session`: one more session in total and one more active. */
  function OpenSession(u: Usage): (r: Usage)
    ensures r.txBytes == u.txBytes && r.rxBytes == u.rxBytes
    ensures u.sessionTotal < 0xFFFF_FFFF_FFFF_FFFF ==> r.sessionTotal == u.sessionTotal + 1
    ensures u.sessionActive < 0xFFFF_FFFF_FFFF_FFFF ==> r.sessionActive == u.sessionActive + 1
    ensures u.sessionTotal == 0xFFFF_FFFF_FFFF_FFFF ==> r.sessionTotal == 0
    ensures u.sessionActive == 0xFFFF_FFFF_FFFF_FFFF ==> r.sessionActive == 0
  {
    u.(sessionTotal := WrappingAdd(u.sessionTotal, 1), sessionActive := WrappingAdd(u.sessionActive, 1))
  }

  /** `close_session`: one session fewer active; with none open the counter wraps to 2^64 - 1. */
  function CloseSession(u: Usage): (r: Usage)
    ensures r.txBytes == u.txBytes && r.rxBytes == u.rxBytes && r.sessionTotal == u.sessionTotal
    ensures u.sessionActive > 0 ==> r.sessionActive == u.sessionActive - 1
    ensures u.sessionActive == 0 ==> r.sessionActive == 0xFFFF_FFFF_FFFF_FFFF
  {
    u.(sessionActive := WrappingSub(u.sessionActive, 1))
  }

  /** `add_tx`: `bytes` more sent. */
  function AddTx(u: Usage, bytes: u64): (r: Usage)
    ensures r.rxBytes == u.rxBytes && r.sessionActive == u.sessionActive && r.sessionTotal == u.sessionTotal
    ensures (r.txBytes - u.txBytes - bytes) % 0x1_0000_0000_0000_0000 == 0
  {
    u.(txBytes := WrappingAdd(u.txBytes, bytes))
  }

  /** `add_rx`: `bytes` more received. */
  function AddRx(u: Usage, bytes: u64): (r: Usage)
    ensures r.txBytes == u.txBytes && r.sessionActive == u.sessionActive && r.sessionTotal == u.sessionTotal
    ensures (r.rxBytes - u.rxBytes - bytes) % 0x1_0000_0000_0000_0000 == 0
  {
    u.(rxBytes := WrappingAdd(u.rxBytes, bytes))
  }

  /** Closing a session undoes opening it, except that the total keeps counting it. */
  lemma {:induction false} CloseUndoesOpen(u: Usage)
    ensures CloseSession(OpenSession(u)) == u.(sessionTotal := OpenSession(u).sessionTotal)
  {
    WrappingAddSub(u.sessionActive, 1);
  }

  /** Two additions of sent bytes are one addition of their sum. */
  lemma {:induction false} AddTxTwice(u: Usage, a: u64, b: u64)
    ensures AddTx(AddTx(u, a), b) == AddTx(u, WrappingAdd(a, b))
  {
  }

  /** `n` sessions opened one after another. */
  function OpenMany(u: Usage, n: nat): Usage
  {
    if n == 0 then u else OpenSession(OpenMany(u, n - 1))
  }

  /** `n` sessions closed one after another. */
  function CloseMany(u: Usage, n: nat): Usage
  {
    if n == 0 then u else CloseSession(CloseMany(u, n - 1))
  }

  /**
   * From the default, opening `n` sessions and closing `m <= n` of them
   * leaves `n - m` active and `n` in total.
   */
  lemma {:induction false} SessionCounts(n: nat, m: nat)
    requires m <= n < 0x1_0000_0000_0000_0000
    ensures CloseMany(OpenMany(Default, n), m) == Usage(0, 0, n - m, n)
  {
    OpenManyCounts(n);
    CloseManyCounts(OpenMany(Default, n), m);
  }

  lemma {:induction false} OpenManyCounts(n: nat)
    requires n < 0x1_0000_0000_0000_0000
    ensures OpenMany(Default, n) == Usage(0, 0, n, n)
  {
    if n > 0 {
      OpenManyCounts(n - 1);
    }
  }

  lemma {:induction false} CloseManyCounts(u: Usage, m: nat)
    requires m <= u.sessionActive
    ensures CloseMany(u, m) == u.(sessionActive := u.sessionActive - m)
  {
    if m > 0 {
      CloseManyCounts(u, m - 1);
    }
  }
}

=== FILE: types.dfy ===
/**
 * Socket addresses and their canonical form (`src/app/types.rs`): an IPv6
 * socket address whose IP is IPv4-mapped or IPv4-compatible (section 2.5.5
 * of RFC 4291) is folded into the equivalent IPv4 socket address, so that
 * one peer is never tracked under two keys.
 */
module Types {
  import opened Bytes
  import opened Wrappers

  type Ipv4 = s: seq<byte> | |s| == 4 witness [0, 0, 0, 0]
  type Ipv6 = s: seq<byte> | |s| == 16 witness Zeros(16)

  datatype IpAddr = IpV4(v4: Ipv4) | IpV6(v6: Ipv6)

  /**
   * `std::net::SocketAddr`. A V6 socket address also carries the flow label
   * and scope id; they take part in equality.
   */
  datatype SocketAddr =
    | V4(ip4: Ipv4, port: u16)
    | V6(ip6: Ipv6, port: u16, flowinfo: u32, scopeId: u32)
  {
    function Ip(): IpAddr
    {
      match this
      case V4(a, _) => IpV4(a)
      case V6(a, _, _, _) => IpV6(a)
    }
  }

  /** `SocketAddr::from((ip, port))`: flow label and scope id are zero. */
  function FromIpPort(ip: IpAddr, port: u16): (r: SocketAddr)
    ensures r.Ip() == ip && r.port == port
    ensures r.V6? ==> r.flowinfo == 0 && r.scopeId == 0
  {
    match ip
    case IpV4(a) => V4(a, port)
    case IpV6(a) => V6(a, port, 0, 0)
  }

  /** ::ffff:a.b.c.d, an IPv4-mapped IPv6 address (section 2.5.5.2 of RFC 4291). */
  predicate IsIpv4Mapped(a: Ipv6, v4: Ipv4)
  {
    a == Zeros(10) + [0xff, 0xff] + v4
  }

  /** ::a.b.c.d, an IPv4-compatible IPv6 address (section 2.5.5.1 of RFC 4291). */
  predicate IsIpv4Compatible(a: Ipv6, v4: Ipv4)
  {
    a == Zeros(12) + v4
  }

  /** The two embeddings, read byte by byte. */
  lemma {:induction false} EmbeddingShape(a: Ipv6, v4: Ipv4)
    ensures IsIpv4Mapped(a, v4) <==>
      a[..10] == Zeros(10) && a[10] == 0xff && a[11] == 0xff && a[12..] == v4
    ensures IsIpv4Compatible(a, v4) <==>
      a[..10] == Zeros(10) && a[10] == 0 && a[11] == 0 && a[12..] == v4
  {
    assert Zeros(12) == Zeros(10) + [0, 0];
    if a[..10] == Zeros(10) && a[12..] == v4 {
      assert a == a[..10] + [a[10], a[11]] + a[12..];
    }
  }

  /**
   * `Ipv6Addr::to_ipv4`: the address's segments read `[0, 0, 0, 0, 0, 0 | 0xffff, ab, cd]`.
   * `::` and `::1` are IPv4-compatible in this sense and map to 0.0.0.0 and 0.0.0.1.
   */
  function ToIpv4(a: Ipv6): (r: Option<Ipv4>)
    ensures r.Some? <==> exists v4: Ipv4 :: IsIpv4Mapped(a, v4) || IsIpv4Compatible(a, v4)
    ensures r.Some? ==> IsIpv4Mapped(a, r.value) || IsIpv4Compatible(a, r.value)
  {
    assert forall v4: Ipv4 :: (IsIpv4Mapped(a, v4) || IsIpv4Compatible(a, v4)) ==>
      a[..10] == Zeros(10) && a[10] == a[11] && (a[10] == 0 || a[10] == 0xff) by {
      forall v4: Ipv4 ensures (IsIpv4Mapped(a, v4) || IsIpv4Compatible(a, v4)) ==>
        a[..10] == Zeros(10) && a[10] == a[11] && (a[10] == 0 || a[10] == 0xff) {
        EmbeddingShape(a, v4);
      }
    }
    if a[..10] == Zeros(10) && ((a[10] == 0 && a[11] == 0) || (a[10] == 0xff && a[11] == 0xff)) then
      var v4: Ipv4 := a[12..];
      EmbeddingShape(a, v4);
      Some(v4)
    else
      None
  }

  /** An address `canonicalize_socket_addr` leaves as it is. */
  predicate IsCanonical(a: SocketAddr)
  {
    a.V4? || ToIpv4(a.ip6).None?
  }

  /** `canonicalize_socket_addr`. */
  function Canonicalize(a: SocketAddr): (r: SocketAddr)
    ensures IsCanonical(r)
    ensures r.port == a.port
    ensures a.V4? ==> r == a
    ensures a.V6? && ToIpv4(a.ip6).None? ==> r == a
    ensures a.V6? && ToIpv4(a.ip6).Some? ==> r == V4(ToIpv4(a.ip6).value, a.port)
  {
    match a
    case V4(_, _) => a
    case V6(ip, port, _, _) =>
      match ToIpv4(ip)
      case Some(v4) => V4(v4, port)
      case None => a
  }

  /** A mapped or compatible IPv6 socket address and the IPv4 one it folds into. */
  lemma {:induction false} CanonicalizeFoldsEmbeddedIpv4(ip: Ipv6, v4: Ipv4, port: u16, flow: u32, scope: u32)
    requires IsIpv4Mapped(ip, v4) || IsIpv4Compatible(ip, v4)
    ensures Canonicalize(V6(ip, port, flow, scope)) == V4(v4, port)
  {
    var r := ToIpv4(ip);
    assert r.Some?;
    assert ip[12..] == v4;
    if IsIpv4Mapped(ip, r.value) {
      assert r.value == ip[12..];
    } else {
      assert r.value == ip[12..];
    }
  }

  /** Canonical addresses are exactly the fixed points, so canonicalisation is idempotent. */
  lemma {:induction false} CanonicalizeIdempotent(a: SocketAddr)
    ensures Canonicalize(Canonicalize(a)) == Canonicalize(a)
    ensures IsCanonical(a) <==> Canonicalize(a) == a
  {
  }

  datatype ClientAddr = ClientAddr(addr: SocketAddr)
  datatype RemoteAddr = RemoteAddr(addr: SocketAddr)

  /** `impl From<SocketAddr> for ClientAddr`. */
  function ClientAddrFrom(a: SocketAddr): (r: ClientAddr)
    ensures IsCanonical(r.addr) && r.addr.port == a.port
    ensures IsCanonical(a) ==> r.addr == a
  {
    ClientAddr(Canonicalize(a))
  }

  /** `impl From<SocketAddr> for RemoteAddr`. */
  function RemoteAddrFrom(a: SocketAddr): (r: RemoteAddr)
    ensures IsCanonical(r.addr) && r.addr.port == a.port
    ensures IsCanonical(a) ==> r.addr == a
  {
    RemoteAddr(Canonicalize(a))
  }
}

=== FILE: wrappers.dfy ===
/** Failure-compatible result types shared by every module of the model. */
module Wrappers {

  /** Rust's `Option`. */
  datatype Option<+T> = None | Some(value: T) {
    predicate IsFailure() { None? }

    function PropagateFailure<U>(): Option<U>
      requires None?
    {
      None
    }

    function Extract(): T
      requires Some?
    {
      value
    }
  }

  /**
   * The outcome of a Rust function that returns `Result<T, E>` (or `Option<T>`,
   * with `E` naming why `None` was returned) and may also panic: an `unwrap` of
   * `None`, a slice index out of range, a failed `assert!`, a `Buf` read past
   * the end. `Panic` is a value here so that contracts can say when it happens.
   */
  datatype Outcome<+T, +E> = Ok(value: T) | Err(error: E) | Panic {
    predicate IsFailure() { !Ok? }

    function PropagateFailure<U>(): Outcome<U, E>
      requires !Ok?
    {
      if Err? then Err(error) else Panic
    }

    function Extract(): T
      requires Ok?
    {
      value
    }
  }

  /**
   * Which reading of a routine a model function follows: the source as
   * written, or the source with the defects listed under README's Findings
   * corrected. Functions that compose such routines take the mode as a
   * parameter and pass it through, so both readings stay visible at every
   * level.
   */
  datatype Mode = AsWritten | Corrected
}
